=== FILE: README.md ===
# XDashboard widgets in Dafny

A model of the widget layer of XDashboard-Components: twenty-one dashboard
widgets that sit on the `@xpell/ui` host engine. Each widget takes a loosely
typed configuration object whose keys start with `_`, normalises it into
typed fields with fixed fallbacks, builds a tree of node descriptions for the
host to mount, and keeps the host's `class` and `style` in step with its
state. After construction, property setters either rewrite a label in
place or rebuild the tree, and they report changes through `_on_*`
callbacks.

The model has one module per widget file and a few shared modules.

- `Values`: the loose JavaScript values a widget reads, with the boolean,
  number and string normalisers every widget repeats.
- `Text`: `trim`, ASCII lower-casing, `split`/`join`, the whitespace class
  splitter, first-seen de-duplication and integer rendering.
- `Labels`: the "trimmed text, or a placeholder" rule.
- `Classes`: `buildClassName`, and the class list as a set under the host's
  `addClass`/`removeClass`/`replaceClass`.
- `Styles`: `stripManagedStyles` as a loop proved against its
  specification, and the `applyLayout` style assembly, over any managed
  property set.
- `Nodes`: node-description trees, node presence by id, and the in-place
  text update.
- `Openable`: the open/close notification rule of the drawer, the modal
  and the toast.
- `Names`: the widgets' own class tokens and property names.

Widgets whose fields their methods update are Dafny classes. Their setters
are methods whose postconditions give the whole new state. The new state is
stated through specification functions: the class list or class string, the
laid-out style, the node tree as a `Shape` together with its rendering, and
the callbacks fired, which a setter returns as an out-parameter.

The host engine is not part of this model, and neither is the browser DOM.

- The host registry lookup `XUI.getObject` becomes "a widget-made node with
  that id is in the current tree".
- `append`/`removeChild` become replacing the tree.
- Callbacks and caller-supplied `render` functions are opaque. The model
  records which callbacks fire, in order.
- Timestamps for the toast timer are passed in as whole milliseconds.

The widgets:

- `Stack`, `Toolbar`, `Scroll`, `Divider`, `Spacer`, `InputGroup`: layout
  containers. `applyLayout` strips the caller's managed declarations and
  re-emits its own in a fixed order. It also rewrites the class string, or
  the class list for the input group.
- `Grid`: appends its CSS variables to the style once, at construction.
- `Badge`, `Card`, `KpiCard`: labels with placeholders and composed class
  strings.
- `Table`: row resolution, the header and body rows, the per-cell
  rendering rule, the empty row and the `onData` in-flight guard.
- `NavList`, `Select`, `Search`: selection and value handling and their
  callbacks.
- `Field`, `Section`, `Empty`: skeletons whose optional rows and labels
  appear exactly when their content is non-blank. Setters choose between
  rebuilding and rewriting a label.
- `Drawer`, `Modal`, `Sidebar`, `Toast`: panels with optional headers and
  footers, open or collapsed state and callbacks. The toast also has its
  auto-close timer.

## Model

| member | source | states |
|---|---|---|
| Text.Trim | src/xcard.ts:86 | trimming leaves no whitespace at either end and never lengthens the text |
| Text.TrimSlice | src/xcard.ts:86 | the trimmed text is a slice of the input with only whitespace cut off before and after it |
| Text.TrimOfTrimmed | src/xcard.ts:86 | trimming a text without whitespace at its ends changes nothing |
| Text.TrimEmptyIffAllSpace | src/xfield.ts:85-87 | a text trims to "" exactly when it is whitespace only, which is what makes it blank |
| Text.Split | src/xstack.ts:108-109 | splitting gives at least one piece and no piece holds the separator |
| Text.SplitJoin | src/xstack.ts:108-109 | splitting a joined list of pieces without the separator gives the pieces back |
| Text.WordsJoin | src/xbadge.ts:73-78 | splitting a space-joined list of class tokens on whitespace gives the tokens back |
| Text.DedupNoDup | src/xbadge.ts:107 | de-duplicating a list leaves each text once |
| Text.IntText | src/xstack.ts:157 | an integer's text is non-empty and made of digits and the minus sign |
| Text.Px | src/xstack.ts:157 | a pixel length ends with "px" and holds no whitespace, semicolon or colon |
| Text.NatTextValue | src/xstack.ts:157 | the decimal digits of a natural number read back as that number |
| Text.IntTextValue | src/xstack.ts:157 | the decimal text of an integer, minus sign included, reads back as that integer |
| Text.IntTextInjective | src/xstack.ts:157 | two integers have the same decimal text exactly when they are equal |
| Text.PxReadsBack | src/xstack.ts:157 | the text in front of the "px" suffix reads back as the pixel count |
| Text.PxInjective | src/xstack.ts:157 | two pixel counts give the same pixel length exactly when they are equal |
| Text.NatTextLead | src/xstack.ts:157 | the digits of a natural number start with 0 only for the number 0 |
| Text.NatTextIndexKey | src/xtable.ts:297 | the digits of a natural number form a canonical array index: non-empty, all digits, no leading zero |
| Values.ToStr | src/xbadge.ts:64 | a string's text is itself and a finite integer's text is its decimal form |
| Values.TextOrEmpty | src/xbadge.ts:144-146 | null and undefined give "", anything else its text |
| Values.IsTrue | src/xfield.ts:68-70 | the one-argument boolean normaliser is true exactly for true and "true" |
| Values.BoolOr | src/xtoast.ts:58-62 | true and "true" give true, false and "false" give false, anything else gives the fallback |
| Values.BoolRoundTrip | src/xtoast.ts:58-62 | a stored boolean, or its spelling, read back through either normaliser is unchanged |
| Values.IsTrueIsBoolOrFalse | src/xfield.ts:68-70 | the one-argument normaliser is the two-argument one with fallback false |
| Values.NonNegOr | src/xstack.ts:76-79 | a finite number not below 0 is kept, anything else gives the fallback |
| Values.StrOr | src/xselect.ts:81 | a string is kept, anything else gives the fallback |
| Values.ItemsOr | src/xtable.ts:83 | an array gives its items, anything else none |
| Values.TruthyText | src/xcard.ts:73 | a falsy value gives "", a string itself |
| Labels.OptText | src/xcard.ts:72 | the text is present exactly when the value is truthy, and then is its text |
| Labels.IfFilled | src/xselect.ts:97-98 | a stored text passes a later truthiness test exactly when it is set and not "", and then is kept as it is |
| Labels.Resolve | src/xcard.ts:85-113 | a label shows the trimmed text when that is not empty and the placeholder otherwise |
| Labels.ResolveShape | src/xcard.ts:85-113 | the shown label is the placeholder or the trimmed text; it is trimmed and non-empty whenever the placeholder is |
| Labels.ResolveStable | src/xcard.ts:85-113 | resolving a shown label again shows the same text |
| Labels.TrimOr | src/xsidebar.ts:93-94 | an absent text trims to "", a present one to its trimmed form |
| Openable.OpenEvents | src/xdrawer.ts:230-236 | at most one callback fires: the open one exactly on a change to open, the close one exactly on a change to closed, each only when set and neither when silent |
| Openable.OpenEventsFlips | src/xdrawer.ts:224-241 | no change fires nothing, nor does a silent change; two changes back and forth fire the callbacks of both, in the order of the changes |
| Classes.ClassTokensShape | src/xbadge.ts:80-108 | a composed class has no duplicate, holds exactly the leading tokens, the caller's unmanaged classes and the trailing tokens, and starts with the leading tokens in their order |
| Classes.ClassTokensOrder | src/xbadge.ts:80-108 | a composed class is the leading tokens, then the caller's unmanaged classes once each in first-seen order, then the trailing tokens |
| Classes.ClassNameStable | src/xbadge.ts:80-108 | composing a class from a composed class gives what composing from the caller's class gives |
| Classes.ClassNameOverride | src/xbadge.ts:80-108 | a second composition with new modifiers discards those of the first: no stale modifier survives |
| Classes.ReplaceClass | src/xigroup.ts:95 | replacing a family adds the new classes, removes the rest of the family, and keeps every other class |
| Classes.Toggle | src/xfield.ts:276-277 | the class is present exactly when the flag is set, and every other class is kept |
| Classes.ReplaceFamily | src/xigroup.ts:95 | after replacing a family by a choice among it, the family members present are exactly the choice |
| Classes.ClassList | src/xbadge.ts:73-78 | the class list holds exactly the whitespace-separated words of the class text |
| Styles.Pieces | src/xstack.ts:108-111 | the pieces of a style are non-empty, trimmed and free of semicolons |
| Styles.StripManagedStyles | src/xstack.ts:106-125 | the loop over the pieces gives the stripped style its specification describes |
| Styles.StripIdempotent | src/xstack.ts:106-125 | stripping a stripped style changes nothing |
| Styles.KeptKeepsUnmanaged | src/xstack.ts:114-122 | every well-formed caller declaration of an unmanaged property survives stripping |
| Styles.KeptNoneManaged | src/xstack.ts:120 | no well-formed declaration of a managed property survives stripping |
| Styles.LayoutOverride | src/xstack.ts:145-169 | a layout pass over a style laid out with managed declarations discards them all |
| Styles.PassesCollapse | src/xstack.ts:145-169 | any number of layout passes with managed declarations, followed by one more, give what that last pass alone gives |
| Styles.NumPx | src/xstack.ts:157 | a finite number of pixels is written as its pixel length |
| Values.PositiveOr | src/xdivider.ts:47 | a finite number above 0 is kept, anything else gives the fallback |
| Values.FiniteOr | src/xstack.ts:77 | a finite number is kept, anything else gives the fallback |
| Values.Field | src/xbadge.ts:64-66 | an object's value under a key it has is read; a missing key, or any other value that is not null or undefined, reads undefined; null and undefined also read undefined here, where JavaScript throws |
| Values.Index | src/xtable.ts:297 | reading a key from an object reads its field; from an array or string, "length" gives the length and a canonical in-range index gives the element or the one-character string; any other key or value gives undefined |
| Values.IndexAt | src/xtable.ts:297 | the decimal text of a position within an array or string reads the element or character at that position |
| Text.Lower | src/xstack.ts:117 | lower-casing keeps the length, leaves no capital letter and maps each character on its own |
| Text.LowerOfLower | src/xstack.ts:117 | lower-casing a text without capitals changes nothing |
| Text.IndexOf | src/xstack.ts:115 | the position is -1 exactly when the character is absent, and otherwise is its first occurrence |
| Text.DedupMembers | src/xbadge.ts:107 | de-duplication keeps exactly the strings of the list |
| Text.Without | src/xbadge.ts:94-96 | filtering never lengthens the list |
| Text.WithoutMembers | src/xbadge.ts:94-96 | filtering keeps exactly the strings not removed |
| Text.WithoutDedup | src/xbadge.ts:94-107 | filtering and de-duplication commute |
| Text.DedupPrefix | src/xbadge.ts:107 | de-duplicating a longer list keeps the de-duplicated prefix in front |
| Classes.OwnRemoved | src/xbadge.ts:94-107 | removing the managed tokens from a composed class leaves the caller's own tokens once each, in first-seen order |
| Styles.KeepOneClean | src/xstack.ts:114-122 | a well-formed declaration passes the loop body unchanged exactly when its property is not managed |
| Styles.KeptAllUnmanaged | src/xstack.ts:114-122 | well-formed declarations of unmanaged properties all survive, in order |
| Styles.KeptOfStyle | src/xstack.ts:106-125 | whatever survives stripping is a well-formed declaration of an unmanaged property |
| Styles.PiecesJoin | src/xstack.ts:108-111 | the pieces of a "; "-joined list of well-formed declarations are that list |
| Styles.LayoutPieces | src/xstack.ts:145-169 | a laid-out style is the caller's surviving declarations followed by the widget's own, in order |
| Styles.StripOwnLayout | src/xstack.ts:106-169 | stripping a laid-out style gives back the stripped caller style, so laying out again reproduces the same style |
| Nodes.Users | src/xcard.ts:173 | caller-supplied child descriptions are placed as children one for one, in order |
| Nodes.SetText | src/xbadge.ts:129 | the in-place text update keeps the number of children |
| Nodes.SetTextErased | src/xbadge.ts:129 | the text update changes nothing in the tree but texts: with all texts blanked, the trees before and after are equal |
| Nodes.SetTextTexts | src/xbadge.ts:129 | after the text update every node with the id shows the new text, and the nodes with any other id keep their texts |
| Nodes.SetTextAbsent | src/xbadge.ts:129 | an update of an id that is not in the tree changes nothing |
| Nodes.SetTextAppend | src/xcard.ts:206-217 | an in-place update of a list of siblings is the update of each part |
| Nodes.UsersNoId | src/xcard.ts:173 | caller-supplied children carry no widget-made id |
| Nodes.HasIdAppend | src/xcard.ts:206-217 | an id is found in a list of siblings exactly when it is found in one of its parts |
| Nodes.Present | src/xdrawer.ts:145-146 | an optional node becomes at most one child, and one exactly when present |
| Stack.NormalizeDirection | src/xstack.ts:51-53 | the direction is horizontal exactly when the value is "horizontal"; anything else is vertical |
| Stack.NormalizeAlign | src/xstack.ts:55-60 | the four accepted alignments are kept as given; any other value becomes stretch |
| Stack.NormalizeJustify | src/xstack.ts:62-74 | the six accepted justifications are kept as given; any other value becomes start |
| Stack.NormalizeGap | src/xstack.ts:76-79 | a gap is kept exactly when the value is a finite number, and then it is that number |
| Stack.NormalizeRoundTrip | src/xstack.ts:51-74 | every direction, alignment and justification the normalisers produce is read back unchanged |
| Stack.MapJustify | src/xstack.ts:92-97 | justifications other than start and end are emitted under their own name |
| Stack.MapInjective | src/xstack.ts:85-97 | distinct alignments give distinct CSS values, and so do distinct justifications |
| Stack.StackClassShape | src/xstack.ts:127-143 | the class starts with "xstack" and the one direction modifier, has no duplicate, and holds exactly those, the caller's classes other than the three own tokens, and the `_class` extras |
| Stack.StackOtherAbsent | src/xstack.ts:127-143 | the opposite direction modifier is gone unless the `_class` extras bring it back |
| Stack.OwnPairsContent | src/xstack.ts:145-169 | align-items is followed by justify-content; the gap variable comes first exactly when a gap is set; flex-wrap:wrap exactly when wrapping; flex:1 1 auto exactly when growing |
| Stack.OwnPairsOwned | src/xstack.ts:31-37 | every declaration the layout emits is one of the five managed properties |
| Stack.XStack.ApplyLayout | src/xstack.ts:145-169 | the class is rebuilt from the current class and the direction, and the style is the caller's stripped style followed by the widget's declarations; the settings are unchanged |
| Stack.XStack.constructor | src/xstack.ts:39-49 | every setting is the normalised configuration value; class (default "xstack") and style get one layout pass |
| Stack.XStack.SetDirection | src/xstack.ts:171-174 | stores the normalised direction, lays out again, and leaves every other setting as it was |
| Stack.XStack.SetGap | src/xstack.ts:180-183 | stores the normalised gap, lays out again, and leaves every other setting as it was |
| Stack.XStack.SetAlign | src/xstack.ts:189-192 | stores the normalised alignment, lays out again, and leaves every other setting as it was |
| Stack.XStack.SetJustify | src/xstack.ts:198-201 | stores the normalised justification, lays out again, and leaves every other setting as it was |
| Stack.XStack.SetWrap | src/xstack.ts:207-210 | stores the wrap flag (true only for true or "true"), lays out again, and leaves every other setting as it was |
| Stack.XStack.SetGrow | src/xstack.ts:216-219 | stores the grow flag (true only for true or "true"), lays out again, and leaves every other setting as it was |
| Stack.LayoutOverrides | src/xstack.ts:106-169 | a second layout pass discards the first pass's direction modifier and managed declarations, giving what one pass from the original would give |
| Stack.LayoutDeclarations | src/xstack.ts:106-169 | the laid-out style's declarations are the caller's surviving ones, none of them managed, followed by the widget's own in order |
| Toolbar.NormalizeAlign | src/xtoolbar.ts:51-57 | start, end and stretch are kept, each exactly when given; anything else is center |
| Toolbar.NormalizeJustify | src/xtoolbar.ts:59-64 | center, end and space-between are kept, each exactly when given; anything else is start |
| Toolbar.NormalizeGap | src/xtoolbar.ts:66-69 | a finite number not below 0 is kept; anything else is 8; the gap is never negative |
| Toolbar.NormalizeTop | src/xtoolbar.ts:197-200 | a finite number is kept as the sticky offset; anything else is 0 |
| Toolbar.MapInjective | src/xtoolbar.ts:75-87 | two alignments map to the same CSS value exactly when they are equal, and so do two justifications |
| Toolbar.ToolbarClassShape | src/xtoolbar.ts:117-127 | the class starts with "xtoolbar", has no duplicate, keeps the caller's other classes, and holds the elevated modifier exactly when elevated |
| Toolbar.ToolbarClassOverride | src/xtoolbar.ts:117-127 | a pass with new settings replaces the modifiers of any earlier pass |
| Toolbar.OwnPairsContent | src/xtoolbar.ts:129-150 | the gap, align-items and justify-content come first in that order; flex-wrap follows exactly when wrapping; position, top and z-index:10 close the list exactly when sticky |
| Toolbar.OwnPairsOwned | src/xtoolbar.ts:28-36 | every declaration the layout emits is one of the seven managed properties |
| Toolbar.LayoutStyleOf | src/xtoolbar.ts:132-149 | the style is the stripped caller style followed by the widget's declarations pushed in order |
| Toolbar.XToolbar.ApplyLayout | src/xtoolbar.ts:129-150 | class and style are recomposed from the settings, which stay unchanged |
| Toolbar.XToolbar.constructor | src/xtoolbar.ts:39-49 | every setting is the normalised configuration value; class (default "xtoolbar") and style get one layout pass |
| Toolbar.XToolbar.SetGap | src/xtoolbar.ts:152-155 | stores the normalised gap, lays out again, and leaves every other setting as it was |
| Toolbar.XToolbar.SetAlign | src/xtoolbar.ts:161-164 | stores the normalised alignment, lays out again, and leaves every other setting as it was |
| Toolbar.XToolbar.SetJustify | src/xtoolbar.ts:170-173 | stores the normalised justification, lays out again, and leaves every other setting as it was |
| Toolbar.XToolbar.SetWrap | src/xtoolbar.ts:179-182 | stores the wrap flag, lays out again, and leaves every other setting as it was |
| Toolbar.XToolbar.SetSticky | src/xtoolbar.ts:188-191 | stores the sticky flag, lays out again, and leaves every other setting as it was |
| Toolbar.XToolbar.SetTop | src/xtoolbar.ts:197-200 | stores the normalised top offset, lays out again, and leaves every other setting as it was |
| Toolbar.XToolbar.SetElevated | src/xtoolbar.ts:206-209 | stores the elevated flag, lays out again, and leaves every other setting as it was |
| Toolbar.LayoutOverrides | src/xtoolbar.ts:96-150 | a later layout pass discards every declaration an earlier one emitted, the sticky block included |
| Toolbar.LayoutDeclarations | src/xtoolbar.ts:96-150 | the laid-out style's declarations are the caller's surviving ones, none of them managed, followed by the widget's own in order |
| Scroll.NormalizeDirection | src/xscroll.ts:47-50 | horizontal exactly for "horizontal", both exactly for "both", vertical otherwise |
| Scroll.ScrollClassShape | src/xscroll.ts:84-104 | the class starts with "xscroll", has no duplicate, and holds exactly that, the caller's classes other than the own tokens, and the modifiers of the settings |
| Scroll.ScrollModifiers | src/xscroll.ts:84-104 | exactly one direction modifier, the current one, and the hide modifier exactly when the scrollbar is hidden |
| Scroll.ScrollClassOverride | src/xscroll.ts:84-104 | a pass with new settings replaces the modifiers of any earlier pass |
| Scroll.OwnPairsOrder | src/xscroll.ts:115-126 | min-height:0 and min-width:0 always open the widget's declarations, followed by the overflow rule of the direction |
| Scroll.OwnPairsFlex | src/xscroll.ts:128 | flex:1 1 auto is emitted exactly when growing |
| Scroll.OwnPairsLimits | src/xscroll.ts:129-130 | max-height and max-width are emitted exactly when set (truthy), with the given text |
| Scroll.OverflowRule | src/xscroll.ts:118-126 | horizontal scrolls x and hides y; both scrolls either axis; vertical scrolls y and hides x |
| Scroll.OwnPairsOwned | src/xscroll.ts:24-33 | every declaration the layout emits is one of the eight managed properties, for clean maximum sizes |
| Scroll.LayoutStyleOf | src/xscroll.ts:112-131 | the style is the stripped caller style followed by the widget's declarations pushed in order |
| Scroll.XScroll.ApplyLayout | src/xscroll.ts:106-135 | class and style are recomposed from the settings, which stay unchanged |
| Scroll.XScroll.constructor | src/xscroll.ts:35-45 | every setting is the normalised configuration value; class (default "xscroll") and style get one layout pass, which is what the parse-time passes and the final one leave when the stored values are clean (when set: non-empty, trimmed, no ";") |
| Scroll.XScroll.SetDirection | src/xscroll.ts:137-140 | stores the normalised direction, lays out again, and leaves every other setting as it was |
| Scroll.XScroll.SetGrow | src/xscroll.ts:146-149 | stores the grow flag, lays out again, and leaves every other setting as it was |
| Scroll.XScroll.SetHideScrollbar | src/xscroll.ts:155-158 | stores the hide flag, lays out again, and leaves every other setting as it was |
| Scroll.XScroll.SetMaxHeight | src/xscroll.ts:164-167 | stores the maximum height as given, lays out again, and leaves every other setting as it was |
| Scroll.XScroll.SetMaxWidth | src/xscroll.ts:173-176 | stores the maximum width as given, lays out again, and leaves every other setting as it was |
| Scroll.LayoutOverrides | src/xscroll.ts:63-135 | a later layout pass discards every declaration an earlier one emitted |
| Scroll.ParsePassesCollapse | src/xscroll.ts:137-176 | the layout passes the setters run while parsing, followed by the constructor's, leave the single-pass style whenever no max value stored along the way holds a ";" |
| Scroll.LayoutDeclarations | src/xscroll.ts:63-135 | the laid-out style's declarations are the caller's surviving ones, none of them managed, followed by the widget's own in order |
| Divider.NormalizeOrientation | src/xdivider.ts:42-44 | vertical exactly for "vertical"; anything else is horizontal |
| Divider.NormalizeThickness | src/xdivider.ts:46-49 | a finite number above 0 is kept; anything else is 1; the thickness is always above 0 |
| Divider.DividerClassShape | src/xdivider.ts:83-103 | the class starts with "xdivider" and the orientation modifier, has no duplicate, keeps the caller's other classes, and holds the muted modifier exactly when muted |
| Divider.DividerModifiers | src/xdivider.ts:83-103 | exactly one orientation modifier, the current one, and the muted modifier exactly when muted |
| Divider.DividerClassOverride | src/xdivider.ts:83-103 | a pass with new settings replaces the modifiers of any earlier pass |
| Divider.OwnPairsContent | src/xdivider.ts:114-118 | the thickness in px comes first; the length follows exactly when truthy; the inset in px closes the list exactly when it is a number |
| Divider.OwnPairsOwned | src/xdivider.ts:24-28 | every declaration the layout emits is one of the three managed variables, for a clean length |
| Divider.LayoutStyleOf | src/xdivider.ts:111-119 | the style is the stripped caller style followed by the widget's declarations pushed in order |
| Divider.XDivider.ApplyLayout | src/xdivider.ts:105-123 | class and style are recomposed from the settings, which stay unchanged |
| Divider.XDivider.constructor | src/xdivider.ts:30-40 | every setting is the normalised configuration value; class (default "xdivider") and style get one layout pass, which is what the parse-time passes and the final one leave when the stored values are clean (when set: non-empty, trimmed, no ";") |
| Divider.XDivider.SetOrientation | src/xdivider.ts:125-128 | stores the normalised orientation, lays out again, and leaves every other setting as it was |
| Divider.XDivider.SetThickness | src/xdivider.ts:134-137 | stores the normalised thickness, lays out again, and leaves every other setting as it was |
| Divider.XDivider.SetLength | src/xdivider.ts:143-146 | stores the length as given, lays out again, and leaves every other setting as it was |
| Divider.XDivider.SetInset | src/xdivider.ts:152-155 | stores the inset as given, lays out again, and leaves every other setting as it was |
| Divider.XDivider.SetMuted | src/xdivider.ts:161-164 | stores the muted flag, lays out again, and leaves every other setting as it was |
| Divider.LayoutOverrides | src/xdivider.ts:62-123 | a later layout pass discards every declaration an earlier one emitted |
| Divider.ParsePassesCollapse | src/xdivider.ts:125-164 | the layout passes the setters run while parsing, followed by the constructor's, leave the single-pass style whenever no length stored along the way holds a ";" |
| Divider.LayoutDeclarations | src/xdivider.ts:62-123 | the laid-out style's declarations are the caller's surviving ones, none of them managed, followed by the widget's own in order |
| Spacer.NormalizeDirection | src/xspacer.ts:32-34 | horizontal exactly for "horizontal"; anything else is vertical |
| Spacer.NormalizeSize | src/xspacer.ts:36-39 | a finite number not below 0 is kept; anything else is 16; the size is never negative |
| Spacer.OwnPairsContent | src/xspacer.ts:62-81 | exactly two declarations, both the size in px: width and min-width exactly when horizontal, height and min-height exactly when vertical |
| Spacer.OwnPairsOwned | src/xspacer.ts:18 | every declaration the layout emits is one of the four managed properties |
| Spacer.LayoutStyleOf | src/xspacer.ts:62-81 | the style is the stripped caller style followed by the two size declarations |
| Spacer.XSpacer.ApplyLayout | src/xspacer.ts:62-81 | the style is recomposed from the settings, which stay unchanged |
| Spacer.XSpacer.constructor | src/xspacer.ts:20-30 | size and direction are the normalised configuration values; the style gets one layout pass |
| Spacer.XSpacer.SetSize | src/xspacer.ts:83-86 | stores the normalised size, keeps the direction, and lays out again |
| Spacer.XSpacer.SetDirection | src/xspacer.ts:92-95 | stores the normalised direction, keeps the size, and lays out again |
| Spacer.LayoutOverrides | src/xspacer.ts:41-81 | a later layout pass discards both declarations an earlier one emitted |
| Spacer.LayoutDeclarations | src/xspacer.ts:41-81 | the laid-out style's declarations are the caller's surviving ones in order, none of them managed, followed by the two sizes |
| InputGroup.NormalizeAlign | src/xigroup.ts:45-50 | "start", "end" and "stretch" are kept, each exactly when given; anything else is center |
| InputGroup.NormalizeGap | src/xigroup.ts:52-55 | a finite number not below 0 is kept; anything else is 8; the gap is never negative |
| InputGroup.MapInjective | src/xigroup.ts:61-66 | two alignments map to the same align-items value only when they are the same alignment |
| InputGroup.NextModsContent | src/xigroup.ts:91-94 | the next modifiers hold the dense one exactly when dense and the merged one exactly when merged, each once, dense first, all drawn from the two managed modifiers |
| InputGroup.GroupClassesShape | src/xigroup.ts:89-95 | after a pass the base class is present, each modifier is present exactly when its flag is set, and every other class is present exactly when it was before |
| InputGroup.OwnPairsContent | src/xigroup.ts:97-104 | the layout emits display:flex, the gap twice (as gap and as the custom property, with the same value), align-items, and flex-wrap:wrap last exactly when wrapping |
| InputGroup.OwnPairsOwned | src/xigroup.ts:25-31 | every declaration the layout emits is one of the five managed properties |
| InputGroup.LayoutStyleOf | src/xigroup.ts:97-107 | the style is the stripped caller style followed by the widget's own declarations |
| InputGroup.XInputGroup.ApplyLayout | src/xigroup.ts:89-108 | the classes and the style are recomposed from the settings, which stay unchanged |
| InputGroup.XInputGroup.constructor | src/xigroup.ts:33-43 | every setting is the normalised configuration value; the class list defaults to "xigroup" and gets one layout pass, as does the style |
| InputGroup.XInputGroup.SetGap | src/xigroup.ts:110-113 | stores the normalised gap, keeps the other settings, and lays out again |
| InputGroup.XInputGroup.SetAlign | src/xigroup.ts:119-122 | stores the normalised alignment, keeps the other settings, and lays out again |
| InputGroup.XInputGroup.SetWrap | src/xigroup.ts:128-131 | wrapping is on exactly for a true value; the other settings are kept and the layout is redone |
| InputGroup.XInputGroup.SetDense | src/xigroup.ts:137-140 | dense is on exactly for a true value; the other settings are kept and the layout is redone |
| InputGroup.XInputGroup.SetMerged | src/xigroup.ts:146-149 | merged is on exactly for a true value; the other settings are kept and the layout is redone |
| InputGroup.GroupClassesOverride | src/xigroup.ts:89-95 | a second class pass with new flags gives what one pass with those flags gives: no stale modifier survives |
| InputGroup.LayoutOverrides | src/xigroup.ts:68-107 | a later layout pass discards every declaration an earlier one emitted |
| InputGroup.LayoutDeclarations | src/xigroup.ts:68-107 | the laid-out style's declarations are the caller's surviving ones in order, none of them managed, followed by the widget's own |
| Grid.GridStyleShape | src/xgrid.ts:81-93 | the caller's style stays a prefix; after it come the column, gap and minimum-width declarations, each whole, each exactly when its value is truthy, in that order, and nothing else |
| Grid.XGrid.constructor | src/xgrid.ts:71-94 | the three settings are the configuration values and the style is the caller's style with the three guarded appends applied one after the other |
| Badge.NormalizeVariant | src/xbadge.ts:48-53 | "success", "warn", "error" and "info" are kept, each exactly when given; anything else is the default variant |
| Badge.NormalizeSize | src/xbadge.ts:55-57 | the badge is small exactly when the value is "sm" |
| Badge.InitialPill | src/xbadge.ts:67-68 | an absent pill setting means pill; otherwise pill exactly for true or "true" |
| Badge.BadgeClassShape | src/xbadge.ts:80-108 | the class starts with the base, variant and size tokens, holds no duplicate, and holds exactly those, the caller's classes that are not badge tokens, and the pill and dot tokens that are set |
| Badge.BadgeVariant | src/xbadge.ts:80-108 | the class carries exactly one variant modifier, the current one; a stale one is dropped |
| Badge.BadgeSize | src/xbadge.ts:80-108 | the class carries exactly one size modifier, the current one |
| Badge.BadgeFlags | src/xbadge.ts:80-108 | the pill and dot modifiers are present exactly when their flags are set |
| Badge.BadgeClassOverride | src/xbadge.ts:80-108 | a class pass with new settings gives what one pass with those settings gives over the original class |
| Badge.ApplyTextSkeleton | src/xbadge.ts:110-130 | writing a new text into a built badge gives the skeleton built with that text: only the label changes and the dot stays empty |
| Badge.TitleAttr | src/xbadge.ts:137-141 | the title attribute is present exactly when the title is truthy, and then holds its text |
| Badge.XBadge.ApplyLayout | src/xbadge.ts:132-142 | the class is recomposed and the title attribute follows the title; children, text and settings are unchanged |
| Badge.XBadge.ApplyText | src/xbadge.ts:127-130 | the text label shows the stored text and nothing else changes |
| Badge.XBadge.constructor | src/xbadge.ts:31-46 | settings are normalised from the configuration (the text as its setter stores it during parsing, "" only for null or undefined, so 0 and false show "0" and "false"; title absent unless truthy, pill on when absent), the class gets one pass over "xbadge" or the caller's class, and the children are the skeleton showing the text |
| Badge.XBadge.SetLabel | src/xbadge.ts:152-155 | the text is stored verbatim and shown; class, settings and title are unchanged |
| Badge.XBadge.SetTextValue | src/xbadge.ts:144-146 | null and undefined become the empty text, which is stored and shown; nothing else changes |
| Badge.XBadge.SetVariant | src/xbadge.ts:157-160 | stores the normalised variant, keeps the other settings and the children, and lays out again |
| Badge.XBadge.SetSize | src/xbadge.ts:181-184 | stores the normalised size, keeps the other settings and the children, and lays out again |
| Badge.XBadge.SetPill | src/xbadge.ts:167-170 | pill is on exactly for a true value (an absent value now means off), and the layout is redone |
| Badge.XBadge.SetDot | src/xbadge.ts:162-165 | dot is on exactly for a true value, and the layout is redone |
| Badge.XBadge.SetTitle | src/xbadge.ts:208-211 | the raw title is stored and the layout, title attribute included, is redone |
| Card.CardClassShape | src/xcard.ts:122-132 | the class starts with "xcard", holds no duplicate, keeps the caller's non-card classes, and carries the no-image modifier exactly when the image is hidden |
| Card.CardClassOverride | src/xcard.ts:122-132 | a class pass with a new flag gives what one pass with that flag gives over the original class |
| Card.OptItems | src/xcard.ts:78 | the actions are present exactly when the value is an array, and then are its items |
| Card.PlaceholdersTrimmed | src/xcard.ts:35-40 | none of the six placeholders is empty or padded, so a placeholder shows as written |
| Card.XCard.ShownLabels | src/xcard.ts:85-113 | every label a built card shows (image source and alt, title, text, link text and target) is non-empty and trimmed |
| Card.XCard.UpdateActions | src/xcard.ts:222-234 | the actions container holds exactly the current actions, in order; nothing else changes |
| Card.XCard.constructor | src/xcard.ts:42-62 | the fields are the configuration values (text "" unless truthy, the others absent unless truthy, actions only from an array, hide-image only from a boolean or its spelling), the class gets one pass, and every child shows its resolved label |
| Card.XCard.ApplyText | src/xcard.ts:188-194 | every child shows what its resolver gives for the current fields; the fields are unchanged |
| Card.XCard.UpdateImage | src/xcard.ts:196-202 | the image source and alt show their resolved values; nothing else changes |
| Card.XCard.UpdateTitle | src/xcard.ts:204-207 | the title label shows the resolved title; nothing else changes |
| Card.XCard.UpdateText | src/xcard.ts:209-212 | the text label shows the resolved text; nothing else changes |
| Card.XCard.UpdateLink | src/xcard.ts:214-220 | the link shows the resolved text and target; nothing else changes |
| Card.XCard.SetImage | src/xcard.ts:236-239 | a falsy image is stored as absent; only the image child is refreshed |
| Card.XCard.SetImageAlt | src/xcard.ts:245-248 | a falsy alt text is stored as absent; only the image child is refreshed |
| Card.XCard.SetTitle | src/xcard.ts:254-257 | a falsy title is stored as absent; only the title label is refreshed |
| Card.XCard.SetText | src/xcard.ts:263-266 | a falsy text is stored as ""; only the text label is refreshed |
| Card.XCard.SetHref | src/xcard.ts:272-275 | a falsy target is stored as absent; only the link is refreshed |
| Card.XCard.SetLinkText | src/xcard.ts:281-284 | a falsy link text is stored as absent; only the link is refreshed |
| Card.XCard.SetActions | src/xcard.ts:290-293 | a non-array is stored as absent; the actions container then holds exactly the new actions, in order |
| Card.XCard.SetHideImage | src/xcard.ts:299-302 | true/"true" and false/"false" decide, anything else means false; only the class changes |
| KpiCard.NormalizeState | src/xkpicard.ts:56-59 | the state is up exactly for "up", down exactly for "down", flat otherwise |
| KpiCard.KpiClassShape | src/xkpicard.ts:96-110 | the class starts with "xkpi-card" and the state modifier, holds no duplicate, and otherwise holds exactly the caller's classes that are not card tokens |
| KpiCard.KpiClassState | src/xkpicard.ts:96-110 | the class carries exactly one state modifier, the current one |
| KpiCard.KpiClassOverride | src/xkpicard.ts:96-110 | a class pass with a new state gives what one pass with that state gives over the original class |
| KpiCard.DeltaClassesShape | src/xkpicard.ts:142-147 | the delta label carries exactly one state modifier, the current one, and keeps its other classes |
| KpiCard.XKpiCard.ShownTexts | src/xkpicard.ts:69-87 | the shown label and value are never blank; every shown text is trimmed; the delta and icon show the trimmed field, empty when blank |
| KpiCard.XKpiCard.ApplyText | src/xkpicard.ts:153-165 | all four labels show their resolved values; fields and classes are unchanged |
| KpiCard.XKpiCard.ApplyLayout | src/xkpicard.ts:138-151 | the card's class and the delta label's state modifier are recomposed; labels and fields are unchanged |
| KpiCard.XKpiCard.constructor | src/xkpicard.ts:35-54 | the texts are the configuration values ("" unless truthy), the state is normalised, the class gets one pass, the delta label gets its modifier, and every label is shown |
| KpiCard.XKpiCard.SetLabel | src/xkpicard.ts:167-170 | a falsy label is stored as ""; all four labels are re-resolved; classes are unchanged |
| KpiCard.XKpiCard.SetValue | src/xkpicard.ts:176-179 | a falsy value is stored as ""; all four labels are re-resolved; classes are unchanged |
| KpiCard.XKpiCard.SetDelta | src/xkpicard.ts:185-188 | a falsy delta is stored as ""; all four labels are re-resolved; classes are unchanged |
| KpiCard.XKpiCard.SetIcon | src/xkpicard.ts:203-206 | a falsy icon is stored as ""; all four labels are re-resolved; classes are unchanged |
| KpiCard.XKpiCard.SetDeltaState | src/xkpicard.ts:194-197 | the state is normalised and stored; only the card's class and the delta label's modifier change |
| Table.NormalizeAlign | src/xtable.ts:72-75 | a column is aligned start, center or end exactly when its align is that word; anything else leaves it unaligned |
| Table.MapAlign | src/xtable.ts:103-108 | an alignment maps to a text-align value exactly when it is set |
| Table.AlignText | src/xtable.ts:285 | a column's text-align is left exactly for "start", right exactly for "end", center exactly for "center", and absent for anything else |
| Table.ColStyleShape | src/xtable.ts:186-198 | a cell has a style exactly when its column has a truthy width or an alignment; the style is the width, then the text-align, joined by "; " |
| Table.HeadOf | src/xtable.ts:186-199 | a header cell shows the column's label when truthy and its key otherwise, and carries the column's style |
| Table.ContentOf | src/xtable.ts:231-242 | a render result becomes text exactly when it is neither a widget nor a node description, and then shows its text, "" for null or undefined |
| Table.CellAt | src/xtable.ts:284-304 | without a render function a body cell shows as text the row's value under the column key (an array or string row read by position); with one it shows the function's output for that value, the row and the row index; it carries the column's style and no colspan |
| Table.CellOfArrayRow | src/xtable.ts:297 | a row that is an array shows, in a column keyed by a position's digits, the element at that position |
| Table.DataKey | src/xtable.ts:280-282 | a row carries a data-key exactly when the row key is set, the row is truthy and its value under the key is neither null nor undefined |
| Table.BodyEmpty | src/xtable.ts:249-271 | without rows the body is one row of one cell that shows the empty text and spans all columns, at least one |
| Table.BodyRows | src/xtable.ts:273-310 | with rows the body has one row per data row, each with its data-key and one cell per column, the cell at row i and column j being that column's cell for that row and index i |
| Table.RowsFromData | src/xtable.ts:406-412 | the rows the table takes from an onData payload without a handler are always an array |
| Table.RowsFromDataShown | src/xtable.ts:207-216 | after such a payload the table shows the payload itself when it is an array, its rows field when that is an array, and no rows otherwise |
| Table.TableClassesShape | src/xtable.ts:110-126 | after a pass the base class is present, each of the four modifiers is present exactly when its flag is set, and every other class is present exactly when it was before |
| Table.SetterFlag | src/xtable.ts:77-79 | the hover and bordered setters' extra false test changes nothing, and an absent value means on at construction but off in a setter |
| Table.InitialSettings | src/xtable.ts:81-101 | columns come only from an array; rows are kept raw; the row key is absent exactly when null or undefined; hover and bordered are the values their setters stored during parsing, on when the key is absent; dense and striped are on only for true or "true"; a falsy empty text becomes "No data" |
| Table.ParsedFlag | src/xtable.ts:367-378 | a hover or bordered flag after construction is on when the key is absent, and otherwise on exactly for true or "true" |
| Table.XTable.ApplyLayout | src/xtable.ts:110-126 | the class list is recomposed from the four flags; nothing else changes |
| Table.XTable.BuildHeader | src/xtable.ts:175-205 | the header is replaced by one row with one cell per column, in column order |
| Table.XTable.RenderRow | src/xtable.ts:273-310 | one data row has its data-key and one cell per column, in column order |
| Table.XTable.RenderCell | src/xtable.ts:284-307 | one body cell is the column's cell for that row and index |
| Table.XTable.RenderBody | src/xtable.ts:244-311 | the body is replaced by what the resolved rows give under the current settings; nothing else changes |
| Table.XTable.RenderRows | src/xtable.ts:244-311 | the rows appended are the body the resolved data rows give |
| Table.XTable.constructor | src/xtable.ts:44-58 | the settings are those the configuration gives once the setters have run, no data call is in flight, the class list gets one pass, and the header and body show the columns and rows |
| Table.XTable.Refresh | src/xtable.ts:313-315 | the body is rendered again; nothing else changes |
| Table.XTable.SetColumns | src/xtable.ts:323-326 | a non-array is stored as no columns, and header and body are rebuilt for them |
| Table.XTable.SetRows | src/xtable.ts:332-335 | the rows are stored as given and the body is rendered again |
| Table.XTable.SetRowKey | src/xtable.ts:341-343 | the raw row key is stored and nothing is rendered |
| Table.XTable.SetDense | src/xtable.ts:349-352 | dense is on exactly for a true value and only the class list changes |
| Table.XTable.SetStriped | src/xtable.ts:358-361 | striped is on exactly for a true value and only the class list changes |
| Table.XTable.SetHover | src/xtable.ts:367-370 | hover is on exactly for a true value and only the class list changes |
| Table.XTable.SetBordered | src/xtable.ts:376-379 | bordered is on exactly for a true value and only the class list changes |
| Table.XTable.SetEmptyText | src/xtable.ts:385-388 | a falsy value restores "No data"; the body is rendered again |
| Table.XTable.OnDataStart | src/xtable.ts:394-402 | a call is accepted exactly when none is in flight; an accepted call marks one in flight and remembers the rows and payload; a refused one changes nothing |
| Table.XTable.OnDataFinish | src/xtable.ts:405-421 | without a handler the rows become the payload's rows, with one they are what the handler left; the body is rendered again exactly when the rows changed identity; the in-flight guard is released |
| Table.ResolveRows | src/xtable.ts:207-216 | an array is used as is; a key names a store entry, used when it is an array, else through its rows array, else no rows; any other value gives no rows |
| NavList.ItemValue | src/xnavlist.ts:96-100 | an item's value is its truthy _value, else its truthy _id, else its _label, as text |
| NavList.ItemClassShape | src/xnavlist.ts:111-113 | an entry's class starts with the item class and carries the active modifier exactly when active and the disabled modifier exactly when disabled |
| NavList.EntryOf | src/xnavlist.ts:108-145 | an entry is disabled exactly when the item's _disabled is true, keeps the item, and carries the class for its active and disabled state |
| NavList.EntryChildren | src/xnavlist.ts:115-130 | an entry's row is the icon when set, the label text ("" for null or undefined), then the badge view when set |
| NavList.FirstMatch | src/xnavlist.ts:170 | the item found is the first whose value equals the one sought; none is found exactly when no item has that value |
| NavList.NavClassesShape | src/xnavlist.ts:157-164 | after a pass the base class is present, dense and dividers exactly when set, and every other class is present exactly when it was before |
| NavList.EntriesActive | src/xnavlist.ts:102-106 | in a rendered list, entry i shows item i and carries the active modifier exactly when that item is active (flagged active, or its value equals the active value) |
| NavList.XNavList.RenderItems | src/xnavlist.ts:147-155 | the list is replaced by one entry per item, in order; nothing else changes |
| NavList.XNavList.ApplyLayout | src/xnavlist.ts:157-164 | the class list is recomposed from dense and dividers; nothing else changes |
| NavList.XNavList.constructor | src/xnavlist.ts:34-48 | settings come from the configuration (items only from an array, active "" unless truthy), the class list gets one pass, and the list shows one entry per item; nothing has fired |
| NavList.XNavList.SetActive | src/xnavlist.ts:166-175 | the value is stored as text and the list re-rendered; unless silent, the select callback fires once with the value and the first matching item, and not at all when no item matches |
| NavList.XNavList.Click | src/xnavlist.ts:135-142 | a click on a disabled entry changes nothing; otherwise the item's value becomes active, the list is re-rendered, and the select callback fires exactly once with that value and the item |
| NavList.XNavList.SetItems | src/xnavlist.ts:181-189 | a non-array gives no items; the list is re-rendered; nothing fires |
| NavList.XNavList.SetActiveValue | src/xnavlist.ts:195-198 | a falsy value clears the active value; the list is re-rendered; nothing fires |
| NavList.XNavList.SetDense | src/xnavlist.ts:204-207 | dense is on exactly for a true value and only the class list changes |
| NavList.XNavList.SetDividers | src/xnavlist.ts:213-216 | dividers are on exactly for a true value and only the class list changes |
| Select.NormalizeSize | src/xselect.ts:52-54 | the select is small exactly when the value is "sm" |
| Select.SelectClassesShape | src/xselect.ts:89-92 | the base class is present, exactly one size modifier (the current one), the disabled modifier exactly when disabled, and every other class exactly when it was there before |
| Select.OptionOf | src/xselect.ts:114-124 | an option shows the label and value given, is disabled exactly when its disabled flag is truthy, is never hidden, and is selected exactly when its value is the current one |
| Select.OptionsShape | src/xselect.ts:132-149 | the control holds the placeholder option first exactly when the stored placeholder text is not "" (the placeholder as its text, empty value, disabled, hidden, selected exactly when no value is set), then one option per entry in order |
| Select.EmptyTextPlaceholder | src/xselect.ts:133 | a placeholder given as an empty array is stored as "" and then adds no placeholder option |
| Select.XSelect.SetValue | src/xselect.ts:165-175 | the value is stored as text ("" for null or undefined) and shown in the control; the change callback fires once with it unless silent |
| Select.XSelect.BuildOptions | src/xselect.ts:130-149 | the options built are those for the current placeholder, entries and value |
| Select.XSelect.RenderOptions | src/xselect.ts:105-149 | the control's options are replaced by those for the current settings; nothing else changes |
| Select.XSelect.SetOptions | src/xselect.ts:126-152 | a non-array gives no entries; the control's options are rebuilt and, unless silent, the value is written to the control again without firing |
| Select.XSelect.HandleChange | src/xselect.ts:154-159 | the control's value is stored as text and the change callback fires once with it; the control is not rewritten |
| Select.XSelect.constructor | src/xselect.ts:80-103 | the value is kept only when a string, the other settings come from the configuration, the class list gets its pass, and the control shows the disabled flag, value and options, and the name and id only when their stored text is not "" |
| Select.SetValueRoundTrip | src/xselect.ts:161-166 | a text value stored by setValue reads back unchanged from getValue |
| Search.NormalizeSize | src/xsearch.ts:54-56 | the search box is small exactly when the value is "sm" |
| Search.SearchClassesShape | src/xsearch.ts:117-120 | the base class is present, exactly one size modifier (the current one), the disabled modifier exactly when disabled, and every other class exactly when it was there before |
| Search.PropsOf | src/xsearch.ts:107-115 | a falsy placeholder gives "Search...", the size is small exactly for "sm", absent flags give disabled off, autofocus off, clearable on and icon on, and the input id is set exactly when truthy |
| Search.DefaultProps | src/xsearch.ts:25-32 | an empty configuration gives every field default |
| Search.XSearchBox.ToggleClear | src/xsearch.ts:139-144 | the clear button is visible exactly when clearable, the value is non-empty and the box is enabled; nothing else changes |
| Search.XSearchBox.constructor | src/xsearch.ts:38-52 | the value is kept only when a string, the settings are read with their defaults, the class list gets its pass, and the input, icon and clear button show the settings, the input id only when its stored text is not ""; nothing has fired |
| Search.XSearchBox.HandleInput | src/xsearch.ts:146-152 | the typed value is stored as text, the clear button follows it, and the input callback fires once with it |
| Search.XSearchBox.HandleChange | src/xsearch.ts:154-159 | the value is stored as text, the clear button is left as it was, and the change callback fires once with it |
| Search.XSearchBox.SetValue | src/xsearch.ts:165-176 | the value is stored as text and shown, the clear button follows it, and the input callback fires once with it unless silent |
| Search.XSearchBox.Clear | src/xsearch.ts:178-185 | the value becomes "" and the clear button hides; the clear callback fires, then the input callback with "" |
| Field.NormalizeSize | src/xfield.ts:64-66 | the field is small exactly when the value is "sm" |
| Field.StateOf | src/xfield.ts:72-83 | the error flag is set exactly when the error has non-blank text, the size is small exactly for "sm", a falsy label is "", and inline is on exactly for true or "true" |
| Field.MessageOf | src/xfield.ts:135-153 | the message row shows the trimmed error when it is non-blank, else the trimmed hint when that is non-blank, else nothing |
| Field.ShapeOf | src/xfield.ts:97-153 | the label shows the trimmed label exactly when it is non-blank, the control row exists exactly when the control is truthy, and the message, required marker and layout follow the settings |
| Field.LabelRowShape | src/xfield.ts:97-123 | the label row exists exactly when there is a label or the required marker; the trimmed label comes first and the "*" marker last |
| Field.RowsLayout | src/xfield.ts:161-180 | inline, the label and control rows are wrapped in one inline row (left out when both are missing) before the message; stacked, the three rows follow one another; never more than three rows |
| Field.RenderIds | src/xfield.ts:155-190 | the built tree holds the label, marker, control, error and hint nodes exactly when their parts are shown, never both the error and the hint, and the inline row exactly when inline with a label row or control |
| Field.RenderHasId | src/xfield.ts:155-190 | the node with a given part id is present in the built tree exactly when that part is shown |
| Field.RetextRender | src/xfield.ts:205-253 | rewriting the text of the label, error or hint node in place gives the tree a rebuild with that text would give |
| Field.LabelStep | src/xfield.ts:205-216 | when the label stays non-blank, rewriting the label node's text gives the tree for the new settings; when it stays blank the tree does not change |
| Field.HintStep | src/xfield.ts:227-239 | while there is an error, or the hint stays blank, the tree does not change; when the hint stays non-blank without an error, rewriting the hint node's text gives the tree for the new settings |
| Field.ErrorStep | src/xfield.ts:241-267 | when the error stays non-blank, rewriting the error node's text gives the tree for the new settings; when it stays blank the tree does not change |
| Field.FieldClassesSteps | src/xfield.ts:269-278 | the class list is the base class, then the size modifier, then the layout modifier, then the error modifier toggled by the flag |
| Field.FieldClassesShape | src/xfield.ts:269-278 | the class list shows the current size, layout and error state and keeps every other class the caller had |
| Field.XField.ApplyLayout | src/xfield.ts:269-278 | the class list is recomposed and shows the current state; nothing else changes |
| Field.XField.Rebuild | src/xfield.ts:196-203 | the tree is the skeleton for the current settings, the rebuild count goes up by one, and the layout is applied |
| Field.XField.constructor | src/xfield.ts:41-62 | the settings are read, the tree and classes match them, no rebuild has happened, and the widget is no longer initialising |
| Field.XField.UpdateLabelNode | src/xfield.ts:205-216 | afterwards the tree and classes match the settings; a rebuild happens exactly when the label node's presence no longer matches the label, and otherwise the classes are unchanged |
| Field.XField.SetLabel | src/xfield.ts:280-284 | the label is stored ("" when falsy); while initialising nothing else happens; afterwards the widget matches its settings, rebuilt exactly when the label turned blank or non-blank, and the class list unchanged |
| Field.XField.UpdateRequiredNode | src/xfield.ts:218-225 | afterwards the tree and classes match the settings; a rebuild happens exactly when the marker's presence no longer matches the flag, and otherwise nothing changes |
| Field.XField.SetRequired | src/xfield.ts:298-302 | the flag is stored; while initialising nothing else happens; afterwards the widget matches its settings, rebuilt exactly when the flag changed, and the class list unchanged |
| Field.XField.UpdateHintNode | src/xfield.ts:227-239 | with an error nothing changes; otherwise a rebuild happens exactly when the hint node's presence no longer matches the hint; afterwards the widget matches its settings |
| Field.XField.SetHint | src/xfield.ts:286-290 | the hint is stored ("" when falsy); while initialising nothing else happens; afterwards the widget matches its settings, rebuilt without an error exactly when the hint turned blank or non-blank, with an error the tree is untouched, and the class list unchanged |
| Field.XField.UpdateErrorNode | src/xfield.ts:241-267 | the error flag is recomputed from the error text and the tree and classes then match the settings |
| Field.XField.SetError | src/xfield.ts:292-296 | the error is stored ("" when falsy); while initialising nothing else happens; afterwards the error flag equals whether the error is non-blank, the widget matches its settings, it is rebuilt exactly when that flag changed, and the class list is recomposed for the error state |
| Field.XField.SetInline | src/xfield.ts:304-309 | the layout flag is stored; once initialised the widget is rebuilt once, matches its settings, and the class list is recomposed for the layout |
| Field.XField.SetSize | src/xfield.ts:311-315 | the size is stored; the tree is never rebuilt; once initialised only the class list changes, recomposed for the new size |
| Field.XField.SetControl | src/xfield.ts:317-321 | the control is stored; once initialised the widget is rebuilt once and matches its settings, and the class list is unchanged |
| Section.ShapeOf | src/xsection.ts:95-162 | the title and subtitle labels show the trimmed texts exactly when they are not blank, the actions block exists exactly when there are actions, and the header exists exactly when the section has a title, subtitle or actions |
| Section.Layout | src/xsection.ts:144-162 | the container holds the header first exactly when there is one, and always ends with the body view holding the body children |
| Section.RenderIds | src/xsection.ts:95-162 | the built tree holds the header, title, subtitle and actions nodes exactly when those parts are shown, and the body always |
| Section.RetextRender | src/xsection.ts:182-203 | rewriting the title or subtitle node's text in place gives the tree a rebuild with that text would give |
| Section.ShapeOfAgrees | src/xsection.ts:144-162 | the skeleton built from the settings shows those settings |
| Section.TakeChildren | src/xsection.ts:40-43 | an array of children is taken from the caller's object, which is left with an empty array and otherwise unchanged; anything else leaves the object as it was |
| Section.ChildrenCaptured | src/xsection.ts:40-56 | the captured children become the body children and the caller's object is left with none |
| Section.XSection.Rebuild | src/xsection.ts:164-170 | the tree is the skeleton for the current settings and the rebuild count goes up by one; the settings are unchanged |
| Section.XSection.constructor | src/xsection.ts:33-59 | the body is the caller's children, the texts are "" unless truthy, the actions come only from an array, the tree shows the settings, nothing has been rebuilt, and the widget is no longer initialising |
| Section.XSection.SetTitle | src/xsection.ts:172-185 | as written: the title is stored; once initialised the section is rebuilt exactly when the header appears or disappears, or there was no title label and the new title is not blank; otherwise the label's text is rewritten in place, even to blank |
| Section.XSection.SetTitleFixed | src/xsection.ts:172-185 | as intended: the same, except that a title label that would be left blank is removed by a rebuild, so the tree always shows the settings |
| Section.XSection.SetSubtitle | src/xsection.ts:191-204 | as written: the subtitle setter follows the title setter's steps on the subtitle label, leaving a blank label in place |
| Section.XSection.SetSubtitleFixed | src/xsection.ts:191-204 | as intended: a subtitle label that would be left blank is removed by a rebuild, so the tree always shows the settings |
| Section.XSection.ReplaceActions | src/xsection.ts:230-236 | the actions block's children are replaced by the stored actions, in order; nothing else changes |
| Section.XSection.SetActions | src/xsection.ts:210-237 | as written: the actions are stored (none unless an array); once initialised the section is rebuilt exactly when the header appears or disappears, or there was no actions block and there are now actions; otherwise the block's children are replaced, even by none, and when there was no block nothing changes |
| Section.XSection.SetActionsFixed | src/xsection.ts:210-237 | as intended: an actions block that would be left empty is removed by a rebuild, so the tree always shows the settings |
| Section.StaleTitle | src/xsection.ts:182-183 | a section titled "T" with subtitle "S" whose title is set to "" keeps its header, and the rewritten tree still holds a title node that a section built with those settings has not |
| Section.StaleSubtitle | src/xsection.ts:201-202 | the same section with its subtitle set to "" still holds a subtitle node that a section built with those settings has not |
| Section.StaleActions | src/xsection.ts:224-236 | a section titled "T" with one action whose actions are set to none keeps its header and an empty actions block that a section built with those settings has not |
| Empty.NormalizeSize | src/xempty.ts:50-53 | the size is small exactly for "sm", large exactly for "lg", and medium otherwise |
| Empty.NormalizeAlign | src/xempty.ts:55-57 | the content is start-aligned exactly for "start", centred otherwise |
| Empty.StateOf | src/xempty.ts:59-68 | size and alignment are normalised, falsy texts become "", and the icon and action are kept raw |
| Empty.ShapeOf | src/xempty.ts:78-110 | the icon and action are shown exactly when truthy, the title and description exactly when not blank, and then trimmed |
| Empty.StackOrder | src/xempty.ts:78-110 | the stack holds the icon, the title, the description and the action, each only when shown, in that order |
| Empty.RenderIds | src/xempty.ts:78-110 | the title and description nodes are in the stack exactly when those labels are shown |
| Empty.RetextRender | src/xempty.ts:121-145 | rewriting the title or description node's text in place gives the stack a rebuild with that text would give |
| Empty.TitleStep | src/xempty.ts:121-132 | when the title stays non-blank, rewriting the label gives the stack for the new settings; when it stays blank the stack does not change |
| Empty.DescStep | src/xempty.ts:134-145 | the same for the description |
| Empty.EmptyClassesSteps | src/xempty.ts:147-157 | the class step adds the base class and replaces all five modifiers by the current size and alignment modifiers |
| Empty.EmptyClassesShape | src/xempty.ts:147-157 | the class list shows the current size and alignment, keeps every other class the caller had, and a second pass changes nothing |
| Empty.XEmptyState.ApplyLayout | src/xempty.ts:147-157 | the class list is recomposed and shows the current layout; nothing else changes |
| Empty.XEmptyState.Rebuild | src/xempty.ts:112-119 | the stack is the skeleton for the current settings, the layout is applied, and the rebuild count goes up by one |
| Empty.XEmptyState.constructor | src/xempty.ts:32-48 | as intended: the settings are read, there is one stack and the classes match the settings, and nothing has been rebuilt |
| Empty.XEmptyState.SetTitle | src/xempty.ts:121-132 | the title is stored ("" when falsy) and the stack matches the settings; a rebuild, which recomposes the class list, happens exactly when the label's presence no longer matches, and otherwise only the label's text changes |
| Empty.XEmptyState.SetDescription | src/xempty.ts:134-145 | the description is stored ("" when falsy) and the stack matches the settings; a rebuild, which recomposes the class list, happens exactly when the label's presence no longer matches, and otherwise only the label's text changes |
| Empty.XEmptyState.SetSize | src/xempty.ts:177-180 | the size is normalised and stored; only the classes change |
| Empty.XEmptyState.SetAlign | src/xempty.ts:186-189 | the alignment is normalised and stored; only the classes change |
| Empty.XEmptyState.SetIcon | src/xempty.ts:195-198 | the icon is stored and the widget rebuilt once to match |
| Empty.XEmptyState.SetAction | src/xempty.ts:204-207 | the action is stored and the widget rebuilt once to match |
| Empty.ParseSetter | src/xempty.ts:159-207 | a setter run while parsing never removes the host's stack, and the icon and action setters always leave one |
| Empty.ParseKeepsStack | src/xempty.ts:112-119 | once a parse-time rebuild has appended a stack, the remaining setters keep one there |
| Empty.ParseAppendsStack | src/xempty.ts:195-207 | a configuration with an icon or action key, whatever its value, has a stack appended while parsing |
| Empty.TwoStacks | src/xempty.ts:44-46 | as written: such a configuration ends construction with two stacks, since the constructor appends its own after parsing |
| Empty.TwoStacksForTitle | src/xempty.ts:44-46 | as written: a configuration with only a title ends construction with two identical stacks showing that title |
| Drawer.NormalizeSide | src/xdrawer.ts:68-70 | the drawer is on the left exactly for "left", on the right otherwise |
| Drawer.WidthOf | src/xdrawer.ts:81 | a falsy width gives "360px"; a non-empty text is kept |
| Drawer.TitleOf | src/xdrawer.ts:82 | the title is present exactly when the value is truthy; a non-empty text is kept |
| Drawer.StateOf | src/xdrawer.ts:78-87 | the settings come from the configuration with their defaults: closed, right, closable, scrolling, elevated, no overlay |
| Drawer.DefaultState | src/xdrawer.ts:78-87 | an empty configuration gives a closed right-hand drawer 360px wide, without title, closable, scrolling and elevated, without overlay |
| Drawer.Skeleton | src/xdrawer.ts:93-155 | a built panel shows the trimmed title exactly when the title has non-blank text, and the close button, scroll area and body as set |
| Drawer.Shown | src/xdrawer.ts:187-192 | once the layout has run, the title label holds the stored title untrimmed |
| Drawer.PanelLayout | src/xdrawer.ts:93-155 | the header exists exactly when there is a title or a close button and holds them in that order; the panel is the header when present, then the body; the body wraps the content in a scroll area exactly when scrolling |
| Drawer.RenderIds | src/xdrawer.ts:93-155 | the header, title, close and scroll nodes are in the panel exactly when those parts are shown |
| Drawer.RetextRender | src/xdrawer.ts:187-192 | rewriting the title node's text in place gives the panel a rebuild with that text would give |
| Drawer.RetextSkeleton | src/xdrawer.ts:157-164 | the title rewrite at the end of a rebuild turns the built panel into one that shows the stored title |
| Drawer.TitleStep | src/xdrawer.ts:270-280 | when the title keeps its presence, rewriting the shown text gives the panel for the new settings |
| Drawer.NextMods | src/xdrawer.ts:203-207 | the modifiers the settings call for are all managed modifiers |
| Drawer.DrawerClassesSteps | src/xdrawer.ts:195-208 | the class step adds the base class and replaces all five modifiers by those the settings call for |
| Drawer.DrawerClassesShape | src/xdrawer.ts:194-208 | the class list shows the settings and keeps every other class the caller had |
| Drawer.DrawerClassesOverride | src/xdrawer.ts:194-208 | a layout pass discards the modifiers of any earlier one, and a class list that already shows the settings is left as it is |
| Drawer.ToggleTwiceClasses | src/xdrawer.ts:239-241 | opening then closing, or the reverse, with nothing in between leaves the class list exactly as it was |
| Drawer.LayoutStyleOf | src/xdrawer.ts:210-215 | the style is the stripped caller style followed by the width declaration |
| Drawer.DrawerStyle | src/xdrawer.ts:166-215 | the laid-out style is the caller's declarations without any width, then the width; a later pass replaces that width |
| Drawer.XDrawer.ApplyLayout | src/xdrawer.ts:194-218 | the classes and style are recomposed from the settings and the title label is rewritten; nothing else changes |
| Drawer.XDrawer.UpdateTitle | src/xdrawer.ts:187-192 | the stored title is written into the title label when it exists; nothing else changes |
| Drawer.XDrawer.Rebuild | src/xdrawer.ts:157-164 | the panel is the skeleton for the settings with the layout applied, and the rebuild count goes up by one |
| Drawer.XDrawer.constructor | src/xdrawer.ts:43-66 | as intended: the settings are read, the children captured, the panel, classes and style match them, nothing has been rebuilt and nothing has fired |
| Drawer.ParsePassesCollapse | src/xdrawer.ts:243-316 | the layout passes the setters run while parsing, followed by the constructor's, leave the single-pass style whenever no width stored along the way holds a ";" |
| Drawer.XDrawer.SetOpen | src/xdrawer.ts:224-237 | the flag is normalised and stored and the layout redone; the open callback fires on a change to open and the close callback on a change to closed, neither when unchanged or silent |
| Drawer.XDrawer.Notify | src/xdrawer.ts:230-236 | the callbacks fired are those for the change from the old to the new state |
| Drawer.XDrawer.Toggle | src/xdrawer.ts:239-241 | the flag flips, the layout is redone, and the callback for the new state fires |
| Drawer.XDrawer.HandleClose | src/xdrawer.ts:111 | the close button closes the drawer and fires the close callback when it was open |
| Drawer.XDrawer.SetOpenProp | src/xdrawer.ts:243-246 | the flag is stored and the layout redone; no callback fires |
| Drawer.XDrawer.SetSide | src/xdrawer.ts:252-255 | the side is normalised and stored and the layout redone |
| Drawer.XDrawer.SetWidth | src/xdrawer.ts:261-264 | the width is stored ("360px" when falsy) and the layout redone |
| Drawer.XDrawer.SetElevated | src/xdrawer.ts:304-307 | the flag is stored (on unless false or "false") and the layout redone |
| Drawer.XDrawer.SetOverlay | src/xdrawer.ts:313-316 | the flag is stored (off unless true or "true") and the layout redone |
| Drawer.XDrawer.SetTitle | src/xdrawer.ts:270-280 | the title is stored; the panel is rebuilt exactly when the title appears or disappears, and otherwise the label's text is rewritten to the stored title; either way the classes and style are recomposed from the settings |
| Drawer.XDrawer.SetClosable | src/xdrawer.ts:286-289 | the flag is stored, the panel rebuilt once to match, and the classes and style recomposed from the settings |
| Drawer.XDrawer.SetScroll | src/xdrawer.ts:295-298 | the flag is stored, the panel rebuilt once to match, and the classes and style recomposed from the settings |
| Drawer.ParseSetter | src/xdrawer.ts:270-298 | a setter run while parsing never removes the host's panel, and the closable and scroll setters always leave one |
| Drawer.ParseKeepsPanel | src/xdrawer.ts:157-164 | once a parse-time rebuild has appended a panel, the remaining setters keep one there |
| Drawer.ParseAppendsPanel | src/xdrawer.ts:286-298 | a configuration with a closable or scroll key, whatever its value, has a panel appended while parsing |
| Drawer.TwoPanels | src/xdrawer.ts:58-64 | as written: such a configuration ends construction with two panels, since the constructor appends its own after parsing |
| Drawer.TwoPanelsForClosable | src/xdrawer.ts:58-64 | as written: a configuration with only the closable flag ends construction with two identical panels |
| Modal.NormalizeSize | src/xmodal.ts:73-76 | the size is small exactly for "sm", large exactly for "lg", and medium otherwise |
| Modal.ListOf | src/xmodal.ts:87-88 | a list is present exactly when the value is an array, and then is its items |
| Modal.StateOf | src/xmodal.ts:78-89 | the settings come from the configuration with their defaults: closed, medium, closable, closing on a backdrop click and scrolling; texts are absent unless truthy and lists unless arrays |
| Modal.DefaultState | src/xmodal.ts:78-89 | an empty configuration gives every default |
| Modal.Capture | src/xmodal.ts:216-224 | the captured children are exactly the truthy children whose id is neither the panel's nor the backdrop's, never more than given |
| Modal.CaptureAppend | src/xmodal.ts:216-224 | capturing keeps the order: the capture of two runs of children is the capture of the first followed by that of the second |
| Modal.CaptureTwice | src/xmodal.ts:216-224 | capturing the captured children captures nothing more |
| Modal.GlyphMisread | src/xmodal.ts:126 | as written: the close glyph is the two bytes of the UTF-8 encoding of the multiplication sign read back as Windows-1252, two characters where one was meant |
| Modal.CloseGlyphShared | src/xmodal.ts:122-128 | the corrected close button shows the multiplication sign, the glyph the drawer's close button shows; the button the widget builds as written differs from it only in that glyph |
| Modal.ModalLayout | src/xmodal.ts:91-214 | the header exists exactly when there is a title, subtitle or close button, and is a toolbar then a divider, with the titles first when there are any and the close button last exactly when closable; the footer exists exactly when there are actions, and is a divider then a toolbar holding them; the backdrop closes on a click exactly when configured to |
| Modal.ModalStackAttrs | src/xmodal.ts:112-178 | the header toolbar has gap 8 and spreads its children apart; the titles stack is vertical with gap 2; the close button shows the glyph as written; the footer's actions stack is horizontal with gap 8 and centred |
| Modal.RenderIgnoresOpen | src/xmodal.ts:184-214 | the skeleton does not depend on the open flag |
| Modal.SiftMembers | src/xmodal.ts:278-284 | the children kept are exactly the panel and backdrop among them, and kept and removed children together account for every child |
| Modal.SiftRender | src/xmodal.ts:184-214 | a fresh skeleton consists of exactly the two children a later creation pass keeps |
| Modal.ModalClassesShape | src/xmodal.ts:260-272 | the class list shows the size and open state and keeps every other class the caller had |
| Modal.ModalClassesOverride | src/xmodal.ts:260-272 | a layout pass discards the modifiers of any earlier one, and a class list that already shows the settings is left as it is |
| Modal.LayoutStyleOf | src/xmodal.ts:260-272 | the style is the stripped caller style followed by the width declaration when a width is set |
| Modal.ModalStyle | src/xmodal.ts:239-272 | the laid-out style is the caller's declarations without any width, then the width; a later pass replaces that width |
| Modal.XModal.ApplyLayout | src/xmodal.ts:260-272 | the classes and style are recomposed from the settings; nothing else changes |
| Modal.XModal.Rebuild | src/xmodal.ts:226-237 | the panel and backdrop are replaced by a new skeleton after the other children, and the layout is applied |
| Modal.XModal.constructor | src/xmodal.ts:45-65 | the settings are read, the children captured unless content is given, the skeleton, classes and style match the settings, and nothing has fired |
| Modal.XModal.OnCreate | src/xmodal.ts:274-290 | every child other than the panel and the backdrop is removed; the first time, without content and with captured children, the widget is rebuilt and marked ready; a widget that already matched is left as it was |
| Modal.XModal.RemoveStray | src/xmodal.ts:275-284 | the walk over a copy of the children leaves exactly the panel and backdrop, in order |
| Modal.XModal.SetOpen | src/xmodal.ts:296-308 | the flag is normalised and stored and the layout redone; the open callback fires on a change to open and the close callback on a change to closed, neither when unchanged or silent |
| Modal.XModal.Notify | src/xmodal.ts:301-307 | the callbacks fired are those for the change from the old to the new state |
| Modal.XModal.Open | src/xmodal.ts:310-312 | the dialog opens and the open callback fires when it was closed |
| Modal.XModal.Close | src/xmodal.ts:314-316 | the dialog closes and the close callback fires when it was open |
| Sidebar.NormalizeSide | src/xsidebar.ts:67-69 | the sidebar is on the right exactly for "right", on the left otherwise |
| Sidebar.WidthOf | src/xsidebar.ts:79 | a falsy width gives "280px"; a non-empty text is kept |
| Sidebar.ListOf | src/xsidebar.ts:83 | the actions are present exactly when the value is an array, and then are its items |
| Sidebar.StateOf | src/xsidebar.ts:77-89 | the settings come from the configuration with their defaults: left, 280px wide, scrolling, with dividers, expanded; texts absent unless truthy, actions unless an array |
| Sidebar.DefaultState | src/xsidebar.ts:77-89 | an empty configuration gives every default |
| Sidebar.SkeletonShape | src/xsidebar.ts:100-225 | a built panel shows the title and subtitle, as stored, exactly when they have non-blank text, has a header exactly when the settings call for one, shows the nav or the captured children as its content, and has a footer exactly when the footer is truthy |
| Sidebar.PanelLayout | src/xsidebar.ts:172-225 | the panel is the header part, the body, then the footer part; a divider follows the header and precedes the footer exactly when dividers are on; the footer wraps the footer node; the nav, when set, replaces the captured children |
| Sidebar.HeaderLayout | src/xsidebar.ts:100-170 | the header row is the left block then the actions stack, present exactly when there are actions; the left block is the logo when set then the titles stack, present exactly when there is a label, with the title before the subtitle; the row is horizontal with gap 8, centred and spread apart, the left block horizontal with gap 8 and centred, the titles stack vertical with gap 2, and the actions stack horizontal with gap 6 and centred |
| Sidebar.RenderIds | src/xsidebar.ts:100-225 | the title label is in the panel exactly when a title is shown, and the subtitle label exactly when a subtitle is shown |
| Sidebar.RetextRender | src/xsidebar.ts:269-274 | rewriting a label's text in place gives the panel a rebuild with that text would give |
| Sidebar.RetitledSkeleton | src/xsidebar.ts:238-246 | the label rewrite at the end of a rebuild leaves the fresh panel as it is |
| Sidebar.RetitledTwice | src/xsidebar.ts:269-274 | rewriting the labels twice changes nothing more than once |
| Sidebar.Relabel | src/xsidebar.ts:270-273 | a label that exists gets the stored text ("" when absent); one that does not exist stays missing |
| Sidebar.SkeletonAgrees | src/xsidebar.ts:202-225 | the skeleton built from the settings shows those settings |
| Sidebar.LayoutOnly | src/xsidebar.ts:329-350 | settings that only the layout shows (side, width, collapsed) leave the panel as it is |
| Sidebar.RetitledAgrees | src/xsidebar.ts:356-382 | when the header neither appears nor disappears, rewriting the labels keeps the panel in agreement with the new settings, and a label whose text did not change is left as it was |
| Sidebar.RetitledFresh | src/xsidebar.ts:356-382 | when no label appears or disappears, writing the new texts into the labels gives the skeleton of the new settings |
| Sidebar.SidebarClassShape | src/xsidebar.ts:276-295 | the class is "xsidebar", then the caller's other classes without duplicates, then the side modifier and the collapsed and dividers modifiers when set, in that order and without duplicates |
| Sidebar.SidebarClassOverride | src/xsidebar.ts:276-295 | a layout pass discards the modifiers of any earlier one |
| Sidebar.LayoutStyleOf | src/xsidebar.ts:301-306 | the style is the stripped caller style followed by the width declaration |
| Sidebar.SidebarStyle | src/xsidebar.ts:248-306 | the laid-out style is the caller's declarations without any width, then the width; a later pass replaces that width |
| Sidebar.ToggleEvents | src/xsidebar.ts:320-322 | the toggle callback is called once, with the new state, exactly when the state changed, the call is not silent, and the callback is a function |
| Sidebar.XSidebar.UpdateTitles | src/xsidebar.ts:269-274 | each label that exists gets the stored text; a freshly built panel is left as it is |
| Sidebar.XSidebar.ApplyClass | src/xsidebar.ts:297-299 | the class is composed again from the current one and shows the settings |
| Sidebar.XSidebar.ApplyLayout | src/xsidebar.ts:297-309 | the class and style are recomposed and the labels rewritten |
| Sidebar.XSidebar.Rebuild | src/xsidebar.ts:238-246 | the panel is the skeleton for the settings with the layout applied, and the rebuild count goes up by one |
| Sidebar.XSidebar.constructor | src/xsidebar.ts:45-65 | the caller's children are captured, the settings read, the panel, class and style match them, and nothing has been rebuilt since |
| Sidebar.ParsePassesCollapse | src/xsidebar.ts:319-350 | the layout passes the setters run while parsing, followed by the constructor's, leave the single-pass style whenever no width stored along the way holds a ";" |
| Sidebar.XSidebar.Relayout | src/xsidebar.ts:329-350 | settings that only the layout shows are stored and the layout redone; the panel is left as it is |
| Sidebar.XSidebar.SetCollapsed | src/xsidebar.ts:315-323 | the flag is normalised and stored and the layout redone; the toggle callback is called exactly when the state changed and the call is not silent |
| Sidebar.XSidebar.ToggleCollapsed | src/xsidebar.ts:325-327 | the flag flips and the toggle callback, when a function, is called once with the new state |
| Sidebar.XSidebar.SetCollapsedProp | src/xsidebar.ts:329-332 | the flag is stored and the layout redone; no callback |
| Sidebar.XSidebar.SetSide | src/xsidebar.ts:338-341 | the side is normalised and stored and the layout redone |
| Sidebar.XSidebar.SetWidth | src/xsidebar.ts:347-350 | the width is stored ("280px" when falsy) and the layout redone |
| Sidebar.XSidebar.RetitleTo | src/xsidebar.ts:362-364 | the new settings are stored, the labels rewritten, and the layout redone |
| Sidebar.XSidebar.SetAndRebuild | src/xsidebar.ts:238-246 | the new settings are stored and the panel rebuilt once to match |
| Sidebar.XSidebar.SetTitle | src/xsidebar.ts:356-366 | as written: the title is stored; the panel is rebuilt exactly when the header appears or disappears, and otherwise only the title label's text is rewritten, whether or not that label exists |
| Sidebar.XSidebar.SetTitleFixed | src/xsidebar.ts:356-366 | as intended: the panel is rebuilt whenever the title label appears or disappears, so it always shows the settings |
| Sidebar.XSidebar.SetSubtitle | src/xsidebar.ts:372-382 | as written: the subtitle setter follows the title setter's steps on the subtitle label |
| Sidebar.XSidebar.SetSubtitleFixed | src/xsidebar.ts:372-382 | as intended: the panel is rebuilt whenever the subtitle label appears or disappears |
| Sidebar.XSidebar.SetLogo | src/xsidebar.ts:388-391 | the logo is stored and the panel rebuilt once to match; the style is recomposed for the width |
| Sidebar.XSidebar.SetActions | src/xsidebar.ts:397-400 | the actions are stored (none unless an array) and the panel rebuilt once to match; the style is recomposed for the width |
| Sidebar.XSidebar.SetNav | src/xsidebar.ts:406-409 | the nav is stored and the panel rebuilt once to match; the style is recomposed for the width |
| Sidebar.XSidebar.SetScroll | src/xsidebar.ts:415-418 | the flag is stored and the panel rebuilt once to match; the style is recomposed for the width |
| Sidebar.XSidebar.SetDividers | src/xsidebar.ts:424-427 | the flag is stored and the panel rebuilt once to match; the style is recomposed for the width |
| Sidebar.XSidebar.SetFooter | src/xsidebar.ts:433-436 | the footer is stored and the panel rebuilt once to match; the style is recomposed for the width |
| Sidebar.MissingTitle | src/xsidebar.ts:360-364 | a sidebar with only a subtitle that gets a title keeps its header, so it is not rebuilt, and its panel still has no title label where one built for the new settings has |
| Sidebar.StaleTitle | src/xsidebar.ts:360-364 | a sidebar with a title and a subtitle whose title is cleared keeps a title label showing "" where one built for the new settings has none |
| Sidebar.MissingSubtitle | src/xsidebar.ts:376-380 | a titled sidebar without a subtitle that gets one keeps its header, so it is not rebuilt, and its panel still has no subtitle label where one built for the new settings has |
| Toast.NormalizeVariant | src/xtoast.ts:64-69 | each of the four named variants is kept when given; any other value, "default" included, gives the default variant |
| Toast.NormalizePosition | src/xtoast.ts:71-76 | each of the three named corners other than the bottom right is kept when given; any other value gives the bottom right |
| Toast.NormalizeRoundTrip | src/xtoast.ts:64-76 | a stored variant or position read back through its normaliser is unchanged |
| Toast.ListOf | src/xtoast.ts:83 | the actions are present exactly when the value is an array, and then are its items |
| Toast.AutoCloseOf | src/xtoast.ts:85-88 | the limit is present exactly when the value is a number, and then is that number, whatever its sign or finiteness |
| Toast.StateOf | src/xtoast.ts:78-90 | the settings come from the configuration with their defaults: closed, text "" unless truthy, the default variant, closable, no limit, at the bottom right |
| Toast.DefaultState | src/xtoast.ts:78-90 | an empty configuration gives every default |
| Toast.Skeleton | src/xtoast.ts:92-133 | the icon is shown exactly when truthy, the actions exactly when there is at least one, and the text and close button as set |
| Toast.RowLayout | src/xtoast.ts:92-126 | the row is the icon view when there is an icon, the text label, the actions view when there are actions, then the close button, last exactly when closable |
| Toast.RowIds | src/xtoast.ts:103-108 | the text label is in the container whatever the settings, and no other node carries its id |
| Toast.RetextRender | src/xtoast.ts:217-221 | writing a text into the label in place gives the container a rebuild with that text would give |
| Toast.VariantTokenNamed | src/xtoast.ts:147-150 | the variant modifier is "xtoast--" followed by the variant's name |
| Toast.PositionTokenNamed | src/xtoast.ts:151-154 | the position modifier is "xtoast--" followed by the position's name |
| Toast.ToastClassesShape | src/xtoast.ts:144-155 | the class list shows the open state, variant and position and keeps every other class the caller had |
| Toast.ToastClassesOverride | src/xtoast.ts:144-155 | a layout pass discards the modifiers of any earlier one |
| Toast.Step | src/xtoast.ts:168-177 | a frame without a usable last timestamp only records the time; otherwise the time since the last frame is added, the toast closes exactly when the total reaches the limit, and then the timestamp is forgotten |
| Toast.RunCounts | src/xtoast.ts:162-178 | over frames none of which reaches the limit, the toast stays open and counts the time from the first timestamp to the last |
| Toast.RunCloses | src/xtoast.ts:162-178 | over frames the first of which to reach the limit is frame k, the toast closes at frame k with the time up to it counted and the timestamp forgotten |
| Toast.AutoClose | src/xtoast.ts:157-178 | from a reset timer, the first frame only records its time; the toast closes at the first later frame whose time since the first reaches the limit, and otherwise stays open with the time from the first to the last frame counted |
| Toast.NeverDue | src/xtoast.ts:174 | an infinite limit never closes the toast |
| Toast.XToast.ApplyLayout | src/xtoast.ts:144-155 | the class list is recomposed and shows the settings; nothing else changes |
| Toast.XToast.Rebuild | src/xtoast.ts:135-142 | the container is the skeleton for the settings with the layout applied, and the rebuild count goes up by one |
| Toast.XToast.constructor | src/xtoast.ts:40-56 | the settings are read, the container and classes match them, the timer starts reset, and nothing has been rebuilt |
| Toast.XToast.SetOpen | src/xtoast.ts:184-197 | the flag is normalised and stored, the timer is reset when open, and the layout redone; the open callback fires on a change to open and the close callback on a change to closed, neither when unchanged or silent |
| Toast.XToast.Open | src/xtoast.ts:199-201 | the toast opens with a reset timer and the open callback fires when it was closed |
| Toast.XToast.Close | src/xtoast.ts:203-205 | the toast closes, the timer is kept, and the close callback fires when it was open |
| Toast.XToast.OnFrame | src/xtoast.ts:162-178 | a closed toast or one without a positive limit is left as it is; otherwise the timer takes one step, and the toast closes, firing the close callback, exactly when the step says so |
| Toast.XToast.SetOpenProp | src/xtoast.ts:207-211 | the flag is stored, the timer reset when open, and the layout redone; no callback |
| Toast.XToast.SetText | src/xtoast.ts:217-221 | the text is stored ("" when falsy) and written into the label; nothing is rebuilt |
| Toast.XToast.SetVariant | src/xtoast.ts:227-230 | the variant is normalised and stored and the layout redone |
| Toast.XToast.SetPosition | src/xtoast.ts:236-239 | the position is normalised and stored and the layout redone |
| Toast.XToast.SetIcon | src/xtoast.ts:245-248 | the icon is stored and the container rebuilt once to match; the class list is recomposed from the settings |
| Toast.XToast.SetActions | src/xtoast.ts:254-257 | the actions are stored (none unless an array) and the container rebuilt once to match; the class list is recomposed from the settings |
| Toast.XToast.SetClosable | src/xtoast.ts:263-266 | the flag is stored and the container rebuilt once to match; the class list is recomposed from the settings |
| Toast.XToast.SetAutoClose | src/xtoast.ts:272-275 | the limit is stored (any number, else none) and the timer is reset when open |


## Left out

- Host engine: the `@xpell/ui` engine is not part of this model. Its `parse` step assigns each configuration key through the widget's setter before the constructor body runs. The constructors state the settings as those setter runs leave them, so the badge text and the table's hover and bordered flags are the setters' values. For the style the constructors state only the final layout pass. Each layout setter also runs a pass during parsing, and that earlier pass leaves nothing behind as long as every stored layout value is clean: when set, non-empty text with no leading or trailing whitespace and no ";" (the `ParsePassesCollapse` lemmas of the scroll, divider, drawer and sidebar). The empty state and the drawer, whose setters rebuild during parsing, also have an as-written model of that step, with the key order as a parameter (see Findings). A key whose value is `undefined` is treated as absent.
- Scroll.XScroll.constructor: its style is exact only when the `_max_height` and `_max_width` values stored along the way are clean: when set, non-empty text with no leading or trailing whitespace and no ";". For other values the style a parse-time pass wrote is not proved to vanish (the text after a ";" survives the final pass), and the model does not have it.
- Divider.XDivider.constructor: its style is exact only when the `_length` values stored along the way are clean: when set, non-empty text with no leading or trailing whitespace and no ";". For other values the style a parse-time pass wrote is not proved to vanish (the text after a ";" survives the final pass), and the model does not have it.
- Drawer.XDrawer.constructor: its style is exact only when the `_width` values stored along the way are "" or clean: non-empty text with no leading or trailing whitespace and no ";". For other values the style a parse-time pass wrote is not proved to vanish (the text after a ";" survives the final pass), and the model does not have it.
- Sidebar.XSidebar.constructor: its style is exact only when the `_width` values stored along the way are "" or clean: non-empty text with no leading or trailing whitespace and no ";". For other values the style a parse-time pass wrote is not proved to vanish (the text after a ";" survives the final pass), and the model does not have it.
- Table.InitialSettings: a `_hover` or `_bordered` key present with the value `undefined` would run the setter and end off; the model treats it as absent, so it stays on.
- Host engine: `XUI.create`, `append` and `removeChild` are modelled as replacing the widget's node tree. `XUI.getObject` is modelled as "a widget-made node with this id is in the tree". `removeChild` is taken to be always available.
- Caller-supplied node descriptions (`_children`, `_actions`, `_content`, `_nav`, `_footer`, `_logo`, `_icon`, `_action`, `_control`) are opaque values that carry no widget-made id.
- `addClass`/`removeClass`/`replaceClass` are host methods outside this model. They are taken to act on the element's class list as a set: `replaceClass(a, b)` removes the tokens of `a`, then adds those of `b`.
- DOM access is left out: `setAttribute`/`removeAttribute` beyond the badge title and the table's `data-key`, `dom.replaceChildren`, `textContent`, `focus()` (select, search, autofocus), and the log call in the select's `focus`.
- The asynchronous lifecycle calls (`await super.onCreate`, `onData`, `onFrame`) are left out. The table's in-flight guard is a sequential flag split into a start and a finish around the awaited host call. The host's `_on_data` handler, when there is one, is a parameter giving the rows it leaves behind.
- Callbacks (`_on_open`, `_on_close`, `_on_toggle`, `_on_select`, `_on_change`, `_on_input`, `_on_clear`) are opaque. The model records which fire, in order, not what they do. A callback that changes the widget re-entrantly is not modelled.
- A column's `render` function is an opaque parameter. The model fixes which of the three kinds of result it gives for each cell.
- Numbers are whole numbers or one of NaN, +Infinity and -Infinity. Fractional pixel values and fractional timestamps are not modelled. `performance.now()` becomes a whole-millisecond parameter of each frame.
- The toast's `__ready` flag is set at the end of its constructor and never cleared. The model therefore rebuilds on every `_icon`/`_actions`/`_closable` write after construction.
- The `/\s+/` class splitter and `trim` use a fixed set of ten whitespace characters: space, tab, line feed, vertical tab, form feed, carriage return, no-break space, U+FEFF, U+2028 and U+2029. The other Unicode space separators that JavaScript also counts (U+1680, U+2000 to U+200A, U+202F, U+205F, U+3000) are not included.
- `toLowerCase` on style property names is modelled on ASCII letters only.
- The trivial getters (`isOpen`, `isCollapsed`, the `_x` read accessors) are read directly from the fields and have no contracts of their own.
- `String(v)` for arrays and objects is only pinned down for strings and whole numbers. The texts of other values (arrays, objects, functions, non-finite numbers) are fixed but not stated.
- Values.Field: reading a key of null or undefined throws a TypeError in JavaScript; here it reads undefined and rendering goes on. So the model renders where the source throws for a null or undefined entry of `_options` (the select's option builder), of `_items` (the nav list's item value) and of `_columns` (the table's header and body cells).
- Table.CellAt: a column whose `render` is truthy but not a function makes the source throw when a body cell is rendered; the model applies the opaque render to any truthy `render`, and a null column renders instead of throwing (see Values.Field).
- Stack.XStack.constructor: the class is stated as one pass over the final settings. When `_class` is parsed before a layout setter runs, the parse-time pass moves the `_class` extras ahead of the modifiers the final pass re-adds, so the source's token order can differ from the model's (`{_class: "xstack--h c", _gap: 4}` gives "xstack xstack--v c xstack--h" there and "xstack xstack--v xstack--h c" here); the set of tokens is the same.
- Values.Index: reading a key from a value reads an object's own fields and an array's or string's positions and length only. Inherited properties, such as methods on the prototype chain, and properties of functions, numbers and booleans read as undefined.
- Trim: the contract of the function itself gives only that the result is trimmed and no longer than the input. That the result is the input with whitespace cut from both ends is stated by Text.TrimSlice.
- Px: the contract of the function itself gives the "px" suffix and the character set only. That the number reads back, and that different numbers give different lengths, is stated by Text.PxReadsBack and Text.PxInjective.
- SetText: the contract of the function itself gives only that the number of children is kept. That the nodes with the id get the text and nothing else changes is stated by Nodes.SetTextTexts and Nodes.SetTextErased.
- ModalLayout: the contract does not give the stacks' gap and alignment attributes or the close button's glyph. Modal.ModalStackAttrs states them.
- The table's `emptyDataSource` hook and the host's data-store subscription are left out. The data store is a map passed to each render.
- `Field.XField.UpdateErrorNode`: the source's rebuild branch for "a hint exists but no hint node" cannot be reached while the field's invariant holds, so the model marks it unreachable.
- The section and sidebar constructors set `_children` to a new empty array on the caller's configuration object. For the section, `Section.TakeChildren` gives the updated configuration as a new value instead of writing through the caller's reference. The sidebar model leaves out this write.
- The demo applications, the type-tag registration table and the build configuration are not part of this model.

## Findings

| source | as written | input that shows it | evidently intended | confidence | as-written member | corrected member |
|---|---|---|---|---|---|---|
| src/xsection.ts:182-183 | the `_title` setter rebuilds only when header presence flips, then rewrites the title label; clearing the title while a subtitle keeps the header leaves the title label in place with empty text | title "T", subtitle "S", then set `_title` to "" | the title label disappears when the title becomes blank, as it does on a rebuild | high (not executed) | Section.StaleTitle | Section.XSection.SetTitleFixed |
| src/xsection.ts:201-202 | the `_subtitle` setter has the same gap: clearing the subtitle while the title keeps the header leaves an empty subtitle label | title "T", subtitle "S", then set `_subtitle` to "" | the subtitle label disappears when the subtitle becomes blank | high (not executed) | Section.StaleSubtitle | Section.XSection.SetSubtitleFixed |
| src/xsection.ts:224-236 | clearing the actions while the title keeps the header leaves an empty actions container in the header | title "T", one action, then set `_actions` to [] | the actions block disappears when there are no actions, as it does on a rebuild | high (not executed) | Section.StaleActions | Section.XSection.SetActionsFixed |
| src/xmodal.ts:126 | the close button's text is the two characters "Ã—", the UTF-8 bytes of "×" read as Windows-1252 | any closable modal | the close button shows "×" | high (not executed) | Modal.GlyphMisread | Modal.CloseGlyphShared |
| src/xsidebar.ts:356-366 | the `_title` setter rebuilds only when header presence flips, otherwise it rewrites the title label if there is one; a new title on a sidebar whose header is already there for its subtitle gets no label | subtitle "S" only, then set `_title` to "T" | the title label exists exactly when the title is non-blank | high (not executed) | Sidebar.MissingTitle | Sidebar.XSidebar.SetTitleFixed |
| src/xsidebar.ts:356-366 | with the same rule a blanked title keeps its label, now showing "" | title "T" and subtitle "S", then set `_title` to "" | the title label disappears when the title becomes blank | high (not executed) | Sidebar.StaleTitle | Sidebar.XSidebar.SetTitleFixed |
| src/xsidebar.ts:372-382 | the `_subtitle` setter has the same rule; a new subtitle on a sidebar whose header is already there for its title gets no label | title "T" only, then set `_subtitle` to "S" | the subtitle label exists exactly when the subtitle is non-blank | high (not executed) | Sidebar.MissingSubtitle | Sidebar.XSidebar.SetSubtitleFixed |
| src/xempty.ts:44-46 | `parse` runs the setters, which rebuild and so append a stack; the constructor then appends a second stack with the same ids | a configuration with only `_title: "T"` | one stack after construction | medium (not executed) | Empty.TwoStacksForTitle | Empty.XEmptyState.constructor |
| src/xdrawer.ts:58-64 | `parse` runs the `_closable` and `_scroll` setters, which rebuild and so append a panel; the constructor then appends a second panel with the same ids | a configuration with only `_closable: true` | one panel after construction | medium (not executed) | Drawer.TwoPanelsForClosable | Drawer.XDrawer.constructor |

=== FILE: badge.dfy ===
/** XBadge: a small status label made of a dot and a text label. Variant,
    size, pill and dot are shown through modifier classes; an optional title
    becomes the element's `title` attribute. */
module Badge {
  import opened Text
  import opened Values
  import opened Classes
  import opened Names
  import opened Nodes

  datatype Variant = Default | Success | Warn | Error | Info
  datatype Size = Sm | Md

  /** The class tokens the widget owns. */
  const OwnTokens: set<string> := {
    "xbadge", "xbadge--default", "xbadge--success", "xbadge--warn", "xbadge--error", "xbadge--info",
    "xbadge--sm", "xbadge--md", "xbadge--pill", "xbadge--dot"}

  /** The four named variants are kept; anything else is "default". */
  function NormalizeVariant(v: Value): (r: Variant)
    ensures v == Str("success") <==> r == Success
    ensures v == Str("warn") <==> r == Warn
    ensures v == Str("error") <==> r == Error
    ensures v == Str("info") <==> r == Info
  {
    if v == Str("success") then Success
    else if v == Str("warn") then Warn
    else if v == Str("error") then Error
    else if v == Str("info") then Info
    else Default
  }

  /** Only "sm" is small. */
  function NormalizeSize(v: Value): (r: Size)
    ensures r == Sm <==> v == Str("sm")
  {
    if v == Str("sm") then Sm else Md
  }

  /** `_pill` at construction: absent means true, anything else goes through
      the true/"true" test. */
  function InitialPill(v: Value): (r: bool)
    ensures v == Undef ==> r
    ensures v != Undef ==> (r <==> v == Bool(true) || v == Str("true"))
  {
    if v == Undef then true else IsTrue(v)
  }

  function VariantToken(v: Variant): string {
    match v
    case Default => "xbadge--default"
    case Success => "xbadge--success"
    case Warn => "xbadge--warn"
    case Error => "xbadge--error"
    case Info => "xbadge--info"
  }

  function SizeToken(s: Size): string {
    if s == Sm then "xbadge--sm" else "xbadge--md"
  }

  function Lead(v: Variant, s: Size): seq<string> {
    ["xbadge", VariantToken(v), SizeToken(s)]
  }

  function Trail(pill: bool, dot: bool): seq<string> {
    (if pill then ["xbadge--pill"] else []) + (if dot then ["xbadge--dot"] else [])
  }

  /** `buildClassName()`. */
  function BadgeClass(existing: string, v: Variant, s: Size, pill: bool, dot: bool): string {
    ClassName(Lead(v, s), existing, OwnTokens, Trail(pill, dot))
  }

  lemma VariantPlain(v: Variant) ensures Plain(VariantToken(v)) {}
  lemma SizePlain(s: Size) ensures Plain(SizeToken(s)) {}

  lemma LeadTokens(v: Variant, s: Size)
    ensures Tokens(Lead(v, s)) && NoDup(Lead(v, s))
    ensures forall x | x in Lead(v, s) :: x in OwnTokens
  {
    VariantPlain(v);
    SizePlain(s);
    PlainTokens("xbadge", VariantToken(v));
    PlainToken(SizeToken(s));
    TokensAppend(["xbadge", VariantToken(v)], [SizeToken(s)]);
    assert ["xbadge", VariantToken(v)] + [SizeToken(s)] == Lead(v, s);
  }

  lemma TrailTokens(pill: bool, dot: bool)
    ensures Tokens(Trail(pill, dot))
    ensures forall x | x in Trail(pill, dot) :: x in OwnTokens
  {
    var p := if pill then ["xbadge--pill"] else [];
    var d := if dot then ["xbadge--dot"] else [];
    assert Tokens(p) by {
      if pill {
        PlainToken("xbadge--pill");
      }
    }
    assert Tokens(d) by {
      if dot {
        PlainToken("xbadge--dot");
      }
    }
    TokensAppend(p, d);
  }

  /** The class starts with "xbadge", the variant modifier and the size
      modifier, holds each token once, keeps the caller's classes other than
      the ten the widget owns, and ends with the pill and dot modifiers when
      set. */
  lemma BadgeClassShape(existing: string, v: Variant, s: Size, pill: bool, dot: bool)
    ensures |Words(BadgeClass(existing, v, s, pill, dot))| >= 3
    ensures Words(BadgeClass(existing, v, s, pill, dot))[..3] == ["xbadge", VariantToken(v), SizeToken(s)]
    ensures NoDup(Words(BadgeClass(existing, v, s, pill, dot)))
    ensures forall x :: x in Words(BadgeClass(existing, v, s, pill, dot)) <==>
      x in Lead(v, s) || (x in Words(existing) && x !in OwnTokens) || x in Trail(pill, dot)
  {
    LeadTokens(v, s);
    TrailTokens(pill, dot);
    ClassTokensShape(Lead(v, s), existing, OwnTokens, Trail(pill, dot));
  }

  /** Exactly one variant modifier, the current one: a caller's stale
      modifier (say "xbadge--success" on a badge now "warn") is gone. */
  lemma BadgeVariant(existing: string, v: Variant, s: Size, pill: bool, dot: bool)
    ensures forall w :: VariantToken(w) in Words(BadgeClass(existing, v, s, pill, dot)) <==> w == v
  {
    BadgeClassShape(existing, v, s, pill, dot);
    forall w ensures VariantToken(w) in Lead(v, s) <==> w == v {
      VariantInLead(w, v, s);
    }
    forall w ensures VariantToken(w) in OwnTokens && VariantToken(w) !in Trail(pill, dot) {
      VariantOwned(w, pill, dot);
    }
  }

  /** Exactly one size modifier, the current one. */
  lemma BadgeSize(existing: string, v: Variant, s: Size, pill: bool, dot: bool)
    ensures forall z :: SizeToken(z) in Words(BadgeClass(existing, v, s, pill, dot)) <==> z == s
  {
    BadgeClassShape(existing, v, s, pill, dot);
    forall z ensures SizeToken(z) in Lead(v, s) <==> z == s {
      SizeInLead(z, v, s);
    }
    forall z ensures SizeToken(z) in OwnTokens && SizeToken(z) !in Trail(pill, dot) {
      SizeOwned(z, pill, dot);
    }
  }

  /** The pill and dot modifiers exactly when set. */
  lemma BadgeFlags(existing: string, v: Variant, s: Size, pill: bool, dot: bool)
    ensures "xbadge--pill" in Words(BadgeClass(existing, v, s, pill, dot)) <==> pill
    ensures "xbadge--dot" in Words(BadgeClass(existing, v, s, pill, dot)) <==> dot
  {
    BadgeClassShape(existing, v, s, pill, dot);
    FlagsNotLead(v, s);
  }

  lemma VariantInLead(w: Variant, v: Variant, s: Size)
    ensures VariantToken(w) in Lead(v, s) <==> w == v
  {
    assert VariantToken(w) != "xbadge";
    assert VariantToken(w) != SizeToken(s);
  }

  lemma VariantOwned(w: Variant, pill: bool, dot: bool)
    ensures VariantToken(w) in OwnTokens && VariantToken(w) !in Trail(pill, dot)
  {
  }

  lemma SizeInLead(z: Size, v: Variant, s: Size)
    ensures SizeToken(z) in Lead(v, s) <==> z == s
  {
    assert SizeToken(z) != "xbadge";
    assert SizeToken(z) != VariantToken(v);
  }

  lemma SizeOwned(z: Size, pill: bool, dot: bool)
    ensures SizeToken(z) in OwnTokens && SizeToken(z) !in Trail(pill, dot)
  {
  }

  lemma FlagsNotLead(v: Variant, s: Size)
    ensures "xbadge--pill" !in Lead(v, s) && "xbadge--dot" !in Lead(v, s)
    ensures "xbadge--pill" in OwnTokens && "xbadge--dot" in OwnTokens
  {
  }

  /** A pass with new settings replaces the class of any earlier pass. */
  lemma BadgeClassOverride(existing: string, v1: Variant, s1: Size, p1: bool, d1: bool,
                           v2: Variant, s2: Size, p2: bool, d2: bool)
    ensures BadgeClass(BadgeClass(existing, v1, s1, p1, d1), v2, s2, p2, d2) == BadgeClass(existing, v2, s2, p2, d2)
  {
    LeadTokens(v1, s1);
    LeadTokens(v2, s2);
    TrailTokens(p1, d1);
    TrailTokens(p2, d2);
    ClassNameOverride(Lead(v1, s1), Trail(p1, d1), Lead(v2, s2), Trail(p2, d2), existing, OwnTokens);
  }

  function DotId(id: string): string { id + "_dot" }
  function TextId(id: string): string { id + "_text" }

  /** `buildSkeleton()` with the text label showing `t`. */
  function Skeleton(id: string, t: string): seq<Node> {
    [Make("label", DotId(id), "xbadge__dot", "", []), Make("label", TextId(id), "xbadge__text", t, [])]
  }

  /** `applyText()` on a built badge writes the text label and nothing else:
      the dot stays empty. */
  lemma ApplyTextSkeleton(id: string, t0: string, t: string)
    ensures SetText(Skeleton(id, t0), TextId(id), t) == Skeleton(id, t)
  {
    assert |DotId(id)| != |TextId(id)|;
    var d := Make("label", DotId(id), "xbadge__dot", "", []);
    var x := Make("label", TextId(id), "xbadge__text", t0, []);
    assert SetNodeText(d, TextId(id), t) == d;
    assert SetNodeText(x, TextId(id), t) == Make("label", TextId(id), "xbadge__text", t, []);
    assert Skeleton(id, t0) == [d] + [x];
    SetTextAppend([d], [x], TextId(id), t);
  }

  /** The `title` attribute `applyLayout` leaves: set to the title's text when
      the title is truthy, removed otherwise. */
  function TitleAttr(title: Value): (r: Option<string>)
    ensures r.Some? <==> Truthy(title)
    ensures r.Some? ==> r.value == ToStr(title)
  {
    if Truthy(title) then Some(ToStr(title)) else None
  }

  class XBadge {
    const id: string
    var cls: string
    var children: seq<Node>
    var text: string
    var variant: Variant
    var size: Size
    var pill: bool
    var dot: bool
    /** `__title`, as `_title` was last given. */
    var title: Value
    /** The element's `title` attribute. */
    var titleAttr: Option<string>

    /** `applyLayout()`: the class and the title attribute. */
    method ApplyLayout()
      modifies this
      ensures cls == BadgeClass(old(cls), variant, size, pill, dot)
      ensures titleAttr == TitleAttr(title)
      ensures children == old(children) && text == old(text) && variant == old(variant) && size == old(size)
      ensures pill == old(pill) && dot == old(dot) && title == old(title)
    {
      cls := BadgeClass(cls, variant, size, pill, dot);
      if Truthy(title) {
        titleAttr := Some(ToStr(title));
      } else {
        titleAttr := None;
      }
    }

    /** `applyText()`: the text label shows the stored text. */
    method ApplyText()
      modifies this
      ensures children == SetText(old(children), TextId(id), text)
      ensures cls == old(cls) && text == old(text) && variant == old(variant) && size == old(size)
      ensures pill == old(pill) && dot == old(dot) && title == old(title) && titleAttr == old(titleAttr)
    {
      children := SetText(children, TextId(id), text);
    }

    /** Construction: the host's `parse` runs the setters of the keys the
        configuration has, then `applyProps` reads them back through the
        getters, then `buildSkeleton`, `applyLayout`, `applyText`. So `_text`
        ends as the setter's `String(v ?? "")`: 0 and false give "0" and
        "false". The other keys read back as `applyProps` alone would
        normalise them. The host-assigned id is a parameter. */
    constructor(hostId: string, data: Value)
      ensures id == hostId
      ensures text == TextOrEmpty(Field(data, "_text"))
      ensures variant == NormalizeVariant(Field(data, "_variant")) && size == NormalizeSize(Field(data, "_size"))
      ensures pill == InitialPill(Field(data, "_pill")) && dot == IsTrue(Field(data, "_dot"))
      ensures title == (if Truthy(Field(data, "_title")) then Str(ToStr(Field(data, "_title"))) else Undef)
      ensures cls == BadgeClass(if Truthy(Field(data, "class")) then ToStr(Field(data, "class")) else "xbadge", variant, size, pill, dot)
      ensures titleAttr == TitleAttr(title)
      ensures children == Skeleton(hostId, text)
    {
      id := hostId;
      cls := if Truthy(Field(data, "class")) then ToStr(Field(data, "class")) else "xbadge";
      text := TextOrEmpty(Field(data, "_text"));
      variant := NormalizeVariant(Field(data, "_variant"));
      size := NormalizeSize(Field(data, "_size"));
      pill := InitialPill(Field(data, "_pill"));
      dot := IsTrue(Field(data, "_dot"));
      title := if Truthy(Field(data, "_title")) then Str(ToStr(Field(data, "_title"))) else Undef;
      titleAttr := None;
      children := Skeleton(hostId, "");
      new;
      ApplyLayout();
      ApplyText();
      ApplyTextSkeleton(hostId, "", text);
    }

    /** `setText(t)`: stores the text verbatim and shows it. */
    method SetLabel(t: string)
      modifies this
      ensures text == t
      ensures children == SetText(old(children), TextId(id), t)
      ensures cls == old(cls) && variant == old(variant) && size == old(size)
      ensures pill == old(pill) && dot == old(dot) && title == old(title) && titleAttr == old(titleAttr)
    {
      text := t;
      ApplyText();
    }

    /** The `_text` setter: null and undefined become "". */
    method SetTextValue(v: Value)
      modifies this
      ensures text == TextOrEmpty(v)
      ensures children == SetText(old(children), TextId(id), text)
      ensures cls == old(cls) && variant == old(variant) && size == old(size)
      ensures pill == old(pill) && dot == old(dot) && title == old(title) && titleAttr == old(titleAttr)
    {
      SetLabel(TextOrEmpty(v));
    }

    /** `setVariant` and the `_variant` setter. */
    method SetVariant(v: Value)
      modifies this
      ensures variant == NormalizeVariant(v)
      ensures cls == BadgeClass(old(cls), variant, size, pill, dot) && titleAttr == TitleAttr(title)
      ensures children == old(children) && text == old(text) && size == old(size)
      ensures pill == old(pill) && dot == old(dot) && title == old(title)
    {
      variant := NormalizeVariant(v);
      ApplyLayout();
    }

    /** The `_size` setter. */
    method SetSize(v: Value)
      modifies this
      ensures size == NormalizeSize(v)
      ensures cls == BadgeClass(old(cls), variant, size, pill, dot) && titleAttr == TitleAttr(title)
      ensures children == old(children) && text == old(text) && variant == old(variant)
      ensures pill == old(pill) && dot == old(dot) && title == old(title)
    {
      size := NormalizeSize(v);
      ApplyLayout();
    }

    /** `setPill` and the `_pill` setter: here an absent value means false. */
    method SetPill(v: Value)
      modifies this
      ensures pill == IsTrue(v)
      ensures cls == BadgeClass(old(cls), variant, size, pill, dot) && titleAttr == TitleAttr(title)
      ensures children == old(children) && text == old(text) && variant == old(variant)
      ensures size == old(size) && dot == old(dot) && title == old(title)
    {
      pill := IsTrue(v);
      ApplyLayout();
    }

    /** `setDot` and the `_dot` setter. */
    method SetDot(v: Value)
      modifies this
      ensures dot == IsTrue(v)
      ensures cls == BadgeClass(old(cls), variant, size, pill, dot) && titleAttr == TitleAttr(title)
      ensures children == old(children) && text == old(text) && variant == old(variant)
      ensures size == old(size) && pill == old(pill) && title == old(title)
    {
      dot := IsTrue(v);
      ApplyLayout();
    }

    /** The `_title` setter keeps the raw value. */
    method SetTitle(v: Value)
      modifies this
      ensures title == v
      ensures cls == BadgeClass(old(cls), variant, size, pill, dot) && titleAttr == TitleAttr(title)
      ensures children == old(children) && text == old(text) && variant == old(variant)
      ensures size == old(size) && pill == old(pill) && dot == old(dot)
    {
      title := v;
      ApplyLayout();
    }
  }
}

=== FILE: card.dfy ===
/** XCard: an image, a title, a text, a link and an actions row. Each label
    shows its trimmed value or a fixed placeholder; the class carries a
    no-image modifier. */
module Card {
  import opened Text
  import opened Values
  import opened Classes
  import opened Names
  import opened Nodes
  import opened Labels

  const ImagePlaceholder: string := "https://via.placeholder.com/600x200?text=Card"
  const TitlePlaceholder: string := "Card title"
  const TextPlaceholder: string := "Card text..."
  const HrefPlaceholder: string := "#"
  const LinkTextPlaceholder: string := "Learn more"
  const ImageAltPlaceholder: string := "Card image"

  const OwnTokens: set<string> := {"xcard", "xcard--no-image"}

  function NoImage(hidden: bool): seq<string> {
    if hidden then ["xcard--no-image"] else []
  }

  /** `buildClassName()`. */
  function CardClass(existing: string, hidden: bool): string {
    ClassName(["xcard"], existing, OwnTokens, NoImage(hidden))
  }

  lemma LeadTokens(hidden: bool)
    ensures Tokens(["xcard"]) && NoDup(["xcard"]) && Tokens(NoImage(hidden))
    ensures forall x | x in NoImage(hidden) :: x in OwnTokens
  {
    PlainToken("xcard");
    if hidden {
      PlainToken("xcard--no-image");
    }
  }

  /** The class starts with "xcard", holds each token once, keeps the
      caller's other classes, and has the no-image modifier exactly when the
      image is hidden. */
  lemma CardClassShape(existing: string, hidden: bool)
    ensures |Words(CardClass(existing, hidden))| >= 1 && Words(CardClass(existing, hidden))[0] == "xcard"
    ensures NoDup(Words(CardClass(existing, hidden)))
    ensures forall x :: x in Words(CardClass(existing, hidden)) <==>
      x == "xcard" || (x in Words(existing) && x !in OwnTokens) || (hidden && x == "xcard--no-image")
    ensures "xcard--no-image" in Words(CardClass(existing, hidden)) <==> hidden
  {
    LeadTokens(hidden);
    ClassTokensShape(["xcard"], existing, OwnTokens, NoImage(hidden));
    assert ClassTokens(["xcard"], existing, OwnTokens, NoImage(hidden))[..1] == ["xcard"];
  }

  /** A pass with a new flag replaces the class of any earlier pass. */
  lemma CardClassOverride(existing: string, h1: bool, h2: bool)
    ensures CardClass(CardClass(existing, h1), h2) == CardClass(existing, h2)
  {
    LeadTokens(h1);
    LeadTokens(h2);
    ClassNameOverride(["xcard"], NoImage(h1), ["xcard"], NoImage(h2), existing, OwnTokens);
  }

  /** `Array.isArray(v) ? v : undefined`. */
  function OptItems(v: Value): (r: Option<seq<Value>>)
    ensures r.Some? <==> v.Arr?
    ensures v.Arr? ==> r.value == v.items
  {
    if v.Arr? then Some(v.items) else None
  }

  function ItemsOf(o: Option<seq<Value>>): seq<Value> {
    if o.Some? then o.value else []
  }

  /** The placeholders are shown as given: none is blank or padded. */
  lemma PlaceholdersTrimmed()
    ensures Trimmed(ImagePlaceholder) && Trimmed(TitlePlaceholder) && Trimmed(TextPlaceholder)
    ensures Trimmed(HrefPlaceholder) && Trimmed(LinkTextPlaceholder) && Trimmed(ImageAltPlaceholder)
  {
    ImagePlaceholderTrimmed();
    assert TitlePlaceholder[0] == 'C' && TitlePlaceholder[9] == 'e';
    assert TextPlaceholder[0] == 'C' && TextPlaceholder[11] == '.';
    assert LinkTextPlaceholder[0] == 'L' && LinkTextPlaceholder[9] == 'e';
    assert ImageAltPlaceholder[0] == 'C' && ImageAltPlaceholder[9] == 'e';
  }

  lemma ImagePlaceholderTrimmed()
    ensures Trimmed(ImagePlaceholder)
  {
    var u := ImagePlaceholder;
    assert u == "https://via.placeholder.com/" + "600x200?text=Card";
    assert u[0] == 'h';
    assert u[|u| - 1] == 'd';
  }

  /** What the card's child nodes show: the image's source and alt text, the
      title and text labels, the link's text and target, and the actions
      container's children. */
  datatype CardView = CardView(src: string, alt: string, title: string, text: string,
                               link: string, href: string, actions: seq<Node>)

  class XCard {
    var cls: string
    var image: Option<string>
    var imageAlt: Option<string>
    var title: Option<string>
    var text: string
    var href: Option<string>
    var linkText: Option<string>
    var actions: Option<seq<Value>>
    var hideImage: bool
    var view: CardView

    /** Every child shows what its resolver gives for the current fields. */
    predicate Shown()
      reads this
    {
      view == CardView(Resolve(image, ImagePlaceholder), Resolve(imageAlt, ImageAltPlaceholder),
                       Resolve(title, TitlePlaceholder), Resolve(Some(text), TextPlaceholder),
                       Resolve(linkText, LinkTextPlaceholder), Resolve(href, HrefPlaceholder),
                       Users(ItemsOf(actions)))
    }

    /** Every label a built card shows is trimmed and never blank. */
    lemma ShownLabels()
      requires Shown()
      ensures view.src != "" && view.alt != "" && view.title != "" && view.text != "" && view.link != "" && view.href != ""
      ensures Trimmed(view.src) && Trimmed(view.alt) && Trimmed(view.title) && Trimmed(view.text)
      ensures Trimmed(view.link) && Trimmed(view.href)
    {
      PlaceholdersTrimmed();
      ResolveShape(image, ImagePlaceholder);
      ResolveShape(imageAlt, ImageAltPlaceholder);
      ResolveShape(title, TitlePlaceholder);
      ResolveShape(Some(text), TextPlaceholder);
      ResolveShape(linkText, LinkTextPlaceholder);
      ResolveShape(href, HrefPlaceholder);
    }

    /** `updateActions()`: the container's children are removed one by one,
        then the current actions are appended in order. */
    method UpdateActions()
      modifies this
      ensures view == old(view).(actions := Users(ItemsOf(actions)))
      ensures cls == old(cls) && image == old(image) && imageAlt == old(imageAlt) && title == old(title)
      ensures text == old(text) && href == old(href) && linkText == old(linkText) && actions == old(actions)
      ensures hideImage == old(hideImage)
    {
      while view.actions != []
        invariant view == old(view).(actions := view.actions)
        invariant cls == old(cls) && image == old(image) && imageAlt == old(imageAlt) && title == old(title)
        invariant text == old(text) && href == old(href) && linkText == old(linkText) && actions == old(actions)
        invariant hideImage == old(hideImage)
        decreases |view.actions|
      {
        view := view.(actions := view.actions[1..]);
      }
      var items := ItemsOf(actions);
      var i := 0;
      while i < |items|
        invariant 0 <= i <= |items|
        invariant view == old(view).(actions := Users(items[..i]))
        invariant cls == old(cls) && image == old(image) && imageAlt == old(imageAlt) && title == old(title)
        invariant text == old(text) && href == old(href) && linkText == old(linkText) && actions == old(actions)
        invariant hideImage == old(hideImage)
      {
        view := view.(actions := view.actions + [User(items[i])]);
        i := i + 1;
      }
      assert items[..i] == items;
    }

    /** Construction: `applyProps`, then the skeleton showing the resolved
        image and the actions, the class, and every label. */
    constructor(data: Value)
      ensures image == OptText(Field(data, "_image")) && imageAlt == OptText(Field(data, "_image_alt"))
      ensures title == OptText(Field(data, "_title")) && text == TruthyText(Field(data, "_text"))
      ensures href == OptText(Field(data, "_href")) && linkText == OptText(Field(data, "_link_text"))
      ensures actions == OptItems(Field(data, "_actions"))
      ensures hideImage == BoolOr(Field(data, "_hide_image"), false)
      ensures cls == CardClass(if Truthy(Field(data, "class")) then ToStr(Field(data, "class")) else "xcard", hideImage)
      ensures Shown()
    {
      image := OptText(Field(data, "_image"));
      title := OptText(Field(data, "_title"));
      text := TruthyText(Field(data, "_text"));
      href := OptText(Field(data, "_href"));
      linkText := OptText(Field(data, "_link_text"));
      actions := OptItems(Field(data, "_actions"));
      imageAlt := OptText(Field(data, "_image_alt"));
      hideImage := BoolOr(Field(data, "_hide_image"), false);
      cls := if Truthy(Field(data, "class")) then ToStr(Field(data, "class")) else "xcard";
      view := CardView(Resolve(OptText(Field(data, "_image")), ImagePlaceholder),
                       Resolve(OptText(Field(data, "_image_alt")), ImageAltPlaceholder),
                       "", "", "", "", Users(ItemsOf(OptItems(Field(data, "_actions")))));
      new;
      cls := CardClass(cls, hideImage);
      ApplyText();
    }

    /** `applyText()`: every child is refreshed from the current fields. */
    method ApplyText()
      modifies this
      ensures Shown()
      ensures cls == old(cls) && image == old(image) && imageAlt == old(imageAlt) && title == old(title)
      ensures text == old(text) && href == old(href) && linkText == old(linkText) && actions == old(actions)
      ensures hideImage == old(hideImage)
    {
      UpdateImage();
      UpdateTitle();
      UpdateText();
      UpdateLink();
      UpdateActions();
    }

    method UpdateImage()
      modifies this
      ensures view == old(view).(src := Resolve(image, ImagePlaceholder), alt := Resolve(imageAlt, ImageAltPlaceholder))
      ensures cls == old(cls) && image == old(image) && imageAlt == old(imageAlt) && title == old(title)
      ensures text == old(text) && href == old(href) && linkText == old(linkText) && actions == old(actions)
      ensures hideImage == old(hideImage)
    {
      view := view.(src := Resolve(image, ImagePlaceholder), alt := Resolve(imageAlt, ImageAltPlaceholder));
    }

    method UpdateTitle()
      modifies this
      ensures view == old(view).(title := Resolve(title, TitlePlaceholder))
      ensures cls == old(cls) && image == old(image) && imageAlt == old(imageAlt) && title == old(title)
      ensures text == old(text) && href == old(href) && linkText == old(linkText) && actions == old(actions)
      ensures hideImage == old(hideImage)
    {
      view := view.(title := Resolve(title, TitlePlaceholder));
    }

    method UpdateText()
      modifies this
      ensures view == old(view).(text := Resolve(Some(text), TextPlaceholder))
      ensures cls == old(cls) && image == old(image) && imageAlt == old(imageAlt) && title == old(title)
      ensures text == old(text) && href == old(href) && linkText == old(linkText) && actions == old(actions)
      ensures hideImage == old(hideImage)
    {
      view := view.(text := Resolve(Some(text), TextPlaceholder));
    }

    method UpdateLink()
      modifies this
      ensures view == old(view).(link := Resolve(linkText, LinkTextPlaceholder), href := Resolve(href, HrefPlaceholder))
      ensures cls == old(cls) && image == old(image) && imageAlt == old(imageAlt) && title == old(title)
      ensures text == old(text) && href == old(href) && linkText == old(linkText) && actions == old(actions)
      ensures hideImage == old(hideImage)
    {
      view := view.(link := Resolve(linkText, LinkTextPlaceholder), href := Resolve(href, HrefPlaceholder));
    }

    /** The `_image` setter: falsy input is stored as absent; only the image
        is refreshed. */
    method SetImage(v: Value)
      modifies this
      ensures image == OptText(v)
      ensures view == old(view).(src := Resolve(image, ImagePlaceholder), alt := Resolve(imageAlt, ImageAltPlaceholder))
      ensures cls == old(cls) && imageAlt == old(imageAlt) && title == old(title)
      ensures text == old(text) && href == old(href) && linkText == old(linkText) && actions == old(actions)
      ensures hideImage == old(hideImage)
    {
      image := OptText(v);
      UpdateImage();
    }

    /** The `_image_alt` setter. */
    method SetImageAlt(v: Value)
      modifies this
      ensures imageAlt == OptText(v)
      ensures view == old(view).(src := Resolve(image, ImagePlaceholder), alt := Resolve(imageAlt, ImageAltPlaceholder))
      ensures cls == old(cls) && image == old(image) && title == old(title)
      ensures text == old(text) && href == old(href) && linkText == old(linkText) && actions == old(actions)
      ensures hideImage == old(hideImage)
    {
      imageAlt := OptText(v);
      UpdateImage();
    }

    /** The `_title` setter: only the title label is refreshed. */
    method SetTitle(v: Value)
      modifies this
      ensures title == OptText(v)
      ensures view == old(view).(title := Resolve(title, TitlePlaceholder))
      ensures cls == old(cls) && image == old(image) && imageAlt == old(imageAlt)
      ensures text == old(text) && href == old(href) && linkText == old(linkText) && actions == old(actions)
      ensures hideImage == old(hideImage)
    {
      title := OptText(v);
      UpdateTitle();
    }

    /** The `_text` setter: falsy input is stored as "". */
    method SetText(v: Value)
      modifies this
      ensures text == TruthyText(v)
      ensures view == old(view).(text := Resolve(Some(text), TextPlaceholder))
      ensures cls == old(cls) && image == old(image) && imageAlt == old(imageAlt) && title == old(title)
      ensures href == old(href) && linkText == old(linkText) && actions == old(actions)
      ensures hideImage == old(hideImage)
    {
      text := TruthyText(v);
      UpdateText();
    }

    /** The `_href` setter: only the link is refreshed. */
    method SetHref(v: Value)
      modifies this
      ensures href == OptText(v)
      ensures view == old(view).(link := Resolve(linkText, LinkTextPlaceholder), href := Resolve(href, HrefPlaceholder))
      ensures cls == old(cls) && image == old(image) && imageAlt == old(imageAlt) && title == old(title)
      ensures text == old(text) && linkText == old(linkText) && actions == old(actions)
      ensures hideImage == old(hideImage)
    {
      href := OptText(v);
      UpdateLink();
    }

    /** The `_link_text` setter. */
    method SetLinkText(v: Value)
      modifies this
      ensures linkText == OptText(v)
      ensures view == old(view).(link := Resolve(linkText, LinkTextPlaceholder), href := Resolve(href, HrefPlaceholder))
      ensures cls == old(cls) && image == old(image) && imageAlt == old(imageAlt) && title == old(title)
      ensures text == old(text) && href == old(href) && actions == old(actions)
      ensures hideImage == old(hideImage)
    {
      linkText := OptText(v);
      UpdateLink();
    }

    /** The `_actions` setter: a non-array is stored as absent; the actions
        container then holds exactly the new actions, in order. */
    method SetActions(v: Value)
      modifies this
      ensures actions == OptItems(v)
      ensures view == old(view).(actions := Users(ItemsOf(actions)))
      ensures cls == old(cls) && image == old(image) && imageAlt == old(imageAlt) && title == old(title)
      ensures text == old(text) && href == old(href) && linkText == old(linkText)
      ensures hideImage == old(hideImage)
    {
      actions := OptItems(v);
      UpdateActions();
    }

    /** The `_hide_image` setter: true/"true" and false/"false" decide,
        anything else is false; only the class changes. */
    method SetHideImage(v: Value)
      modifies this
      ensures hideImage == BoolOr(v, false)
      ensures cls == CardClass(old(cls), hideImage)
      ensures image == old(image) && imageAlt == old(imageAlt) && title == old(title)
      ensures text == old(text) && href == old(href) && linkText == old(linkText) && actions == old(actions)
      ensures view == old(view)
    {
      hideImage := BoolOr(v, false);
      cls := CardClass(cls, hideImage);
    }
  }
}

=== FILE: classes.dfy ===
/** Class handling shared by the widgets.

    `buildClassName` (stack, toolbar, scroll, divider, badge, card, KPI card,
    sidebar) splits the caller's `class` string into tokens, drops the
    widget's own tokens, and emits the widget's leading tokens, the surviving
    caller tokens and the widget's trailing modifiers, without duplicates,
    joined by single spaces.

    The other widgets call the host's `addClass`/`removeClass`/`replaceClass`,
    whose code is not part of this model; they are taken here to act on the
    element's class list as a set: `replaceClass(a, b)` removes every
    token of `a`, then adds every token of `b`. */
module Classes {
  import opened Text

  /** The token list `buildClassName` produces before joining. */
  function ClassTokens(lead: seq<string>, existing: string, managed: set<string>, trail: seq<string>): seq<string>
  {
    Dedup(Without(lead + Without(Words(existing), managed) + trail, {""}))
  }

  /** `buildClassName`: the token list joined by spaces. */
  function ClassName(lead: seq<string>, existing: string, managed: set<string>, trail: seq<string>): string
  {
    Join(ClassTokens(lead, existing, managed, trail), " ")
  }

  /** The class string holds each token once; it holds exactly the leading
      tokens, the caller's tokens that are not managed, and the trailing
      tokens; and it starts with the leading tokens in their order. */
  lemma {:induction false} ClassTokensShape(lead: seq<string>, existing: string, managed: set<string>, trail: seq<string>)
    requires Tokens(lead) && Tokens(trail) && NoDup(lead)
    ensures NoDup(ClassTokens(lead, existing, managed, trail))
    ensures forall x :: x in ClassTokens(lead, existing, managed, trail) <==>
      x in lead || (x in Words(existing) && x !in managed) || x in trail
    ensures |lead| <= |ClassTokens(lead, existing, managed, trail)|
    ensures ClassTokens(lead, existing, managed, trail)[..|lead|] == lead
    ensures Words(ClassName(lead, existing, managed, trail)) == ClassTokens(lead, existing, managed, trail)
  {
    ClassTokensMembers(lead, existing, managed, trail);
    ClassTokensPrefix(lead, existing, managed, trail);
    ClassNameWords(lead, existing, managed, trail);
  }

  /** With token inputs the empty-string filter removes nothing. */
  lemma ClassTokensIsDedup(lead: seq<string>, existing: string, managed: set<string>, trail: seq<string>)
    requires Tokens(lead) && Tokens(trail)
    ensures ClassTokens(lead, existing, managed, trail) == Dedup(lead + Without(Words(existing), managed) + trail)
  {
    var w := Without(Words(existing), managed);
    var all := lead + w + trail;
    WordsTokens(existing);
    WithoutTokens(Words(existing), managed);
    TokensNoEmpty(all, lead, w, trail);
    WithoutNone(all, {""});
  }

  /** When the widget's own tokens are all managed, distinct, and the
      leading ones differ from the trailing ones, the token list is exactly
      the leading tokens, the caller's unmanaged tokens each once in their
      first order, then the trailing tokens. */
  lemma ClassTokensOrder(lead: seq<string>, existing: string, managed: set<string>, trail: seq<string>)
    requires Tokens(lead) && Tokens(trail) && NoDup(lead) && NoDup(trail)
    requires forall x | x in lead :: x in managed && x !in trail
    requires forall x | x in trail :: x in managed
    ensures ClassTokens(lead, existing, managed, trail) == lead + Dedup(Without(Words(existing), managed)) + trail
  {
    var w := Without(Words(existing), managed);
    WithoutMembers(Words(existing), managed);
    ClassTokensIsDedup(lead, existing, managed, trail);
    DedupDisjoint(lead + w, trail);
    DedupDisjoint(lead, w);
    DedupOfNoDup(lead);
    DedupOfNoDup(trail);
  }

  lemma ClassTokensMembers(lead: seq<string>, existing: string, managed: set<string>, trail: seq<string>)
    requires Tokens(lead) && Tokens(trail)
    ensures NoDup(ClassTokens(lead, existing, managed, trail))
    ensures forall x :: x in ClassTokens(lead, existing, managed, trail) <==>
      x in lead || (x in Words(existing) && x !in managed) || x in trail
  {
    ClassTokensIsDedup(lead, existing, managed, trail);
    DedupNoDup(lead + Without(Words(existing), managed) + trail);
    DedupMembers(lead + Without(Words(existing), managed) + trail);
    WithoutMembers(Words(existing), managed);
  }

  lemma ClassTokensPrefix(lead: seq<string>, existing: string, managed: set<string>, trail: seq<string>)
    requires Tokens(lead) && Tokens(trail) && NoDup(lead)
    ensures |lead| <= |ClassTokens(lead, existing, managed, trail)|
    ensures ClassTokens(lead, existing, managed, trail)[..|lead|] == lead
  {
    ClassTokensIsDedup(lead, existing, managed, trail);
    DedupLead(lead, Without(Words(existing), managed), trail);
  }

  lemma DedupLead(lead: seq<string>, w: seq<string>, trail: seq<string>)
    requires NoDup(lead)
    ensures |lead| <= |Dedup(lead + w + trail)| && Dedup(lead + w + trail)[..|lead|] == lead
  {
    DedupOfNoDup(lead);
    assert lead + w + trail == lead + (w + trail);
    DedupPrefix(lead, w + trail);
  }

  lemma ClassNameWords(lead: seq<string>, existing: string, managed: set<string>, trail: seq<string>)
    requires Tokens(lead) && Tokens(trail)
    ensures Words(ClassName(lead, existing, managed, trail)) == ClassTokens(lead, existing, managed, trail)
  {
    ClassTokensTokens(lead, existing, managed, trail);
    WordsJoin(ClassTokens(lead, existing, managed, trail));
  }

  lemma ClassTokensTokens(lead: seq<string>, existing: string, managed: set<string>, trail: seq<string>)
    requires Tokens(lead) && Tokens(trail)
    ensures Tokens(ClassTokens(lead, existing, managed, trail))
  {
    var w := Without(Words(existing), managed);
    WordsTokens(existing);
    WithoutTokens(Words(existing), managed);
    var all := lead + w + trail;
    TokensNoEmpty(all, lead, w, trail);
    WithoutTokens(all, {""});
    DedupTokens(Without(all, {""}));
  }

  lemma WithoutTokens(xs: seq<string>, removed: set<string>)
    requires Tokens(xs)
    ensures Tokens(Without(xs, removed))
  {
    var r := Without(xs, removed);
    WithoutMembers(xs, removed);
    forall i | 0 <= i < |r| ensures r[i] != [] && NoSpace(r[i]) {
      assert r[i] in r;
      TokensMember(xs, r[i]);
    }
  }

  lemma TokensNoEmpty(all: seq<string>, lead: seq<string>, w: seq<string>, trail: seq<string>)
    requires Tokens(lead) && Tokens(trail)
    requires forall i | 0 <= i < |w| :: w[i] != [] && NoSpace(w[i])
    requires all == lead + w + trail
    ensures Tokens(all)
    ensures forall x | x in all :: x !in {""}
  {
    assert forall x | x in all :: x != "" by {
      forall x | x in all ensures x != "" {
        var i :| 0 <= i < |all| && all[i] == x;
      }
    }
  }

  lemma TokensMember(xs: seq<string>, x: string)
    requires Tokens(xs) && x in xs
    ensures x != [] && NoSpace(x)
  {
    var i :| 0 <= i < |xs| && xs[i] == x;
  }

  /** A later `buildClassName` pass with the same trailing tokens undoes an
      earlier one: composing the class from a string the widget itself
      produced gives what composing it from the caller's string would,
      provided the earlier leading tokens are all managed and the trailing
      tokens are either all managed or all unmanaged. With equal leading
      tokens this says a second pass changes nothing. */
  lemma ClassNameStable(lead1: seq<string>, lead2: seq<string>, existing: string, managed: set<string>, trail: seq<string>)
    requires Tokens(lead1) && Tokens(lead2) && Tokens(trail)
    requires forall x | x in lead1 :: x in managed
    requires (forall x | x in trail :: x in managed) || (forall x | x in trail :: x !in managed)
    ensures ClassName(lead2, ClassName(lead1, existing, managed, trail), managed, trail)
         == ClassName(lead2, existing, managed, trail)
  {
    var w := Without(Words(existing), managed);
    WordsTokens(existing);
    WithoutTokens(Words(existing), managed);
    ClassNameWords(lead1, existing, managed, trail);
    ClassTokensIsDedup(lead1, existing, managed, trail);
    ClassTokensIsDedup(lead2, existing, managed, trail);
    WithoutMembers(Words(existing), managed);
    StableTokens(lead1, lead2, w, managed, trail);
  }

  /** The token-level core of `ClassNameStable`. */
  lemma StableTokens(lead1: seq<string>, lead2: seq<string>, w: seq<string>, managed: set<string>, trail: seq<string>)
    requires Tokens(lead1) && Tokens(lead2) && Tokens(trail) && Tokens(w)
    requires forall x | x in lead1 :: x in managed
    requires forall x | x in w :: x !in managed
    requires (forall x | x in trail :: x in managed) || (forall x | x in trail :: x !in managed)
    ensures Dedup(Without(lead2 + Without(Dedup(lead1 + w + trail), managed) + trail, {""}))
         == Dedup(lead2 + w + trail)
  {
    WithoutDedup(lead1 + w + trail, managed);
    WithoutAppend(lead1 + w, trail, managed);
    WithoutAppend(lead1, w, managed);
    WithoutAllRemoved(lead1, managed);
    WithoutNone(w, managed);
    assert [] + w == w;
    if forall x | x in trail :: x in managed {
      WithoutAllRemoved(trail, managed);
      assert w + [] == w;
      StableManagedTrail(lead2, w, trail);
    } else {
      WithoutNone(trail, managed);
      StableUnmanagedTrail(lead2, w, trail);
    }
  }

  /** A later `buildClassName` pass undoes an earlier one whose own tokens
      are all managed: composing the class from a string the widget itself
      produced gives what composing it from the caller's string would. So the
      modifiers of the last pass are the only ones present (no stale modifier). */
  lemma ClassNameOverride(lead1: seq<string>, trail1: seq<string>, lead2: seq<string>, trail2: seq<string>,
                          existing: string, managed: set<string>)
    requires Tokens(lead1) && Tokens(trail1) && Tokens(lead2) && Tokens(trail2)
    requires forall x | x in lead1 :: x in managed
    requires forall x | x in trail1 :: x in managed
    ensures ClassName(lead2, ClassName(lead1, existing, managed, trail1), managed, trail2)
         == ClassName(lead2, existing, managed, trail2)
  {
    var w := Without(Words(existing), managed);
    WordsTokens(existing);
    WithoutTokens(Words(existing), managed);
    WithoutMembers(Words(existing), managed);
    assert Without(Words(ClassName(lead1, existing, managed, trail1)), managed) == Dedup(w) by {
      ClassNameWords(lead1, existing, managed, trail1);
      ClassTokensIsDedup(lead1, existing, managed, trail1);
      OwnRemoved(lead1, w, trail1, managed);
    }
    StableManagedTrail(lead2, w, trail2);
    ClassTokensIsDedup(lead2, existing, managed, trail2);
  }

  /** Removing the managed tokens from a first-seen list whose own tokens are
      all managed leaves the first-seen caller tokens. */
  lemma OwnRemoved(lead: seq<string>, w: seq<string>, trail: seq<string>, managed: set<string>)
    requires forall x | x in lead :: x in managed
    requires forall x | x in trail :: x in managed
    requires forall x | x in w :: x !in managed
    ensures Without(Dedup(lead + w + trail), managed) == Dedup(w)
  {
    WithoutDedup(lead + w + trail, managed);
    WithoutAppend(lead + w, trail, managed);
    WithoutAppend(lead, w, managed);
    WithoutAllRemoved(lead, managed);
    WithoutAllRemoved(trail, managed);
    WithoutNone(w, managed);
    assert [] + w + [] == w;
  }

  lemma WithoutAllRemoved(xs: seq<string>, removed: set<string>)
    requires forall x | x in xs :: x in removed
    ensures Without(xs, removed) == []
  {
  }

  lemma StableManagedTrail(lead: seq<string>, w: seq<string>, trail: seq<string>)
    requires Tokens(lead) && Tokens(trail) && Tokens(w)
    ensures Dedup(Without(lead + Dedup(w) + trail, {""})) == Dedup(lead + w + trail)
  {
    DedupTokens(w);
    DedupMembers(w);
    TokensNoEmpty(lead + Dedup(w) + trail, lead, Dedup(w), trail);
    WithoutNone(lead + Dedup(w) + trail, {""});
    DedupInner(lead, w);
    DedupCongruent(lead + Dedup(w), lead + w, trail);
  }

  lemma StableUnmanagedTrail(lead: seq<string>, w: seq<string>, trail: seq<string>)
    requires Tokens(lead) && Tokens(trail) && Tokens(w)
    ensures Dedup(Without(lead + Dedup(w + trail) + trail, {""})) == Dedup(lead + w + trail)
  {
    TokensNoEmpty(w + trail, w + trail, [], []);
    assert w + trail + [] == w + trail;
    DedupTokens(w + trail);
    DedupMembers(w + trail);
    TokensNoEmpty(lead + Dedup(w + trail) + trail, lead, Dedup(w + trail), trail);
    WithoutNone(lead + Dedup(w + trail) + trail, {""});
    DedupAbsorb(lead + Dedup(w + trail), trail);
    DedupInner(lead, w + trail);
    assert lead + (w + trail) == lead + w + trail;
  }

  lemma DedupTokens(xs: seq<string>)
    requires Tokens(xs)
    ensures Tokens(Dedup(xs))
  {
    var r := Dedup(xs);
    DedupMembers(xs);
    forall i | 0 <= i < |r| ensures r[i] != [] && NoSpace(r[i]) {
      assert r[i] in r;
      TokensMember(xs, r[i]);
    }
  }

  /** `replaceClass(gone, added)` on the element's class list. */
  function ReplaceClass(cs: set<string>, gone: set<string>, added: set<string>): (r: set<string>)
    ensures added <= r
    ensures forall x | x in gone && x !in added :: x !in r
    ensures forall x | x !in gone && x !in added :: x in r <==> x in cs
  {
    (cs - gone) + added
  }

  /** `addClass(c)` / `removeClass(c)` chosen by a flag. */
  function Toggle(cs: set<string>, c: string, on: bool): (r: set<string>)
    ensures c in r <==> on
    ensures forall x | x != c :: x in r <==> x in cs
  {
    if on then cs + {c} else cs - {c}
  }

  /** After replacing a family of modifiers by a choice among them, the family
      present on the element is exactly the choice: no stale modifier is left. */
  lemma ReplaceFamily(cs: set<string>, family: set<string>, chosen: set<string>)
    requires chosen <= family
    ensures ReplaceClass(cs, family, chosen) * family == chosen
  {
  }

  /** The element's class list as a set, read from a class string. */
  function ClassList(s: string): (r: set<string>)
    ensures forall x :: x in r <==> x in Words(s)
  {
    set x | x in Words(s)
  }
}

=== FILE: divider.dfy ===
/** XDivider: a horizontal or vertical rule. Its thickness, length and inset
    are passed to the stylesheet as custom properties; `applyLayout` rewrites
    the host's `class` and `style`. */
module Divider {
  import opened Text
  import opened Values
  import opened Styles
  import opened Classes
  import opened Names

  datatype Orientation = Horizontal | Vertical

  const Managed: set<string> := {"--xdivider-thickness", "--xdivider-length", "--xdivider-inset"}

  const OwnTokens: set<string> := {"xdivider", "xdivider--h", "xdivider--v", "xdivider--muted"}

  /** Only "vertical" is vertical. */
  function NormalizeOrientation(v: Value): (r: Orientation)
    ensures r == Vertical <==> v == Str("vertical")
  {
    if v == Str("vertical") then Vertical else Horizontal
  }

  /** A finite number above zero is kept; anything else is 1. */
  function NormalizeThickness(v: Value): (r: int)
    ensures r > 0
    ensures IsFinite(v) && v.n.v > 0 ==> r == v.n.v
    ensures !(IsFinite(v) && v.n.v > 0) ==> r == 1
  {
    PositiveOr(v, 1)
  }

  function OrientToken(o: Orientation): string {
    if o == Vertical then "xdivider--v" else "xdivider--h"
  }

  function Muted(muted: bool): seq<string> {
    if muted then ["xdivider--muted"] else []
  }

  /** `buildClassName(orientation, muted)`. */
  function DividerClass(existing: string, o: Orientation, muted: bool): string {
    ClassName(["xdivider", OrientToken(o)], existing, OwnTokens, Muted(muted))
  }

  lemma LeadTokens(o: Orientation, muted: bool)
    ensures Tokens(["xdivider", OrientToken(o)]) && NoDup(["xdivider", OrientToken(o)]) && Tokens(Muted(muted))
    ensures "xdivider" in OwnTokens && OrientToken(o) in OwnTokens
    ensures forall x | x in Muted(muted) :: x in OwnTokens
  {
    PlainTokens("xdivider", OrientToken(o));
    if muted {
      PlainToken("xdivider--muted");
    }
  }

  /** The class starts with "xdivider" and the orientation modifier, holds
      each token once, keeps the caller's other classes and carries the muted
      modifier when muted. */
  lemma DividerClassShape(existing: string, o: Orientation, muted: bool)
    ensures |Words(DividerClass(existing, o, muted))| >= 2
    ensures Words(DividerClass(existing, o, muted))[..2] == ["xdivider", OrientToken(o)]
    ensures NoDup(Words(DividerClass(existing, o, muted)))
    ensures forall x :: x in Words(DividerClass(existing, o, muted)) <==>
      x == "xdivider" || x == OrientToken(o) || (x in Words(existing) && x !in OwnTokens) || (muted && x == "xdivider--muted")
  {
    LeadTokens(o, muted);
    ClassTokensShape(["xdivider", OrientToken(o)], existing, OwnTokens, Muted(muted));
  }

  /** Exactly one orientation modifier, the current one, and the muted
      modifier exactly when muted. */
  lemma DividerModifiers(existing: string, o: Orientation, muted: bool)
    ensures forall e :: OrientToken(e) in Words(DividerClass(existing, o, muted)) <==> e == o
    ensures "xdivider--muted" in Words(DividerClass(existing, o, muted)) <==> muted
  {
    DividerClassShape(existing, o, muted);
    TokensDistinct();
  }

  lemma TokensDistinct()
    ensures forall e, o :: OrientToken(e) == OrientToken(o) <==> e == o
    ensures forall e :: OrientToken(e) != "xdivider--muted" && OrientToken(e) != "xdivider" && OrientToken(e) in OwnTokens
  {
  }

  /** A pass with new settings replaces the class of any earlier pass. */
  lemma DividerClassOverride(existing: string, o1: Orientation, m1: bool, o2: Orientation, m2: bool)
    ensures DividerClass(DividerClass(existing, o1, m1), o2, m2) == DividerClass(existing, o2, m2)
  {
    LeadTokens(o1, m1);
    LeadTokens(o2, m2);
    ClassNameOverride(["xdivider", OrientToken(o1)], Muted(m1), ["xdivider", OrientToken(o2)], Muted(m2), existing, OwnTokens);
  }

  /** `if (typeof inset === "number") push(`--xdivider-inset:${inset}px`)`. */
  function Inset(v: Value): seq<(string, string)> {
    if v.Number? then [("--xdivider-inset", NumPx(v.n))] else []
  }

  /** The pairs `applyLayout` appends, in its order. */
  function OwnPairs(thickness: int, length: Value, inset: Value): seq<(string, string)> {
    [("--xdivider-thickness", Px(thickness))]
    + IfSet("--xdivider-length", length)
    + Inset(inset)
  }

  /** The thickness always comes first; the length follows exactly when it
      is set, with its text; the inset closes the list exactly when it is a
      number. */
  lemma OwnPairsContent(thickness: int, length: Value, inset: Value)
    ensures var ps := OwnPairs(thickness, length, inset);
      && |ps| == 1 + (if Truthy(length) then 1 else 0) + (if inset.Number? then 1 else 0)
      && ps[0] == ("--xdivider-thickness", Px(thickness))
      && (Truthy(length) ==> ps[1] == ("--xdivider-length", ToStr(length)))
      && (inset.Number? ==> ps[|ps| - 1] == ("--xdivider-inset", NumPx(inset.n)))
    ensures forall p | p in OwnPairs(thickness, length, inset) ::
      (p.0 == "--xdivider-length" ==> Truthy(length)) && (p.0 == "--xdivider-inset" ==> inset.Number?)
  {
  }

  lemma ThicknessProp() ensures PropName("--xdivider-thickness") { PlainProp("--xdivider-thickness"); }
  lemma LengthProp() ensures PropName("--xdivider-length") { PlainProp("--xdivider-length"); }
  lemma InsetProp() ensures PropName("--xdivider-inset") { PlainProp("--xdivider-inset"); }

  /** Every emitted pair is a normal declaration of a managed property, given
      a length that is trimmed and free of ';'. */
  lemma OwnPairsOwned(thickness: int, length: Value, inset: Value)
    requires CleanValue(length)
    ensures Owned(OwnPairs(thickness, length, inset), Managed)
  {
    var t := [("--xdivider-thickness", Px(thickness))];
    var l := IfSet("--xdivider-length", length);
    var n := Inset(inset);
    assert Owned(t, Managed) by {
      ThicknessProp();
      PxValue(thickness);
      OwnedOne("--xdivider-thickness", Px(thickness), Managed);
    }
    assert Owned(l, Managed) by {
      LengthProp();
      IfSetOwned("--xdivider-length", length, Managed);
    }
    assert Owned(n, Managed) by {
      if inset.Number? {
        InsetProp();
        NumPxValue(inset.n);
        OwnedOne("--xdivider-inset", NumPx(inset.n), Managed);
      }
    }
    OwnedAppend(t, l, Managed);
    OwnedAppend(t + l, n, Managed);
  }

  /** The style half of `applyLayout`. */
  method LayoutStyleOf(style: string, thickness: int, length: Value, inset: Value) returns (r: string)
    ensures r == Layout(style, OwnPairs(thickness, length, inset), Managed)
  {
    var base := StripManagedStyles(style, Managed);
    var ps := [("--xdivider-thickness", Px(thickness))];
    ps := ps + IfSet("--xdivider-length", length);
    ps := ps + Inset(inset);
    r := LayoutStyle(base, Decls(ps));
  }

  class XDivider {
    var cls: string
    var style: string
    var orientation: Orientation
    var thickness: int
    /** `_length` and `_inset` are stored as given. */
    var length: Value
    var inset: Value
    var muted: bool

    function LayoutOf(base: string): string
      reads this
    {
      Layout(base, OwnPairs(thickness, length, inset), Managed)
    }

    method ApplyLayout()
      modifies this
      ensures cls == DividerClass(old(cls), orientation, muted)
      ensures style == Layout(old(style), OwnPairs(thickness, length, inset), Managed)
      ensures orientation == old(orientation) && thickness == old(thickness)
      ensures length == old(length) && inset == old(inset) && muted == old(muted)
    {
      cls := DividerClass(cls, orientation, muted);
      style := LayoutStyleOf(style, thickness, length, inset);
    }

    constructor(data: Value)
      ensures orientation == NormalizeOrientation(Field(data, "_orientation"))
      ensures thickness == NormalizeThickness(Field(data, "_thickness"))
      ensures length == Field(data, "_length") && inset == Field(data, "_inset")
      ensures muted == IsTrue(Field(data, "_muted"))
      ensures cls == DividerClass(if Truthy(Field(data, "class")) then ToStr(Field(data, "class")) else "xdivider", orientation, muted)
      ensures style == LayoutOf(TruthyText(Field(data, "style")))
    {
      cls := if Truthy(Field(data, "class")) then ToStr(Field(data, "class")) else "xdivider";
      style := TruthyText(Field(data, "style"));
      orientation := NormalizeOrientation(Field(data, "_orientation"));
      thickness := NormalizeThickness(Field(data, "_thickness"));
      length := Field(data, "_length");
      inset := Field(data, "_inset");
      muted := IsTrue(Field(data, "_muted"));
      new;
      ApplyLayout();
    }

    method SetOrientation(v: Value)
      modifies this
      ensures orientation == NormalizeOrientation(v)
      ensures thickness == old(thickness) && length == old(length) && inset == old(inset) && muted == old(muted)
      ensures cls == DividerClass(old(cls), orientation, muted) && style == LayoutOf(old(style))
    {
      orientation := NormalizeOrientation(v);
      ApplyLayout();
    }

    method SetThickness(v: Value)
      modifies this
      ensures thickness == NormalizeThickness(v)
      ensures orientation == old(orientation) && length == old(length) && inset == old(inset) && muted == old(muted)
      ensures cls == DividerClass(old(cls), orientation, muted) && style == LayoutOf(old(style))
    {
      thickness := NormalizeThickness(v);
      ApplyLayout();
    }

    /** `_length` keeps the raw value. */
    method SetLength(v: Value)
      modifies this
      ensures length == v
      ensures orientation == old(orientation) && thickness == old(thickness) && inset == old(inset) && muted == old(muted)
      ensures cls == DividerClass(old(cls), orientation, muted) && style == LayoutOf(old(style))
    {
      length := v;
      ApplyLayout();
    }

    /** `_inset` keeps the raw value. */
    method SetInset(v: Value)
      modifies this
      ensures inset == v
      ensures orientation == old(orientation) && thickness == old(thickness) && length == old(length) && muted == old(muted)
      ensures cls == DividerClass(old(cls), orientation, muted) && style == LayoutOf(old(style))
    {
      inset := v;
      ApplyLayout();
    }

    method SetMuted(v: Value)
      modifies this
      ensures muted == IsTrue(v)
      ensures orientation == old(orientation) && thickness == old(thickness) && length == old(length) && inset == old(inset)
      ensures cls == DividerClass(old(cls), orientation, muted) && style == LayoutOf(old(style))
    {
      muted := IsTrue(v);
      ApplyLayout();
    }
  }

    /** The pairs of the passes `parse` runs, one per setter it calls, each
      with the thickness, length and inset stored at that point. */
  function ParsePairs(states: seq<(int, Value, Value)>): seq<seq<(string, string)>> {
    seq(|states|, i requires 0 <= i < |states| => OwnPairs(states[i].0, states[i].1, states[i].2))
  }

  /** Construction lays out once for each setter `parse` runs and once more
      at the end. When none of the lengths stored along the way holds a ';',
      the earlier passes leave nothing behind and the style is the single
      pass the constructor states. */
  lemma ParsePassesCollapse(style: string, states: seq<(int, Value, Value)>, thickness: int, length: Value, inset: Value)
    requires forall i | 0 <= i < |states| :: CleanValue(states[i].1)
    ensures Layout(Passes(style, ParsePairs(states), Managed), OwnPairs(thickness, length, inset), Managed)
         == Layout(style, OwnPairs(thickness, length, inset), Managed)
  {
    var passes := ParsePairs(states);
    forall i | 0 <= i < |states|
      ensures Owned(passes[i], Managed)
    {
      OwnPairsOwned(states[i].0, states[i].1, states[i].2);
    }
    PassesCollapse(style, passes, OwnPairs(thickness, length, inset), Managed);
  }

/** A layout pass discards every declaration an earlier pass emitted, so no
      caller or stale --xdivider-* declaration survives, and a second pass
      with unchanged fields changes nothing. */
  lemma LayoutOverrides(style: string, t1: int, l1: Value, i1: Value, ps2: seq<(string, string)>)
    requires CleanValue(l1)
    ensures Layout(Layout(style, OwnPairs(t1, l1, i1), Managed), ps2, Managed) == Layout(style, ps2, Managed)
  {
    OwnPairsOwned(t1, l1, i1);
    LayoutOverride(style, OwnPairs(t1, l1, i1), ps2, Managed);
  }

  /** The declarations of the laid-out style: the caller's surviving ones,
      none of them a managed property, then the widget's own in order. */
  lemma LayoutDeclarations(style: string, thickness: int, length: Value, inset: Value)
    requires CleanValue(length)
    ensures var ps := OwnPairs(thickness, length, inset);
      Pieces(Layout(style, ps, Managed)) == Kept(style, Managed) + Decls(ps)
    ensures forall i | 0 <= i < |Kept(style, Managed)| :: PropOf(Kept(style, Managed)[i]) !in Managed
  {
    OwnPairsOwned(thickness, length, inset);
    LayoutPieces(style, OwnPairs(thickness, length, inset), Managed);
  }
}

=== FILE: drawer.dfy ===
/** XDrawer: a panel sliding in from the left or the right, with an
    optional header (title and close button) and a body that holds the
    children given at construction, wrapped in a scroll area by default.
    Opening and closing switch a class modifier and report through
    `_on_open` / `_on_close`. */
module Drawer {
  import opened Text
  import opened Values
  import opened Classes
  import opened Styles
  import opened Names
  import opened Nodes
  import opened Openable

  /** The node ids, each standing for the widget's own id followed by this
      suffix. */
  const PanelId: string := "_panel"
  const HeaderId: string := "_header"
  const BodyId: string := "_body"
  const ScrollId: string := "_scroll"
  const CloseId: string := "_close"
  const TitleId: string := "_title"

  lemma IdsDistinct()
    ensures PanelId != CloseId && PanelId != TitleId && CloseId != TitleId && HeaderId != ScrollId
    ensures |PanelId| == 6 && |HeaderId| == 7 && |BodyId| == 5 && |ScrollId| == 7 && |CloseId| == 6 && |TitleId| == 6
  {
    assert PanelId[1] == 'p' && CloseId[1] == 'c' && TitleId[1] == 't';
    assert HeaderId[1] == 'h' && ScrollId[1] == 's';
  }

  datatype Side = Left | Right

  /** "left" is kept; anything else is right. */
  function NormalizeSide(v: Value): (r: Side)
    ensures r == Left <==> v == Str("left")
  {
    if v == Str("left") then Left else Right
  }

  function SideToken(s: Side): string {
    if s == Left then "xdrawer--left" else "xdrawer--right"
  }

  const DefaultWidth: string := "360px"

  /** The stored settings. The title is `undefined` (`None`) unless a
      truthy value was given. */
  datatype DrawerState = DrawerState(open: bool, side: Side, width: string, title: Option<string>,
                                     closable: bool, scroll: bool, elevated: bool, overlay: bool)

  /** `_width`: `v ? String(v) : "360px"`. */
  function WidthOf(v: Value): (r: string)
    ensures !Truthy(v) ==> r == DefaultWidth
    ensures v.Str? && v.s != "" ==> r == v.s
  {
    if Truthy(v) then ToStr(v) else DefaultWidth
  }

  /** `_title`: `v ? String(v) : undefined`. */
  function TitleOf(v: Value): (r: Option<string>)
    ensures r.Some? <==> Truthy(v)
    ensures v.Str? && v.s != "" ==> r == Some(v.s)
  {
    if Truthy(v) then Some(ToStr(v)) else None
  }

  /** `applyProps`, with its defaults: closed, right, 360px wide, no
      title, closable, scrolling and elevated, without overlay. */
  function StateOf(data: Value): (r: DrawerState)
    ensures r.open == BoolOr(Field(data, "_open"), false) && r.side == NormalizeSide(Field(data, "_side"))
    ensures r.width == WidthOf(Field(data, "_width")) && r.title == TitleOf(Field(data, "_title"))
    ensures r.closable == BoolOr(Field(data, "_closable"), true) && r.scroll == BoolOr(Field(data, "_scroll"), true)
    ensures r.elevated == BoolOr(Field(data, "_elevated"), true) && r.overlay == BoolOr(Field(data, "_overlay"), false)
  {
    DrawerState(BoolOr(Field(data, "_open"), false), NormalizeSide(Field(data, "_side")), WidthOf(Field(data, "_width")),
                TitleOf(Field(data, "_title")), BoolOr(Field(data, "_closable"), true), BoolOr(Field(data, "_scroll"), true),
                BoolOr(Field(data, "_elevated"), true), BoolOr(Field(data, "_overlay"), false))
  }

  /** An empty configuration gives every default. */
  lemma DefaultState(r: nat)
    ensures StateOf(Obj(r, map[])) == DrawerState(false, Right, DefaultWidth, None, true, true, true, false)
  {
  }

  /** `hasTitle()`: a title that is not blank. */
  predicate HasTitle(t: Option<string>) {
    t.Some? && !IsBlank(t.value)
  }

  /** `updateTitle`'s text: the title as stored, "" when there is none. */
  function TitleText(t: Option<string>): string {
    if t.Some? then t.value else ""
  }

  /** What the panel shows: the title label's text when it exists, the
      close button, the scroll wrapper, and the body children. */
  datatype Shape = Shape(title: Option<string>, closable: bool, scroll: bool, body: seq<Value>)

  /** What `buildSkeleton` builds: the trimmed title when there is one. */
  function Skeleton(st: DrawerState, body: seq<Value>): (r: Shape)
    ensures r.title.Some? <==> HasTitle(st.title)
    ensures r.title.Some? ==> r.title.value == Trim(st.title.value)
    ensures r.closable == st.closable && r.scroll == st.scroll && r.body == body
  {
    Shape(if HasTitle(st.title) then Some(Trim(st.title.value)) else None, st.closable, st.scroll, body)
  }

  /** What the panel shows once `applyLayout` has run `updateTitle`: the
      title label holds the title as stored, untrimmed. */
  function Shown(st: DrawerState, body: seq<Value>): (r: Shape)
    ensures r.title.Some? <==> HasTitle(st.title)
    ensures r.title.Some? ==> r.title.value == st.title.value
    ensures r.closable == st.closable && r.scroll == st.scroll && r.body == body
  {
    Shape(if HasTitle(st.title) then Some(st.title.value) else None, st.closable, st.scroll, body)
  }

  function TitleNode(t: string): Node {
    Make("label", TitleId, "xdrawer__title", t, [])
  }

  /** The close button; its click handler is `XDrawer.HandleClose`. */
  const CloseNode: Node := Make("button", CloseId, "xdrawer__close", "×", [])

  /** `buildHeader`: the title, then the close button; no header when
      both are absent. */
  function Header(sh: Shape): Option<Node> {
    if sh.title.None? && !sh.closable then None
    else Some(Make("view", HeaderId, "xdrawer__header", "",
                   (if sh.title.Some? then [TitleNode(sh.title.value)] else []) + (if sh.closable then [CloseNode] else [])))
  }

  /** `buildBody`: the content, inside a scroll area when scrolling. */
  function Body(sh: Shape): Node {
    Make("view", BodyId, "xdrawer__body", "",
         if sh.scroll then [Make("scroll", ScrollId, "xdrawer__scroll", "", Users(sh.body))] else Users(sh.body))
  }

  /** The panel `buildSkeleton` appends: the header, then the body. */
  function Render(sh: Shape): Node {
    Make("view", PanelId, "xdrawer__panel", "", Present(Header(sh)) + [Body(sh)])
  }

  /** The header exists exactly when there is a non-blank title or a close
      button, and holds the trimmed title before the button; the body
      wraps the content in a scroll area exactly when scrolling. */
  lemma PanelLayout(st: DrawerState, body: seq<Value>)
    ensures var sh := Skeleton(st, body);
      && (Header(sh).Some? <==> HasTitle(st.title) || st.closable)
      && (Header(sh).Some? ==>
            Header(sh).value.children ==
            (if HasTitle(st.title) then [TitleNode(Trim(st.title.value))] else []) + (if st.closable then [CloseNode] else []))
      && Render(sh).children == Present(Header(sh)) + [Body(sh)]
      && (st.scroll ==> Body(sh).children == [Make("scroll", ScrollId, "xdrawer__scroll", "", Users(body))])
      && (!st.scroll ==> Body(sh).children == Users(body))
  {
  }

  lemma HeaderIds(sh: Shape, id: string)
    requires id in {HeaderId, TitleId, CloseId, ScrollId}
    ensures HasId(Present(Header(sh)), id) <==>
      (id == HeaderId && (sh.title.Some? || sh.closable)) || (id == TitleId && sh.title.Some?) || (id == CloseId && sh.closable)
  {
    IdsDistinct();
    if Header(sh).Some? {
      HasIdOne(Header(sh).value, id);
      var a := if sh.title.Some? then [TitleNode(sh.title.value)] else [];
      var b := if sh.closable then [CloseNode] else [];
      HasIdAppend(a, b, id);
      if sh.title.Some? {
        HasIdOne(TitleNode(sh.title.value), id);
      }
      if sh.closable {
        HasIdOne(CloseNode, id);
      }
    }
  }

  lemma BodyIds(sh: Shape, id: string)
    requires id in {HeaderId, TitleId, CloseId, ScrollId}
    ensures NodeHasId(Body(sh), id) <==> id == ScrollId && sh.scroll
  {
    IdsDistinct();
    UsersNoId(sh.body, id);
    if sh.scroll {
      HasIdOne(Make("scroll", ScrollId, "xdrawer__scroll", "", Users(sh.body)), id);
    }
  }

  /** Which nodes the panel holds: the header exactly when it has a title
      label or a close button, the title label exactly when the shape has
      a title, the close button exactly when closable, the scroll area
      exactly when scrolling. */
  lemma RenderIds(sh: Shape, id: string)
    requires id in {HeaderId, TitleId, CloseId, ScrollId}
    ensures NodeHasId(Render(sh), id) <==>
      (id == HeaderId && (sh.title.Some? || sh.closable)) || (id == TitleId && sh.title.Some?)
      || (id == CloseId && sh.closable) || (id == ScrollId && sh.scroll)
  {
    IdsDistinct();
    HasIdAppend(Present(Header(sh)), [Body(sh)], id);
    HasIdOne(Body(sh), id);
    HeaderIds(sh, id);
    BodyIds(sh, id);
  }

  /** The shape after the host rewrites the title label's text, when the
      label exists. */
  function Retext(sh: Shape, t: string): Shape {
    if sh.title.Some? then sh.(title := Some(t)) else sh
  }

  /** Rewriting the title in place gives the very panel that a rebuild with
      that text would give. */
  lemma RetextRender(sh: Shape, t: string)
    ensures SetNodeText(Render(sh), TitleId, t) == Render(Retext(sh, t))
  {
    IdsDistinct();
    SetTextAppend(Present(Header(sh)), [Body(sh)], TitleId, t);
    SetTextOne(Body(sh), TitleId, t);
    UsersNoId(sh.body, TitleId);
    SetTextAbsent(Users(sh.body), TitleId, t);
    if sh.scroll {
      SetTextOne(Make("scroll", ScrollId, "xdrawer__scroll", "", Users(sh.body)), TitleId, t);
    }
    if Header(sh).Some? {
      SetTextOne(Header(sh).value, TitleId, t);
      var a := if sh.title.Some? then [TitleNode(sh.title.value)] else [];
      var b := if sh.closable then [CloseNode] else [];
      SetTextAppend(a, b, TitleId, t);
      if sh.title.Some? {
        SetTextOne(TitleNode(sh.title.value), TitleId, t);
      }
      if sh.closable {
        SetTextOne(CloseNode, TitleId, t);
      }
    }
  }

  /** `updateTitle` after a build shows the stored title. */
  lemma RetextSkeleton(st: DrawerState, body: seq<Value>)
    ensures Retext(Skeleton(st, body), TitleText(st.title)) == Shown(st, body)
  {
  }

  /** A new title with the same presence: rewriting the shown text gives
      the panel for the new settings. */
  lemma TitleStep(prev: DrawerState, st: DrawerState, body: seq<Value>)
    requires st == prev.(title := st.title) && HasTitle(prev.title) == HasTitle(st.title)
    ensures Retext(Shown(prev, body), TitleText(st.title)) == Shown(st, body)
  {
  }

  /** Every modifier `applyLayout` manages. */
  const AllMods: set<string> := {"xdrawer--open", "xdrawer--left", "xdrawer--right", "xdrawer--elevated", "xdrawer--overlay"}

  /** The modifiers the settings call for. */
  function NextMods(st: DrawerState): (r: set<string>)
    ensures r <= AllMods
  {
    (if st.open then {"xdrawer--open"} else {}) + {SideToken(st.side)}
    + (if st.elevated then {"xdrawer--elevated"} else {}) + (if st.overlay then {"xdrawer--overlay"} else {})
  }

  /** `applyLayout`'s class work: "xdrawer" added, then every managed
      modifier replaced by those the settings call for. */
  function DrawerClasses(cs: set<string>, st: DrawerState): set<string> {
    (cs + {"xdrawer"} - AllMods) + NextMods(st)
  }

  lemma DrawerClassesSteps(cs: set<string>, st: DrawerState)
    ensures DrawerClasses(cs, st) == ReplaceClass(cs + {"xdrawer"}, AllMods, NextMods(st))
  {
  }

  /** The open modifier exactly when open, exactly one side modifier, the
      elevated and overlay modifiers exactly when set. */
  predicate LayoutShown(cs: set<string>, st: DrawerState) {
    && "xdrawer" in cs
    && ("xdrawer--open" in cs <==> st.open)
    && cs * {"xdrawer--left", "xdrawer--right"} == {SideToken(st.side)}
    && ("xdrawer--elevated" in cs <==> st.elevated)
    && ("xdrawer--overlay" in cs <==> st.overlay)
  }

  /** `applyLayout` shows the settings and keeps the caller's other
      classes. */
  lemma DrawerClassesShape(cs: set<string>, st: DrawerState)
    ensures LayoutShown(DrawerClasses(cs, st), st)
    ensures forall x | x !in AllMods && x != "xdrawer" :: x in DrawerClasses(cs, st) <==> x in cs
  {
  }

  /** A layout pass discards the modifiers of any earlier one, and leaves
      classes that already show the settings as they are. */
  lemma DrawerClassesOverride(cs: set<string>, a: DrawerState, b: DrawerState)
    ensures DrawerClasses(DrawerClasses(cs, a), b) == DrawerClasses(cs, b)
    ensures LayoutShown(cs, b) ==> DrawerClasses(cs, b) == cs
  {
    if LayoutShown(cs, b) {
      forall x | x in AllMods ensures x in cs <==> x in NextMods(b) {
      }
    }
  }

  /** Opening then closing (or the reverse) with nothing in between leaves
      the classes exactly as they were. */
  lemma ToggleTwiceClasses(cs: set<string>, st: DrawerState)
    requires LayoutShown(cs, st)
    ensures DrawerClasses(DrawerClasses(cs, st.(open := !st.open)), st) == cs
  {
    DrawerClassesOverride(cs, st.(open := !st.open), st);
  }

  const Managed: set<string> := {"--xdrawer-width"}

  lemma WidthProp() ensures PropName("--xdrawer-width") { PlainProp("--xdrawer-width"); }

  /** The declaration `applyLayout` appends: the width when it is not "". */
  function OwnPairs(width: string): seq<(string, string)> {
    if width != "" then [("--xdrawer-width", width)] else []
  }

  /** The style half of `applyLayout`. */
  method LayoutStyleOf(style: string, width: string) returns (r: string)
    ensures r == Layout(style, OwnPairs(width), Managed)
  {
    var base := StripManagedStyles(style, Managed);
    var ps: seq<(string, string)> := if width != "" then [("--xdrawer-width", width)] else [];
    r := LayoutStyle(base, Decls(ps));
  }

  /** The pairs of the passes `parse` runs, one per setter it calls, each
      with the width stored at that point. */
  function ParsePairs(widths: seq<string>): seq<seq<(string, string)>> {
    seq(|widths|, i requires 0 <= i < |widths| => OwnPairs(widths[i]))
  }

  /** Construction lays out once for each setter `parse` runs and once more
      at the end. When none of the widths stored along the way holds a ';',
      the earlier passes leave nothing behind and the style is the single
      pass the constructor states. */
  lemma ParsePassesCollapse(style: string, widths: seq<string>, width: string)
    requires forall i | 0 <= i < |widths| :: widths[i] != "" ==> PropValue(widths[i])
    ensures Layout(Passes(style, ParsePairs(widths), Managed), OwnPairs(width), Managed)
         == Layout(style, OwnPairs(width), Managed)
  {
    var passes := ParsePairs(widths);
    WidthProp();
    forall i | 0 <= i < |widths|
      ensures Owned(passes[i], Managed)
    {
      if widths[i] != "" {
        OwnedOne("--xdrawer-width", widths[i], Managed);
      }
    }
    PassesCollapse(style, passes, OwnPairs(width), Managed);
  }

  /** The laid-out style is the caller's declarations without any width,
      then the width; a later pass replaces that width. */
  lemma DrawerStyle(style: string, width: string, later: string)
    requires PropValue(width)
    ensures Pieces(Layout(style, OwnPairs(width), Managed)) == Kept(style, Managed) + [Decl("--xdrawer-width", width)]
    ensures forall i | 0 <= i < |Kept(style, Managed)| :: PropOf(Kept(style, Managed)[i]) != "--xdrawer-width"
    ensures Layout(Layout(style, OwnPairs(width), Managed), OwnPairs(later), Managed) == Layout(style, OwnPairs(later), Managed)
  {
    var ps := OwnPairs(width);
    assert ps == [("--xdrawer-width", width)];
    WidthProp();
    OwnedOne("--xdrawer-width", width, Managed);
    LayoutPieces(style, ps, Managed);
    assert Decls(ps) == [Decl("--xdrawer-width", width)];
    LayoutOverride(style, ps, OwnPairs(later), Managed);
  }

  /** The settings before `parse`: the field initialisers. */
  const Initial: DrawerState := DrawerState(false, Right, DefaultWidth, None, true, true, true, false)

  /** Where construction stands while the host's `parse` runs the setters:
      the settings stored so far, and the panel the host holds, if any. A
      rebuild removes the panel it finds by id before appending, so there
      is at most one. The body children are not captured yet, so a
      parse-time panel has an empty body. */
  datatype Parsing = Parsing(st: DrawerState, panel: Option<Shape>)

  /** `applyLayout`'s `updateTitle` on the panel held, if any. */
  function Relaid(panel: Option<Shape>, st: DrawerState): Option<Shape> {
    if panel.Some? then Some(Retext(panel.value, TitleText(st.title))) else None
  }

  /** `rebuild()` while parsing: a fresh panel for the settings, laid out. */
  function ParsePanel(st: DrawerState): Option<Shape> {
    Some(Retext(Skeleton(st, []), TitleText(st.title)))
  }

  /** One setter run by `parse` as written, with no guard: the layout
      setters lay out, `_title` rebuilds when the title's presence flips,
      `_closable` and `_scroll` always rebuild, and any other key is a plain
      property. */
  function ParseSetter(p: Parsing, key: string, v: Value): (r: Parsing)
    ensures p.panel.Some? ==> r.panel.Some?
    ensures key == "_closable" || key == "_scroll" ==> r.panel.Some?
  {
    if key == "_open" then var s := p.st.(open := BoolOr(v, false)); Parsing(s, Relaid(p.panel, s))
    else if key == "_side" then var s := p.st.(side := NormalizeSide(v)); Parsing(s, Relaid(p.panel, s))
    else if key == "_width" then var s := p.st.(width := WidthOf(v)); Parsing(s, Relaid(p.panel, s))
    else if key == "_elevated" then var s := p.st.(elevated := BoolOr(v, true)); Parsing(s, Relaid(p.panel, s))
    else if key == "_overlay" then var s := p.st.(overlay := BoolOr(v, false)); Parsing(s, Relaid(p.panel, s))
    else if key == "_title" then
      var s := p.st.(title := TitleOf(v));
      if HasTitle(p.st.title) != HasTitle(s.title) then Parsing(s, ParsePanel(s))
      else Parsing(s, Relaid(Relaid(p.panel, s), s))
    else if key == "_closable" then var s := p.st.(closable := BoolOr(v, true)); Parsing(s, ParsePanel(s))
    else if key == "_scroll" then var s := p.st.(scroll := BoolOr(v, true)); Parsing(s, ParsePanel(s))
    else p
  }

  /** `parse` over the configuration's keys, in the order it visits them. */
  function ParseRun(p: Parsing, data: Value, keys: seq<string>): Parsing
    decreases |keys|
  {
    if keys == [] then p else ParseRun(ParseSetter(p, keys[0], Field(data, keys[0])), data, keys[1..])
  }

  /** The panels the host holds after construction as written: the one a
      parse-time rebuild appended, if any, then the one `buildSkeleton`
      appends with the captured children, as `applyLayout` leaves it. Both
      carry the id `PanelId`. */
  function PanelsAsWritten(data: Value, keys: seq<string>): seq<Shape> {
    var p := ParseRun(Parsing(Initial, None), data, keys);
    (if p.panel.Some? then [p.panel.value] else []) + [Shown(p.st, ItemsOr(Field(data, "_children")))]
  }

  /** Once a panel is there, the remaining setters keep one there. */
  lemma {:induction false} ParseKeepsPanel(p: Parsing, data: Value, keys: seq<string>)
    requires p.panel.Some?
    ensures ParseRun(p, data, keys).panel.Some?
    decreases |keys|
  {
    if keys != [] {
      ParseKeepsPanel(ParseSetter(p, keys[0], Field(data, keys[0])), data, keys[1..]);
    }
  }

  /** A configuration with a `_closable` or `_scroll` key, whatever its
      value, has a panel appended during `parse`. */
  lemma {:induction false} ParseAppendsPanel(p: Parsing, data: Value, keys: seq<string>)
    requires "_closable" in keys || "_scroll" in keys
    ensures ParseRun(p, data, keys).panel.Some?
    decreases |keys|
  {
    var q := ParseSetter(p, keys[0], Field(data, keys[0]));
    if keys[0] == "_closable" || keys[0] == "_scroll" {
      ParseKeepsPanel(q, data, keys[1..]);
    } else {
      ParseAppendsPanel(q, data, keys[1..]);
    }
  }

  /** As written, such a configuration ends with two panels under the same
      id. */
  lemma TwoPanels(data: Value, keys: seq<string>)
    requires "_closable" in keys || "_scroll" in keys
    ensures |PanelsAsWritten(data, keys)| == 2
  {
    ParseAppendsPanel(Parsing(Initial, None), data, keys);
  }

  /** The smallest case: `{_closable: true}` gives an empty-bodied panel
      from the setter and then the constructor's own. */
  lemma TwoPanelsForClosable()
    ensures var data := Obj(0, map["_closable" := Bool(true)]);
      PanelsAsWritten(data, ["_closable"]) == [Shown(StateOf(data), []), Shown(StateOf(data), [])]
  {
    var data := Obj(0, map["_closable" := Bool(true)]);
    var q := ParseSetter(Parsing(Initial, None), "_closable", Bool(true));
    assert q == Parsing(Initial, Some(Shown(Initial, [])));
    assert ["_closable"][1..] == [];
    assert ParseRun(Parsing(Initial, None), data, ["_closable"]) == q;
    assert StateOf(data) == Initial;
  }

  class XDrawer {
    var classes: set<string>
    var style: string
    var st: DrawerState
    /** The children captured from the configuration at construction. */
    var body: seq<Value>
    /** What the panel appended by the last `buildSkeleton` shows, as
        patched in place since; the nodes are `Root()`. */
    var built: Shape
    /** How many times the panel has been rebuilt since construction. */
    var rebuilds: nat
    var hasOnOpen: bool
    var hasOnClose: bool
    /** The callback calls made so far. */
    var events: seq<Event>

    /** The panel and the nodes under it. */
    function Root(): Node
      reads this
    {
      Render(built)
    }

    /** The panel shows the settings and the classes show the layout. */
    predicate Valid()
      reads this
    {
      built == Shown(st, body) && LayoutShown(classes, st)
    }

    /** `applyLayout()`: classes, style, then `updateTitle()`. */
    method ApplyLayout()
      modifies this
      ensures classes == DrawerClasses(old(classes), st) && LayoutShown(classes, st)
      ensures style == Layout(old(style), OwnPairs(st.width), Managed)
      ensures built == Retext(old(built), TitleText(st.title))
      ensures st == old(st) && body == old(body) && rebuilds == old(rebuilds) && events == old(events)
      ensures hasOnOpen == old(hasOnOpen) && hasOnClose == old(hasOnClose)
    {
      classes := DrawerClasses(classes, st);
      DrawerClassesShape(old(classes), st);
      style := LayoutStyleOf(style, st.width);
      UpdateTitle();
    }

    /** `updateTitle()`: the stored title is written into the title label
        when it exists. */
    method UpdateTitle()
      modifies this
      ensures built == Retext(old(built), TitleText(st.title))
      ensures classes == old(classes) && style == old(style) && st == old(st) && body == old(body)
      ensures rebuilds == old(rebuilds) && events == old(events)
      ensures hasOnOpen == old(hasOnOpen) && hasOnClose == old(hasOnClose)
    {
      if built.title.Some? {
        built := built.(title := Some(TitleText(st.title)));
      }
    }

    /** `rebuild()`: the old panel is removed, a new skeleton appended, and
        the layout applied. */
    method Rebuild()
      modifies this
      ensures Valid() && rebuilds == old(rebuilds) + 1
      ensures classes == DrawerClasses(old(classes), st) && style == Layout(old(style), OwnPairs(st.width), Managed)
      ensures st == old(st) && body == old(body) && events == old(events)
      ensures hasOnOpen == old(hasOnOpen) && hasOnClose == old(hasOnClose)
    {
      built := Skeleton(st, body);
      rebuilds := rebuilds + 1;
      ApplyLayout();
      RetextSkeleton(st, body);
    }

    /** Construction: the settings are read, the children captured, the
        skeleton built and the layout applied. */
    constructor(data: Value)
      ensures st == StateOf(data) && body == ItemsOr(Field(data, "_children"))
      ensures classes == DrawerClasses(ClassList(if Truthy(Field(data, "class")) then ToStr(Field(data, "class")) else "xdrawer"), st)
      ensures style == Layout(TruthyText(Field(data, "style")), OwnPairs(st.width), Managed)
      ensures hasOnOpen == Truthy(Field(data, "_on_open")) && hasOnClose == Truthy(Field(data, "_on_close"))
      ensures Valid() && rebuilds == 0 && events == []
    {
      var s := StateOf(data);
      var b := ItemsOr(Field(data, "_children"));
      var cs := ClassList(if Truthy(Field(data, "class")) then ToStr(Field(data, "class")) else "xdrawer");
      var css := LayoutStyleOf(TruthyText(Field(data, "style")), s.width);
      DrawerClassesShape(cs, s);
      RetextSkeleton(s, b);
      st := s;
      body := b;
      classes := DrawerClasses(cs, s);
      style := css;
      built := Retext(Skeleton(s, b), TitleText(s.title));
      rebuilds := 0;
      hasOnOpen := Truthy(Field(data, "_on_open"));
      hasOnClose := Truthy(Field(data, "_on_close"));
      events := [];
    }

    /** `setOpen(open, silent)`: the flag is stored and the layout applied;
        `_on_open` fires only on a change to open and `_on_close` only on a
        change to closed, and neither when silent. */
    method SetOpen(v: Value, silent: bool)
      requires Valid()
      modifies this
      ensures st == old(st).(open := BoolOr(v, false)) && Valid() && built == old(built)
      ensures classes == DrawerClasses(old(classes), st) && style == Layout(old(style), OwnPairs(st.width), Managed)
      ensures events == old(events) + OpenEvents(old(st.open), st.open, silent, hasOnOpen, hasOnClose)
      ensures body == old(body) && rebuilds == old(rebuilds) && hasOnOpen == old(hasOnOpen) && hasOnClose == old(hasOnClose)
    {
      var was := st.open;
      st := st.(open := BoolOr(v, false));
      ApplyLayout();
      Notify(was, silent);
    }

    /** The end of `setOpen`: nothing when the flag did not change or when
        silent; otherwise the callback for the new state, when set. */
    method Notify(was: bool, silent: bool)
      modifies this`events
      ensures events == old(events) + OpenEvents(was, st.open, silent, hasOnOpen, hasOnClose)
    {
      if was == st.open || silent {
        return;
      }
      if st.open && hasOnOpen {
        events := events + [Opened];
      }
      if !st.open && hasOnClose {
        events := events + [Closed];
      }
    }

    /** `toggle()`: the flag flips, and the matching callback fires. */
    method Toggle()
      requires Valid()
      modifies this
      ensures st == old(st).(open := !old(st.open)) && Valid() && built == old(built)
      ensures classes == DrawerClasses(old(classes), st) && style == Layout(old(style), OwnPairs(st.width), Managed)
      ensures events == old(events) + OpenEvents(old(st.open), st.open, false, hasOnOpen, hasOnClose)
      ensures body == old(body) && rebuilds == old(rebuilds) && hasOnOpen == old(hasOnOpen) && hasOnClose == old(hasOnClose)
    {
      SetOpen(Bool(!st.open), false);
    }

    /** The close button's click handler: `setOpen(false)`. */
    method HandleClose()
      requires Valid()
      modifies this
      ensures st == old(st).(open := false) && Valid() && built == old(built)
      ensures events == old(events) + OpenEvents(old(st.open), false, false, hasOnOpen, hasOnClose)
      ensures body == old(body) && rebuilds == old(rebuilds) && hasOnOpen == old(hasOnOpen) && hasOnClose == old(hasOnClose)
    {
      SetOpen(Bool(false), false);
    }

    /** The `_open` setter: the flag and the layout, no callback. */
    method SetOpenProp(v: Value)
      requires Valid()
      modifies this
      ensures st == old(st).(open := BoolOr(v, false)) && Valid() && built == old(built)
      ensures classes == DrawerClasses(old(classes), st) && style == Layout(old(style), OwnPairs(st.width), Managed)
      ensures events == old(events) && body == old(body) && rebuilds == old(rebuilds)
      ensures hasOnOpen == old(hasOnOpen) && hasOnClose == old(hasOnClose)
    {
      st := st.(open := BoolOr(v, false));
      ApplyLayout();
    }

    /** The `_side` setter. */
    method SetSide(v: Value)
      requires Valid()
      modifies this
      ensures st == old(st).(side := NormalizeSide(v)) && Valid() && built == old(built)
      ensures classes == DrawerClasses(old(classes), st) && style == Layout(old(style), OwnPairs(st.width), Managed)
      ensures events == old(events) && body == old(body) && rebuilds == old(rebuilds)
      ensures hasOnOpen == old(hasOnOpen) && hasOnClose == old(hasOnClose)
    {
      st := st.(side := NormalizeSide(v));
      ApplyLayout();
    }

    /** The `_width` setter. */
    method SetWidth(v: Value)
      requires Valid()
      modifies this
      ensures st == old(st).(width := WidthOf(v)) && Valid() && built == old(built)
      ensures classes == DrawerClasses(old(classes), st) && style == Layout(old(style), OwnPairs(st.width), Managed)
      ensures events == old(events) && body == old(body) && rebuilds == old(rebuilds)
      ensures hasOnOpen == old(hasOnOpen) && hasOnClose == old(hasOnClose)
    {
      st := st.(width := WidthOf(v));
      ApplyLayout();
    }

    /** The `_elevated` setter. */
    method SetElevated(v: Value)
      requires Valid()
      modifies this
      ensures st == old(st).(elevated := BoolOr(v, true)) && Valid() && built == old(built)
      ensures classes == DrawerClasses(old(classes), st) && style == Layout(old(style), OwnPairs(st.width), Managed)
      ensures events == old(events) && body == old(body) && rebuilds == old(rebuilds)
      ensures hasOnOpen == old(hasOnOpen) && hasOnClose == old(hasOnClose)
    {
      st := st.(elevated := BoolOr(v, true));
      ApplyLayout();
    }

    /** The `_overlay` setter. */
    method SetOverlay(v: Value)
      requires Valid()
      modifies this
      ensures st == old(st).(overlay := BoolOr(v, false)) && Valid() && built == old(built)
      ensures classes == DrawerClasses(old(classes), st) && style == Layout(old(style), OwnPairs(st.width), Managed)
      ensures events == old(events) && body == old(body) && rebuilds == old(rebuilds)
      ensures hasOnOpen == old(hasOnOpen) && hasOnClose == old(hasOnClose)
    {
      st := st.(overlay := BoolOr(v, false));
      ApplyLayout();
    }

    /** The `_title` setter: a rebuild exactly when the title's presence
        flips; otherwise the title label's text is rewritten with the
        stored, untrimmed title. */
    method SetTitle(v: Value)
      requires Valid()
      modifies this
      ensures st == old(st).(title := TitleOf(v)) && Valid()
      ensures rebuilds == old(rebuilds) + (if HasTitle(old(st.title)) != HasTitle(st.title) then 1 else 0)
      ensures HasTitle(old(st.title)) == HasTitle(st.title) ==> built == Retext(old(built), TitleText(st.title))
      ensures classes == DrawerClasses(old(classes), st) && style == Layout(old(style), OwnPairs(st.width), Managed)
      ensures events == old(events) && body == old(body)
      ensures hasOnOpen == old(hasOnOpen) && hasOnClose == old(hasOnClose)
    {
      ghost var prev := st;
      var hadTitle := HasTitle(st.title);
      st := st.(title := TitleOf(v));
      if hadTitle != HasTitle(st.title) {
        Rebuild();
      } else {
        TitleStep(prev, st, body);
        UpdateTitle();
        ApplyLayout();
      }
    }

    /** The `_closable` setter: always a rebuild. */
    method SetClosable(v: Value)
      modifies this
      ensures st == old(st).(closable := BoolOr(v, true)) && Valid() && rebuilds == old(rebuilds) + 1
      ensures classes == DrawerClasses(old(classes), st) && style == Layout(old(style), OwnPairs(st.width), Managed)
      ensures events == old(events) && body == old(body)
      ensures hasOnOpen == old(hasOnOpen) && hasOnClose == old(hasOnClose)
    {
      st := st.(closable := BoolOr(v, true));
      Rebuild();
    }

    /** The `_scroll` setter: always a rebuild. */
    method SetScroll(v: Value)
      modifies this
      ensures st == old(st).(scroll := BoolOr(v, true)) && Valid() && rebuilds == old(rebuilds) + 1
      ensures classes == DrawerClasses(old(classes), st) && style == Layout(old(style), OwnPairs(st.width), Managed)
      ensures events == old(events) && body == old(body)
      ensures hasOnOpen == old(hasOnOpen) && hasOnClose == old(hasOnClose)
    {
      st := st.(scroll := BoolOr(v, true));
      Rebuild();
    }
  }
}

=== FILE: empty.dfy ===
/** XEmptyState: the placeholder shown where there is nothing to list: a
    vertical stack of an optional icon, title, description and action, with
    one size and one alignment modifier on the root. The title and the
    description are patched in place while their labels stay; everything
    else rebuilds the stack. */
module Empty {
  import opened Text
  import opened Values
  import opened Classes
  import opened Nodes

  /** The node ids, each standing for the widget's own id followed by this
      suffix. */
  const StackId: string := "_stack"
  const TitleId: string := "_title"
  const DescId: string := "_desc"

  lemma IdsDistinct()
    ensures StackId != TitleId && StackId != DescId && TitleId != DescId
    ensures StackId != "" && TitleId != "" && DescId != ""
  {
    assert StackId[1] == 's' && TitleId[1] == 't' && |DescId| == 5 && |StackId| == |TitleId| == 6;
  }

  datatype Size = Sm | Md | Lg
  datatype Align = Start | Center

  /** "sm" and "lg" are kept; anything else is md. */
  function NormalizeSize(v: Value): (r: Size)
    ensures r == Sm <==> v == Str("sm")
    ensures r == Lg <==> v == Str("lg")
  {
    if v == Str("sm") then Sm else if v == Str("lg") then Lg else Md
  }

  /** "start" is kept; anything else is center. */
  function NormalizeAlign(v: Value): (r: Align)
    ensures r == Start <==> v == Str("start")
  {
    if v == Str("start") then Start else Center
  }

  function SizeToken(s: Size): string {
    match s
    case Sm => "xempty--sm"
    case Md => "xempty--md"
    case Lg => "xempty--lg"
  }

  function AlignToken(a: Align): string {
    if a == Start then "xempty--start" else "xempty--center"
  }

  const SizeMods: set<string> := {"xempty--sm", "xempty--md", "xempty--lg"}
  const AlignMods: set<string> := {"xempty--start", "xempty--center"}

  /** The stored settings: size, alignment, the two texts, and the caller's
      icon and action descriptions (falsy when none). */
  datatype EmptyState = EmptyState(size: Size, align: Align, title: string, description: string, icon: Value, action: Value)

  /** `applyProps`: texts through `v ? String(v) : ""`. */
  function StateOf(data: Value): (r: EmptyState)
    ensures r.size == NormalizeSize(Field(data, "_size")) && r.align == NormalizeAlign(Field(data, "_align"))
    ensures !Truthy(Field(data, "_title")) ==> r.title == ""
    ensures !Truthy(Field(data, "_description")) ==> r.description == ""
    ensures r.icon == Field(data, "_icon") && r.action == Field(data, "_action")
  {
    EmptyState(NormalizeSize(Field(data, "_size")), NormalizeAlign(Field(data, "_align")),
               TruthyText(Field(data, "_title")), TruthyText(Field(data, "_description")),
               Field(data, "_icon"), Field(data, "_action"))
  }

  /** What the stack shows: the icon, the title label's text, the
      description label's text and the action, each when present. */
  datatype Shape = Shape(icon: Option<Value>, title: Option<string>, desc: Option<string>, action: Option<Value>)

  /** `buildSkeleton`'s choices: the icon and the action when truthy, the
      trimmed texts when not blank. */
  function ShapeOf(st: EmptyState): (r: Shape)
    ensures r.icon.Some? <==> Truthy(st.icon)
    ensures r.action.Some? <==> Truthy(st.action)
    ensures r.title.Some? <==> !IsBlank(st.title)
    ensures r.desc.Some? <==> !IsBlank(st.description)
    ensures r.title.Some? ==> r.title.value == Trim(st.title)
    ensures r.desc.Some? ==> r.desc.value == Trim(st.description)
  {
    Shape(if Truthy(st.icon) then Some(st.icon) else None,
          if IsBlank(st.title) then None else Some(Trim(st.title)),
          if IsBlank(st.description) then None else Some(Trim(st.description)),
          if Truthy(st.action) then Some(st.action) else None)
  }

  function TitleNode(t: string): Node {
    Make("label", TitleId, "xempty__title", t, [])
  }

  function DescNode(t: string): Node {
    Make("label", DescId, "xempty__desc", t, [])
  }

  /** The stack's children, in order. */
  function StackChildren(sh: Shape): seq<Node> {
    (if sh.icon.Some? then [User(sh.icon.value)] else [])
    + (if sh.title.Some? then [TitleNode(sh.title.value)] else [])
    + (if sh.desc.Some? then [DescNode(sh.desc.value)] else [])
    + (if sh.action.Some? then [User(sh.action.value)] else [])
  }

  /** The vertical stack `buildSkeleton` appends. */
  function Render(sh: Shape): Node {
    El("stack", StackId, "xempty__stack", "", map["_direction" := "vertical"], StackChildren(sh))
  }

  /** The stack holds, in this order: the icon when set, the trimmed title
      when not blank, the trimmed description when not blank, the action
      when set. */
  lemma StackOrder(st: EmptyState)
    ensures var ch := Render(ShapeOf(st)).children;
      var i := if Truthy(st.icon) then 1 else 0;
      var t := i + (if IsBlank(st.title) then 0 else 1);
      var d := t + (if IsBlank(st.description) then 0 else 1);
      && |ch| == d + (if Truthy(st.action) then 1 else 0)
      && (Truthy(st.icon) ==> ch[0] == User(st.icon))
      && (!IsBlank(st.title) ==> ch[i] == TitleNode(Trim(st.title)))
      && (!IsBlank(st.description) ==> ch[t] == DescNode(Trim(st.description)))
      && (Truthy(st.action) ==> ch[d] == User(st.action))
  {
  }

  /** The title label is in the stack exactly when the shape has a title,
      and the description label exactly when it has a description. */
  lemma RenderIds(sh: Shape)
    ensures NodeHasId(Render(sh), TitleId) <==> sh.title.Some?
    ensures NodeHasId(Render(sh), DescId) <==> sh.desc.Some?
  {
    IdsDistinct();
    ChildrenIds(sh, TitleId);
    ChildrenIds(sh, DescId);
  }

  lemma ChildrenIds(sh: Shape, id: string)
    requires id == TitleId || id == DescId
    ensures HasId(StackChildren(sh), id) <==> (id == TitleId && sh.title.Some?) || (id == DescId && sh.desc.Some?)
  {
    IdsDistinct();
    var a := if sh.icon.Some? then [User(sh.icon.value)] else [];
    var b := if sh.title.Some? then [TitleNode(sh.title.value)] else [];
    var c := if sh.desc.Some? then [DescNode(sh.desc.value)] else [];
    var d := if sh.action.Some? then [User(sh.action.value)] else [];
    HasIdAppend(a + b + c, d, id);
    HasIdAppend(a + b, c, id);
    HasIdAppend(a, b, id);
    if sh.title.Some? {
      HasIdOne(b[0], id);
    }
    if sh.desc.Some? {
      HasIdOne(c[0], id);
    }
  }

  /** The shape after the host rewrites the text of a label that exists. */
  function Retext(sh: Shape, id: string, t: string): Shape {
    if id == TitleId && sh.title.Some? then sh.(title := Some(t))
    else if id == DescId && sh.desc.Some? then sh.(desc := Some(t))
    else sh
  }

  /** Rewriting a label's text in place gives the very stack that a
      rebuild with that text would give. */
  lemma RetextRender(sh: Shape, id: string, t: string)
    requires id == TitleId || id == DescId
    ensures SetNodeText(Render(sh), id, t) == Render(Retext(sh, id, t))
  {
    IdsDistinct();
    var a := if sh.icon.Some? then [User(sh.icon.value)] else [];
    var b := if sh.title.Some? then [TitleNode(sh.title.value)] else [];
    var c := if sh.desc.Some? then [DescNode(sh.desc.value)] else [];
    var d := if sh.action.Some? then [User(sh.action.value)] else [];
    SetTextAppend(a + b + c, d, id, t);
    SetTextAppend(a + b, c, id, t);
    SetTextAppend(a, b, id, t);
    if sh.icon.Some? {
      SetTextOne(a[0], id, t);
    }
    if sh.title.Some? {
      SetTextOne(b[0], id, t);
    }
    if sh.desc.Some? {
      SetTextOne(c[0], id, t);
    }
    if sh.action.Some? {
      SetTextOne(d[0], id, t);
    }
  }

  /** A new title: while the title stays shown, rewriting its text gives
      the stack for the new settings; while it stays hidden, the stack does
      not change. */
  lemma TitleStep(prev: EmptyState, st: EmptyState)
    requires st == prev.(title := st.title)
    ensures !IsBlank(prev.title) && !IsBlank(st.title) ==> Retext(ShapeOf(prev), TitleId, Trim(st.title)) == ShapeOf(st)
    ensures IsBlank(prev.title) && IsBlank(st.title) ==> ShapeOf(st) == ShapeOf(prev)
  {
    IdsDistinct();
  }

  /** The same for a new description. */
  lemma DescStep(prev: EmptyState, st: EmptyState)
    requires st == prev.(description := st.description)
    ensures !IsBlank(prev.description) && !IsBlank(st.description) ==>
      Retext(ShapeOf(prev), DescId, Trim(st.description)) == ShapeOf(st)
    ensures IsBlank(prev.description) && IsBlank(st.description) ==> ShapeOf(st) == ShapeOf(prev)
  {
    IdsDistinct();
  }

  /** `applyLayout`'s class work: "xempty" added, then every size and
      alignment modifier replaced by the current two. */
  function EmptyClasses(cs: set<string>, st: EmptyState): set<string> {
    (cs + {"xempty"} - SizeMods - AlignMods) + {SizeToken(st.size), AlignToken(st.align)}
  }

  /** The class step of `applyLayout` is one `replaceClass` of all five
      modifiers by the current two. */
  lemma EmptyClassesSteps(cs: set<string>, st: EmptyState)
    ensures EmptyClasses(cs, st) == ReplaceClass(cs + {"xempty"}, SizeMods + AlignMods, {SizeToken(st.size), AlignToken(st.align)})
  {
  }

  /** Exactly one size modifier, the current one, and exactly one
      alignment modifier, the current one. */
  predicate LayoutShown(cs: set<string>, st: EmptyState) {
    && "xempty" in cs
    && cs * SizeMods == {SizeToken(st.size)}
    && cs * AlignMods == {AlignToken(st.align)}
  }

  /** `applyLayout` shows the current layout, keeps the caller's other
      classes, and a second application changes nothing. */
  lemma EmptyClassesShape(cs: set<string>, st: EmptyState)
    ensures LayoutShown(EmptyClasses(cs, st), st)
    ensures forall x | x !in SizeMods && x !in AlignMods && x != "xempty" :: x in EmptyClasses(cs, st) <==> x in cs
    ensures EmptyClasses(EmptyClasses(cs, st), st) == EmptyClasses(cs, st)
  {
  }

  /** The settings before `parse`: the field initialisers. */
  const Initial: EmptyState := EmptyState(Md, Center, "", "", Undef, Undef)

  /** Where construction stands while the host's `parse` runs the setters:
      the settings stored so far, and the stack the host holds, if any. A
      rebuild removes the stack it finds by id before appending, so there
      is at most one. */
  datatype Parsing = Parsing(st: EmptyState, stack: Option<Shape>)

  /** One setter run by `parse` as written, with no guard: `updateTitle` and
      `updateDescription` rebuild when their label is missing, `_icon` and
      `_action` always rebuild, `_size` and `_align` only lay out, and any
      other key is a plain property. */
  function ParseSetter(p: Parsing, key: string, v: Value): (r: Parsing)
    ensures p.stack.Some? ==> r.stack.Some?
    ensures key == "_icon" || key == "_action" ==> r.stack.Some?
  {
    if key == "_title" then
      var s := p.st.(title := TruthyText(v));
      var present := p.stack.Some? && p.stack.value.title.Some?;
      if !IsBlank(s.title) && present then Parsing(s, Some(Retext(p.stack.value, TitleId, Trim(s.title))))
      else if !IsBlank(s.title) || present then Parsing(s, Some(ShapeOf(s)))
      else Parsing(s, p.stack)
    else if key == "_description" then
      var s := p.st.(description := TruthyText(v));
      var present := p.stack.Some? && p.stack.value.desc.Some?;
      if !IsBlank(s.description) && present then Parsing(s, Some(Retext(p.stack.value, DescId, Trim(s.description))))
      else if !IsBlank(s.description) || present then Parsing(s, Some(ShapeOf(s)))
      else Parsing(s, p.stack)
    else if key == "_size" then Parsing(p.st.(size := NormalizeSize(v)), p.stack)
    else if key == "_align" then Parsing(p.st.(align := NormalizeAlign(v)), p.stack)
    else if key == "_icon" then var s := p.st.(icon := v); Parsing(s, Some(ShapeOf(s)))
    else if key == "_action" then var s := p.st.(action := v); Parsing(s, Some(ShapeOf(s)))
    else p
  }

  /** `parse` over the configuration's keys, in the order it visits them. */
  function ParseRun(p: Parsing, data: Value, keys: seq<string>): Parsing
    decreases |keys|
  {
    if keys == [] then p else ParseRun(ParseSetter(p, keys[0], Field(data, keys[0])), data, keys[1..])
  }

  /** The stacks the host holds after construction as written: the one a
      parse-time rebuild appended, if any, then the one `buildSkeleton`
      appends for the settings `applyProps` reads back. Both carry the id
      `StackId`. */
  function StacksAsWritten(data: Value, keys: seq<string>): seq<Shape> {
    var p := ParseRun(Parsing(Initial, None), data, keys);
    (if p.stack.Some? then [p.stack.value] else []) + [ShapeOf(p.st)]
  }

  /** Once a stack is there, the remaining setters keep one there. */
  lemma {:induction false} ParseKeepsStack(p: Parsing, data: Value, keys: seq<string>)
    requires p.stack.Some?
    ensures ParseRun(p, data, keys).stack.Some?
    decreases |keys|
  {
    if keys != [] {
      ParseKeepsStack(ParseSetter(p, keys[0], Field(data, keys[0])), data, keys[1..]);
    }
  }

  /** A configuration with an `_icon` or `_action` key, whatever its value,
      has a stack appended during `parse`. */
  lemma {:induction false} ParseAppendsStack(p: Parsing, data: Value, keys: seq<string>)
    requires "_icon" in keys || "_action" in keys
    ensures ParseRun(p, data, keys).stack.Some?
    decreases |keys|
  {
    var q := ParseSetter(p, keys[0], Field(data, keys[0]));
    if keys[0] == "_icon" || keys[0] == "_action" {
      ParseKeepsStack(q, data, keys[1..]);
    } else {
      ParseAppendsStack(q, data, keys[1..]);
    }
  }

  /** As written, such a configuration ends with two stacks under the same
      id. */
  lemma TwoStacks(data: Value, keys: seq<string>)
    requires "_icon" in keys || "_action" in keys
    ensures |StacksAsWritten(data, keys)| == 2
  {
    ParseAppendsStack(Parsing(Initial, None), data, keys);
  }

  /** The smallest case: `{_title: "T"}` gives two stacks, both showing the
      title. */
  lemma TwoStacksForTitle()
    ensures var data := Obj(0, map["_title" := Str("T")]);
      StacksAsWritten(data, ["_title"]) == [ShapeOf(StateOf(data)), ShapeOf(StateOf(data))]
  {
    var data := Obj(0, map["_title" := Str("T")]);
    var s := Initial.(title := "T");
    assert !IsBlank("T") by { assert !IsSpace("T"[0]); }
    var q := ParseSetter(Parsing(Initial, None), "_title", Str("T"));
    assert q == Parsing(s, Some(ShapeOf(s)));
    assert ["_title"][1..] == [];
    assert ParseRun(Parsing(Initial, None), data, ["_title"]) == q;
    assert StateOf(data) == s;
  }

  class XEmptyState {
    var classes: set<string>
    var st: EmptyState
    /** What the stack appended by the last `buildSkeleton` shows, as
        patched in place since; the nodes are `Root()`. */
    var built: Shape
    /** How many times the stack has been rebuilt since construction. */
    var rebuilds: nat

    /** The stack and the nodes under it. */
    function Root(): Node
      reads this
    {
      Render(built)
    }

    /** The stack is the skeleton of the current settings and the classes
        show the layout. */
    predicate Valid()
      reads this
    {
      built == ShapeOf(st) && LayoutShown(classes, st)
    }

    /** `applyLayout()`. */
    method ApplyLayout()
      modifies this
      ensures classes == EmptyClasses(old(classes), st) && LayoutShown(classes, st)
      ensures st == old(st) && built == old(built) && rebuilds == old(rebuilds)
    {
      classes := EmptyClasses(classes, st);
      EmptyClassesShape(old(classes), st);
    }

    /** `rebuild()`: the old stack is removed, a new skeleton appended, and
        the layout applied. */
    method Rebuild()
      modifies this
      ensures Valid() && rebuilds == old(rebuilds) + 1 && st == old(st)
      ensures classes == EmptyClasses(old(classes), st)
    {
      built := ShapeOf(st);
      rebuilds := rebuilds + 1;
      ApplyLayout();
    }

    /** Construction: the settings are read, the skeleton built and the
        layout applied. */
    constructor(data: Value)
      ensures st == StateOf(data) && rebuilds == 0
      ensures classes == EmptyClasses(ClassList(if Truthy(Field(data, "class")) then ToStr(Field(data, "class")) else "xempty"), st)
      ensures Valid()
    {
      var s := StateOf(data);
      var cs := ClassList(if Truthy(Field(data, "class")) then ToStr(Field(data, "class")) else "xempty");
      st := s;
      built := ShapeOf(s);
      rebuilds := 0;
      classes := EmptyClasses(cs, s);
      new;
      EmptyClassesShape(cs, s);
    }

    /** The `_title` setter and `updateTitle()`: the text is stored; the
        label's text is rewritten when the title stays shown, and the stack
        rebuilt when the label's presence no longer matches. */
    method SetTitle(v: Value)
      requires Valid()
      modifies this
      ensures st == old(st).(title := TruthyText(v)) && Valid()
      ensures rebuilds == old(rebuilds) + (if old(built).title.Some? != !IsBlank(st.title) then 1 else 0)
      ensures old(built).title.Some? != !IsBlank(st.title) ==> classes == EmptyClasses(old(classes), st)
      ensures old(built).title.Some? == !IsBlank(st.title) ==>
        classes == old(classes) && built == Retext(old(built), TitleId, Trim(st.title))
    {
      ghost var prev := st;
      st := st.(title := TruthyText(v));
      TitleStep(prev, st);
      var present := built.title.Some?;
      if !IsBlank(st.title) {
        if present {
          built := Retext(built, TitleId, Trim(st.title));
        } else {
          Rebuild();
        }
      } else if present {
        Rebuild();
      }
    }

    /** The `_description` setter and `updateDescription()`. */
    method SetDescription(v: Value)
      requires Valid()
      modifies this
      ensures st == old(st).(description := TruthyText(v)) && Valid()
      ensures rebuilds == old(rebuilds) + (if old(built).desc.Some? != !IsBlank(st.description) then 1 else 0)
      ensures old(built).desc.Some? != !IsBlank(st.description) ==> classes == EmptyClasses(old(classes), st)
      ensures old(built).desc.Some? == !IsBlank(st.description) ==>
        classes == old(classes) && built == Retext(old(built), DescId, Trim(st.description))
    {
      ghost var prev := st;
      st := st.(description := TruthyText(v));
      DescStep(prev, st);
      var present := built.desc.Some?;
      if !IsBlank(st.description) {
        if present {
          built := Retext(built, DescId, Trim(st.description));
        } else {
          Rebuild();
        }
      } else if present {
        Rebuild();
      }
    }

    /** The `_size` setter: the layout is applied; the stack is kept. */
    method SetSize(v: Value)
      requires Valid()
      modifies this
      ensures st == old(st).(size := NormalizeSize(v)) && Valid()
      ensures built == old(built) && rebuilds == old(rebuilds) && classes == EmptyClasses(old(classes), st)
    {
      st := st.(size := NormalizeSize(v));
      ApplyLayout();
    }

    /** The `_align` setter. */
    method SetAlign(v: Value)
      requires Valid()
      modifies this
      ensures st == old(st).(align := NormalizeAlign(v)) && Valid()
      ensures built == old(built) && rebuilds == old(rebuilds) && classes == EmptyClasses(old(classes), st)
    {
      st := st.(align := NormalizeAlign(v));
      ApplyLayout();
    }

    /** The `_icon` setter: always a rebuild. */
    method SetIcon(v: Value)
      modifies this
      ensures st == old(st).(icon := v) && Valid() && rebuilds == old(rebuilds) + 1
      ensures classes == EmptyClasses(old(classes), st)
    {
      st := st.(icon := v);
      Rebuild();
    }

    /** The `_action` setter: always a rebuild. */
    method SetAction(v: Value)
      modifies this
      ensures st == old(st).(action := v) && Valid() && rebuilds == old(rebuilds) + 1
      ensures classes == EmptyClasses(old(classes), st)
    {
      st := st.(action := v);
      Rebuild();
    }
  }
}

=== FILE: field.dfy ===
/** XField: a form row around a caller's control, with an optional label
    (and a required marker) above or beside it and one message line below.
    The error message wins over the hint. After construction each setter
    either rewrites a label's text in place or rebuilds the whole tree. */
module Field {
  import opened Text
  import opened Values
  import opened Classes
  import opened Nodes

  /** The node ids, each standing for the widget's own id followed by this
      suffix. */
  const RootId: string := "_root"
  const LabelId: string := "_label"
  const RequiredId: string := "_required"
  const HintId: string := "_hint"
  const ErrorId: string := "_error"
  const ControlWrapId: string := "_control_wrap"
  const InlineRowId: string := "_inline_row"

  /** The ids differ from each other and from the empty id. */
  lemma IdsDistinct()
    ensures "" != LabelId && "" != ErrorId && "" != HintId && "" != RequiredId && "" != ControlWrapId && "" != InlineRowId
    ensures RootId != LabelId && RootId != ErrorId && RootId != HintId
    ensures RootId != RequiredId && RootId != ControlWrapId && RootId != InlineRowId
    ensures RequiredId != LabelId && RequiredId != ErrorId && RequiredId != HintId
    ensures ControlWrapId != LabelId && ControlWrapId != ErrorId && ControlWrapId != HintId
    ensures InlineRowId != LabelId && InlineRowId != ErrorId && InlineRowId != HintId
    ensures RequiredId != ControlWrapId && RequiredId != InlineRowId && ControlWrapId != InlineRowId
    ensures LabelId != ErrorId && LabelId != HintId && ErrorId != HintId
  {
    assert RootId[1] == 'r' && LabelId[1] == 'l' && HintId[1] == 'h' && ErrorId[1] == 'e';
    assert |RootId| == 5 && |LabelId| == 6 && |RequiredId| == 9 && |HintId| == 5 && |ErrorId| == 6;
    assert |ControlWrapId| == 13 && |InlineRowId| == 11;
  }

  datatype Size = Sm | Md

  const SizeMods: set<string> := {"xfield--sm", "xfield--md"}
  const AlignMods: set<string> := {"xfield--inline", "xfield--stack"}

  /** Only "sm" is small. */
  function NormalizeSize(v: Value): (r: Size)
    ensures r == Sm <==> v == Str("sm")
  {
    if v == Str("sm") then Sm else Md
  }

  function SizeToken(s: Size): string {
    if s == Sm then "xfield--sm" else "xfield--md"
  }

  function AlignToken(inline: bool): string {
    if inline then "xfield--inline" else "xfield--stack"
  }

  /** `hasLabel`, `hasHint`, `hasError`: the text is not blank. */
  predicate HasText(s: string) {
    Trim(s) != ""
  }

  /** The widget's stored settings: the three texts, the two flags, the
      size, the caller's control description (falsy when none) and the
      stored error flag. */
  datatype FieldState = FieldState(caption: string, hint: string, error: string, required: bool, inline: bool,
                                   size: Size, control: Value, hasError: bool)

  /** The settings read from the configuration: texts through `v ? String(v) : ""`,
      flags through the one-argument `normalizeBoolean`. */
  function StateOf(data: Value): (r: FieldState)
    ensures r.hasError <==> HasText(r.error)
    ensures r.size == Sm <==> Field(data, "_size") == Str("sm")
    ensures !Truthy(Field(data, "_label")) ==> r.caption == ""
    ensures r.inline <==> Field(data, "_inline") == Bool(true) || Field(data, "_inline") == Str("true")
  {
    var error := TruthyText(Field(data, "_error"));
    FieldState(TruthyText(Field(data, "_label")), TruthyText(Field(data, "_hint")), error,
               IsTrue(Field(data, "_required")), IsTrue(Field(data, "_inline")),
               NormalizeSize(Field(data, "_size")), Field(data, "_control"), HasText(error))
  }

  /** The one message line: none, the error, or the hint. */
  datatype Message = NoMessage | ErrorText(text: string) | HintText(text: string)

  /** `buildMessageRow`'s choice: the trimmed error when there is one, else
      the trimmed hint when there is one, else nothing. */
  function MessageOf(error: string, hint: string): (r: Message)
    ensures r.ErrorText? <==> HasText(error)
    ensures r.HintText? <==> !HasText(error) && HasText(hint)
    ensures r.ErrorText? ==> r.text == Trim(error)
    ensures r.HintText? ==> r.text == Trim(hint)
  {
    if HasText(error) then ErrorText(Trim(error))
    else if HasText(hint) then HintText(Trim(hint))
    else NoMessage
  }

  /** Everything the tree depends on: the label text when shown, the
      required marker, the control when set, the message, and the layout. */
  datatype Shape = Shape(labelText: Option<string>, required: bool, control: Option<Value>, message: Message, inline: bool)

  function ShapeOf(st: FieldState): (r: Shape)
    ensures r.labelText.Some? <==> HasText(st.caption)
    ensures r.labelText.Some? ==> r.labelText.value == Trim(st.caption)
    ensures r.control.Some? <==> Truthy(st.control)
    ensures r.message == MessageOf(st.error, st.hint) && r.required == st.required && r.inline == st.inline
  {
    Shape(if HasText(st.caption) then Some(Trim(st.caption)) else None, st.required,
          if Truthy(st.control) then Some(st.control) else None, MessageOf(st.error, st.hint), st.inline)
  }

  function LabelNode(t: string): Node {
    Make("label", LabelId, "xfield__label", t, [])
  }

  const RequiredNode: Node := Make("label", RequiredId, "xfield__required", "*", [])

  /** `buildLabelRow`: the label, then the marker; no row when both are absent. */
  function LabelRow(sh: Shape): Option<Node> {
    var children := (if sh.labelText.Some? then [LabelNode(sh.labelText.value)] else [])
                    + (if sh.required then [RequiredNode] else []);
    if children == [] then None
    else Some(El("stack", "", "xfield__label-row", "", map["_direction" := "horizontal", "_gap" := "6"], children))
  }

  /** `buildControlRow`: the control wrapped in its container. */
  function ControlRow(sh: Shape): Option<Node> {
    if sh.control.Some? then Some(Make("view", ControlWrapId, "xfield__control", "", [User(sh.control.value)])) else None
  }

  /** `buildMessageRow`. */
  function MessageRow(sh: Shape): Option<Node> {
    match sh.message
    case NoMessage => None
    case ErrorText(t) => Some(Make("label", ErrorId, "xfield__error", t, []))
    case HintText(t) => Some(Make("label", HintId, "xfield__hint", t, []))
  }

  /** The row shared by the label and the control in the inline layout. */
  function InlineRow(inner: seq<Node>): Node {
    El("stack", InlineRowId, "xfield__row xfield__row--inline", "", map["_direction" := "horizontal", "_gap" := "12"], inner)
  }

  /** `buildSkeleton`'s rows. */
  function Rows(sh: Shape): seq<Node> {
    if sh.inline then
      var inner := Present(LabelRow(sh)) + Present(ControlRow(sh));
      (if inner == [] then [] else [InlineRow(inner)]) + Present(MessageRow(sh))
    else Present(LabelRow(sh)) + Present(ControlRow(sh)) + Present(MessageRow(sh))
  }

  /** The root stack `buildSkeleton` appends. */
  function Render(sh: Shape): Node {
    El("stack", RootId, "xfield__stack", "", map["_direction" := "vertical", "_gap" := "8"], Rows(sh))
  }

  /** The label row exists exactly when there is a label or the marker; the
      trimmed label comes before the "*". */
  lemma LabelRowShape(st: FieldState)
    ensures LabelRow(ShapeOf(st)).Some? <==> HasText(st.caption) || st.required
    ensures LabelRow(ShapeOf(st)).Some? ==>
      var ch := LabelRow(ShapeOf(st)).value.children;
      && |ch| == (if HasText(st.caption) then 1 else 0) + (if st.required then 1 else 0)
      && (HasText(st.caption) ==> ch[0].text == Trim(st.caption) && ch[0].id == LabelId)
      && (st.required ==> ch[|ch| - 1].text == "*" && ch[|ch| - 1].id == RequiredId)
  {
  }

  /** In the inline layout the label row and the control share one
      horizontal row, left out when both are absent, followed by the
      message; stacked, the three rows follow one another. */
  lemma RowsLayout(sh: Shape)
    ensures sh.inline && (LabelRow(sh).Some? || ControlRow(sh).Some?) ==>
      Rows(sh) == [InlineRow(Present(LabelRow(sh)) + Present(ControlRow(sh)))] + Present(MessageRow(sh))
    ensures sh.inline && LabelRow(sh).None? && ControlRow(sh).None? ==> Rows(sh) == Present(MessageRow(sh))
    ensures !sh.inline ==> Rows(sh) == Present(LabelRow(sh)) + Present(ControlRow(sh)) + Present(MessageRow(sh))
    ensures InlineRow([]).children == [] && |Rows(sh)| <= 3
  {
  }

  lemma LabelRowIds(sh: Shape, id: string)
    ensures HasId(Present(LabelRow(sh)), id) <==>
      (id == LabelId && sh.labelText.Some?) || (id == RequiredId && sh.required) || (id == "" && LabelRow(sh).Some?)
  {
    IdsDistinct();
    if LabelRow(sh).Some? {
      var n := LabelRow(sh).value;
      HasIdOne(n, id);
      var a := if sh.labelText.Some? then [LabelNode(sh.labelText.value)] else [];
      var b := if sh.required then [RequiredNode] else [];
      assert n.children == a + b;
      HasIdAppend(a, b, id);
      if sh.labelText.Some? {
        HasIdOne(LabelNode(sh.labelText.value), id);
      }
      if sh.required {
        HasIdOne(RequiredNode, id);
      }
    }
  }

  lemma ControlRowIds(sh: Shape, id: string)
    ensures HasId(Present(ControlRow(sh)), id) <==> id == ControlWrapId && sh.control.Some?
  {
    IdsDistinct();
    if sh.control.Some? {
      HasIdOne(ControlRow(sh).value, id);
      HasIdOne(User(sh.control.value), id);
    }
  }

  lemma MessageRowIds(sh: Shape, id: string)
    ensures HasId(Present(MessageRow(sh)), id) <==>
      (id == ErrorId && sh.message.ErrorText?) || (id == HintId && sh.message.HintText?)
  {
    IdsDistinct();
    if MessageRow(sh).Some? {
      HasIdOne(MessageRow(sh).value, id);
    }
  }

  /** Which nodes the tree holds: the label, the marker, the control
      container, the error and the hint each exactly when the shape calls
      for it, so the error and the hint never both appear; the inline row
      exactly in the inline layout with a label row or a control. */
  lemma RenderIds(sh: Shape)
    ensures NodeHasId(Render(sh), LabelId) <==> sh.labelText.Some?
    ensures NodeHasId(Render(sh), RequiredId) <==> sh.required
    ensures NodeHasId(Render(sh), ControlWrapId) <==> sh.control.Some?
    ensures NodeHasId(Render(sh), ErrorId) <==> sh.message.ErrorText?
    ensures NodeHasId(Render(sh), HintId) <==> sh.message.HintText?
    ensures !(NodeHasId(Render(sh), ErrorId) && NodeHasId(Render(sh), HintId))
    ensures NodeHasId(Render(sh), InlineRowId) <==> sh.inline && (sh.labelText.Some? || sh.required || sh.control.Some?)
  {
    IdsDistinct();
    RenderHasLabel(sh);
    RenderHasRequired(sh);
    RenderHasMessage(sh);
    RenderHasId(sh, ControlWrapId);
    RenderHasId(sh, InlineRowId);
  }

  /** The node with this id is present in a tree of this shape. */
  lemma RenderHasId(sh: Shape, id: string)
    requires id in {LabelId, RequiredId, ControlWrapId, ErrorId, HintId, InlineRowId}
    ensures NodeHasId(Render(sh), id) <==>
      (id == LabelId && sh.labelText.Some?) || (id == RequiredId && sh.required)
      || (id == ControlWrapId && sh.control.Some?) || (id == ErrorId && sh.message.ErrorText?)
      || (id == HintId && sh.message.HintText?)
      || (id == InlineRowId && sh.inline && (sh.labelText.Some? || sh.required || sh.control.Some?))
  {
    assert NodeHasId(Render(sh), id) <==> HasId(Rows(sh), id);
    RowsIds(sh, id);
  }

  lemma RenderHasLabel(sh: Shape)
    ensures NodeHasId(Render(sh), LabelId) <==> sh.labelText.Some?
  {
    IdsDistinct();
    RenderHasId(sh, LabelId);
  }

  lemma RenderHasRequired(sh: Shape)
    ensures NodeHasId(Render(sh), RequiredId) <==> sh.required
  {
    IdsDistinct();
    RenderHasId(sh, RequiredId);
  }

  lemma RenderHasMessage(sh: Shape)
    ensures NodeHasId(Render(sh), ErrorId) <==> sh.message.ErrorText?
    ensures NodeHasId(Render(sh), HintId) <==> sh.message.HintText?
  {
    IdsDistinct();
    RenderHasId(sh, ErrorId);
    RenderHasId(sh, HintId);
  }

  lemma RowsIds(sh: Shape, id: string)
    requires id in {LabelId, RequiredId, ControlWrapId, ErrorId, HintId, InlineRowId}
    ensures HasId(Rows(sh), id) <==>
      (id == LabelId && sh.labelText.Some?) || (id == RequiredId && sh.required)
      || (id == ControlWrapId && sh.control.Some?) || (id == ErrorId && sh.message.ErrorText?)
      || (id == HintId && sh.message.HintText?)
      || (id == InlineRowId && sh.inline && (sh.labelText.Some? || sh.required || sh.control.Some?))
  {
    IdsDistinct();
    var l := Present(LabelRow(sh));
    var c := Present(ControlRow(sh));
    var m := Present(MessageRow(sh));
    LabelRowIds(sh, id);
    ControlRowIds(sh, id);
    MessageRowIds(sh, id);
    HasIdAppend(l, c, id);
    if sh.inline {
      var inner := l + c;
      var top := if inner == [] then [] else [InlineRow(inner)];
      assert Rows(sh) == top + m;
      HasIdAppend(top, m, id);
      if inner != [] {
        HasIdOne(InlineRow(inner), id);
      }
    } else {
      assert Rows(sh) == (l + c) + m;
      HasIdAppend(l + c, m, id);
    }
  }

  /** The shape after the host rewrites the text of the node with this id:
      the label's or the message's text when that node is present. */
  function Retext(sh: Shape, id: string, t: string): Shape {
    if id == LabelId && sh.labelText.Some? then sh.(labelText := Some(t))
    else if id == ErrorId && sh.message.ErrorText? then sh.(message := ErrorText(t))
    else if id == HintId && sh.message.HintText? then sh.(message := HintText(t))
    else sh
  }

  /** Rewriting a label's text in place gives the very tree a rebuild with
      that text would give. */
  lemma RetextRender(sh: Shape, id: string, t: string)
    requires id == LabelId || id == ErrorId || id == HintId
    ensures SetNodeText(Render(sh), id, t) == Render(Retext(sh, id, t))
  {
    IdsDistinct();
    var sh' := Retext(sh, id, t);
    var l := Present(LabelRow(sh));
    var c := Present(ControlRow(sh));
    var m := Present(MessageRow(sh));
    RetextLabelRow(sh, id, t);
    RetextControlRow(sh, id, t);
    RetextMessageRow(sh, id, t);
    SetTextAppend(l, c, id, t);
    if sh.inline {
      var inner := l + c;
      var top := if inner == [] then [] else [InlineRow(inner)];
      assert Rows(sh) == top + m;
      SetTextAppend(top, m, id, t);
      if inner != [] {
        SetTextOne(InlineRow(inner), id, t);
      }
      assert Rows(sh') == (if SetText(inner, id, t) == [] then [] else [InlineRow(SetText(inner, id, t))]) + SetText(m, id, t);
    } else {
      assert Rows(sh) == (l + c) + m;
      SetTextAppend(l + c, m, id, t);
    }
  }

  lemma RetextLabelRow(sh: Shape, id: string, t: string)
    requires id == LabelId || id == ErrorId || id == HintId
    ensures SetText(Present(LabelRow(sh)), id, t) == Present(LabelRow(Retext(sh, id, t)))
  {
    IdsDistinct();
    if LabelRow(sh).Some? {
      var n := LabelRow(sh).value;
      SetTextOne(n, id, t);
      var a := if sh.labelText.Some? then [LabelNode(sh.labelText.value)] else [];
      var b := if sh.required then [RequiredNode] else [];
      assert n.children == a + b;
      SetTextAppend(a, b, id, t);
      if sh.labelText.Some? {
        SetTextOne(LabelNode(sh.labelText.value), id, t);
      }
      if sh.required {
        SetTextOne(RequiredNode, id, t);
      }
    }
  }

  lemma RetextControlRow(sh: Shape, id: string, t: string)
    requires id == LabelId || id == ErrorId || id == HintId
    ensures SetText(Present(ControlRow(sh)), id, t) == Present(ControlRow(Retext(sh, id, t)))
  {
    IdsDistinct();
    if sh.control.Some? {
      SetTextOne(ControlRow(sh).value, id, t);
      SetTextOne(User(sh.control.value), id, t);
    }
  }

  lemma RetextMessageRow(sh: Shape, id: string, t: string)
    requires id == LabelId || id == ErrorId || id == HintId
    ensures SetText(Present(MessageRow(sh)), id, t) == Present(MessageRow(Retext(sh, id, t)))
  {
    IdsDistinct();
    if MessageRow(sh).Some? {
      SetTextOne(MessageRow(sh).value, id, t);
    }
  }

  /** A new label text: while the label stays shown, rewriting its text
      in the built tree gives the tree for the new settings; while it stays
      hidden, the tree does not change. */
  lemma LabelStep(prev: FieldState, st: FieldState)
    requires st == prev.(caption := st.caption)
    ensures HasText(prev.caption) && HasText(st.caption) ==> Retext(ShapeOf(prev), LabelId, Trim(st.caption)) == ShapeOf(st)
    ensures !HasText(prev.caption) && !HasText(st.caption) ==> ShapeOf(st) == ShapeOf(prev)
  {
    IdsDistinct();
  }

  /** A new hint text: while an error is shown, or the hint stays hidden,
      the tree does not change; while the hint stays shown, rewriting its
      text gives the tree for the new settings. */
  lemma HintStep(prev: FieldState, st: FieldState)
    requires st == prev.(hint := st.hint)
    ensures HasText(st.error) || (!HasText(prev.hint) && !HasText(st.hint)) ==> ShapeOf(st) == ShapeOf(prev)
    ensures !HasText(st.error) && HasText(prev.hint) && HasText(st.hint) ==>
      Retext(ShapeOf(prev), HintId, Trim(st.hint)) == ShapeOf(st)
  {
    IdsDistinct();
  }

  /** A new error text: while the error stays shown, rewriting its text
      gives the tree for the new settings; while it stays hidden, the tree
      does not change. */
  lemma ErrorStep(prev: FieldState, st: FieldState)
    requires st == prev.(error := st.error, hasError := st.hasError)
    ensures HasText(prev.error) && HasText(st.error) ==> Retext(ShapeOf(prev), ErrorId, Trim(st.error)) == ShapeOf(st)
    ensures !HasText(prev.error) && !HasText(st.error) ==> ShapeOf(st) == ShapeOf(prev)
  {
    IdsDistinct();
  }

  /** `applyLayout`'s class work: "xfield" added, the size family replaced
      by the current size, the layout family by the current layout, and the
      error modifier added or removed. */
  function FieldClasses(cs: set<string>, st: FieldState): set<string> {
    (cs + {"xfield"} - SizeMods - AlignMods - {"xfield--error"})
    + {SizeToken(st.size), AlignToken(st.inline)} + (if st.hasError then {"xfield--error"} else {})
  }

  /** The four class steps of `applyLayout`, one after the other, give the
      same class list. */
  lemma FieldClassesSteps(cs: set<string>, st: FieldState)
    ensures FieldClasses(cs, st) ==
      Toggle(ReplaceClass(ReplaceClass(cs + {"xfield"}, SizeMods, {SizeToken(st.size)}), AlignMods, {AlignToken(st.inline)}),
             "xfield--error", st.hasError)
  {
  }

  /** Exactly one size modifier, exactly one layout modifier, the error
      modifier exactly when the error flag is set. */
  predicate LayoutShown(cs: set<string>, st: FieldState) {
    && "xfield" in cs
    && cs * SizeMods == {SizeToken(st.size)}
    && cs * AlignMods == {AlignToken(st.inline)}
    && ("xfield--error" in cs <==> st.hasError)
  }

  /** `applyLayout` shows the current layout and keeps the caller's other
      classes. */
  lemma FieldClassesShape(cs: set<string>, st: FieldState)
    ensures LayoutShown(FieldClasses(cs, st), st)
    ensures forall x | x !in SizeMods && x !in AlignMods && x != "xfield" && x != "xfield--error" ::
      x in FieldClasses(cs, st) <==> x in cs
  {
  }

  /** On a class list that already shows the layout, `applyLayout` changes
      nothing. */
  lemma FieldClassesStable(cs: set<string>, st: FieldState)
    requires LayoutShown(cs, st)
    ensures FieldClasses(cs, st) == cs
  {
    var r := FieldClasses(cs, st);
    forall x
      ensures x in r <==> x in cs
    {
      if x in SizeMods {
        assert x in cs * SizeMods <==> x == SizeToken(st.size);
      } else if x in AlignMods {
        assert x in cs * AlignMods <==> x == AlignToken(st.inline);
      }
    }
  }

  class XField {
    var classes: set<string>
    var st: FieldState
    var initializing: bool
    /** What the tree appended by the last `buildSkeleton` shows, as
        rewritten in place since; the nodes are `Root()`. */
    var built: Shape
    /** How many times the tree has been rebuilt since construction. */
    var rebuilds: nat

    /** The root stack and the nodes under it. */
    function Root(): Node
      reads this
    {
      Render(built)
    }

    /** The tree is the skeleton of the current settings, the error flag
        matches the error text, and the classes show the layout. */
    predicate Valid()
      reads this
    {
      built == ShapeOf(st) && st.hasError == HasText(st.error) && LayoutShown(classes, st)
    }

    /** `applyLayout()`. */
    method ApplyLayout()
      modifies this
      ensures classes == FieldClasses(old(classes), st) && LayoutShown(classes, st)
      ensures st == old(st) && initializing == old(initializing) && built == old(built) && rebuilds == old(rebuilds)
    {
      classes := FieldClasses(classes, st);
      FieldClassesShape(old(classes), st);
    }

    /** `rebuild()`: the old root is removed, a new skeleton appended, and the
        layout applied. */
    method Rebuild()
      modifies this
      ensures built == ShapeOf(st) && rebuilds == old(rebuilds) + 1
      ensures classes == FieldClasses(old(classes), st) && LayoutShown(classes, st)
      ensures st == old(st) && initializing == old(initializing)
    {
      built := ShapeOf(st);
      rebuilds := rebuilds + 1;
      ApplyLayout();
    }

    /** Construction: the settings are read, the skeleton built and the
        layout applied; afterwards the widget is no longer initialising. */
    constructor(data: Value)
      ensures st == StateOf(data) && !initializing && rebuilds == 0
      ensures classes == FieldClasses(ClassList(if Truthy(Field(data, "class")) then ToStr(Field(data, "class")) else "xfield"), st)
      ensures Valid()
    {
      var s := StateOf(data);
      st := s;
      initializing := true;
      built := ShapeOf(s);
      rebuilds := 0;
      classes := ClassList(if Truthy(Field(data, "class")) then ToStr(Field(data, "class")) else "xfield");
      new;
      ApplyLayout();
      initializing := false;
    }

    /** `updateLabelNode()`, after the label text changed from `prev`'s.
        The label node is found exactly when `built.labelText` is set
        (`RenderIds`); its text is rewritten when the label stays shown
        (`RetextRender`), and the tree rebuilt when its presence no longer
        matches. */
    method UpdateLabelNode(ghost prev: FieldState)
      requires built == ShapeOf(prev) && LayoutShown(classes, prev) && st == prev.(caption := st.caption)
      requires st.hasError == HasText(st.error)
      modifies this
      ensures Valid() && st == old(st) && initializing == old(initializing)
      ensures rebuilds == old(rebuilds) + (if old(built).labelText.Some? != HasText(st.caption) then 1 else 0)
      ensures classes == old(classes)
    {
      FieldClassesStable(classes, st);
      LabelStep(prev, st);
      var present := built.labelText.Some?;
      if HasText(st.caption) {
        if present {
          built := Retext(built, LabelId, Trim(st.caption));
        } else {
          Rebuild();
        }
      } else if present {
        Rebuild();
      }
    }

    /** The `_label` setter: the text is stored; while initialising nothing
        else happens. */
    method SetLabel(v: Value)
      requires initializing || Valid()
      modifies this
      ensures st == old(st).(caption := TruthyText(v)) && initializing == old(initializing)
      ensures initializing ==> built == old(built) && classes == old(classes) && rebuilds == old(rebuilds)
      ensures !initializing ==> Valid()
      ensures !initializing ==> rebuilds == old(rebuilds) + (if HasText(old(st).caption) != HasText(st.caption) then 1 else 0)
      ensures !initializing ==> classes == old(classes)
    {
      ghost var prev := st;
      st := st.(caption := TruthyText(v));
      if initializing {
        return;
      }
      UpdateLabelNode(prev);
    }

    /** `updateRequiredNode()`: a rebuild exactly when the marker's presence
        no longer matches the flag. */
    method UpdateRequiredNode(ghost prev: FieldState)
      requires built == ShapeOf(prev) && LayoutShown(classes, prev) && st == prev.(required := st.required)
      requires st.hasError == HasText(st.error)
      modifies this
      ensures Valid() && st == old(st) && initializing == old(initializing)
      ensures rebuilds == old(rebuilds) + (if old(built).required != st.required then 1 else 0)
      ensures classes == old(classes)
      ensures old(built).required == st.required ==> built == old(built)
    {
      FieldClassesStable(classes, st);
      var present := built.required;
      if st.required {
        if !present {
          Rebuild();
        }
      } else if present {
        Rebuild();
      }
    }

    /** The `_required` setter. */
    method SetRequired(v: Value)
      requires initializing || Valid()
      modifies this
      ensures st == old(st).(required := IsTrue(v)) && initializing == old(initializing)
      ensures initializing ==> built == old(built) && classes == old(classes) && rebuilds == old(rebuilds)
      ensures !initializing ==> Valid()
      ensures !initializing ==> rebuilds == old(rebuilds) + (if old(st).required != st.required then 1 else 0)
      ensures !initializing ==> classes == old(classes)
    {
      ghost var prev := st;
      st := st.(required := IsTrue(v));
      if initializing {
        return;
      }
      UpdateRequiredNode(prev);
    }

    /** `updateHintNode()`: nothing while an error is shown; otherwise the
        hint's text is rewritten when it stays shown, and the tree rebuilt
        when its presence no longer matches. */
    method UpdateHintNode(ghost prev: FieldState)
      requires built == ShapeOf(prev) && LayoutShown(classes, prev) && st == prev.(hint := st.hint)
      requires st.hasError == HasText(st.error)
      modifies this
      ensures Valid() && st == old(st) && initializing == old(initializing)
      ensures classes == old(classes)
      ensures st.hasError ==> built == old(built) && rebuilds == old(rebuilds)
      ensures !st.hasError ==>
        rebuilds == old(rebuilds) + (if old(built).message.HintText? != HasText(st.hint) then 1 else 0)
    {
      FieldClassesStable(classes, st);
      HintStep(prev, st);
      if st.hasError {
        return;
      }
      var present := built.message.HintText?;
      if HasText(st.hint) {
        if present {
          built := Retext(built, HintId, Trim(st.hint));
        } else {
          Rebuild();
        }
      } else if present {
        Rebuild();
      }
    }

    /** The `_hint` setter. */
    method SetHint(v: Value)
      requires initializing || Valid()
      modifies this
      ensures st == old(st).(hint := TruthyText(v)) && initializing == old(initializing)
      ensures initializing ==> built == old(built) && classes == old(classes) && rebuilds == old(rebuilds)
      ensures !initializing ==> Valid()
      ensures !initializing && st.hasError ==> built == old(built) && rebuilds == old(rebuilds)
      ensures !initializing && !st.hasError ==>
        rebuilds == old(rebuilds) + (if HasText(old(st).hint) != HasText(st.hint) then 1 else 0)
      ensures !initializing ==> classes == old(classes)
    {
      ghost var prev := st;
      st := st.(hint := TruthyText(v));
      if initializing {
        return;
      }
      UpdateHintNode(prev);
    }

    /** `updateErrorNode()`: the error flag follows the text; a rebuild
        when the error must appear but its node is missing or the hint is
        shown, when the error must go, or when a hint must appear; otherwise
        the error's text is rewritten or the hint updated; the layout is
        applied. */
    method UpdateErrorNode(ghost prev: FieldState)
      requires built == ShapeOf(prev) && LayoutShown(classes, prev) && prev.hasError == HasText(prev.error)
      requires st == prev.(error := st.error)
      modifies this
      ensures Valid() && st == old(st).(hasError := HasText(st.error)) && initializing == old(initializing)
      ensures classes == FieldClasses(old(classes), st)
      ensures rebuilds == old(rebuilds) + (if st.hasError != prev.hasError then 1 else 0)
    {
      var hasError := HasText(st.error);
      var error := built.message.ErrorText?;
      var hint := built.message.HintText?;
      st := st.(hasError := hasError);
      ErrorStep(prev, st);
      if hasError {
        if !error || hint {
          Rebuild();
          return;
        }
        built := Retext(built, ErrorId, Trim(st.error));
      } else {
        if error {
          Rebuild();
          return;
        }
        if HasText(st.hint) && !hint {
          // Unreachable: with no error shown before, the hint node is
          // present exactly when the (unchanged) hint has text.
          assert false;
        }
        UpdateHintNode(st);
      }
      ApplyLayout();
    }

    /** The `_error` setter: after it the error flag equals `hasError()`. */
    method SetError(v: Value)
      requires initializing || Valid()
      modifies this
      ensures initializing == old(initializing)
      ensures initializing ==> st == old(st).(error := TruthyText(v)) && built == old(built) && classes == old(classes)
      ensures !initializing ==> st == old(st).(error := TruthyText(v), hasError := HasText(TruthyText(v))) && Valid()
      ensures !initializing ==> classes == FieldClasses(old(classes), st)
      ensures !initializing ==> rebuilds == old(rebuilds) + (if st.hasError != old(st).hasError then 1 else 0)
    {
      ghost var prev := st;
      st := st.(error := TruthyText(v));
      if initializing {
        return;
      }
      UpdateErrorNode(prev);
    }

    /** The `_inline` setter: a rebuild once initialised. */
    method SetInline(v: Value)
      requires initializing || Valid()
      modifies this
      ensures st == old(st).(inline := IsTrue(v)) && initializing == old(initializing)
      ensures initializing ==> built == old(built) && classes == old(classes) && rebuilds == old(rebuilds)
      ensures !initializing ==> Valid() && rebuilds == old(rebuilds) + 1
      ensures !initializing ==> classes == FieldClasses(old(classes), st)
    {
      st := st.(inline := IsTrue(v));
      if initializing {
        return;
      }
      Rebuild();
    }

    /** The `_size` setter: only the classes change once initialised. */
    method SetSize(v: Value)
      requires initializing || Valid()
      modifies this
      ensures st == old(st).(size := NormalizeSize(v)) && initializing == old(initializing)
      ensures built == old(built) && rebuilds == old(rebuilds)
      ensures initializing ==> classes == old(classes)
      ensures !initializing ==> Valid() && classes == FieldClasses(old(classes), st)
    {
      st := st.(size := NormalizeSize(v));
      if initializing {
        return;
      }
      ApplyLayout();
    }

    /** The `_control` setter: a rebuild once initialised. */
    method SetControl(v: Value)
      requires initializing || Valid()
      modifies this
      ensures st == old(st).(control := v) && initializing == old(initializing)
      ensures initializing ==> built == old(built) && classes == old(classes) && rebuilds == old(rebuilds)
      ensures !initializing ==> Valid() && rebuilds == old(rebuilds) + 1
      ensures !initializing ==> classes == old(classes)
    {
      st := st.(control := v);
      if initializing {
        return;
      }
      FieldClassesStable(classes, st);
      Rebuild();
    }
  }
}

=== FILE: grid.dfy ===
/** XGrid: a CSS grid wrapper. Its constructor turns `_cols`, `_gap` and
    `_min_col_width` into CSS custom properties appended to the host's
    `style`; nothing is ever stripped or rewritten afterwards. */
module Grid {
  import opened Values

  /** `; --x-grid-cols:<cols>`. */
  function ColsDecl(cols: Value): string {
    "; --x-grid-cols:" + ToStr(cols)
  }

  /** `; --x-grid-gap:<gap>px`. */
  function GapDecl(gap: Value): string {
    "; --x-grid-gap:" + ToStr(gap) + "px"
  }

  /** `; --x-grid-min-col:<width>px`. */
  function MinColDecl(minCol: Value): string {
    "; --x-grid-min-col:" + ToStr(minCol) + "px"
  }

  function When(b: bool, s: string): string {
    if b then s else ""
  }

  /** The style after the constructor: the caller's style, then each
      declaration whose value is truthy, in the order cols, gap, min-col. */
  function GridStyle(base: string, cols: Value, gap: Value, minCol: Value): string {
    base + When(Truthy(cols), ColsDecl(cols)) + When(Truthy(gap), GapDecl(gap)) + When(Truthy(minCol), MinColDecl(minCol))
  }

  /** The caller's style is kept as a prefix; the appended text is the
      declarations of the truthy values, each whole and in the order cols,
      gap, min-col, and nothing else; with no truthy value the style is the
      caller's own. Both the column count and the minimum width are appended
      when both are set. */
  lemma GridStyleShape(base: string, cols: Value, gap: Value, minCol: Value)
    ensures var r := GridStyle(base, cols, gap, minCol);
      var c := When(Truthy(cols), ColsDecl(cols));
      var g := When(Truthy(gap), GapDecl(gap));
      && |r| == |base| + |c| + |g| + |When(Truthy(minCol), MinColDecl(minCol))|
      && r[..|base|] == base
      && (Truthy(cols) ==> r[|base|..|base| + |ColsDecl(cols)|] == ColsDecl(cols))
      && (Truthy(gap) ==> r[|base| + |c|..|base| + |c| + |GapDecl(gap)|] == GapDecl(gap))
      && (Truthy(minCol) ==> r[|r| - |MinColDecl(minCol)|..] == MinColDecl(minCol))
    ensures GridStyle(base, cols, gap, minCol) == base <==> !Truthy(cols) && !Truthy(gap) && !Truthy(minCol)
  {
    var c := When(Truthy(cols), ColsDecl(cols));
    var g := When(Truthy(gap), GapDecl(gap));
    var m := When(Truthy(minCol), MinColDecl(minCol));
    Concat4(base, c, g, m);
    DeclsNonEmpty(cols, gap, minCol);
  }

  lemma DeclsNonEmpty(cols: Value, gap: Value, minCol: Value)
    ensures |ColsDecl(cols)| > 0 && |GapDecl(gap)| > 0 && |MinColDecl(minCol)| > 0
  {
  }

  /** The four parts of a concatenation can be read back at their offsets. */
  lemma Concat4(b: string, c: string, g: string, m: string)
    ensures var r := b + c + g + m;
      && |r| == |b| + |c| + |g| + |m|
      && r[..|b|] == b
      && r[|b|..|b| + |c|] == c
      && r[|b| + |c|..|b| + |c| + |g|] == g
      && r[|r| - |m|..] == m
  {
  }

  /** An append guarded by a flag is an append of the guarded text. */
  lemma AppendWhen(s: string, b: bool, t: string)
    ensures (if b then s + t else s) == s + When(b, t)
  {
    if !b {
      assert s + "" == s;
    }
  }

  class XGrid {
    var style: string
    /** `_cols`, `_gap` and `_min_col_width` as given. */
    var cols: Value
    var gap: Value
    var minColWidth: Value

    /** The constructor: the three optional appends, one after the other, each
        reading the style the previous one wrote. */
    constructor(data: Value)
      ensures cols == Field(data, "_cols") && gap == Field(data, "_gap") && minColWidth == Field(data, "_min_col_width")
      ensures style == GridStyle(TruthyText(Field(data, "style")), cols, gap, minColWidth)
    {
      cols := Field(data, "_cols");
      gap := Field(data, "_gap");
      minColWidth := Field(data, "_min_col_width");
      style := TruthyText(Field(data, "style"));
      new;
      ghost var s0 := style;
      if Truthy(cols) {
        style := style + ColsDecl(cols);
      }
      AppendWhen(s0, Truthy(cols), ColsDecl(cols));
      ghost var s1 := style;
      if Truthy(gap) {
        style := style + GapDecl(gap);
      }
      AppendWhen(s1, Truthy(gap), GapDecl(gap));
      ghost var s2 := style;
      if Truthy(minColWidth) {
        style := style + MinColDecl(minColWidth);
      }
      AppendWhen(s2, Truthy(minColWidth), MinColDecl(minColWidth));
    }
  }
}

=== FILE: igroup.dfy ===
/** XInputGroup: a flex row that joins inputs and buttons. `applyLayout` adds
    the base class, swaps the dense/merged modifiers through the host's
    class list, and rewrites the host's `style`. */
module InputGroup {
  import opened Text
  import opened Values
  import opened Styles
  import opened Classes
  import opened Names

  datatype Align = Start | Center | End | Stretch

  const Managed: set<string> := {"--xigroup-gap", "align-items", "flex-wrap", "display", "gap"}

  /** Every modifier `applyLayout` may set. */
  const AllMods: set<string> := {"xigroup--dense", "xigroup--merged"}

  /** The four accepted spellings are kept; anything else is "center". */
  function NormalizeAlign(v: Value): (r: Align)
    ensures v == Str("start") <==> r == Start
    ensures v == Str("end") <==> r == End
    ensures v == Str("stretch") <==> r == Stretch
    ensures r == Center <==> !(v in {Str("start"), Str("end"), Str("stretch")})
  {
    if v == Str("start") then Start
    else if v == Str("end") then End
    else if v == Str("stretch") then Stretch
    else Center
  }

  /** A finite non-negative number is kept; anything else is 8. */
  function NormalizeGap(v: Value): (r: int)
    ensures r >= 0
    ensures IsFinite(v) && v.n.v >= 0 ==> r == v.n.v
    ensures !(IsFinite(v) && v.n.v >= 0) ==> r == 8
  {
    NonNegOr(v, 8)
  }

  function MapAlign(a: Align): string {
    match a
    case Start => "flex-start"
    case End => "flex-end"
    case Center => "center"
    case Stretch => "stretch"
  }

  /** Distinct alignments give distinct CSS. */
  lemma MapInjective(a: Align, b: Align)
    ensures MapAlign(a) == MapAlign(b) <==> a == b
  {
  }

  /** `nextMods`: dense first, then merged. */
  function NextMods(dense: bool, merged: bool): seq<string> {
    (if dense then ["xigroup--dense"] else []) + (if merged then ["xigroup--merged"] else [])
  }

  /** The list holds the dense modifier exactly when dense and the merged
      modifier exactly when merged, each once, dense first. */
  lemma NextModsContent(dense: bool, merged: bool)
    ensures "xigroup--dense" in NextMods(dense, merged) <==> dense
    ensures "xigroup--merged" in NextMods(dense, merged) <==> merged
    ensures |NextMods(dense, merged)| == (if dense then 1 else 0) + (if merged then 1 else 0)
    ensures dense ==> NextMods(dense, merged)[0] == "xigroup--dense"
    ensures forall x | x in NextMods(dense, merged) :: x in AllMods
  {
  }

  /** `addClass("xigroup")` then `replaceClass(allMods, nextMods)`. */
  function GroupClasses(cs: set<string>, dense: bool, merged: bool): set<string> {
    ReplaceClass(cs + {"xigroup"}, AllMods, set x | x in NextMods(dense, merged))
  }

  /** After a pass the base class is present, the modifiers present are
      exactly the current ones, and the caller's other classes are kept. */
  lemma GroupClassesShape(cs: set<string>, dense: bool, merged: bool)
    ensures "xigroup" in GroupClasses(cs, dense, merged)
    ensures ("xigroup--dense" in GroupClasses(cs, dense, merged) <==> dense)
    ensures ("xigroup--merged" in GroupClasses(cs, dense, merged) <==> merged)
    ensures forall x | x !in AllMods && x != "xigroup" :: x in GroupClasses(cs, dense, merged) <==> x in cs
  {
    NextModsContent(dense, merged);
    ReplaceFamily(cs + {"xigroup"}, AllMods, set x | x in NextMods(dense, merged));
  }

  /** The pairs `applyLayout` appends, in its order. */
  function OwnPairs(gap: int, align: Align, wrap: bool): seq<(string, string)> {
    [("display", "flex")]
    + [("gap", Px(gap))]
    + [("--xigroup-gap", Px(gap))]
    + [("align-items", MapAlign(align))]
    + (if wrap then [("flex-wrap", "wrap")] else [])
  }

  /** display, gap, --xigroup-gap and align-items always come first in that
      order, gap and --xigroup-gap carry the same pixel value, and flex-wrap
      closes the list exactly when wrapping. */
  lemma OwnPairsContent(gap: int, align: Align, wrap: bool)
    ensures var ps := OwnPairs(gap, align, wrap);
      && |ps| == 4 + (if wrap then 1 else 0)
      && ps[..4] == [("display", "flex"), ("gap", Px(gap)), ("--xigroup-gap", Px(gap)), ("align-items", MapAlign(align))]
      && ps[1].1 == ps[2].1
      && (wrap ==> ps[4] == ("flex-wrap", "wrap"))
  {
  }

  lemma DisplayProp() ensures PropName("display") { PlainProp("display"); }
  lemma GapProp() ensures PropName("gap") { PlainProp("gap"); }
  lemma VarGapProp() ensures PropName("--xigroup-gap") { PlainProp("--xigroup-gap"); }
  lemma AlignProp() ensures PropName("align-items") { PlainProp("align-items"); }
  lemma WrapProp() ensures PropName("flex-wrap") { PlainProp("flex-wrap"); }
  lemma AlignValue(a: Align) ensures PropValue(MapAlign(a)) {}
  lemma FixedValues() ensures PropValue("flex") && PropValue("wrap") {}

  /** Every emitted pair is a normal declaration of a managed property. */
  lemma OwnPairsOwned(gap: int, align: Align, wrap: bool)
    ensures Owned(OwnPairs(gap, align, wrap), Managed)
  {
    var d := [("display", "flex")];
    var g := [("gap", Px(gap))];
    var v := [("--xigroup-gap", Px(gap))];
    var a := [("align-items", MapAlign(align))];
    var w := if wrap then [("flex-wrap", "wrap")] else [];
    FixedValues();
    PxValue(gap);
    assert Owned(d, Managed) by {
      DisplayProp();
      OwnedOne("display", "flex", Managed);
    }
    assert Owned(g, Managed) by {
      GapProp();
      OwnedOne("gap", Px(gap), Managed);
    }
    assert Owned(v, Managed) by {
      VarGapProp();
      OwnedOne("--xigroup-gap", Px(gap), Managed);
    }
    assert Owned(a, Managed) by {
      AlignProp();
      AlignValue(align);
      OwnedOne("align-items", MapAlign(align), Managed);
    }
    assert Owned(w, Managed) by {
      if wrap {
        WrapProp();
        OwnedOne("flex-wrap", "wrap", Managed);
      }
    }
    OwnedAppend(d, g, Managed);
    OwnedAppend(d + g, v, Managed);
    OwnedAppend(d + g + v, a, Managed);
    OwnedAppend(d + g + v + a, w, Managed);
  }

  /** The style half of `applyLayout`. */
  method LayoutStyleOf(style: string, gap: int, align: Align, wrap: bool) returns (r: string)
    ensures r == Layout(style, OwnPairs(gap, align, wrap), Managed)
  {
    var base := StripManagedStyles(style, Managed);
    var ps := [("display", "flex")];
    ps := ps + [("gap", Px(gap))];
    ps := ps + [("--xigroup-gap", Px(gap))];
    ps := ps + [("align-items", MapAlign(align))];
    ps := ps + if wrap then [("flex-wrap", "wrap")] else [];
    r := LayoutStyle(base, Decls(ps));
  }

  class XInputGroup {
    /** The element's class list, as a set. */
    var classes: set<string>
    var style: string
    var gap: int
    var align: Align
    var wrap: bool
    var dense: bool
    var merged: bool

    function LayoutOf(base: string): string
      reads this
    {
      Layout(base, OwnPairs(gap, align, wrap), Managed)
    }

    method ApplyLayout()
      modifies this
      ensures classes == GroupClasses(old(classes), dense, merged)
      ensures style == Layout(old(style), OwnPairs(gap, align, wrap), Managed)
      ensures gap == old(gap) && align == old(align) && wrap == old(wrap)
      ensures dense == old(dense) && merged == old(merged)
    {
      classes := GroupClasses(classes, dense, merged);
      style := LayoutStyleOf(style, gap, align, wrap);
    }

    constructor(data: Value)
      ensures gap == NormalizeGap(Field(data, "_gap")) && align == NormalizeAlign(Field(data, "_align"))
      ensures wrap == IsTrue(Field(data, "_wrap"))
      ensures dense == IsTrue(Field(data, "_dense")) && merged == IsTrue(Field(data, "_merged"))
      ensures classes == GroupClasses(
        ClassList(if Truthy(Field(data, "class")) then ToStr(Field(data, "class")) else "xigroup"), dense, merged)
      ensures style == LayoutOf(TruthyText(Field(data, "style")))
    {
      classes := ClassList(if Truthy(Field(data, "class")) then ToStr(Field(data, "class")) else "xigroup");
      style := TruthyText(Field(data, "style"));
      gap := NormalizeGap(Field(data, "_gap"));
      align := NormalizeAlign(Field(data, "_align"));
      wrap := IsTrue(Field(data, "_wrap"));
      dense := IsTrue(Field(data, "_dense"));
      merged := IsTrue(Field(data, "_merged"));
      new;
      ApplyLayout();
    }

    method SetGap(v: Value)
      modifies this
      ensures gap == NormalizeGap(v)
      ensures align == old(align) && wrap == old(wrap) && dense == old(dense) && merged == old(merged)
      ensures classes == GroupClasses(old(classes), dense, merged) && style == LayoutOf(old(style))
    {
      gap := NormalizeGap(v);
      ApplyLayout();
    }

    method SetAlign(v: Value)
      modifies this
      ensures align == NormalizeAlign(v)
      ensures gap == old(gap) && wrap == old(wrap) && dense == old(dense) && merged == old(merged)
      ensures classes == GroupClasses(old(classes), dense, merged) && style == LayoutOf(old(style))
    {
      align := NormalizeAlign(v);
      ApplyLayout();
    }

    method SetWrap(v: Value)
      modifies this
      ensures wrap == IsTrue(v)
      ensures gap == old(gap) && align == old(align) && dense == old(dense) && merged == old(merged)
      ensures classes == GroupClasses(old(classes), dense, merged) && style == LayoutOf(old(style))
    {
      wrap := IsTrue(v);
      ApplyLayout();
    }

    method SetDense(v: Value)
      modifies this
      ensures dense == IsTrue(v)
      ensures gap == old(gap) && align == old(align) && wrap == old(wrap) && merged == old(merged)
      ensures classes == GroupClasses(old(classes), dense, merged) && style == LayoutOf(old(style))
    {
      dense := IsTrue(v);
      ApplyLayout();
    }

    method SetMerged(v: Value)
      modifies this
      ensures merged == IsTrue(v)
      ensures gap == old(gap) && align == old(align) && wrap == old(wrap) && dense == old(dense)
      ensures classes == GroupClasses(old(classes), dense, merged) && style == LayoutOf(old(style))
    {
      merged := IsTrue(v);
      ApplyLayout();
    }
  }

  /** A second pass over the class list with new flags leaves what a single
      pass with those flags leaves: no stale modifier survives. */
  lemma GroupClassesOverride(cs: set<string>, d1: bool, m1: bool, d2: bool, m2: bool)
    ensures GroupClasses(GroupClasses(cs, d1, m1), d2, m2) == GroupClasses(cs, d2, m2)
  {
    NextModsContent(d1, m1);
    NextModsContent(d2, m2);
  }

  /** A layout pass discards every declaration an earlier pass emitted, so no
      caller or stale display, gap, align-items, flex-wrap or --xigroup-gap
      declaration survives, and a second pass with unchanged fields changes
      nothing. */
  lemma LayoutOverrides(style: string, gap1: int, align1: Align, wrap1: bool, ps2: seq<(string, string)>)
    ensures Layout(Layout(style, OwnPairs(gap1, align1, wrap1), Managed), ps2, Managed) == Layout(style, ps2, Managed)
  {
    OwnPairsOwned(gap1, align1, wrap1);
    LayoutOverride(style, OwnPairs(gap1, align1, wrap1), ps2, Managed);
  }

  /** The declarations of the laid-out style: the caller's surviving ones,
      none of them a managed property, then the widget's own in order. */
  lemma LayoutDeclarations(style: string, gap: int, align: Align, wrap: bool)
    ensures Pieces(Layout(style, OwnPairs(gap, align, wrap), Managed)) == Kept(style, Managed) + Decls(OwnPairs(gap, align, wrap))
    ensures forall i | 0 <= i < |Kept(style, Managed)| :: PropOf(Kept(style, Managed)[i]) !in Managed
  {
    OwnPairsOwned(gap, align, wrap);
    LayoutPieces(style, OwnPairs(gap, align, wrap), Managed);
  }
}

=== FILE: kpicard.dfy ===
/** XKpiCard: a key-figure tile with an icon, a label, a value and a delta
    line. The delta state (up, down, flat) shows as a modifier on the card
    and on the delta label; blank texts fall back to fixed placeholders. */
module KpiCard {
  import opened Text
  import opened Values
  import opened Classes
  import opened Names
  import opened Labels

  datatype DeltaState = Up | Down | Flat

  const LabelPlaceholder: string := "KPI"
  const ValuePlaceholder: string := "—"
  const DeltaPlaceholder: string := ""
  const IconPlaceholder: string := ""

  /** The card's own tokens: the base class and the three state modifiers. */
  const OwnTokens: set<string> := {"xkpi-card", "xkpi-card--up", "xkpi-card--down", "xkpi-card--flat"}

  /** The delta label's state modifiers. */
  const DeltaFamily: set<string> := {"kpi-delta--up", "kpi-delta--down", "kpi-delta--flat"}

  /** `normalizeState`: the three named states are kept, anything else is flat. */
  function NormalizeState(v: Value): (r: DeltaState)
    ensures r == Up <==> v == Str("up")
    ensures r == Down <==> v == Str("down")
  {
    if v == Str("up") then Up else if v == Str("down") then Down else Flat
  }

  function StateToken(s: DeltaState): string {
    match s
    case Up => "xkpi-card--up"
    case Down => "xkpi-card--down"
    case Flat => "xkpi-card--flat"
  }

  function DeltaToken(s: DeltaState): string {
    match s
    case Up => "kpi-delta--up"
    case Down => "kpi-delta--down"
    case Flat => "kpi-delta--flat"
  }

  function Lead(s: DeltaState): seq<string> {
    ["xkpi-card", StateToken(s)]
  }

  /** `buildClassName()`. */
  function KpiClass(existing: string, s: DeltaState): string {
    ClassName(Lead(s), existing, OwnTokens, [])
  }

  lemma StatePlain(s: DeltaState) ensures Plain(StateToken(s)) {}

  lemma LeadTokens(s: DeltaState)
    ensures Tokens(Lead(s)) && NoDup(Lead(s)) && Tokens([])
    ensures forall x | x in Lead(s) :: x in OwnTokens
  {
    StatePlain(s);
    PlainTokens("xkpi-card", StateToken(s));
  }

  /** The class is "xkpi-card", the state modifier, then the caller's classes
      other than the card's own four tokens, each token once. */
  lemma KpiClassShape(existing: string, s: DeltaState)
    ensures |Words(KpiClass(existing, s))| >= 2
    ensures Words(KpiClass(existing, s))[..2] == ["xkpi-card", StateToken(s)]
    ensures NoDup(Words(KpiClass(existing, s)))
    ensures forall x :: x in Words(KpiClass(existing, s)) <==>
      x == "xkpi-card" || x == StateToken(s) || (x in Words(existing) && x !in OwnTokens)
  {
    LeadTokens(s);
    ClassTokensShape(Lead(s), existing, OwnTokens, []);
  }

  /** Exactly one state modifier, the current one: a caller's stale
      "xkpi-card--up" on a card now "down" is gone. */
  lemma KpiClassState(existing: string, s: DeltaState)
    ensures forall t :: StateToken(t) in Words(KpiClass(existing, s)) <==> t == s
  {
    KpiClassShape(existing, s);
    forall t ensures StateToken(t) in Words(KpiClass(existing, s)) <==> t == s {
      StateInLead(t, s);
    }
  }

  lemma StateInLead(t: DeltaState, s: DeltaState)
    ensures StateToken(t) in OwnTokens
    ensures StateToken(t) == "xkpi-card" || StateToken(t) == StateToken(s) <==> t == s
  {
  }

  /** A pass with a new state replaces the class of any earlier pass. */
  lemma KpiClassOverride(existing: string, s1: DeltaState, s2: DeltaState)
    ensures KpiClass(KpiClass(existing, s1), s2) == KpiClass(existing, s2)
  {
    LeadTokens(s1);
    LeadTokens(s2);
    ClassNameOverride(Lead(s1), [], Lead(s2), [], existing, OwnTokens);
  }

  /** The delta label's class list after `applyLayout`: the state family is
      replaced by the current state's modifier. */
  function DeltaClasses(cs: set<string>, s: DeltaState): set<string> {
    ReplaceClass(cs, DeltaFamily, {DeltaToken(s)})
  }

  /** The delta label ends with exactly one state modifier, the current one,
      and keeps its other classes. */
  lemma DeltaClassesShape(cs: set<string>, s: DeltaState)
    ensures DeltaClasses(cs, s) * DeltaFamily == {DeltaToken(s)}
    ensures forall t :: DeltaToken(t) in DeltaClasses(cs, s) <==> t == s
    ensures forall x | x !in DeltaFamily :: x in DeltaClasses(cs, s) <==> x in cs
  {
    ReplaceFamily(cs, DeltaFamily, {DeltaToken(s)});
    forall t ensures DeltaToken(t) in DeltaFamily {
    }
  }

  /** The four labels the card shows and the delta label's class list. */
  datatype KpiView = KpiView(icon: string, caption: string, value: string, delta: string, deltaClasses: set<string>)

  /** The delta label's class list as `buildSkeleton` gives it. */
  const InitialDeltaClasses: set<string> := {"kpi-delta", "kpi-delta--flat"}

  class XKpiCard {
    var cls: string
    var caption: string
    var value: string
    var delta: string
    var state: DeltaState
    var icon: string
    var view: KpiView

    /** Every label shows what its resolver gives for the current texts. */
    predicate TextShown()
      reads this
    {
      view.icon == Resolve(Some(icon), IconPlaceholder) && view.caption == Resolve(Some(caption), LabelPlaceholder)
      && view.value == Resolve(Some(value), ValuePlaceholder) && view.delta == Resolve(Some(delta), DeltaPlaceholder)
    }

    /** The shown label and value are never blank; every shown text is
        trimmed, and the delta and icon are empty exactly when blank. */
    lemma ShownTexts()
      requires TextShown()
      ensures view.caption != "" && view.value != ""
      ensures Trimmed(view.icon) && Trimmed(view.caption) && Trimmed(view.value) && Trimmed(view.delta)
      ensures view.delta == Trim(delta) && view.icon == Trim(icon)
    {
      assert Trimmed(LabelPlaceholder) && Trimmed(ValuePlaceholder) && Trimmed("");
      ResolveShape(Some(icon), IconPlaceholder);
      ResolveShape(Some(caption), LabelPlaceholder);
      ResolveShape(Some(value), ValuePlaceholder);
      ResolveShape(Some(delta), DeltaPlaceholder);
    }

    /** `applyText()`: all four labels are rewritten. */
    method ApplyText()
      modifies this
      ensures TextShown() && view.deltaClasses == old(view.deltaClasses)
      ensures cls == old(cls) && caption == old(caption) && value == old(value) && delta == old(delta)
      ensures state == old(state) && icon == old(icon)
    {
      view := view.(icon := Resolve(Some(icon), IconPlaceholder), caption := Resolve(Some(caption), LabelPlaceholder),
                    value := Resolve(Some(value), ValuePlaceholder), delta := Resolve(Some(delta), DeltaPlaceholder));
    }

    /** `applyLayout()`: the card's class and the delta label's modifier. */
    method ApplyLayout()
      modifies this
      ensures cls == KpiClass(old(cls), state)
      ensures view == old(view).(deltaClasses := DeltaClasses(old(view.deltaClasses), state))
      ensures caption == old(caption) && value == old(value) && delta == old(delta)
      ensures state == old(state) && icon == old(icon)
    {
      cls := KpiClass(cls, state);
      view := view.(deltaClasses := DeltaClasses(view.deltaClasses, state));
    }

    /** Construction: `applyProps`, `buildSkeleton`, `applyLayout`, `applyText`. */
    constructor(data: Value)
      ensures caption == TruthyText(Field(data, "_label")) && value == TruthyText(Field(data, "_value"))
      ensures delta == TruthyText(Field(data, "_delta")) && icon == TruthyText(Field(data, "_icon"))
      ensures state == NormalizeState(Field(data, "_delta_state"))
      ensures cls == KpiClass(if Truthy(Field(data, "class")) then ToStr(Field(data, "class")) else "xkpi-card", state)
      ensures TextShown()
      ensures view.deltaClasses == DeltaClasses(InitialDeltaClasses, state)
    {
      caption := TruthyText(Field(data, "_label"));
      value := TruthyText(Field(data, "_value"));
      delta := TruthyText(Field(data, "_delta"));
      state := NormalizeState(Field(data, "_delta_state"));
      icon := TruthyText(Field(data, "_icon"));
      cls := if Truthy(Field(data, "class")) then ToStr(Field(data, "class")) else "xkpi-card";
      view := KpiView("", "", "", "", InitialDeltaClasses);
      new;
      ApplyLayout();
      ApplyText();
    }

    /** The `_label` setter: falsy input is stored as "", and all four labels
        are re-resolved. */
    method SetLabel(v: Value)
      modifies this
      ensures caption == TruthyText(v)
      ensures TextShown() && view.deltaClasses == old(view.deltaClasses)
      ensures cls == old(cls) && value == old(value) && delta == old(delta) && state == old(state) && icon == old(icon)
    {
      caption := TruthyText(v);
      ApplyText();
    }

    /** The `_value` setter. */
    method SetValue(v: Value)
      modifies this
      ensures value == TruthyText(v)
      ensures TextShown() && view.deltaClasses == old(view.deltaClasses)
      ensures cls == old(cls) && caption == old(caption) && delta == old(delta) && state == old(state) && icon == old(icon)
    {
      value := TruthyText(v);
      ApplyText();
    }

    /** The `_delta` setter. */
    method SetDelta(v: Value)
      modifies this
      ensures delta == TruthyText(v)
      ensures TextShown() && view.deltaClasses == old(view.deltaClasses)
      ensures cls == old(cls) && caption == old(caption) && value == old(value) && state == old(state) && icon == old(icon)
    {
      delta := TruthyText(v);
      ApplyText();
    }

    /** The `_icon` setter. */
    method SetIcon(v: Value)
      modifies this
      ensures icon == TruthyText(v)
      ensures TextShown() && view.deltaClasses == old(view.deltaClasses)
      ensures cls == old(cls) && caption == old(caption) && value == old(value) && delta == old(delta) && state == old(state)
    {
      icon := TruthyText(v);
      ApplyText();
    }

    /** The `_delta_state` setter: the state is normalised and only the
        classes change. */
    method SetDeltaState(v: Value)
      modifies this
      ensures state == NormalizeState(v)
      ensures cls == KpiClass(old(cls), state)
      ensures view == old(view).(deltaClasses := DeltaClasses(old(view.deltaClasses), state))
      ensures caption == old(caption) && value == old(value) && delta == old(delta) && icon == old(icon)
    {
      state := NormalizeState(v);
      ApplyLayout();
    }
  }
}

=== FILE: labels.dfy ===
/** The label texts the widgets show: optional text read from a loose value,
    and the "trim, or fall back to a placeholder" rule several widgets apply
    before showing a label. */
module Labels {
  import opened Text
  import opened Values

  /** `v ? String(v) : undefined`. */
  function OptText(v: Value): (r: Option<string>)
    ensures r.Some? <==> Truthy(v)
    ensures r.Some? ==> r.value == ToStr(v)
  {
    if Truthy(v) then Some(ToStr(v)) else None
  }

  /** A stored `v ? String(v) : undefined` read again as a condition: set
      and not "" (a truthy value such as an empty array is stored as "",
      which is falsy). */
  predicate Filled(t: Option<string>) {
    t.Some? && t.value != ""
  }

  /** The stored text when a later truthiness test lets it through. */
  function IfFilled(t: Option<string>): (r: Option<string>)
    ensures r.Some? <==> Filled(t)
    ensures r.Some? ==> r == t
  {
    if Filled(t) then t else None
  }

  /** `const t = v ? v.trim() : ""; return t ? t : placeholder`. */
  function Resolve(o: Option<string>, placeholder: string): (r: string)
    ensures o.Some? && Trim(o.value) != "" ==> r == Trim(o.value)
    ensures !(o.Some? && Trim(o.value) != "") ==> r == placeholder
  {
    if o.Some? && Trim(o.value) != "" then Trim(o.value) else placeholder
  }

  /** The text shown when the value is set and not blank, else the
      placeholder: never blank when the placeholder is not, and trimmed when
      the placeholder is. */
  lemma ResolveShape(o: Option<string>, placeholder: string)
    ensures Resolve(o, placeholder) == placeholder || (o.Some? && Resolve(o, placeholder) == Trim(o.value))
    ensures Trimmed(placeholder) ==> Trimmed(Resolve(o, placeholder))
    ensures placeholder != "" ==> Resolve(o, placeholder) != ""
    ensures o.Some? && Resolve(o, placeholder) != placeholder ==> Resolve(o, placeholder) == Trim(o.value)
  {
  }

  /** Resolving a shown label again shows the same text: the rule is
      idempotent. */
  lemma ResolveStable(o: Option<string>, placeholder: string)
    requires Trimmed(placeholder)
    ensures Resolve(Some(Resolve(o, placeholder)), placeholder) == Resolve(o, placeholder)
  {
    var r := Resolve(o, placeholder);
    TrimOfTrimmed(r);
  }

  /** `(v ?? "").trim()` for an optional text: "" when absent. */
  function TrimOr(o: Option<string>): (r: string)
    ensures o.None? ==> r == ""
    ensures o.Some? ==> r == Trim(o.value)
  {
    if o.Some? then Trim(o.value) else ""
  }
}

=== FILE: modal.dfy ===
/** XModal: a dialog over a backdrop. The widget's own children are the
    backdrop and the panel; the panel holds a card with an optional header
    (titles and a close button), the body (the `_content` or the children
    captured at construction, in a scroll area by default) and an optional
    footer with the actions. Opening and closing switch a class modifier
    and report through `_on_open` / `_on_close`. */
module Modal {
  import opened Text
  import opened Values
  import opened Classes
  import opened Styles
  import opened Names
  import opened Nodes
  import opened Labels
  import opened Openable
  import Drawer

  /** The suffixes of the node ids, appended to the widget's own id. */
  const BackdropId: string := "_backdrop"
  const PanelId: string := "_panel"
  const BodyId: string := "_body"

  datatype Size = Sm | Md | Lg

  /** "sm" and "lg" are kept; anything else is "md". */
  function NormalizeSize(v: Value): (r: Size)
    ensures r == Sm <==> v == Str("sm")
    ensures r == Lg <==> v == Str("lg")
  {
    if v == Str("sm") then Sm else if v == Str("lg") then Lg else Md
  }

  function SizeToken(s: Size): string {
    match s
    case Sm => "xmodal--sm"
    case Md => "xmodal--md"
    case Lg => "xmodal--lg"
  }

  /** The stored settings. Titles and width are `undefined` (`None`)
      unless a truthy value was given; actions and content are `undefined`
      unless an array was given. */
  datatype ModalState = ModalState(open: bool, title: Option<string>, subtitle: Option<string>, size: Size,
                                   width: Option<string>, closable: bool, closeOnBackdrop: bool, scroll: bool,
                                   actions: Option<seq<Value>>, content: Option<seq<Value>>)

  /** `Array.isArray(v) ? v : undefined`. */
  function ListOf(v: Value): (r: Option<seq<Value>>)
    ensures r.Some? <==> v.Arr?
    ensures r.Some? ==> r.value == v.items
  {
    if v.Arr? then Some(v.items) else None
  }

  /** `applyProps`, with its defaults: closed, medium, closable, closing
      on a backdrop click and scrolling. */
  function StateOf(data: Value): (r: ModalState)
    ensures r.open == BoolOr(Field(data, "_open"), false) && r.size == NormalizeSize(Field(data, "_size"))
    ensures r.title == OptText(Field(data, "_title")) && r.subtitle == OptText(Field(data, "_subtitle"))
    ensures r.width == OptText(Field(data, "_width"))
    ensures r.closable == BoolOr(Field(data, "_closable"), true)
    ensures r.closeOnBackdrop == BoolOr(Field(data, "_close_on_backdrop"), true)
    ensures r.scroll == BoolOr(Field(data, "_scroll"), true)
    ensures r.actions == ListOf(Field(data, "_actions")) && r.content == ListOf(Field(data, "_content"))
  {
    ModalState(BoolOr(Field(data, "_open"), false), OptText(Field(data, "_title")), OptText(Field(data, "_subtitle")),
               NormalizeSize(Field(data, "_size")), OptText(Field(data, "_width")), BoolOr(Field(data, "_closable"), true),
               BoolOr(Field(data, "_close_on_backdrop"), true), BoolOr(Field(data, "_scroll"), true),
               ListOf(Field(data, "_actions")), ListOf(Field(data, "_content")))
  }

  /** An empty configuration gives every default. */
  lemma DefaultState(r: nat)
    ensures StateOf(Obj(r, map[])) == ModalState(false, None, None, Md, None, true, true, true, None, None)
  {
  }

  /** Whether a captured child goes into the body: it is truthy and its
      `_id` is neither the panel's nor the backdrop's. */
  predicate BodyChild(id: string, v: Value) {
    Truthy(v) && Field(v, "_id") != Str(id + PanelId) && Field(v, "_id") != Str(id + BackdropId)
  }

  /** `captureBodyChildren`: the children that go into the body, in order. */
  function Capture(id: string, list: seq<Value>): (r: seq<Value>)
    ensures |r| <= |list|
    ensures forall v :: v in r <==> v in list && BodyChild(id, v)
  {
    if list == [] then []
    else (if BodyChild(id, list[0]) then [list[0]] else []) + Capture(id, list[1..])
  }

  /** Capturing keeps the order: the capture of two runs of children is
      the capture of the first followed by that of the second. */
  lemma {:induction false} CaptureAppend(id: string, xs: seq<Value>, ys: seq<Value>)
    ensures Capture(id, xs + ys) == Capture(id, xs) + Capture(id, ys)
  {
    if xs == [] {
      assert xs + ys == ys;
    } else {
      var head := if BodyChild(id, xs[0]) then [xs[0]] else [];
      assert (xs + ys)[0] == xs[0];
      assert (xs + ys)[1..] == xs[1..] + ys;
      assert Capture(id, xs + ys) == head + Capture(id, xs[1..] + ys);
      CaptureAppend(id, xs[1..], ys);
      assert Capture(id, xs) == head + Capture(id, xs[1..]);
    }
  }

  /** Capturing twice captures nothing more. */
  lemma {:induction false} CaptureTwice(id: string, list: seq<Value>)
    ensures Capture(id, Capture(id, list)) == Capture(id, list)
  {
    if list != [] {
      var rest := Capture(id, list[1..]);
      CaptureTwice(id, list[1..]);
      if BodyChild(id, list[0]) {
        var r := [list[0]] + rest;
        assert r[0] == list[0] && r[1..] == rest;
        assert Capture(id, r) == [list[0]] + Capture(id, rest);
      } else {
        assert Capture(id, list) == rest;
      }
    }
  }

  /** The close glyph as the source writes it: the two characters U+00C3
      and U+2014. */
  const WrittenGlyph: string := "\U{00C3}\U{2014}"

  /** The close glyph every other dismissible widget shows: U+00D7. */
  const CloseGlyph: string := "×"

  /** UTF-8 encoding of a character from U+0080 to U+07FF, as two bytes. */
  function Utf8Two(c: char): (r: seq<int>)
    requires 0x80 <= c as int < 0x800
    ensures |r| == 2 && 0xC0 <= r[0] < 0xE0 && 0x80 <= r[1] < 0xC0
  {
    [0xC0 + c as int / 64, 0x80 + c as int % 64]
  }

  /** The Windows-1252 characters of the bytes 0x80 to 0x9F, in order;
      the five bytes it leaves undefined are `None`. */
  const Cp1252High: seq<Option<char>> := [
    Some('\U{20AC}'), None, Some('\U{201A}'), Some('\U{0192}'), Some('\U{201E}'), Some('\U{2026}'), Some('\U{2020}'), Some('\U{2021}'),
    Some('\U{02C6}'), Some('\U{2030}'), Some('\U{0160}'), Some('\U{2039}'), Some('\U{0152}'), None, Some('\U{017D}'), None,
    None, Some('\U{2018}'), Some('\U{2019}'), Some('\U{201C}'), Some('\U{201D}'), Some('\U{2022}'), Some('\U{2013}'), Some('\U{2014}'),
    Some('\U{02DC}'), Some('\U{2122}'), Some('\U{0161}'), Some('\U{203A}'), Some('\U{0153}'), None, Some('\U{017E}'), Some('\U{0178}')]

  /** A byte read as Windows-1252: outside 0x80 to 0x9F the byte is the
      code point itself. */
  function Cp1252Char(b: int): (r: Option<char>)
    requires 0 <= b < 0x100
    ensures !(0x80 <= b < 0xA0) ==> r == Some(b as char)
  {
    if 0x80 <= b < 0xA0 then Cp1252High[b - 0x80] else Some(b as char)
  }

  /** Bytes read as Windows-1252 text; `None` when one is undefined there. */
  function Cp1252Text(bs: seq<int>): (r: Option<string>)
    requires forall i | 0 <= i < |bs| :: 0 <= bs[i] < 0x100
    ensures r.Some? ==> |r.value| == |bs|
  {
    if bs == [] then Some([])
    else
      var c := Cp1252Char(bs[0]);
      var rest := Cp1252Text(bs[1..]);
      if c.Some? && rest.Some? then Some([c.value] + rest.value) else None
  }

  /** The written glyph is the UTF-8 encoding of U+00D7 read back as
      Windows-1252: two characters where one was meant. */
  lemma GlyphMisread()
    ensures Cp1252Text(Utf8Two('×')) == Some(WrittenGlyph)
    ensures CloseGlyph == ['×'] && WrittenGlyph != CloseGlyph && |WrittenGlyph| == 2
  {
    var bs := Utf8Two('×');
    assert bs == [0xC3, 0x97];
    assert bs[1..] == [0x97] && [0x97][1..] == [];
    var tail: seq<int> := [0x97];
    assert tail[1..] == [];
    assert Cp1252Text([]) == Some([]);
    assert Cp1252High[0x17] == Some('\U{2014}');
    assert Cp1252Char(0x97) == Some('\U{2014}');
    var dash: string := ['\U{2014}'];
    assert dash + [] == dash;
    assert Cp1252Text(tail) == Some(dash);
    assert Cp1252Char(0xC3) == Some('\U{00C3}');
    assert Cp1252Text(bs) == Some(['\U{00C3}'] + dash);
    assert WrittenGlyph == ['\U{00C3}'] + dash;
    assert WrittenGlyph[0] != '×';
  }

  /** The close button of a given glyph; its click handler is
      `XModal.Close`. */
  function CloseButtonOf(glyph: string): Node {
    El("button", "", "xmodal__close", glyph, map["_on_click" := "close"], [])
  }

  /** The close button the header holds, with the glyph as written. */
  const CloseButton: Node := CloseButtonOf(WrittenGlyph)

  /** The close button with the intended glyph. */
  const FixedCloseButton: Node := CloseButtonOf(CloseGlyph)

  /** The corrected button shows the drawer's close glyph, and the written
      one differs from it only in the glyph. */
  lemma CloseGlyphShared()
    ensures FixedCloseButton.text == Drawer.CloseNode.text == "×"
    ensures CloseButton == FixedCloseButton.(text := WrittenGlyph) != FixedCloseButton
  {
    GlyphMisread();
  }

  /** A muted divider. */
  const Divider: Node := El("divider", "", "", "", map["_muted" := "true"], [])

  function TitleLabels(st: ModalState): seq<Node> {
    (if Filled(st.title) then [Make("label", "", "xmodal__title", st.title.value, [])] else [])
    + (if Filled(st.subtitle) then [Make("label", "", "xmodal__subtitle", st.subtitle.value, [])] else [])
  }

  /** Whether `buildHeader` builds anything. */
  predicate HasHeader(st: ModalState) {
    Filled(st.title) || Filled(st.subtitle) || st.closable
  }

  /** `buildHeader`: a toolbar with the titles stack (when there is a title
      or subtitle) and the close button (when closable), then a divider;
      nothing when there is neither. */
  function HeaderNodes(st: ModalState): seq<Node> {
    if !HasHeader(st) then []
    else
      var titles := TitleLabels(st);
      [El("toolbar", "", "xmodal__header", "", map["_gap" := "8", "_justify" := "space-between"],
          (if titles != [] then [El("stack", "", "xmodal__titles", "", map["_direction" := "vertical", "_gap" := "2"], titles)] else [])
          + (if st.closable then [CloseButton] else [])),
       Divider]
  }

  /** What the body shows: `_content` when given, else the captured
      children. */
  function Content(st: ModalState, body: seq<Value>): seq<Value> {
    if st.content.Some? then st.content.value else body
  }

  /** `buildBody`: the content, inside a scroll area when scrolling. */
  function BodyNode(id: string, st: ModalState, body: seq<Value>): Node {
    var content := Users(Content(st, body));
    Make("view", id + BodyId, "xmodal__body", "",
         if st.scroll then [Make("scroll", "", "xmodal__scroll", "", content)] else content)
  }

  /** `buildFooter`: a divider and a toolbar holding the actions in a
      horizontal stack; nothing when there are no actions. */
  function FooterNodes(st: ModalState): seq<Node> {
    if st.actions.None? || st.actions.value == [] then []
    else [Divider,
          El("toolbar", "", "xmodal__footer", "", map["_justify" := "end"],
             [El("stack", "", "", "", map["_direction" := "horizontal", "_gap" := "8", "_align" := "center"], Users(st.actions.value))])]
  }

  /** The backdrop; a click on it closes the dialog only when
      `_close_on_backdrop` is set. */
  function Backdrop(id: string, st: ModalState): Node {
    El("view", id + BackdropId, "xmodal__backdrop", "", if st.closeOnBackdrop then map["_on_click" := "close"] else map[], [])
  }

  /** The panel and its card: header, body, footer. */
  function Panel(id: string, st: ModalState, body: seq<Value>): Node {
    Make("view", id + PanelId, "xmodal__panel", "",
         [Make("view", "", "xmodal__card", "", HeaderNodes(st) + [BodyNode(id, st, body)] + FooterNodes(st))])
  }

  /** `buildSkeleton`: the backdrop, then the panel. */
  function Render(id: string, st: ModalState, body: seq<Value>): seq<Node> {
    [Backdrop(id, st), Panel(id, st, body)]
  }

  /** The header is a toolbar and a divider exactly when there is a title,
      a subtitle or a close button, and its toolbar ends with the close
      button exactly when closable; the footer is a divider and the actions
      toolbar exactly when there are actions; the body shows `_content`
      over the captured children, in a scroll area exactly when scrolling;
      the backdrop closes on a click exactly when configured to. */
  lemma ModalLayout(id: string, st: ModalState, body: seq<Value>)
    ensures var h := HeaderNodes(st);
      && (h != [] <==> HasHeader(st))
      && (h != [] ==> |h| == 2 && h[0].kind == "toolbar" && h[1] == Divider
                       && (st.closable <==> h[0].children != [] && h[0].children[|h[0].children| - 1] == CloseButton)
                       && (Filled(st.title) || Filled(st.subtitle) <==> h[0].children != [] && h[0].children[0].kind == "stack"))
    ensures var f := FooterNodes(st);
      && (f != [] <==> st.actions.Some? && st.actions.value != [])
      && (f != [] ==> f == [Divider, f[1]] && f[1].kind == "toolbar" && f[1].children[0].children == Users(st.actions.value))
    ensures st.content.Some? ==> Content(st, body) == st.content.value
    ensures st.content.None? ==> Content(st, body) == body
    ensures st.scroll ==> BodyNode(id, st, body).children == [Make("scroll", "", "xmodal__scroll", "", Users(Content(st, body)))]
    ensures !st.scroll ==> BodyNode(id, st, body).children == Users(Content(st, body))
    ensures Panel(id, st, body).children[0].children == HeaderNodes(st) + [BodyNode(id, st, body)] + FooterNodes(st)
    ensures ("_on_click" in Backdrop(id, st).attrs) <==> st.closeOnBackdrop
  {
  }

  /** The header toolbar's gap, the titles stack's gap, the close button's
      written glyph, and the footer stack's gap and alignment. */
  lemma ModalStackAttrs(st: ModalState)
    ensures var h := HeaderNodes(st);
      h != [] ==> h[0].attrs == map["_gap" := "8", "_justify" := "space-between"]
                  && (Filled(st.title) || Filled(st.subtitle) ==> h[0].children[0].attrs == map["_direction" := "vertical", "_gap" := "2"])
                  && (st.closable ==> h[0].children[|h[0].children| - 1].text == WrittenGlyph)
    ensures var f := FooterNodes(st);
      f != [] ==> f[1].children[0].attrs == map["_direction" := "horizontal", "_gap" := "8", "_align" := "center"]
  {
  }

  /** The skeleton does not depend on the open flag. */
  lemma RenderIgnoresOpen(id: string, st: ModalState, body: seq<Value>, open: bool)
    ensures Render(id, st.(open := open), body) == Render(id, st, body)
  {
    assert HeaderNodes(st.(open := open)) == HeaderNodes(st);
    assert FooterNodes(st.(open := open)) == FooterNodes(st);
  }

  /** The `_id` a child of the widget carries. */
  function NodeId(n: Node): Value {
    if n.El? then Str(n.id) else Field(n.desc, "_id")
  }

  /** A child `onCreate` keeps: the panel or the backdrop. */
  predicate Pinned(id: string, n: Node) {
    NodeId(n) == Str(id + PanelId) || NodeId(n) == Str(id + BackdropId)
  }

  /** The children that are pinned (or, with `pinned` false, those that
      are not), in order. */
  function Sift(id: string, ns: seq<Node>, pinned: bool): (r: seq<Node>)
    ensures |r| <= |ns|
  {
    if ns == [] then []
    else Sift(id, ns[..|ns| - 1], pinned) + (if Pinned(id, ns[|ns| - 1]) == pinned then [ns[|ns| - 1]] else [])
  }

  /** The sifted children are exactly those of the list that are pinned
      (or not), and together the two sifts account for every child. */
  lemma {:induction false} SiftMembers(id: string, ns: seq<Node>, pinned: bool)
    ensures forall n :: n in Sift(id, ns, pinned) <==> n in ns && Pinned(id, n) == pinned
    ensures |Sift(id, ns, true)| + |Sift(id, ns, false)| == |ns|
  {
    if ns != [] {
      var init := ns[..|ns| - 1];
      SiftMembers(id, init, pinned);
      assert ns == init + [ns[|ns| - 1]];
    }
  }

  /** Sifting one more child appends that child's fate. */
  lemma SiftStep(id: string, ns: seq<Node>, i: nat)
    requires i < |ns|
    ensures Sift(id, ns[..i + 1], true) == Sift(id, ns[..i], true) + (if Pinned(id, ns[i]) then [ns[i]] else [])
  {
    assert ns[..i + 1][..i] == ns[..i];
  }

  /** One step of the walk of `onCreate`: the next child is kept when
      pinned and removed otherwise. */
  lemma RemoveStep(id: string, ns: seq<Node>, i: nat, live: seq<Node>)
    requires i < |ns| && live == Sift(id, ns[..i], true) + ns[i..]
    ensures var k := |Sift(id, ns[..i], true)|;
      && k < |live|
      && Sift(id, ns[..i + 1], true) == Sift(id, ns[..i], true) + (if Pinned(id, ns[i]) then [ns[i]] else [])
      && (Pinned(id, ns[i]) ==> live == Sift(id, ns[..i + 1], true) + ns[i + 1..])
      && (!Pinned(id, ns[i]) ==> live[..k] + live[k + 1..] == Sift(id, ns[..i + 1], true) + ns[i + 1..])
  {
    SiftStep(id, ns, i);
    assert ns[i..] == [ns[i]] + ns[i + 1..];
    DropAt(Sift(id, ns[..i], true), ns[i], ns[i + 1..]);
  }

  /** Removing the element just after a prefix leaves the prefix and what
      follows the element. */
  lemma DropAt<T>(a: seq<T>, x: T, b: seq<T>)
    ensures (a + [x] + b)[..|a|] + (a + [x] + b)[|a| + 1..] == a + b
  {
    assert (a + [x] + b)[..|a|] == a;
    assert (a + [x] + b)[|a| + 1..] == b;
  }

  /** The skeleton is exactly the two pinned children. */
  lemma SiftRender(id: string, st: ModalState, body: seq<Value>)
    ensures Sift(id, Render(id, st, body), true) == Render(id, st, body)
    ensures Sift(id, Render(id, st, body), false) == []
  {
    var r := Render(id, st, body);
    assert r[..1] == [Backdrop(id, st)];
    assert r[..1][..0] == [];
  }

  const SizeMods: set<string> := {"xmodal--sm", "xmodal--md", "xmodal--lg"}

  /** `applyLayout`'s class work: "xmodal" added, the size modifier
      swapped, and the open modifier set exactly when open. */
  function ModalClasses(cs: set<string>, st: ModalState): set<string> {
    Toggle(ReplaceClass(cs + {"xmodal"}, SizeMods, {SizeToken(st.size)}), "xmodal--open", st.open)
  }

  /** Exactly one size modifier, the current one, and the open modifier
      exactly when open. */
  predicate LayoutShown(cs: set<string>, st: ModalState) {
    && "xmodal" in cs
    && cs * SizeMods == {SizeToken(st.size)}
    && ("xmodal--open" in cs <==> st.open)
  }

  /** `applyLayout` shows the settings and keeps the caller's other
      classes. */
  lemma ModalClassesShape(cs: set<string>, st: ModalState)
    ensures LayoutShown(ModalClasses(cs, st), st)
    ensures forall x | x !in SizeMods && x != "xmodal" && x != "xmodal--open" :: x in ModalClasses(cs, st) <==> x in cs
  {
    ReplaceFamily(cs + {"xmodal"}, SizeMods, {SizeToken(st.size)});
  }

  /** A layout pass discards the modifiers of any earlier one, and leaves
      classes that already show the settings as they are. */
  lemma ModalClassesOverride(cs: set<string>, a: ModalState, b: ModalState)
    ensures ModalClasses(ModalClasses(cs, a), b) == ModalClasses(cs, b)
    ensures LayoutShown(cs, b) ==> ModalClasses(cs, b) == cs
  {
    if LayoutShown(cs, b) {
      forall x | x in SizeMods ensures x in cs <==> x == SizeToken(b.size) {
        assert x in cs <==> x in cs * SizeMods;
      }
    }
  }

  const Managed: set<string> := {"--xmodal-width"}

  lemma WidthProp() ensures PropName("--xmodal-width") { PlainProp("--xmodal-width"); }

  /** The declaration `applyLayout` appends: the width when it is set. */
  function OwnPairs(width: Option<string>): seq<(string, string)> {
    if Filled(width) then [("--xmodal-width", width.value)] else []
  }

  /** The style half of `applyLayout`. */
  method LayoutStyleOf(style: string, width: Option<string>) returns (r: string)
    ensures r == Layout(style, OwnPairs(width), Managed)
  {
    var base := StripManagedStyles(style, Managed);
    var ps: seq<(string, string)> := if width.Some? && width.value != "" then [("--xmodal-width", width.value)] else [];
    r := LayoutStyle(base, Decls(ps));
  }

  /** The laid-out style is the caller's declarations without any width,
      then the width; a later pass replaces that width. */
  lemma ModalStyle(style: string, width: string, later: Option<string>)
    requires PropValue(width)
    ensures Pieces(Layout(style, OwnPairs(Some(width)), Managed)) == Kept(style, Managed) + [Decl("--xmodal-width", width)]
    ensures forall i | 0 <= i < |Kept(style, Managed)| :: PropOf(Kept(style, Managed)[i]) != "--xmodal-width"
    ensures Layout(Layout(style, OwnPairs(Some(width)), Managed), OwnPairs(later), Managed) == Layout(style, OwnPairs(later), Managed)
  {
    var ps := OwnPairs(Some(width));
    assert ps == [("--xmodal-width", width)];
    WidthProp();
    OwnedOne("--xmodal-width", width, Managed);
    LayoutPieces(style, ps, Managed);
    assert Decls(ps) == [Decl("--xmodal-width", width)];
    LayoutOverride(style, ps, OwnPairs(later), Managed);
  }

  /** What the constructor reads from its configuration: the settings,
      the captured body children, the creation class list and the laid-out
      style. */
  method Setup(id: string, data: Value) returns (s: ModalState, b: seq<Value>, cs: set<string>, css: string)
    ensures s == StateOf(data)
    ensures b == if s.content.None? then Capture(id, ItemsOr(Field(data, "_children"))) else []
    ensures cs == ClassList(if Truthy(Field(data, "class")) then ToStr(Field(data, "class")) else "xmodal")
    ensures css == Layout(TruthyText(Field(data, "style")), OwnPairs(s.width), Managed)
  {
    s := StateOf(data);
    b := if s.content.None? then Capture(id, ItemsOr(Field(data, "_children"))) else [];
    cs := ClassList(if Truthy(Field(data, "class")) then ToStr(Field(data, "class")) else "xmodal");
    css := LayoutStyleOf(TruthyText(Field(data, "style")), s.width);
  }

  class XModal {
    /** The widget's own id, which the node ids extend. */
    const id: string
    var classes: set<string>
    var style: string
    var st: ModalState
    /** The children captured at construction when there is no
        `_content`. */
    var bodyChildren: seq<Value>
    var ready: bool
    /** The widget's child nodes. */
    var children: seq<Node>
    var hasOnOpen: bool
    var hasOnClose: bool
    /** The callback calls made so far. */
    var events: seq<Event>

    /** The children are the skeleton for the settings and the classes
        show the layout. */
    predicate Valid()
      reads this
    {
      ready && children == Render(id, st, bodyChildren) && LayoutShown(classes, st)
    }

    /** `isOpen()`. */
    function IsOpen(): bool
      reads this
    {
      st.open
    }

    /** `applyLayout()`: classes, then style. */
    method ApplyLayout()
      modifies this
      ensures classes == ModalClasses(old(classes), st) && LayoutShown(classes, st)
      ensures style == Layout(old(style), OwnPairs(st.width), Managed)
      ensures st == old(st) && bodyChildren == old(bodyChildren) && ready == old(ready) && children == old(children)
      ensures events == old(events) && hasOnOpen == old(hasOnOpen) && hasOnClose == old(hasOnClose)
    {
      classes := ModalClasses(classes, st);
      ModalClassesShape(old(classes), st);
      style := LayoutStyleOf(style, st.width);
    }

    /** `rebuild()`: the panel and the backdrop are removed, a new skeleton
        appended, and the layout applied. */
    method Rebuild()
      modifies this
      ensures children == Sift(id, old(children), false) + Render(id, st, bodyChildren)
      ensures classes == ModalClasses(old(classes), st) && LayoutShown(classes, st)
      ensures style == Layout(old(style), OwnPairs(st.width), Managed)
      ensures st == old(st) && bodyChildren == old(bodyChildren) && ready == old(ready)
      ensures events == old(events) && hasOnOpen == old(hasOnOpen) && hasOnClose == old(hasOnClose)
    {
      children := Sift(id, children, false) + Render(id, st, bodyChildren);
      ApplyLayout();
    }

    /** Construction: the settings are read, the body children captured
        unless there is `_content`, the configured children dropped, the
        skeleton built and the layout applied. */
    constructor(id: string, data: Value)
      ensures this.id == id && st == StateOf(data)
      ensures bodyChildren == if st.content.None? then Capture(id, ItemsOr(Field(data, "_children"))) else []
      ensures classes == ModalClasses(ClassList(if Truthy(Field(data, "class")) then ToStr(Field(data, "class")) else "xmodal"), st)
      ensures style == Layout(TruthyText(Field(data, "style")), OwnPairs(st.width), Managed)
      ensures hasOnOpen == Truthy(Field(data, "_on_open")) && hasOnClose == Truthy(Field(data, "_on_close"))
      ensures Valid() && events == []
    {
      var s, b, cs, css := Setup(id, data);
      ModalClassesShape(cs, s);
      this.id := id;
      st := s;
      bodyChildren := b;
      classes := ModalClasses(cs, s);
      style := css;
      children := Render(id, s, b);
      ready := true;
      hasOnOpen := Truthy(Field(data, "_on_open"));
      hasOnClose := Truthy(Field(data, "_on_close"));
      events := [];
    }

    /** `onCreate()`: every child other than the panel and the backdrop is
        removed, walking a copy of the list; a widget not yet ready that
        captured children is rebuilt. */
    method OnCreate()
      modifies this
      ensures var kept := Sift(id, old(children), true);
        var late := st.content.None? && |bodyChildren| > 0 && !old(ready);
        && children == (if late then Sift(id, kept, false) + Render(id, st, bodyChildren) else kept)
        && classes == (if late then ModalClasses(old(classes), st) else old(classes))
        && style == (if late then Layout(old(style), OwnPairs(st.width), Managed) else old(style))
        && ready == (old(ready) || late)
      ensures old(Valid()) ==> children == old(children) && Valid()
      ensures st == old(st) && bodyChildren == old(bodyChildren)
      ensures events == old(events) && hasOnOpen == old(hasOnOpen) && hasOnClose == old(hasOnClose)
    {
      RemoveStray();
      if old(Valid()) {
        SiftRender(id, st, bodyChildren);
      }
      if st.content.None? && |bodyChildren| > 0 && !ready {
        Rebuild();
        ready := true;
      }
    }

    /** The walk of `onCreate`: each child of a copy of the list that is
        neither the panel nor the backdrop is removed from the live list. */
    method RemoveStray()
      modifies this`children
      ensures children == Sift(id, old(children), true)
    {
      var snap := children;
      var live := snap;
      var i, k := 0, 0;
      while i < |snap|
        invariant 0 <= i <= |snap|
        invariant live == Sift(id, snap[..i], true) + snap[i..] && k == |Sift(id, snap[..i], true)|
      {
        RemoveStep(id, snap, i, live);
        if Pinned(id, snap[i]) {
          k := k + 1;
        } else {
          live := live[..k] + live[k + 1..];
        }
        i := i + 1;
      }
      children := live;
      assert snap[..|snap|] == snap;
    }

    /** `setOpen(v, silent)`: the flag is stored and the layout applied;
        `_on_open` fires only on a change to open and `_on_close` only on a
        change to closed, and neither when silent. */
    method SetOpen(v: Value, silent: bool)
      requires Valid()
      modifies this
      ensures st == old(st).(open := BoolOr(v, false)) && Valid() && children == old(children)
      ensures classes == ModalClasses(old(classes), st) && style == Layout(old(style), OwnPairs(st.width), Managed)
      ensures events == old(events) + OpenEvents(old(st.open), st.open, silent, hasOnOpen, hasOnClose)
      ensures bodyChildren == old(bodyChildren) && hasOnOpen == old(hasOnOpen) && hasOnClose == old(hasOnClose)
    {
      var was := st.open;
      RenderIgnoresOpen(id, st, bodyChildren, BoolOr(v, false));
      st := st.(open := BoolOr(v, false));
      ApplyLayout();
      Notify(was, silent);
    }

    /** The end of `setOpen`: nothing when the flag did not change or when
        silent; otherwise the callback for the new state, when set. */
    method Notify(was: bool, silent: bool)
      modifies this`events
      ensures events == old(events) + OpenEvents(was, st.open, silent, hasOnOpen, hasOnClose)
    {
      if was == st.open || silent {
        return;
      }
      if st.open && hasOnOpen {
        events := events + [Opened];
      }
      if !st.open && hasOnClose {
        events := events + [Closed];
      }
    }

    /** `open()`: `setOpen(true)`. */
    method Open()
      requires Valid()
      modifies this
      ensures st == old(st).(open := true) && Valid() && children == old(children)
      ensures events == old(events) + OpenEvents(old(st.open), true, false, hasOnOpen, hasOnClose)
      ensures bodyChildren == old(bodyChildren) && hasOnOpen == old(hasOnOpen) && hasOnClose == old(hasOnClose)
    {
      SetOpen(Bool(true), false);
    }

    /** `close()`, also the close button's and the backdrop's click
        handler: `setOpen(false)`. */
    method Close()
      requires Valid()
      modifies this
      ensures st == old(st).(open := false) && Valid() && children == old(children)
      ensures events == old(events) + OpenEvents(old(st.open), false, false, hasOnOpen, hasOnClose)
      ensures bodyChildren == old(bodyChildren) && hasOnOpen == old(hasOnOpen) && hasOnClose == old(hasOnClose)
    {
      SetOpen(Bool(false), false);
    }
  }
}

=== FILE: names.dfy ===
/** The widgets' own class tokens and property names are plain words of
    lower-case letters, digits, dashes and underscores; such a word is a
    valid class token and a valid property name. */
module Names {
  import opened Text
  import opened Styles

  predicate NameChar(c: char) {
    'a' <= c <= 'z' || c == '-' || c == '_' || '0' <= c <= '9'
  }

  predicate Plain(s: string) {
    s != [] && forall i | 0 <= i < |s| :: NameChar(s[i])
  }

  lemma PlainProp(p: string)
    requires Plain(p)
    ensures PropName(p)
  {
  }

  lemma PlainToken(s: string)
    requires Plain(s)
    ensures Tokens([s])
  {
  }

  lemma PlainTokens(a: string, b: string)
    requires Plain(a) && Plain(b)
    ensures Tokens([a, b])
  {
  }

  lemma TokensAppend(a: seq<string>, b: seq<string>)
    requires Tokens(a) && Tokens(b)
    ensures Tokens(a + b)
  {
  }
}

=== FILE: navlist.dfy ===
/** XNavList: a vertical list of navigation entries, one per item, with at
    most one value marked active. Clicking an enabled entry makes its value
    active and reports the selection through `_on_select`. */
module NavList {
  import opened Text
  import opened Values
  import opened Classes
  import opened Names
  import opened Nodes

  const AllMods: set<string> := {"xnavlist--dense", "xnavlist--dividers"}

  /** `getItemValue`: the item's `_value` if truthy, else its `_id` if
      truthy, else its `_label` as text. */
  function ItemValue(item: Value): (r: string)
    ensures Truthy(Field(item, "_value")) ==> r == ToStr(Field(item, "_value"))
    ensures !Truthy(Field(item, "_value")) && Truthy(Field(item, "_id")) ==> r == ToStr(Field(item, "_id"))
    ensures !Truthy(Field(item, "_value")) && !Truthy(Field(item, "_id")) ==> r == ToStr(Field(item, "_label"))
  {
    if Truthy(Field(item, "_value")) then ToStr(Field(item, "_value"))
    else if Truthy(Field(item, "_id")) then ToStr(Field(item, "_id"))
    else ToStr(Field(item, "_label"))
  }

  /** `isActive`: marked `_active: true`, or its value is the active one. */
  predicate IsActive(item: Value, active: string) {
    Field(item, "_active") == Bool(true) || ItemValue(item) == active
  }

  /** The class tokens of an entry, in `buildItem`'s order. */
  function ItemTokens(active: bool, disabled: bool): seq<string> {
    ["xnavlist__item"] + (if active then ["xnavlist__item--active"] else [])
    + (if disabled then ["xnavlist__item--disabled"] else [])
  }

  /** An entry's class holds the base class, the active modifier exactly
      when active and the disabled modifier exactly when disabled. */
  lemma ItemClassShape(active: bool, disabled: bool)
    ensures var w := Words(Join(ItemTokens(active, disabled), " "));
      && w[0] == "xnavlist__item"
      && ("xnavlist__item--active" in w <==> active)
      && ("xnavlist__item--disabled" in w <==> disabled)
  {
    ItemTokensPlain(active, disabled);
    WordsJoin(ItemTokens(active, disabled));
    ItemTokensMembers(active, disabled);
  }

  lemma ItemTokensMembers(active: bool, disabled: bool)
    ensures var t := ItemTokens(active, disabled);
      && t[0] == "xnavlist__item"
      && ("xnavlist__item--active" in t <==> active)
      && ("xnavlist__item--disabled" in t <==> disabled)
  {
  }

  lemma ItemTokensPlain(active: bool, disabled: bool)
    ensures Tokens(ItemTokens(active, disabled))
  {
    var a := if active then ["xnavlist__item--active"] else [];
    var d := if disabled then ["xnavlist__item--disabled"] else [];
    PlainToken("xnavlist__item");
    assert Tokens(a) by {
      if active {
        PlainToken("xnavlist__item--active");
      }
    }
    assert Tokens(d) by {
      if disabled {
        PlainToken("xnavlist__item--disabled");
      }
    }
    TokensAppend(["xnavlist__item"], a);
    TokensAppend(["xnavlist__item"] + a, d);
  }

  /** A rendered entry: its class, the item and the disabled flag its click
      handler captured, and its row's children (icon, label, badge). */
  datatype Entry = Entry(cls: string, item: Value, disabled: bool, children: seq<Node>)

  /** `buildItem`: the icon when set, the label text, then the badge wrapped
      in a view when set. */
  function EntryOf(item: Value, active: string): (r: Entry)
    ensures r.disabled <==> Field(item, "_disabled") == Bool(true)
    ensures r.item == item
    ensures r.cls == Join(ItemTokens(IsActive(item, active), r.disabled), " ")
  {
    var disabled := Field(item, "_disabled") == Bool(true);
    var icon := Field(item, "_icon");
    var badge := Field(item, "_badge");
    var children := (if Truthy(icon) then [User(icon)] else [])
      + [Make("label", "", "xnavlist__label", TextOrEmpty(Field(item, "_label")), [])]
      + (if Truthy(badge) then [Make("view", "", "xnavlist__badge", "", [User(badge)])] else []);
    Entry(Join(ItemTokens(IsActive(item, active), disabled), " "), item, disabled, children)
  }

  /** An entry's row shows the label text, after the icon when there is one
      and before the badge when there is one. */
  lemma EntryChildren(item: Value, active: string)
    ensures var ch := EntryOf(item, active).children;
      var at := if Truthy(Field(item, "_icon")) then 1 else 0;
      && |ch| == at + 1 + (if Truthy(Field(item, "_badge")) then 1 else 0)
      && ch[at] == Make("label", "", "xnavlist__label", TextOrEmpty(Field(item, "_label")), [])
      && (at == 1 ==> ch[0] == User(Field(item, "_icon")))
  {
  }

  /** The entries `renderItems` leaves in the list. */
  function Entries(items: seq<Value>, active: string): seq<Entry> {
    seq(|items|, i requires 0 <= i < |items| => EntryOf(items[i], active))
  }

  /** `items.find(i => getItemValue(i) === v)`, as an index. */
  function FirstMatch(items: seq<Value>, v: string): (r: Option<nat>)
    ensures r.Some? ==> r.value < |items| && ItemValue(items[r.value]) == v
    ensures r.Some? ==> forall k | 0 <= k < r.value :: ItemValue(items[k]) != v
    ensures r.None? ==> forall k | 0 <= k < |items| :: ItemValue(items[k]) != v
    decreases |items|
  {
    if items == [] then None
    else if ItemValue(items[0]) == v then Some(0)
    else
      var rest := FirstMatch(items[1..], v);
      if rest.Some? then Some(rest.value + 1) else None
  }

  /** `nextMods`: dense first, then dividers. */
  function NextMods(dense: bool, dividers: bool): seq<string> {
    (if dense then ["xnavlist--dense"] else []) + (if dividers then ["xnavlist--dividers"] else [])
  }

  /** `addClass("xnavlist")` then `replaceClass(allMods, nextMods)`. */
  function NavClasses(cs: set<string>, dense: bool, dividers: bool): set<string> {
    ReplaceClass(cs + {"xnavlist"}, AllMods, set x | x in NextMods(dense, dividers))
  }

  /** The base class is present, dense exactly when dense, dividers exactly
      when dividers, and the caller's other classes stay. */
  lemma NavClassesShape(cs: set<string>, dense: bool, dividers: bool)
    ensures var r := NavClasses(cs, dense, dividers);
      && "xnavlist" in r
      && ("xnavlist--dense" in r <==> dense) && ("xnavlist--dividers" in r <==> dividers)
      && (forall x | x !in AllMods && x != "xnavlist" :: x in r <==> x in cs)
  {
    ReplaceFamily(cs + {"xnavlist"}, AllMods, set x | x in NextMods(dense, dividers));
  }

  /** A call of `_on_select` with the value and the item. */
  datatype Event = Select(value: string, item: Value)

  class XNavList {
    var classes: set<string>
    var items: seq<Value>
    var active: string
    var dense: bool
    var dividers: bool
    /** Whether `_on_select` is set. */
    var hasOnSelect: bool
    /** The entries of the list view. */
    var list: seq<Entry>
    /** The `_on_select` calls made so far. */
    var events: seq<Event>

    /** `renderItems()`: the list is cleared, then one entry per item is
        appended, in order. */
    method RenderItems()
      modifies this
      ensures list == Entries(items, active)
      ensures classes == old(classes) && items == old(items) && active == old(active) && dense == old(dense)
      ensures dividers == old(dividers) && hasOnSelect == old(hasOnSelect) && events == old(events)
    {
      var es: seq<Entry> := [];
      var i := 0;
      while i < |items|
        invariant 0 <= i <= |items|
        invariant |es| == i && forall k | 0 <= k < i :: es[k] == EntryOf(items[k], active)
      {
        es := es + [EntryOf(items[i], active)];
        i := i + 1;
      }
      list := es;
    }

    /** `applyLayout()`. */
    method ApplyLayout()
      modifies this
      ensures classes == NavClasses(old(classes), dense, dividers)
      ensures items == old(items) && active == old(active) && dense == old(dense) && dividers == old(dividers)
      ensures hasOnSelect == old(hasOnSelect) && list == old(list) && events == old(events)
    {
      classes := NavClasses(classes, dense, dividers);
    }

    /** Construction: `applyProps`, `applyLayout`, `buildSkeleton`,
        `renderItems`. */
    constructor(data: Value)
      ensures items == ItemsOr(Field(data, "_items")) && active == TruthyText(Field(data, "_active"))
      ensures dense == IsTrue(Field(data, "_dense")) && dividers == IsTrue(Field(data, "_dividers"))
      ensures hasOnSelect == Truthy(Field(data, "_on_select"))
      ensures classes == NavClasses(ClassList(if Truthy(Field(data, "class")) then ToStr(Field(data, "class")) else "xnavlist"),
                                    dense, dividers)
      ensures list == Entries(items, active) && events == []
    {
      classes := ClassList(if Truthy(Field(data, "class")) then ToStr(Field(data, "class")) else "xnavlist");
      items := ItemsOr(Field(data, "_items"));
      active := TruthyText(Field(data, "_active"));
      dense := IsTrue(Field(data, "_dense"));
      dividers := IsTrue(Field(data, "_dividers"));
      hasOnSelect := Truthy(Field(data, "_on_select"));
      list := [];
      events := [];
      new;
      ApplyLayout();
      RenderItems();
    }

    /** `setActive(value, silent)`: the value is stored as text and the list
        re-rendered; unless silent, `_on_select` then fires once with the
        first item whose value matches, and not at all when none does. */
    method SetActive(v: Value, silent: bool)
      modifies this
      ensures active == TextOrEmpty(v) && list == Entries(items, active)
      ensures var m := FirstMatch(items, active);
        events == old(events) + (if !silent && hasOnSelect && m.Some? then [Select(active, items[m.value])] else [])
      ensures classes == old(classes) && items == old(items) && dense == old(dense) && dividers == old(dividers)
      ensures hasOnSelect == old(hasOnSelect)
    {
      active := TextOrEmpty(v);
      RenderItems();
      if !silent && hasOnSelect {
        var m := FirstMatch(items, active);
        if m.Some? {
          events := events + [Select(active, items[m.value])];
        }
      }
    }

    /** A click on the entry at `index`: a disabled entry does nothing;
        otherwise its value becomes active silently, and `_on_select` fires
        exactly once with that value and the item. */
    method Click(index: nat)
      requires index < |list|
      modifies this
      ensures old(list[index].disabled) ==> active == old(active) && list == old(list) && events == old(events)
      ensures !old(list[index].disabled) ==> active == ItemValue(old(list[index].item)) && list == Entries(items, active)
      ensures !old(list[index].disabled) ==>
        events == old(events) + (if hasOnSelect then [Select(active, old(list[index].item))] else [])
      ensures classes == old(classes) && items == old(items) && dense == old(dense) && dividers == old(dividers)
      ensures hasOnSelect == old(hasOnSelect)
    {
      var e := list[index];
      if e.disabled {
        return;
      }
      var value := ItemValue(e.item);
      SetActive(Str(value), true);
      if hasOnSelect {
        events := events + [Select(value, e.item)];
      }
    }

    /** `setItems` and the `_items` setter: a non-array gives no items. */
    method SetItems(v: Value)
      modifies this
      ensures items == ItemsOr(v) && list == Entries(items, active)
      ensures classes == old(classes) && active == old(active) && dense == old(dense) && dividers == old(dividers)
      ensures hasOnSelect == old(hasOnSelect) && events == old(events)
    {
      items := ItemsOr(v);
      RenderItems();
    }

    /** The `_active` setter: a falsy value clears it; nothing fires. */
    method SetActiveValue(v: Value)
      modifies this
      ensures active == TruthyText(v) && list == Entries(items, active)
      ensures classes == old(classes) && items == old(items) && dense == old(dense) && dividers == old(dividers)
      ensures hasOnSelect == old(hasOnSelect) && events == old(events)
    {
      active := TruthyText(v);
      RenderItems();
    }

    /** The `_dense` setter. */
    method SetDense(v: Value)
      modifies this
      ensures dense == IsTrue(v) && classes == NavClasses(old(classes), dense, dividers)
      ensures items == old(items) && active == old(active) && dividers == old(dividers)
      ensures hasOnSelect == old(hasOnSelect) && list == old(list) && events == old(events)
    {
      dense := IsTrue(v);
      ApplyLayout();
    }

    /** The `_dividers` setter. */
    method SetDividers(v: Value)
      modifies this
      ensures dividers == IsTrue(v) && classes == NavClasses(old(classes), dense, dividers)
      ensures items == old(items) && active == old(active) && dense == old(dense)
      ensures hasOnSelect == old(hasOnSelect) && list == old(list) && events == old(events)
    {
      dividers := IsTrue(v);
      ApplyLayout();
    }
  }

  /** In a rendered list, entry i is item i and carries the active modifier
      exactly when that item is active. */
  lemma EntriesActive(items: seq<Value>, active: string, i: nat)
    requires i < |items|
    ensures |Entries(items, active)| == |items|
    ensures Entries(items, active)[i].item == items[i]
    ensures "xnavlist__item--active" in Words(Entries(items, active)[i].cls) <==> IsActive(items[i], active)
  {
    var e := EntryOf(items[i], active);
    ItemClassShape(IsActive(items[i], active), e.disabled);
  }
}

=== FILE: nodes.dfy ===
/** The node-description trees the widgets hand to the host engine.

    A widget-made node carries its type tag (`_type`), its id (`_id`, "" when
    the source gives none), its class string, its text (`_text`), the other
    attributes it sets, and its children. Node descriptions supplied by the
    caller (`_children`, `_actions`, `_content`, …) are kept as opaque values.
    A node "exists" when a widget-made node with its id is in the tree. */
module Nodes {
  import opened Text
  import opened Values

  datatype Node =
    | El(kind: string, id: string, cls: string, text: string, attrs: map<string, string>, children: seq<Node>)
    | User(desc: Value)

  /** A widget-made node without attributes. */
  function Make(kind: string, id: string, cls: string, text: string, children: seq<Node>): Node {
    El(kind, id, cls, text, map[], children)
  }

  /** Caller-supplied descriptions placed as children, in order. */
  function Users(vs: seq<Value>): (r: seq<Node>)
    ensures |r| == |vs|
    ensures forall i | 0 <= i < |vs| :: r[i] == User(vs[i])
  {
    seq(|vs|, i requires 0 <= i < |vs| => User(vs[i]))
  }

  /** Some widget-made node in the list, or below it, has this id. */
  predicate HasId(ns: seq<Node>, id: string)
    decreases ns
  {
    exists i | 0 <= i < |ns| :: NodeHasId(ns[i], id)
  }

  predicate NodeHasId(n: Node, id: string)
    decreases n
  {
    n.El? && (n.id == id || HasId(n.children, id))
  }

  /** The host's in-place `_text` update of the node with this id. */
  function SetText(ns: seq<Node>, id: string, t: string): (r: seq<Node>)
    ensures |r| == |ns|
    decreases ns
  {
    if ns == [] then [] else [SetNodeText(ns[0], id, t)] + SetText(ns[1..], id, t)
  }

  function SetNodeText(n: Node, id: string, t: string): Node
    decreases n
  {
    match n
    case User(_) => n
    case El(k, i, c, x, a, ch) => El(k, i, c, if i == id then t else x, a, SetText(ch, id, t))
  }

  /** The tree with every widget-made node's text blanked: what the tree is
      apart from its texts. */
  function Erased(ns: seq<Node>): (r: seq<Node>)
    ensures |r| == |ns|
    decreases ns
  {
    if ns == [] then [] else [EraseNode(ns[0])] + Erased(ns[1..])
  }

  function EraseNode(n: Node): Node
    decreases n
  {
    match n
    case User(_) => n
    case El(k, i, c, _, a, ch) => El(k, i, c, "", a, Erased(ch))
  }

  /** The texts of the widget-made nodes with id `x`, in document order. */
  function Texts(ns: seq<Node>, x: string): seq<string>
    decreases ns
  {
    if ns == [] then [] else NodeTexts(ns[0], x) + Texts(ns[1..], x)
  }

  function NodeTexts(n: Node, x: string): seq<string>
    decreases n
  {
    match n
    case User(_) => []
    case El(_, i, _, t, _, ch) => (if i == x then [t] else []) + Texts(ch, x)
  }

  /** Every entry of the list is `t`. */
  predicate AllAre(ts: seq<string>, t: string) {
    forall k | 0 <= k < |ts| :: ts[k] == t
  }

  /** The text update changes nothing but texts. */
  lemma {:induction false} SetTextErased(ns: seq<Node>, id: string, t: string)
    ensures Erased(SetText(ns, id, t)) == Erased(ns)
    decreases ns
  {
    if ns != [] {
      SetNodeTextErased(ns[0], id, t);
      SetTextErased(ns[1..], id, t);
    }
  }

  lemma {:induction false} SetNodeTextErased(n: Node, id: string, t: string)
    ensures EraseNode(SetNodeText(n, id, t)) == EraseNode(n)
    decreases n
  {
    if n.El? {
      SetTextErased(n.children, id, t);
    }
  }

  /** After the text update every node with the id shows `t`, and the texts
      of the nodes with any other id are those they had. */
  lemma {:induction false} SetTextTexts(ns: seq<Node>, id: string, t: string, x: string)
    ensures |Texts(SetText(ns, id, t), x)| == |Texts(ns, x)|
    ensures x == id ==> AllAre(Texts(SetText(ns, id, t), x), t)
    ensures x != id ==> Texts(SetText(ns, id, t), x) == Texts(ns, x)
    decreases ns
  {
    if ns != [] {
      SetNodeTextTexts(ns[0], id, t, x);
      SetTextTexts(ns[1..], id, t, x);
      if x == id {
        AllAreAppend(NodeTexts(SetNodeText(ns[0], id, t), x), Texts(SetText(ns[1..], id, t), x), t);
      }
    }
  }

  lemma {:induction false} SetNodeTextTexts(n: Node, id: string, t: string, x: string)
    ensures |NodeTexts(SetNodeText(n, id, t), x)| == |NodeTexts(n, x)|
    ensures x == id ==> AllAre(NodeTexts(SetNodeText(n, id, t), x), t)
    ensures x != id ==> NodeTexts(SetNodeText(n, id, t), x) == NodeTexts(n, x)
    decreases n
  {
    if n.El? {
      SetTextTexts(n.children, id, t, x);
      var own: seq<string> := if n.id == x then [t] else [];
      if x == id {
        AllAreAppend(own, Texts(SetText(n.children, id, t), x), t);
      }
    }
  }

  lemma AllAreAppend(xs: seq<string>, ys: seq<string>, t: string)
    requires AllAre(xs, t) && AllAre(ys, t)
    ensures AllAre(xs + ys, t)
  {
  }

  /** The in-place text update leaves a tree without that id untouched. */
  lemma {:induction false} SetTextAbsent(ns: seq<Node>, id: string, t: string)
    requires !HasId(ns, id)
    ensures SetText(ns, id, t) == ns
    decreases ns
  {
    if ns != [] {
      assert !NodeHasId(ns[0], id);
      SetNodeTextAbsent(ns[0], id, t);
      SetTextAbsent(ns[1..], id, t);
    }
  }

  lemma {:induction false} SetNodeTextAbsent(n: Node, id: string, t: string)
    requires !NodeHasId(n, id)
    ensures SetNodeText(n, id, t) == n
    decreases n
  {
    if n.El? {
      SetTextAbsent(n.children, id, t);
    }
  }

  /** Updating one node of a list of siblings splits over the list. */
  lemma {:induction false} SetTextAppend(xs: seq<Node>, ys: seq<Node>, id: string, t: string)
    ensures SetText(xs + ys, id, t) == SetText(xs, id, t) + SetText(ys, id, t)
    decreases |xs|
  {
    if xs == [] {
      assert xs + ys == ys;
    } else {
      assert (xs + ys)[1..] == xs[1..] + ys;
      SetTextAppend(xs[1..], ys, id, t);
    }
  }

  /** A list of caller-supplied descriptions holds no widget-made node. */
  lemma UsersNoId(vs: seq<Value>, id: string)
    ensures !HasId(Users(vs), id)
  {
  }

  /** An optional node as a list of at most one child. */
  function Present(o: Option<Node>): (r: seq<Node>)
    ensures |r| <= 1 && (r != [] <==> o.Some?)
  {
    if o.Some? then [o.value] else []
  }

  /** A node is found in a list of siblings exactly when it is found in
      one of its two parts. */
  lemma HasIdAppend(xs: seq<Node>, ys: seq<Node>, id: string)
    ensures HasId(xs + ys, id) <==> HasId(xs, id) || HasId(ys, id)
  {
    if HasId(xs + ys, id) {
      var i :| 0 <= i < |xs + ys| && NodeHasId((xs + ys)[i], id);
      if i < |xs| {
        assert xs[i] == (xs + ys)[i];
      } else {
        assert ys[i - |xs|] == (xs + ys)[i];
      }
    }
    if HasId(xs, id) {
      var i :| 0 <= i < |xs| && NodeHasId(xs[i], id);
      assert (xs + ys)[i] == xs[i];
    }
    if HasId(ys, id) {
      var i :| 0 <= i < |ys| && NodeHasId(ys[i], id);
      assert (xs + ys)[|xs| + i] == ys[i];
    }
  }

  /** A one-node list holds the id exactly when the node does. */
  lemma HasIdOne(n: Node, id: string)
    ensures HasId([n], id) <==> NodeHasId(n, id)
  {
    assert [n][0] == n;
  }

  /** The in-place text update of a one-node list updates that node. */
  lemma SetTextOne(n: Node, id: string, t: string)
    ensures SetText([n], id, t) == [SetNodeText(n, id, t)]
  {
    assert [n][1..] == [];
  }
}

=== FILE: open.dfy ===
/** The open/close notification shared by the drawer, the modal and the
    toast: `setOpen(v, silent)` stores the flag and then calls `_on_open`
    or `_on_close`. */
module Openable {

  /** Calls of the two callbacks. */
  datatype Event = Opened | Closed

  /** The callbacks `setOpen` fires when the flag goes from `was` to `now`:
      `_on_open` only on a change to open, `_on_close` only on a change to
      closed, each only when set, and none when silent. */
  function OpenEvents(was: bool, now: bool, silent: bool, hasOnOpen: bool, hasOnClose: bool): (r: seq<Event>)
    ensures |r| <= 1
    ensures Opened in r <==> !was && now && !silent && hasOnOpen
    ensures Closed in r <==> was && !now && !silent && hasOnClose
  {
    if was == now || silent then []
    else if now && hasOnOpen then [Opened]
    else if !now && hasOnClose then [Closed]
    else []
  }

  /** Setting the flag to its current value, or setting it silently, fires
      nothing; flipping it and flipping it back fires the two callbacks that
      are set, in the order of the flips. */
  lemma OpenEventsFlips(was: bool, silent: bool, hasOnOpen: bool, hasOnClose: bool)
    ensures OpenEvents(was, was, silent, hasOnOpen, hasOnClose) == []
    ensures OpenEvents(was, !was, true, hasOnOpen, hasOnClose) == []
    ensures OpenEvents(was, !was, false, hasOnOpen, hasOnClose) + OpenEvents(!was, was, false, hasOnOpen, hasOnClose)
         == (if was then (if hasOnClose then [Closed] else []) + (if hasOnOpen then [Opened] else [])
             else (if hasOnOpen then [Opened] else []) + (if hasOnClose then [Closed] else []))
  {
  }
}

=== FILE: scroll.dfy ===
/** XScroll: a scrolling container. The direction decides which axes
    overflow; `applyLayout` rewrites the host's `class` and `style`. */
module Scroll {
  import opened Text
  import opened Values
  import opened Styles
  import opened Classes
  import opened Names

  datatype Direction = Vertical | Horizontal | Both

  const Managed: set<string> :=
    {"overflow", "overflow-x", "overflow-y", "min-height", "min-width", "flex", "max-height", "max-width"}

  const OwnTokens: set<string> := {"xscroll", "xscroll--hide", "xscroll--v", "xscroll--h", "xscroll--both"}

  /** "horizontal" and "both" are kept; anything else is vertical. */
  function NormalizeDirection(v: Value): (r: Direction)
    ensures r == Horizontal <==> v == Str("horizontal")
    ensures r == Both <==> v == Str("both")
  {
    if v == Str("horizontal") then Horizontal else if v == Str("both") then Both else Vertical
  }

  function DirToken(d: Direction): string {
    match d
    case Horizontal => "xscroll--h"
    case Both => "xscroll--both"
    case Vertical => "xscroll--v"
  }

  /** The modifiers pushed after the caller's classes. */
  function Modifiers(d: Direction, hidden: bool): seq<string> {
    [DirToken(d)] + (if hidden then ["xscroll--hide"] else [])
  }

  /** `buildClassName(direction, hideScrollbar)`. */
  function ScrollClass(existing: string, d: Direction, hidden: bool): string {
    ClassName(["xscroll"], existing, OwnTokens, Modifiers(d, hidden))
  }

  lemma ModifierTokens(d: Direction, hidden: bool)
    ensures Tokens(["xscroll"]) && NoDup(["xscroll"]) && Tokens(Modifiers(d, hidden))
    ensures forall x | x in Modifiers(d, hidden) :: x in OwnTokens
  {
    ModifiersOwned(d, hidden);
    ModifiersPlain(d, hidden);
  }

  lemma ModifiersOwned(d: Direction, hidden: bool)
    ensures forall x | x in Modifiers(d, hidden) :: x in OwnTokens
  {
  }

  lemma ModifiersPlain(d: Direction, hidden: bool)
    ensures Tokens(["xscroll"]) && NoDup(["xscroll"]) && Tokens(Modifiers(d, hidden))
  {
    PlainToken("xscroll");
    DirPlain(d);
    PlainToken(DirToken(d));
    if hidden {
      PlainToken("xscroll--hide");
      TokensAppend([DirToken(d)], ["xscroll--hide"]);
    }
  }

  lemma DirPlain(d: Direction)
    ensures Plain(DirToken(d))
  {
  }

  /** The class starts with "xscroll", holds each token once, carries the
      current direction modifier and the hide modifier exactly when the
      scrollbar is hidden; the caller's other classes are kept. */
  lemma ScrollClassShape(existing: string, d: Direction, hidden: bool)
    ensures |Words(ScrollClass(existing, d, hidden))| >= 1
    ensures Words(ScrollClass(existing, d, hidden))[0] == "xscroll"
    ensures NoDup(Words(ScrollClass(existing, d, hidden)))
    ensures forall x :: x in Words(ScrollClass(existing, d, hidden)) <==>
      x == "xscroll" || (x in Words(existing) && x !in OwnTokens) || x in Modifiers(d, hidden)
  {
    ModifierTokens(d, hidden);
    ClassTokensShape(["xscroll"], existing, OwnTokens, Modifiers(d, hidden));
    assert ClassTokens(["xscroll"], existing, OwnTokens, Modifiers(d, hidden))[..1] == ["xscroll"];
  }

  /** Exactly one direction modifier, the current one, and the hide modifier
      exactly when the scrollbar is hidden. */
  lemma ScrollModifiers(existing: string, d: Direction, hidden: bool)
    ensures forall e :: DirToken(e) in Words(ScrollClass(existing, d, hidden)) <==> e == d
    ensures "xscroll--hide" in Words(ScrollClass(existing, d, hidden)) <==> hidden
  {
    ScrollClassShape(existing, d, hidden);
    TokensDistinct();
  }

  lemma TokensDistinct()
    ensures forall e, d :: DirToken(e) == DirToken(d) <==> e == d
    ensures forall e :: DirToken(e) != "xscroll--hide" && DirToken(e) != "xscroll" && DirToken(e) in OwnTokens
  {
  }

  /** A pass with new settings replaces the class of any earlier pass. */
  lemma ScrollClassOverride(existing: string, d1: Direction, h1: bool, d2: Direction, h2: bool)
    ensures ScrollClass(ScrollClass(existing, d1, h1), d2, h2) == ScrollClass(existing, d2, h2)
  {
    ModifierTokens(d1, h1);
    ModifierTokens(d2, h2);
    ClassNameOverride(["xscroll"], Modifiers(d1, h1), ["xscroll"], Modifiers(d2, h2), existing, OwnTokens);
  }

  /** The overflow declarations of a direction. */
  function Overflow(d: Direction): seq<(string, string)> {
    match d
    case Horizontal => [("overflow-x", "auto"), ("overflow-y", "hidden")]
    case Both => [("overflow", "auto")]
    case Vertical => [("overflow-y", "auto"), ("overflow-x", "hidden")]
  }

  /** The pairs `applyLayout` appends, in its order. */
  function OwnPairs(d: Direction, grow: bool, maxHeight: Value, maxWidth: Value): seq<(string, string)> {
    [("min-height", "0")]
    + [("min-width", "0")]
    + Overflow(d)
    + (if grow then [("flex", "1 1 auto")] else [])
    + IfSet("max-height", maxHeight)
    + IfSet("max-width", maxWidth)
  }

  /** min-height:0 and min-width:0 always open the list, and the overflow
      rule of the direction follows them. */
  lemma OwnPairsOrder(d: Direction, grow: bool, maxHeight: Value, maxWidth: Value)
    ensures var ps := OwnPairs(d, grow, maxHeight, maxWidth);
      && |ps| >= 2 + |Overflow(d)|
      && ps[0] == ("min-height", "0") && ps[1] == ("min-width", "0")
      && ps[2..2 + |Overflow(d)|] == Overflow(d)
  {
    var ps := OwnPairs(d, grow, maxHeight, maxWidth);
    var o := Overflow(d);
    forall k | 0 <= k < |o| ensures ps[2 + k] == o[k] {
    }
  }

  /** flex:1 1 auto is emitted exactly when growing. */
  lemma OwnPairsFlex(d: Direction, grow: bool, maxHeight: Value, maxWidth: Value)
    ensures ("flex", "1 1 auto") in OwnPairs(d, grow, maxHeight, maxWidth) <==> grow
  {
    assert ("flex", "1 1 auto") !in Overflow(d);
    assert ("flex", "1 1 auto") !in IfSet("max-height", maxHeight);
    assert ("flex", "1 1 auto") !in IfSet("max-width", maxWidth);
  }

  /** The maximum sizes are emitted exactly when set, with their text. */
  lemma OwnPairsLimits(d: Direction, grow: bool, maxHeight: Value, maxWidth: Value)
    ensures Truthy(maxHeight) ==> ("max-height", ToStr(maxHeight)) in OwnPairs(d, grow, maxHeight, maxWidth)
    ensures Truthy(maxWidth) ==> ("max-width", ToStr(maxWidth)) in OwnPairs(d, grow, maxHeight, maxWidth)
    ensures !Truthy(maxHeight) ==> forall p | p in OwnPairs(d, grow, maxHeight, maxWidth) :: p.0 != "max-height"
    ensures !Truthy(maxWidth) ==> forall p | p in OwnPairs(d, grow, maxHeight, maxWidth) :: p.0 != "max-width"
  {
    var ps := OwnPairs(d, grow, maxHeight, maxWidth);
    var mh := IfSet("max-height", maxHeight);
    var mw := IfSet("max-width", maxWidth);
    var front := [("min-height", "0")] + [("min-width", "0")] + Overflow(d) + (if grow then [("flex", "1 1 auto")] else []);
    assert forall p | p in front :: p.0 != "max-height" && p.0 != "max-width" by {
      NamesDistinct();
    }
  }

  lemma NamesDistinct()
    ensures forall p | p in ["min-height", "min-width", "overflow", "overflow-x", "overflow-y", "flex"] ::
      p != "max-height" && p != "max-width"
  {
  }

  /** The overflow rule by direction: horizontal scrolls x and hides y, both
      scrolls on either axis, vertical scrolls y and hides x. */
  lemma OverflowRule(d: Direction)
    ensures d == Horizontal ==> ("overflow-x", "auto") in Overflow(d) && ("overflow-y", "hidden") in Overflow(d)
    ensures d == Both ==> Overflow(d) == [("overflow", "auto")]
    ensures d == Vertical ==> ("overflow-y", "auto") in Overflow(d) && ("overflow-x", "hidden") in Overflow(d)
  {
  }

  lemma MinHeightProp() ensures PropName("min-height") { PlainProp("min-height"); }
  lemma MinWidthProp() ensures PropName("min-width") { PlainProp("min-width"); }
  lemma OverflowProp() ensures PropName("overflow") { PlainProp("overflow"); }
  lemma OverflowXProp() ensures PropName("overflow-x") { PlainProp("overflow-x"); }
  lemma OverflowYProp() ensures PropName("overflow-y") { PlainProp("overflow-y"); }
  lemma FlexProp() ensures PropName("flex") { PlainProp("flex"); }
  lemma MaxHeightProp() ensures PropName("max-height") { PlainProp("max-height"); }
  lemma MaxWidthProp() ensures PropName("max-width") { PlainProp("max-width"); }
  lemma FixedValues() ensures PropValue("0") && PropValue("auto") && PropValue("hidden") && PropValue("1 1 auto") {}

  lemma OverflowOwned(d: Direction)
    ensures Owned(Overflow(d), Managed)
  {
    OverflowProp();
    OverflowXProp();
    OverflowYProp();
    FixedValues();
  }

  /** Every emitted pair is a normal declaration of a managed property, given
      maximum sizes that are trimmed and free of ';'. */
  lemma OwnPairsOwned(d: Direction, grow: bool, maxHeight: Value, maxWidth: Value)
    requires CleanValue(maxHeight) && CleanValue(maxWidth)
    ensures Owned(OwnPairs(d, grow, maxHeight, maxWidth), Managed)
  {
    var h := [("min-height", "0")];
    var w := [("min-width", "0")];
    var o := Overflow(d);
    var g := if grow then [("flex", "1 1 auto")] else [];
    var mh := IfSet("max-height", maxHeight);
    var mw := IfSet("max-width", maxWidth);
    assert Owned(h, Managed) by {
      MinHeightProp();
      FixedValues();
      OwnedOne("min-height", "0", Managed);
    }
    assert Owned(w, Managed) by {
      MinWidthProp();
      FixedValues();
      OwnedOne("min-width", "0", Managed);
    }
    OverflowOwned(d);
    assert Owned(g, Managed) by {
      if grow {
        FlexProp();
        FixedValues();
        OwnedOne("flex", "1 1 auto", Managed);
      }
    }
    assert Owned(mh, Managed) by {
      MaxHeightProp();
      IfSetOwned("max-height", maxHeight, Managed);
    }
    assert Owned(mw, Managed) by {
      MaxWidthProp();
      IfSetOwned("max-width", maxWidth, Managed);
    }
    OwnedAppend(h, w, Managed);
    OwnedAppend(h + w, o, Managed);
    OwnedAppend(h + w + o, g, Managed);
    OwnedAppend(h + w + o + g, mh, Managed);
    OwnedAppend(h + w + o + g + mh, mw, Managed);
  }

  /** The style half of `applyLayout`. */
  method LayoutStyleOf(style: string, d: Direction, grow: bool, maxHeight: Value, maxWidth: Value) returns (r: string)
    ensures r == Layout(style, OwnPairs(d, grow, maxHeight, maxWidth), Managed)
  {
    var base := StripManagedStyles(style, Managed);
    var ps := [("min-height", "0")];
    ps := ps + [("min-width", "0")];
    ps := ps + Overflow(d);
    ps := ps + if grow then [("flex", "1 1 auto")] else [];
    ps := ps + IfSet("max-height", maxHeight);
    ps := ps + IfSet("max-width", maxWidth);
    r := LayoutStyle(base, Decls(ps));
  }

  class XScroll {
    var cls: string
    var style: string
    var direction: Direction
    var grow: bool
    var hidden: bool
    /** `_max_height` / `_max_width` are stored as given. */
    var maxHeight: Value
    var maxWidth: Value

    function LayoutOf(base: string): string
      reads this
    {
      Layout(base, OwnPairs(direction, grow, maxHeight, maxWidth), Managed)
    }

    method ApplyLayout()
      modifies this
      ensures cls == ScrollClass(old(cls), direction, hidden)
      ensures style == Layout(old(style), OwnPairs(direction, grow, maxHeight, maxWidth), Managed)
      ensures direction == old(direction) && grow == old(grow) && hidden == old(hidden)
      ensures maxHeight == old(maxHeight) && maxWidth == old(maxWidth)
    {
      cls := ScrollClass(cls, direction, hidden);
      style := LayoutStyleOf(style, direction, grow, maxHeight, maxWidth);
    }

    constructor(data: Value)
      ensures direction == NormalizeDirection(Field(data, "_direction"))
      ensures grow == IsTrue(Field(data, "_grow")) && hidden == IsTrue(Field(data, "_hide_scrollbar"))
      ensures maxHeight == Field(data, "_max_height") && maxWidth == Field(data, "_max_width")
      ensures cls == ScrollClass(if Truthy(Field(data, "class")) then ToStr(Field(data, "class")) else "xscroll", direction, hidden)
      ensures style == LayoutOf(TruthyText(Field(data, "style")))
    {
      cls := if Truthy(Field(data, "class")) then ToStr(Field(data, "class")) else "xscroll";
      style := TruthyText(Field(data, "style"));
      direction := NormalizeDirection(Field(data, "_direction"));
      grow := IsTrue(Field(data, "_grow"));
      hidden := IsTrue(Field(data, "_hide_scrollbar"));
      maxHeight := Field(data, "_max_height");
      maxWidth := Field(data, "_max_width");
      new;
      ApplyLayout();
    }

    method SetDirection(v: Value)
      modifies this
      ensures direction == NormalizeDirection(v)
      ensures grow == old(grow) && hidden == old(hidden) && maxHeight == old(maxHeight) && maxWidth == old(maxWidth)
      ensures cls == ScrollClass(old(cls), direction, hidden) && style == LayoutOf(old(style))
    {
      direction := NormalizeDirection(v);
      ApplyLayout();
    }

    method SetGrow(v: Value)
      modifies this
      ensures grow == IsTrue(v)
      ensures direction == old(direction) && hidden == old(hidden) && maxHeight == old(maxHeight) && maxWidth == old(maxWidth)
      ensures cls == ScrollClass(old(cls), direction, hidden) && style == LayoutOf(old(style))
    {
      grow := IsTrue(v);
      ApplyLayout();
    }

    method SetHideScrollbar(v: Value)
      modifies this
      ensures hidden == IsTrue(v)
      ensures direction == old(direction) && grow == old(grow) && maxHeight == old(maxHeight) && maxWidth == old(maxWidth)
      ensures cls == ScrollClass(old(cls), direction, hidden) && style == LayoutOf(old(style))
    {
      hidden := IsTrue(v);
      ApplyLayout();
    }

    method SetMaxHeight(v: Value)
      modifies this
      ensures maxHeight == v
      ensures direction == old(direction) && grow == old(grow) && hidden == old(hidden) && maxWidth == old(maxWidth)
      ensures cls == ScrollClass(old(cls), direction, hidden) && style == LayoutOf(old(style))
    {
      maxHeight := v;
      ApplyLayout();
    }

    method SetMaxWidth(v: Value)
      modifies this
      ensures maxWidth == v
      ensures direction == old(direction) && grow == old(grow) && hidden == old(hidden) && maxHeight == old(maxHeight)
      ensures cls == ScrollClass(old(cls), direction, hidden) && style == LayoutOf(old(style))
    {
      maxWidth := v;
      ApplyLayout();
    }
  }

  /** A layout pass discards every declaration an earlier pass emitted, so no
      caller or stale overflow, min-*, flex or max-* declaration survives, and
      a second pass with unchanged fields changes nothing. */
  lemma LayoutOverrides(style: string, d1: Direction, grow1: bool, mh1: Value, mw1: Value, ps2: seq<(string, string)>)
    requires CleanValue(mh1) && CleanValue(mw1)
    ensures Layout(Layout(style, OwnPairs(d1, grow1, mh1, mw1), Managed), ps2, Managed) == Layout(style, ps2, Managed)
  {
    OwnPairsOwned(d1, grow1, mh1, mw1);
    LayoutOverride(style, OwnPairs(d1, grow1, mh1, mw1), ps2, Managed);
  }

  /** The pairs of the passes `parse` runs, one per setter it calls, each
      with the direction, grow flag and max values stored at that point. */
  function ParsePairs(states: seq<(Direction, bool, Value, Value)>): seq<seq<(string, string)>> {
    seq(|states|, i requires 0 <= i < |states| => OwnPairs(states[i].0, states[i].1, states[i].2, states[i].3))
  }

  /** Construction lays out once for each setter `parse` runs and once more
      at the end. When none of the max values stored along the way holds a
      ';', the earlier passes leave nothing behind and the style is the
      single pass the constructor states. */
  lemma ParsePassesCollapse(style: string, states: seq<(Direction, bool, Value, Value)>,
                            d: Direction, grow: bool, maxHeight: Value, maxWidth: Value)
    requires forall i | 0 <= i < |states| :: CleanValue(states[i].2) && CleanValue(states[i].3)
    ensures Layout(Passes(style, ParsePairs(states), Managed), OwnPairs(d, grow, maxHeight, maxWidth), Managed)
         == Layout(style, OwnPairs(d, grow, maxHeight, maxWidth), Managed)
  {
    var passes := ParsePairs(states);
    forall i | 0 <= i < |states|
      ensures Owned(passes[i], Managed)
    {
      OwnPairsOwned(states[i].0, states[i].1, states[i].2, states[i].3);
    }
    PassesCollapse(style, passes, OwnPairs(d, grow, maxHeight, maxWidth), Managed);
  }

  /** The declarations of the laid-out style: the caller's surviving ones,
      none of them a managed property, then the widget's own in order. */
  lemma LayoutDeclarations(style: string, d: Direction, grow: bool, maxHeight: Value, maxWidth: Value)
    requires CleanValue(maxHeight) && CleanValue(maxWidth)
    ensures var ps := OwnPairs(d, grow, maxHeight, maxWidth);
      Pieces(Layout(style, ps, Managed)) == Kept(style, Managed) + Decls(ps)
    ensures forall i | 0 <= i < |Kept(style, Managed)| :: PropOf(Kept(style, Managed)[i]) !in Managed
  {
    OwnPairsOwned(d, grow, maxHeight, maxWidth);
    LayoutPieces(style, OwnPairs(d, grow, maxHeight, maxWidth), Managed);
  }
}

=== FILE: search.dfy ===
/** XSearchBox: a search field with a magnifier icon, an input and a clear
    button. The clear button shows only while there is something to clear
    and the box is enabled; typing, committing and clearing report through
    `_on_input`, `_on_change` and `_on_clear`. */
module Search {
  import opened Text
  import opened Values
  import opened Classes
  import opened Labels

  datatype Size = Sm | Md

  const SizeMods: set<string> := {"xsearch--sm", "xsearch--md"}

  const DefaultPlaceholder: string := "Search..."

  /** Only "sm" is small. */
  function NormalizeSize(v: Value): (r: Size)
    ensures r == Sm <==> v == Str("sm")
  {
    if v == Str("sm") then Sm else Md
  }

  function SizeToken(s: Size): string {
    if s == Sm then "xsearch--sm" else "xsearch--md"
  }

  /** `applyProps`' class work: "xsearch", the size swap, the disabled modifier. */
  function SearchClasses(cs: set<string>, size: Size, disabled: bool): set<string> {
    Toggle(ReplaceClass(cs + {"xsearch"}, SizeMods, {SizeToken(size)}), "xsearch--disabled", disabled)
  }

  /** Exactly one size modifier, the current one; the disabled modifier
      exactly when disabled; the caller's other classes stay. */
  lemma SearchClassesShape(cs: set<string>, size: Size, disabled: bool)
    ensures var r := SearchClasses(cs, size, disabled);
      && "xsearch" in r
      && r * SizeMods == {SizeToken(size)}
      && ("xsearch--disabled" in r <==> disabled)
      && (forall x | x !in SizeMods && x != "xsearch" && x != "xsearch--disabled" :: x in r <==> x in cs)
  {
    ReplaceFamily(cs + {"xsearch"}, SizeMods, {SizeToken(size)});
  }

  /** `toggleClear`'s rule: something to clear, clearing allowed, box enabled. */
  predicate ShowClear(clearable: bool, value: string, disabled: bool) {
    clearable && |value| > 0 && !disabled
  }

  /** The three child nodes as far as the widget writes them: the input's
      placeholder, value, disabled and autofocus flags and DOM id (`None`:
      the generated one is kept), and the visibility of the icon and of the
      clear button. */
  datatype SearchView = SearchView(placeholder: string, value: string, disabled: bool, autofocus: bool,
                                   domId: Option<string>, iconVisible: bool, clearVisible: bool)

  /** The skeleton before `applyProps` writes anything: all visible. */
  const InitialView: SearchView := SearchView("", "", false, false, None, true, true)

  /** Calls of the three callbacks, with the value they receive. */
  datatype Event = Input(value: string) | Change(value: string) | Cleared

  /** The settings `applyProps` reads once: the placeholder, the size, the
      four flags, the input's DOM id, and which callbacks are set. */
  datatype Props = Props(placeholder: string, size: Size, disabled: bool, clearable: bool, icon: bool, autofocus: bool,
                         inputId: Option<string>, hasOnInput: bool, hasOnChange: bool, hasOnClear: bool)

  /** The settings read from the configuration, with their defaults: the
      placeholder "Search...", size md, clearable and icon on, disabled and
      autofocus off. */
  function PropsOf(data: Value): (r: Props)
    ensures !Truthy(Field(data, "_placeholder")) ==> r.placeholder == DefaultPlaceholder
    ensures r.size == Sm <==> Field(data, "_size") == Str("sm")
    ensures Field(data, "_disabled") == Undef ==> !r.disabled
    ensures Field(data, "_autofocus") == Undef ==> !r.autofocus
    ensures Field(data, "_clearable") == Undef ==> r.clearable
    ensures Field(data, "_icon") == Undef ==> r.icon
    ensures r.inputId.Some? <==> Truthy(Field(data, "_input_id"))
  {
    Props(if Truthy(Field(data, "_placeholder")) then ToStr(Field(data, "_placeholder")) else DefaultPlaceholder,
          NormalizeSize(Field(data, "_size")),
          BoolOr(Field(data, "_disabled"), false), BoolOr(Field(data, "_clearable"), true),
          BoolOr(Field(data, "_icon"), true), BoolOr(Field(data, "_autofocus"), false),
          OptText(Field(data, "_input_id")),
          Truthy(Field(data, "_on_input")), Truthy(Field(data, "_on_change")), Truthy(Field(data, "_on_clear")))
  }

  /** An empty configuration gives every default. */
  lemma DefaultProps(r: nat)
    ensures PropsOf(Obj(r, map[])) == Props(DefaultPlaceholder, Md, false, true, true, false, None, false, false, false)
  {
  }

  class XSearchBox {
    var classes: set<string>
    var value: string
    var props: Props
    var view: SearchView
    /** The callback calls made so far. */
    var events: seq<Event>

    /** The clear button's visibility follows `toggleClear`'s rule. */
    predicate ClearShown()
      reads this
    {
      view.clearVisible == ShowClear(props.clearable, value, props.disabled)
    }

    /** `toggleClear()`. */
    method ToggleClear()
      modifies this
      ensures view == old(view).(clearVisible := ShowClear(props.clearable, value, props.disabled))
      ensures ClearShown()
      ensures classes == old(classes) && value == old(value) && props == old(props) && events == old(events)
    {
      view := view.(clearVisible := ShowClear(props.clearable, value, props.disabled));
    }

    /** Construction: the configuration is read with its defaults, the
        skeleton built, and `applyProps` writes the classes and the nodes.
        The input's DOM id is replaced only when the stored id's text is
        truthy. */
    constructor(data: Value)
      ensures value == StrOr(Field(data, "_value"), "") && props == PropsOf(data)
      ensures classes == SearchClasses(ClassList(if Truthy(Field(data, "class")) then ToStr(Field(data, "class")) else "xsearch"),
                                       props.size, props.disabled)
      ensures view == SearchView(props.placeholder, value, props.disabled, props.autofocus, IfFilled(props.inputId), props.icon,
                                 ShowClear(props.clearable, value, props.disabled))
      ensures events == []
    {
      var p := PropsOf(data);
      var v := StrOr(Field(data, "_value"), "");
      classes := SearchClasses(ClassList(if Truthy(Field(data, "class")) then ToStr(Field(data, "class")) else "xsearch"),
                               p.size, p.disabled);
      value := v;
      props := p;
      view := InitialView.(placeholder := p.placeholder, value := v, disabled := p.disabled, autofocus := p.autofocus,
                           domId := if Filled(p.inputId) then p.inputId else InitialView.domId,
                           iconVisible := p.icon);
      events := [];
      new;
      ToggleClear();
    }

    /** The input's `input` handler, given the first of the event target's
        value, the input's `_value` and its `_text` that is neither null nor
        undefined: the value is stored, the clear button refreshed, then
        `_on_input` fires. */
    method HandleInput(v: Value)
      modifies this
      ensures value == TextOrEmpty(v)
      ensures view == old(view).(clearVisible := ShowClear(props.clearable, value, props.disabled)) && ClearShown()
      ensures events == old(events) + (if props.hasOnInput then [Input(value)] else [])
      ensures classes == old(classes) && props == old(props)
    {
      value := TextOrEmpty(v);
      ToggleClear();
      if props.hasOnInput {
        events := events + [Input(value)];
      }
    }

    /** The input's `change` handler: the value is stored (the clear button
        is left as it was), then `_on_change` fires. */
    method HandleChange(v: Value)
      modifies this
      ensures value == TextOrEmpty(v) && view == old(view)
      ensures events == old(events) + (if props.hasOnChange then [Change(value)] else [])
      ensures classes == old(classes) && props == old(props)
    {
      value := TextOrEmpty(v);
      if props.hasOnChange {
        events := events + [Change(value)];
      }
    }

    /** `setValue(v, silent)`: stores `String(v ?? "")`, writes it into the
        input, refreshes the clear button, and fires `_on_input` unless
        silent. */
    method SetValue(v: Value, silent: bool)
      modifies this
      ensures value == TextOrEmpty(v)
      ensures view == old(view).(value := value, clearVisible := ShowClear(props.clearable, value, props.disabled)) && ClearShown()
      ensures events == old(events) + (if !silent && props.hasOnInput then [Input(value)] else [])
      ensures classes == old(classes) && props == old(props)
    {
      value := TextOrEmpty(v);
      view := view.(value := value);
      ToggleClear();
      if !silent && props.hasOnInput {
        events := events + [Input(value)];
      }
    }

    /** `clear()`: the value becomes "" silently, the clear button hides,
        then `_on_clear` fires, then `_on_input` with "". */
    method Clear()
      modifies this
      ensures value == "" && view == old(view).(value := "", clearVisible := false)
      ensures events == old(events) + (if props.hasOnClear then [Cleared] else []) + (if props.hasOnInput then [Input("")] else [])
      ensures classes == old(classes) && props == old(props)
    {
      SetValue(Str(""), true);
      if props.hasOnClear {
        events := events + [Cleared];
      }
      if props.hasOnInput {
        events := events + [Input(value)];
      }
    }
  }
}

=== FILE: section.dfy ===
/** XSection: a page section with an optional header (a headings block
    with the title and the subtitle, then an actions block) above a body
    that holds the children given at construction. After construction the
    `_title`, `_subtitle` and `_actions` setters either patch the built tree
    in place or rebuild it. */
module Section {
  import opened Text
  import opened Values
  import opened Nodes

  /** The node ids, each standing for the widget's own id followed by this
      suffix. */
  const ContainerId: string := "_container"
  const HeaderId: string := "_header"
  const TitleId: string := "_title"
  const SubtitleId: string := "_subtitle"
  const ActionsId: string := "_actions"
  const BodyId: string := "_body"

  /** The ids differ from each other and from the empty id: their lengths
      differ. */
  lemma IdsDistinct()
    ensures |ContainerId| == 10 && |HeaderId| == 7 && |TitleId| == 6
    ensures |SubtitleId| == 9 && |ActionsId| == 8 && |BodyId| == 5
  {
  }

  /** `hasHeader()`: a non-blank title or subtitle, or some action. */
  predicate HasHeader(title: string, subtitle: string, actions: seq<Value>) {
    !IsBlank(title) || !IsBlank(subtitle) || |actions| > 0
  }

  /** What the built tree depends on: the title and subtitle labels' texts
      when the labels exist, whether the actions block exists and what it
      holds, and the body's children. */
  datatype Shape = Shape(title: Option<string>, subtitle: Option<string>, actionsView: bool,
                         actions: seq<Value>, body: seq<Value>)

  /** The header block exists when there is a label or the actions block. */
  predicate HeaderIn(sh: Shape) {
    sh.title.Some? || sh.subtitle.Some? || sh.actionsView
  }

  /** The tree `buildSkeleton` makes from the stored settings: a label for
      each non-blank text, holding it trimmed, and the actions block exactly
      when there are actions. */
  function ShapeOf(title: string, subtitle: string, actions: seq<Value>, body: seq<Value>): (r: Shape)
    ensures r.title.Some? <==> !IsBlank(title)
    ensures r.title.Some? ==> r.title.value == Trim(title)
    ensures r.subtitle.Some? <==> !IsBlank(subtitle)
    ensures r.subtitle.Some? ==> r.subtitle.value == Trim(subtitle)
    ensures r.actionsView <==> |actions| > 0
    ensures r.actions == actions && r.body == body
    ensures HeaderIn(r) <==> HasHeader(title, subtitle, actions)
  {
    Shape(if IsBlank(title) then None else Some(Trim(title)),
          if IsBlank(subtitle) then None else Some(Trim(subtitle)),
          |actions| > 0, actions, body)
  }

  function TitleNode(t: string): Node {
    El("label", TitleId, "xsection__title", t, map["_html_tag" := "h2"], [])
  }

  function SubtitleNode(t: string): Node {
    El("label", SubtitleId, "xsection__subtitle", t, map["_html_tag" := "p"], [])
  }

  /** The labels, title first. */
  function HeadingLabels(sh: Shape): seq<Node> {
    (if sh.title.Some? then [TitleNode(sh.title.value)] else [])
    + (if sh.subtitle.Some? then [SubtitleNode(sh.subtitle.value)] else [])
  }

  /** The headings block (without an id), present when a label is. */
  function Headings(sh: Shape): Option<Node> {
    if sh.title.Some? || sh.subtitle.Some? then Some(Make("view", "", "xsection__headings", "", HeadingLabels(sh)))
    else None
  }

  /** The actions block, holding the caller's action descriptions. */
  function ActionsBlock(sh: Shape): Option<Node> {
    if sh.actionsView then Some(Make("view", ActionsId, "xsection__actions", "", Users(sh.actions))) else None
  }

  /** `buildHeader`: the headings, then the actions. */
  function Header(sh: Shape): Option<Node> {
    if HeaderIn(sh) then Some(Make("view", HeaderId, "xsection__header", "", Present(Headings(sh)) + Present(ActionsBlock(sh))))
    else None
  }

  function BodyNode(sh: Shape): Node {
    Make("view", BodyId, "xsection__body", "", Users(sh.body))
  }

  /** The container `buildSkeleton` appends: the header, then the body. */
  function Render(sh: Shape): Node {
    Make("view", ContainerId, "xsection__container", "", Present(Header(sh)) + [BodyNode(sh)])
  }

  /** The header exists exactly when `hasHeader()` holds; inside it the
      headings block exists exactly when the title or the subtitle is not
      blank, and holds the trimmed title, then the trimmed subtitle, each
      only when not blank; the actions block follows exactly when there
      are actions, and holds them in order; the body always closes the
      container and holds the body children. */
  lemma Layout(title: string, subtitle: string, actions: seq<Value>, body: seq<Value>)
    ensures var sh := ShapeOf(title, subtitle, actions, body);
      var ch := Render(sh).children;
      && (Header(sh).Some? <==> HasHeader(title, subtitle, actions))
      && ch[|ch| - 1] == Make("view", BodyId, "xsection__body", "", Users(body))
      && (Header(sh).Some? ==> ch == [Header(sh).value, ch[1]])
      && (Header(sh).None? ==> |ch| == 1)
      && (Header(sh).Some? ==>
            Header(sh).value.children ==
            (if !IsBlank(title) || !IsBlank(subtitle)
             then [Make("view", "", "xsection__headings", "",
                        (if IsBlank(title) then [] else [TitleNode(Trim(title))])
                        + (if IsBlank(subtitle) then [] else [SubtitleNode(Trim(subtitle))]))]
             else [])
            + (if |actions| > 0 then [Make("view", ActionsId, "xsection__actions", "", Users(actions))] else []))
  {
  }

  lemma HeadingsIds(sh: Shape, id: string)
    requires id != ""
    ensures HasId(Present(Headings(sh)), id) <==> (id == TitleId && sh.title.Some?) || (id == SubtitleId && sh.subtitle.Some?)
  {
    IdsDistinct();
    if Headings(sh).Some? {
      HasIdOne(Headings(sh).value, id);
      var a := if sh.title.Some? then [TitleNode(sh.title.value)] else [];
      var b := if sh.subtitle.Some? then [SubtitleNode(sh.subtitle.value)] else [];
      HasIdAppend(a, b, id);
      if sh.title.Some? {
        HasIdOne(TitleNode(sh.title.value), id);
      }
      if sh.subtitle.Some? {
        HasIdOne(SubtitleNode(sh.subtitle.value), id);
      }
    }
  }

  lemma ActionsIds(sh: Shape, id: string)
    ensures HasId(Present(ActionsBlock(sh)), id) <==> id == ActionsId && sh.actionsView
  {
    if sh.actionsView {
      HasIdOne(ActionsBlock(sh).value, id);
      UsersNoId(sh.actions, id);
    }
  }

  /** Which nodes the tree holds: the header exactly when a label or the
      actions block is in it, each label exactly when the shape has its
      text, the actions block exactly when the shape calls for it, and the
      body always. */
  lemma RenderIds(sh: Shape, id: string)
    requires id in {HeaderId, TitleId, SubtitleId, ActionsId, BodyId}
    ensures NodeHasId(Render(sh), id) <==>
      (id == HeaderId && HeaderIn(sh)) || (id == TitleId && sh.title.Some?) || (id == SubtitleId && sh.subtitle.Some?)
      || (id == ActionsId && sh.actionsView) || id == BodyId
  {
    IdsDistinct();
    var h := Present(Header(sh));
    HasIdAppend(h, [BodyNode(sh)], id);
    HasIdOne(BodyNode(sh), id);
    UsersNoId(sh.body, id);
    if HeaderIn(sh) {
      HasIdOne(Header(sh).value, id);
      HasIdAppend(Present(Headings(sh)), Present(ActionsBlock(sh)), id);
      HeadingsIds(sh, id);
      ActionsIds(sh, id);
    }
  }

  /** The shape after the host rewrites the text of a label that exists. */
  function Retext(sh: Shape, id: string, t: string): Shape {
    if id == TitleId && sh.title.Some? then sh.(title := Some(t))
    else if id == SubtitleId && sh.subtitle.Some? then sh.(subtitle := Some(t))
    else sh
  }

  /** Rewriting a label's text in place gives the very tree that a rebuild
      with that text would give. */
  lemma RetextRender(sh: Shape, id: string, t: string)
    requires id == TitleId || id == SubtitleId
    ensures SetNodeText(Render(sh), id, t) == Render(Retext(sh, id, t))
  {
    IdsDistinct();
    var sh' := Retext(sh, id, t);
    var h := Present(Header(sh));
    SetTextAppend(h, [BodyNode(sh)], id, t);
    SetTextOne(BodyNode(sh), id, t);
    UsersNoId(sh.body, id);
    SetTextAbsent(Users(sh.body), id, t);
    if HeaderIn(sh) {
      SetTextOne(Header(sh).value, id, t);
      RetextHeader(sh, id, t);
    }
  }

  /** The header part of `RetextRender`. */
  lemma RetextHeader(sh: Shape, id: string, t: string)
    requires id == TitleId || id == SubtitleId
    ensures SetText(Present(Headings(sh)) + Present(ActionsBlock(sh)), id, t)
         == Present(Headings(Retext(sh, id, t))) + Present(ActionsBlock(Retext(sh, id, t)))
  {
    IdsDistinct();
    var g := Present(Headings(sh));
    var k := Present(ActionsBlock(sh));
    SetTextAppend(g, k, id, t);
    if sh.actionsView {
      SetTextOne(ActionsBlock(sh).value, id, t);
      UsersNoId(sh.actions, id);
      SetTextAbsent(Users(sh.actions), id, t);
    }
    if Headings(sh).Some? {
      SetTextOne(Headings(sh).value, id, t);
      var a := if sh.title.Some? then [TitleNode(sh.title.value)] else [];
      var b := if sh.subtitle.Some? then [SubtitleNode(sh.subtitle.value)] else [];
      SetTextAppend(a, b, id, t);
      if sh.title.Some? {
        SetTextOne(TitleNode(sh.title.value), id, t);
      }
      if sh.subtitle.Some? {
        SetTextOne(SubtitleNode(sh.subtitle.value), id, t);
      }
    }
  }

  /** The tree as the setters leave it: each label shows its trimmed text
      when the text is not blank and may otherwise linger with an empty
      text; the actions block holds the stored actions, exists whenever
      there are some and may linger empty; the header exists exactly when
      `hasHeader()` holds; the body is the captured children. */
  predicate Agrees(sh: Shape, title: string, subtitle: string, actions: seq<Value>, body: seq<Value>) {
    && (if IsBlank(title) then sh.title == None || sh.title == Some("") else sh.title == Some(Trim(title)))
    && (if IsBlank(subtitle) then sh.subtitle == None || sh.subtitle == Some("") else sh.subtitle == Some(Trim(subtitle)))
    && sh.actions == actions && sh.body == body && (|actions| > 0 ==> sh.actionsView)
    && (HeaderIn(sh) <==> HasHeader(title, subtitle, actions))
  }

  /** The skeleton of the settings agrees with them. */
  lemma ShapeOfAgrees(title: string, subtitle: string, actions: seq<Value>, body: seq<Value>)
    ensures Agrees(ShapeOf(title, subtitle, actions, body), title, subtitle, actions, body)
  {
  }

  /** `Array.isArray(data._children)`: the caller's object afterwards, its
      `_children` replaced by a new empty array (here with reference
      `newRef`). */
  function TakeChildren(data: Value, newRef: nat): (r: Value)
    ensures Field(data, "_children").Arr? ==> Field(r, "_children") == Arr(newRef, [])
    ensures forall k :: k != "_children" ==> Field(r, k) == Field(data, k)
    ensures !Field(data, "_children").Arr? ==> r == data
  {
    if Field(data, "_children").Arr? then Obj(data.ref, data.fields["_children" := Arr(newRef, [])]) else data
  }

  class XSection {
    var title: string
    var subtitle: string
    var actions: seq<Value>
    /** The children captured from the configuration at construction. */
    var body: seq<Value>
    var initializing: bool
    /** What the container appended by the last `buildSkeleton` shows, as
        patched in place since; the nodes are `Root()`. */
    var built: Shape
    /** How many times the tree has been rebuilt since construction. */
    var rebuilds: nat

    /** The container and the nodes under it. */
    function Root(): Node
      reads this
    {
      Render(built)
    }

    /** The tree is the skeleton of the current settings. */
    predicate Valid()
      reads this
    {
      built == ShapeOf(title, subtitle, actions, body)
    }

    /** The tree agrees with the current settings as the setters keep it. */
    predicate Consistent()
      reads this
    {
      Agrees(built, title, subtitle, actions, body)
    }

    /** `rebuild()`: the old container is removed and a new skeleton
        appended. */
    method Rebuild()
      modifies this
      ensures Valid() && rebuilds == old(rebuilds) + 1
      ensures title == old(title) && subtitle == old(subtitle) && actions == old(actions) && body == old(body)
      ensures initializing == old(initializing)
    {
      built := ShapeOf(title, subtitle, actions, body);
      rebuilds := rebuilds + 1;
    }

    /** Construction: the caller's `_children` are captured for the body,
        the texts read through `v ? String(v) : ""`, a non-array `_actions`
        gives none, and the skeleton is built. */
    constructor(data: Value)
      ensures body == ItemsOr(Field(data, "_children"))
      ensures title == TruthyText(Field(data, "_title")) && subtitle == TruthyText(Field(data, "_subtitle"))
      ensures actions == ItemsOr(Field(data, "_actions"))
      ensures Valid() && !initializing && rebuilds == 0
    {
      var t := TruthyText(Field(data, "_title"));
      var s := TruthyText(Field(data, "_subtitle"));
      var a := ItemsOr(Field(data, "_actions"));
      var b := ItemsOr(Field(data, "_children"));
      title := t;
      subtitle := s;
      actions := a;
      body := b;
      initializing := true;
      built := ShapeOf(t, s, a, b);
      rebuilds := 0;
      new;
      initializing := false;
      assert built == ShapeOf(title, subtitle, actions, body);
    }

    /** The `_title` setter as written: while initialising it only stores
        the text. Otherwise it rebuilds when the header's presence flips;
        else it writes the trimmed text into the title label when that
        exists (even when the text is blank), and rebuilds when it does not
        but the text is not blank. */
    method SetTitle(v: Value)
      requires initializing || Consistent()
      modifies this
      ensures title == TruthyText(v) && subtitle == old(subtitle) && actions == old(actions) && body == old(body)
      ensures initializing == old(initializing)
      ensures initializing ==> built == old(built) && rebuilds == old(rebuilds)
      ensures !initializing ==> Consistent()
      ensures !initializing ==>
        var rebuilt := HasHeader(old(title), subtitle, actions) != HasHeader(title, subtitle, actions)
                       || (old(built).title.None? && !IsBlank(title));
        && rebuilds == old(rebuilds) + (if rebuilt then 1 else 0)
        && built == (if rebuilt then ShapeOf(title, subtitle, actions, body) else Retext(old(built), TitleId, Trim(title)))
    {
      var prevHeader := HasHeader(title, subtitle, actions);
      title := TruthyText(v);
      if initializing {
        return;
      }
      if prevHeader != HasHeader(title, subtitle, actions) {
        Rebuild();
        return;
      }
      if built.title.Some? {
        built := built.(title := Some(Trim(title)));
      } else if !IsBlank(title) {
        Rebuild();
      }
    }

    /** The `_title` setter as intended: a title label that would be left
        blank is removed by a rebuild instead. */
    method SetTitleFixed(v: Value)
      requires initializing || Valid()
      modifies this
      ensures title == TruthyText(v) && subtitle == old(subtitle) && actions == old(actions) && body == old(body)
      ensures initializing == old(initializing)
      ensures initializing ==> built == old(built) && rebuilds == old(rebuilds)
      ensures !initializing ==> Valid()
      ensures !initializing ==>
        var rebuilt := HasHeader(old(title), subtitle, actions) != HasHeader(title, subtitle, actions)
                       || old(built).title.Some? == IsBlank(title);
        && rebuilds == old(rebuilds) + (if rebuilt then 1 else 0)
        && (!rebuilt ==> built == Retext(old(built), TitleId, Trim(title)))
    {
      var prevHeader := HasHeader(title, subtitle, actions);
      title := TruthyText(v);
      if initializing {
        return;
      }
      if prevHeader != HasHeader(title, subtitle, actions) {
        Rebuild();
        return;
      }
      if built.title.Some? && !IsBlank(title) {
        built := built.(title := Some(Trim(title)));
      } else if built.title.Some? || !IsBlank(title) {
        Rebuild();
      }
    }

    /** The `_subtitle` setter as written: the same steps as `_title`'s,
        on the subtitle label. */
    method SetSubtitle(v: Value)
      requires initializing || Consistent()
      modifies this
      ensures subtitle == TruthyText(v) && title == old(title) && actions == old(actions) && body == old(body)
      ensures initializing == old(initializing)
      ensures initializing ==> built == old(built) && rebuilds == old(rebuilds)
      ensures !initializing ==> Consistent()
      ensures !initializing ==>
        var rebuilt := HasHeader(title, old(subtitle), actions) != HasHeader(title, subtitle, actions)
                       || (old(built).subtitle.None? && !IsBlank(subtitle));
        && rebuilds == old(rebuilds) + (if rebuilt then 1 else 0)
        && built == (if rebuilt then ShapeOf(title, subtitle, actions, body) else Retext(old(built), SubtitleId, Trim(subtitle)))
    {
      var prevHeader := HasHeader(title, subtitle, actions);
      subtitle := TruthyText(v);
      if initializing {
        return;
      }
      if prevHeader != HasHeader(title, subtitle, actions) {
        Rebuild();
        return;
      }
      if built.subtitle.Some? {
        built := built.(subtitle := Some(Trim(subtitle)));
      } else if !IsBlank(subtitle) {
        Rebuild();
      }
    }

    /** The `_subtitle` setter as intended: a subtitle label that would be
        left blank is removed by a rebuild instead. */
    method SetSubtitleFixed(v: Value)
      requires initializing || Valid()
      modifies this
      ensures subtitle == TruthyText(v) && title == old(title) && actions == old(actions) && body == old(body)
      ensures initializing == old(initializing)
      ensures initializing ==> built == old(built) && rebuilds == old(rebuilds)
      ensures !initializing ==> Valid()
      ensures !initializing ==>
        var rebuilt := HasHeader(title, old(subtitle), actions) != HasHeader(title, subtitle, actions)
                       || old(built).subtitle.Some? == IsBlank(subtitle);
        && rebuilds == old(rebuilds) + (if rebuilt then 1 else 0)
        && (!rebuilt ==> built == Retext(old(built), SubtitleId, Trim(subtitle)))
    {
      var prevHeader := HasHeader(title, subtitle, actions);
      subtitle := TruthyText(v);
      if initializing {
        return;
      }
      if prevHeader != HasHeader(title, subtitle, actions) {
        Rebuild();
        return;
      }
      if built.subtitle.Some? && !IsBlank(subtitle) {
        built := built.(subtitle := Some(Trim(subtitle)));
      } else if built.subtitle.Some? || !IsBlank(subtitle) {
        Rebuild();
      }
    }

    /** The actions block's children are removed one by one, then the
        stored actions appended one by one. */
    method ReplaceActions()
      requires built.actionsView
      modifies this
      ensures built == old(built).(actions := actions)
      ensures title == old(title) && subtitle == old(subtitle) && actions == old(actions) && body == old(body)
      ensures initializing == old(initializing) && rebuilds == old(rebuilds)
    {
      var existing := built.actions;
      var i := 0;
      while i < |existing|
        invariant 0 <= i <= |existing|
        invariant built == old(built).(actions := existing[i..])
        invariant title == old(title) && subtitle == old(subtitle) && actions == old(actions) && body == old(body)
        invariant initializing == old(initializing) && rebuilds == old(rebuilds)
      {
        built := built.(actions := built.actions[1..]);
        i := i + 1;
      }
      var j := 0;
      while j < |actions|
        invariant 0 <= j <= |actions|
        invariant built == old(built).(actions := actions[..j])
        invariant title == old(title) && subtitle == old(subtitle) && actions == old(actions) && body == old(body)
        invariant initializing == old(initializing) && rebuilds == old(rebuilds)
      {
        built := built.(actions := built.actions + [actions[j]]);
        j := j + 1;
      }
    }

    /** The `_actions` setter as written: a non-array gives no actions;
        while initialising it only stores them. Otherwise it rebuilds when
        the header's presence flips; else, when the actions block exists,
        the block ends up holding exactly the new actions, in order (and
        stays, empty, when there are none); when it does not, it rebuilds if
        there are actions. */
    method SetActions(v: Value)
      requires initializing || Consistent()
      modifies this
      ensures actions == ItemsOr(v) && title == old(title) && subtitle == old(subtitle) && body == old(body)
      ensures initializing == old(initializing)
      ensures initializing ==> built == old(built) && rebuilds == old(rebuilds)
      ensures !initializing ==> Consistent()
      ensures !initializing ==>
        var flip := HasHeader(title, subtitle, old(actions)) != HasHeader(title, subtitle, actions);
        var rebuilt := flip || (!old(built).actionsView && |actions| > 0);
        && rebuilds == old(rebuilds) + (if rebuilt then 1 else 0)
        && (rebuilt ==> Valid())
        && (!flip && old(built).actionsView ==> built == old(built).(actions := actions))
        && (!rebuilt ==> built.actionsView == old(built).actionsView)
        && (!rebuilt && !old(built).actionsView ==> built == old(built))
    {
      if initializing {
        actions := ItemsOr(v);
        return;
      }
      var hadHeader := HasHeader(title, subtitle, actions);
      actions := ItemsOr(v);
      if hadHeader != HasHeader(title, subtitle, actions) {
        Rebuild();
        return;
      }
      if !built.actionsView {
        if |actions| > 0 {
          Rebuild();
        }
        return;
      }
      ReplaceActions();
    }

    /** The `_actions` setter as intended: an actions block that would be
        left empty is removed by a rebuild instead. */
    method SetActionsFixed(v: Value)
      requires initializing || Valid()
      modifies this
      ensures actions == ItemsOr(v) && title == old(title) && subtitle == old(subtitle) && body == old(body)
      ensures initializing == old(initializing)
      ensures initializing ==> built == old(built) && rebuilds == old(rebuilds)
      ensures !initializing ==> Valid()
      ensures !initializing ==>
        var rebuilt := HasHeader(title, subtitle, old(actions)) != HasHeader(title, subtitle, actions)
                       || (|old(actions)| > 0) != (|actions| > 0);
        && rebuilds == old(rebuilds) + (if rebuilt then 1 else 0)
        && (!rebuilt ==> built == old(built).(actions := actions))
    {
      if initializing {
        actions := ItemsOr(v);
        return;
      }
      var hadHeader := HasHeader(title, subtitle, actions);
      actions := ItemsOr(v);
      if hadHeader != HasHeader(title, subtitle, actions) {
        Rebuild();
        return;
      }
      if built.actionsView != (|actions| > 0) {
        Rebuild();
        return;
      }
      if built.actionsView {
        ReplaceActions();
      }
    }
  }

  /** Blanking the title of a section titled "T" and subtitled "S": the
      header stays, the title label exists, so `_title` writes "" into it;
      the tree keeps an empty title label where the skeleton of the new
      settings has none. */
  lemma StaleTitle()
    ensures var before := ShapeOf("T", "S", [], []);
      var after := Retext(before, TitleId, Trim(""));
      && HasHeader("T", "S", []) == HasHeader("", "S", [])
      && before.title.Some? && after.title == Some("")
      && NodeHasId(Render(after), TitleId)
      && !NodeHasId(Render(ShapeOf("", "S", [], [])), TitleId)
  {
    TitleText();
    RenderIds(Retext(ShapeOf("T", "S", [], []), TitleId, ""), TitleId);
    RenderIds(ShapeOf("", "S", [], []), TitleId);
  }

  /** The same for blanking the subtitle of that section. */
  lemma StaleSubtitle()
    ensures var before := ShapeOf("T", "S", [], []);
      var after := Retext(before, SubtitleId, Trim(""));
      && HasHeader("T", "S", []) == HasHeader("T", "", [])
      && before.subtitle.Some? && after.subtitle == Some("")
      && NodeHasId(Render(after), SubtitleId)
      && !NodeHasId(Render(ShapeOf("T", "", [], [])), SubtitleId)
  {
    TitleText();
    RenderIds(Retext(ShapeOf("T", "S", [], []), SubtitleId, ""), SubtitleId);
    RenderIds(ShapeOf("T", "", [], []), SubtitleId);
  }

  /** Emptying the actions of a section titled "T" with one action: the
      header stays, the actions block exists, so its children are replaced
      by none; the tree keeps an empty actions block where the skeleton of
      the new settings has none. */
  lemma StaleActions(a: Value)
    ensures var before := ShapeOf("T", "", [a], []);
      var after := before.(actions := []);
      && HasHeader("T", "", [a]) == HasHeader("T", "", [])
      && before.actionsView
      && NodeHasId(Render(after), ActionsId)
      && !NodeHasId(Render(ShapeOf("T", "", [], [])), ActionsId)
  {
    TitleText();
    RenderIds(ShapeOf("T", "", [a], []).(actions := []), ActionsId);
    RenderIds(ShapeOf("T", "", [], []), ActionsId);
  }

  /** The texts used above: "T" and "S" are not blank, "" is. */
  lemma TitleText()
    ensures Trim("T") == "T" && Trim("S") == "S" && Trim("") == ""
    ensures !IsBlank("T") && !IsBlank("S") && IsBlank("")
  {
    TrimOfTrimmed("T");
    TrimOfTrimmed("S");
    TrimOfTrimmed("");
  }

  /** The captured children go to the body and the caller's object is left
      with none. */
  lemma ChildrenCaptured(data: Value, newRef: nat)
    requires Field(data, "_children").Arr?
    ensures ItemsOr(Field(TakeChildren(data, newRef), "_children")) == []
    ensures ShapeOf("", "", [], ItemsOr(Field(data, "_children"))).body == Field(data, "_children").items
  {
  }
}

=== FILE: select.dfy ===
/** XSelect: a native select control with an optional placeholder option.
    The widget keeps the current value as text, rebuilds the option list
    from `_options`, and reports changes through `_on_change`. */
module Select {
  import opened Text
  import opened Values
  import opened Classes
  import opened Labels

  datatype Size = Sm | Md

  const SizeMods: set<string> := {"xselect--sm", "xselect--md"}

  /** Only "sm" is small. */
  function NormalizeSize(v: Value): (r: Size)
    ensures r == Sm <==> v == Str("sm")
  {
    if v == Str("sm") then Sm else Md
  }

  function SizeToken(s: Size): string {
    if s == Sm then "xselect--sm" else "xselect--md"
  }

  /** `addClass("xselect")`, the size swap, then the disabled modifier. */
  function SelectClasses(cs: set<string>, size: Size, disabled: bool): set<string> {
    Toggle(ReplaceClass(cs + {"xselect"}, SizeMods, {SizeToken(size)}), "xselect--disabled", disabled)
  }

  /** Exactly one size modifier, the current one; the disabled modifier
      exactly when disabled; the caller's other classes stay. */
  lemma SelectClassesShape(cs: set<string>, size: Size, disabled: bool)
    ensures var r := SelectClasses(cs, size, disabled);
      && "xselect" in r
      && r * SizeMods == {SizeToken(size)}
      && ("xselect--disabled" in r <==> disabled)
      && (forall x | x !in SizeMods && x != "xselect" && x != "xselect--disabled" :: x in r <==> x in cs)
  {
    ReplaceFamily(cs + {"xselect"}, SizeMods, {SizeToken(size)});
  }

  /** An `<option>` node: its text, its value, and its flags. */
  datatype OptionNode = OptionNode(text: Value, value: Value, disabled: bool, hidden: bool, selected: bool)

  /** The placeholder option: value "", disabled and hidden, selected
      exactly when there is no current value. */
  function PlaceholderOption(placeholder: string, value: string): OptionNode {
    OptionNode(Str(placeholder), Str(""), true, true, value == "")
  }

  /** `buildOption`: the label as text, the value, the disabled flag when
      truthy, and selected when its value is the current one. */
  function OptionOf(opt: Value, value: string): (r: OptionNode)
    ensures r.selected <==> Field(opt, "value") == Str(value)
    ensures r.disabled <==> Truthy(Field(opt, "disabled"))
    ensures !r.hidden && r.text == Field(opt, "label") && r.value == Field(opt, "value")
  {
    OptionNode(Field(opt, "label"), Field(opt, "value"), Truthy(Field(opt, "disabled")), false, Field(opt, "value") == Str(value))
  }

  /** The options `setOptions` appends: the placeholder first when the
      stored placeholder is truthy, then one per option in order. */
  function Options(placeholder: Option<string>, opts: seq<Value>, value: string): seq<OptionNode> {
    (if Filled(placeholder) then [PlaceholderOption(placeholder.value, value)] else [])
    + seq(|opts|, i requires 0 <= i < |opts| => OptionOf(opts[i], value))
  }

  /** The placeholder option comes first exactly when there is a
      placeholder with non-empty text, and the others follow one per
      option, in order, each selected exactly when its value is the current
      one. */
  lemma OptionsShape(placeholder: Option<string>, opts: seq<Value>, value: string)
    ensures var r := Options(placeholder, opts, value);
      var at := if placeholder.Some? && placeholder.value != "" then 1 else 0;
      && |r| == at + |opts|
      && (placeholder.Some? && placeholder.value != "" ==> r[0].text == Str(placeholder.value) && r[0].value == Str("") && r[0].disabled && r[0].hidden && (r[0].selected <==> value == ""))
      && (forall i | 0 <= i < |opts| :: r[at + i] == OptionOf(opts[i], value))
  {
  }

  /** A truthy placeholder whose text is "", such as an empty array, is
      stored as "" and then adds no placeholder option. */
  lemma EmptyTextPlaceholder(ref: nat, opts: seq<Value>, value: string)
    ensures OptText(Arr(ref, [])) == Some("")
    ensures Options(OptText(Arr(ref, [])), opts, value) == Options(None, opts, value)
  {
    assert Truthy(Arr(ref, [])) && ToStr(Arr(ref, [])) == ArrayText([]) == "";
  }

  /** The `<select>` element: its name and id when set, its disabled flag,
      its value, and its options. */
  datatype Control = Control(name: Option<string>, id: Option<string>, disabled: bool, value: string, options: seq<OptionNode>)

  /** A call of `_on_change` with the value. */
  datatype Event = Change(value: string)

  class XSelect {
    var classes: set<string>
    var value: string
    var placeholder: Option<string>
    var options: seq<Value>
    var size: Size
    var disabled: bool
    var hasOnChange: bool
    var control: Control
    /** The `_on_change` calls made so far. */
    var events: seq<Event>

    /** `setValue(v, silent)`: stores `String(v ?? "")`, shows it in the
        control, and fires `_on_change` unless silent. */
    method SetValue(v: Value, silent: bool)
      modifies this
      ensures value == TextOrEmpty(v) && control == old(control).(value := value)
      ensures events == old(events) + (if !silent && hasOnChange then [Change(value)] else [])
      ensures classes == old(classes) && placeholder == old(placeholder) && options == old(options)
      ensures size == old(size) && disabled == old(disabled) && hasOnChange == old(hasOnChange)
    {
      value := TextOrEmpty(v);
      control := control.(value := value);
      if !silent && hasOnChange {
        events := events + [Change(value)];
      }
    }

    /** The option nodes for the current placeholder, options and value. */
    method BuildOptions() returns (r: seq<OptionNode>)
      ensures r == Options(placeholder, options, value)
    {
      var opts := options;
      var current := value;
      var head: seq<OptionNode> := [];
      if placeholder.Some? && |placeholder.value| > 0 {
        head := [OptionNode(Str(placeholder.value), Str(""), true, true, !(|current| > 0))];
      }
      var rest: seq<OptionNode> := [];
      var i := 0;
      while i < |opts|
        invariant 0 <= i <= |opts|
        invariant |rest| == i && forall k | 0 <= k < i :: rest[k] == OptionOf(opts[k], current)
      {
        var opt := opts[i];
        var selected := Field(opt, "value") == Str(current);
        rest := rest + [OptionNode(Field(opt, "label"), Field(opt, "value"), Truthy(Field(opt, "disabled")), false, selected)];
        i := i + 1;
      }
      r := head + rest;
    }

    /** The control's options are cleared and rebuilt. */
    method RenderOptions()
      modifies this
      ensures control == old(control).(options := Options(placeholder, options, value))
      ensures classes == old(classes) && value == old(value) && placeholder == old(placeholder) && options == old(options)
      ensures size == old(size) && disabled == old(disabled) && hasOnChange == old(hasOnChange) && events == old(events)
    {
      var opts := BuildOptions();
      control := control.(options := opts);
    }

    /** `setOptions(options, silent)`: a non-array gives no options; the
        control's options are rebuilt; unless silent, the value is shown
        again (silently). */
    method SetOptions(v: Value, silent: bool)
      modifies this
      ensures options == ItemsOr(v)
      ensures control == old(control).(options := Options(placeholder, options, value),
                                       value := if silent then old(control.value) else value)
      ensures classes == old(classes) && value == old(value) && placeholder == old(placeholder)
      ensures size == old(size) && disabled == old(disabled) && hasOnChange == old(hasOnChange) && events == old(events)
    {
      options := ItemsOr(v);
      RenderOptions();
      if !silent {
        SetValue(Str(value), true);
      }
    }

    /** The control's change handler, given the first of the event target's
        value, the control's value and its `_value` that is neither null nor
        undefined: the value is stored first, then `_on_change` fires with
        it. */
    method HandleChange(v: Value)
      modifies this
      ensures value == TextOrEmpty(v) && control == old(control)
      ensures events == old(events) + (if hasOnChange then [Change(value)] else [])
      ensures classes == old(classes) && placeholder == old(placeholder) && options == old(options)
      ensures size == old(size) && disabled == old(disabled) && hasOnChange == old(hasOnChange)
    {
      value := TextOrEmpty(v);
      if hasOnChange {
        events := events + [Change(value)];
      }
    }

    /** Construction: `buildSkeleton`, then `applyProps`. The name and id
        are written to the control only when their stored text is truthy. */
    constructor(data: Value)
      ensures value == StrOr(Field(data, "_value"), "") && placeholder == OptText(Field(data, "_placeholder"))
      ensures options == ItemsOr(Field(data, "_options")) && size == NormalizeSize(Field(data, "_size"))
      ensures disabled == BoolOr(Field(data, "_disabled"), false)
      ensures hasOnChange == Truthy(Field(data, "_on_change"))
      ensures classes == SelectClasses(ClassList(if Truthy(Field(data, "class")) then ToStr(Field(data, "class")) else "xselect"),
                                       size, disabled)
      ensures control == Control(IfFilled(OptText(Field(data, "_name"))), IfFilled(OptText(Field(data, "_select_id"))), disabled, value,
                                 Options(placeholder, options, value))
      ensures events == []
    {
      var sz := NormalizeSize(Field(data, "_size"));
      var off := BoolOr(Field(data, "_disabled"), false);
      classes := SelectClasses(ClassList(if Truthy(Field(data, "class")) then ToStr(Field(data, "class")) else "xselect"), sz, off);
      value := StrOr(Field(data, "_value"), "");
      placeholder := OptText(Field(data, "_placeholder"));
      options := ItemsOr(Field(data, "_options"));
      size := sz;
      disabled := off;
      hasOnChange := Truthy(Field(data, "_on_change"));
      control := Control(IfFilled(OptText(Field(data, "_name"))), IfFilled(OptText(Field(data, "_select_id"))), off, "", []);
      events := [];
      new;
      RenderOptions();
      SetValue(Str(value), true);
    }
  }

  /** A value written by `setValue` or the change handler reads back
      unchanged: storing a text value keeps it. */
  lemma SetValueRoundTrip(s: string)
    ensures TextOrEmpty(Str(s)) == s
  {
  }
}

=== FILE: sidebar.dfy ===
/** XSidebar: a side panel with an optional header (logo, title, subtitle
    and actions), a body showing the navigation or the children given at
    construction, and an optional footer, with dividers between them. The
    class string is composed from scratch on every layout pass; the panel
    collapses and reports through `_on_toggle`. */
module Sidebar {
  import opened Text
  import opened Values
  import opened Classes
  import opened Styles
  import opened Names
  import opened Nodes
  import opened Labels

  /** The node ids, each standing for the widget's own id followed by this
      suffix. */
  const PanelId: string := "_panel"
  const TitleId: string := "_title"
  const SubtitleId: string := "_subtitle"

  lemma IdsDistinct()
    ensures PanelId != TitleId && |PanelId| == 6 && |TitleId| == 6 && |SubtitleId| == 9
  {
    assert PanelId[1] == 'p' && TitleId[1] == 't';
  }

  datatype Side = Left | Right

  /** "right" is kept; anything else is left. */
  function NormalizeSide(v: Value): (r: Side)
    ensures r == Right <==> v == Str("right")
  {
    if v == Str("right") then Right else Left
  }

  function SideToken(s: Side): string {
    if s == Left then "xsidebar--left" else "xsidebar--right"
  }

  const DefaultWidth: string := "280px"

  /** The stored settings. Title and subtitle are `undefined` (`None`)
      unless a truthy value was given; logo, navigation and footer are kept
      as given; actions are `undefined` unless an array was given. */
  datatype SidebarState = SidebarState(side: Side, width: string, title: Option<string>, subtitle: Option<string>,
                                       logo: Value, actions: Option<seq<Value>>, nav: Value, scroll: bool,
                                       dividers: bool, footer: Value, collapsed: bool)

  /** `_width`: `v ? String(v) : "280px"`. */
  function WidthOf(v: Value): (r: string)
    ensures !Truthy(v) ==> r == DefaultWidth
    ensures v.Str? && v.s != "" ==> r == v.s
  {
    if Truthy(v) then ToStr(v) else DefaultWidth
  }

  /** `Array.isArray(v) ? v : undefined`. */
  function ListOf(v: Value): (r: Option<seq<Value>>)
    ensures r.Some? <==> v.Arr?
    ensures r.Some? ==> r.value == v.items
  {
    if v.Arr? then Some(v.items) else None
  }

  /** `applyProps`, with its defaults: left, 280px wide, scrolling, with
      dividers, expanded. */
  function StateOf(data: Value): (r: SidebarState)
    ensures r.side == NormalizeSide(Field(data, "_side")) && r.width == WidthOf(Field(data, "_width"))
    ensures r.title == OptText(Field(data, "_title")) && r.subtitle == OptText(Field(data, "_subtitle"))
    ensures r.logo == Field(data, "_logo") && r.actions == ListOf(Field(data, "_actions")) && r.nav == Field(data, "_nav")
    ensures r.scroll == BoolOr(Field(data, "_scroll"), true) && r.dividers == BoolOr(Field(data, "_dividers"), true)
    ensures r.footer == Field(data, "_footer") && r.collapsed == BoolOr(Field(data, "_collapsed"), false)
  {
    SidebarState(NormalizeSide(Field(data, "_side")), WidthOf(Field(data, "_width")), OptText(Field(data, "_title")),
                 OptText(Field(data, "_subtitle")), Field(data, "_logo"), ListOf(Field(data, "_actions")),
                 Field(data, "_nav"), BoolOr(Field(data, "_scroll"), true), BoolOr(Field(data, "_dividers"), true),
                 Field(data, "_footer"), BoolOr(Field(data, "_collapsed"), false))
  }

  /** An empty configuration gives every default. */
  lemma DefaultState(r: nat)
    ensures StateOf(Obj(r, map[])) == SidebarState(Left, DefaultWidth, None, None, Undef, None, Undef, true, true, Undef, false)
  {
  }

  /** A title or subtitle the header shows: set and not blank. */
  predicate Shows(t: Option<string>) {
    t.Some? && !IsBlank(t.value)
  }

  /** `hasHeader()`: a title or subtitle that is not blank, a logo, or some
      action. */
  predicate HasHeader(st: SidebarState) {
    Shows(st.title) || Shows(st.subtitle) || Truthy(st.logo) || (st.actions.Some? && |st.actions.value| > 0)
  }

  /** `updateTitles`' text: the stored text, "" when there is none. */
  function TextOf(t: Option<string>): string {
    if t.Some? then t.value else ""
  }

  /** What the panel shows: the title and subtitle labels' texts when the
      labels exist, the logo, the actions, the body content, the scroll
      and divider flags, and the footer. */
  datatype Shape = Shape(title: Option<string>, subtitle: Option<string>, logo: Option<Value>, actions: seq<Value>,
                         body: seq<Value>, scroll: bool, dividers: bool, footer: Option<Value>)

  /** The header exists when there is a label, a logo or an action. */
  predicate HeaderIn(sh: Shape) {
    sh.title.Some? || sh.subtitle.Some? || sh.logo.Some? || sh.actions != []
  }

  /** `extractBodyChildren`: the navigation when set, else the children
      captured at construction. */
  function Content(st: SidebarState, captured: seq<Value>): seq<Value> {
    if Truthy(st.nav) then [st.nav] else captured
  }

  /** What `buildSkeleton` builds: a label for each text that is not
      blank, holding it as stored; the logo and footer when truthy; the
      actions; the content. */
  function Skeleton(st: SidebarState, captured: seq<Value>): Shape {
    Shape(if Shows(st.title) then Some(st.title.value) else None,
          if Shows(st.subtitle) then Some(st.subtitle.value) else None,
          if Truthy(st.logo) then Some(st.logo) else None,
          if st.actions.Some? then st.actions.value else [],
          Content(st, captured), st.scroll, st.dividers,
          if Truthy(st.footer) then Some(st.footer) else None)
  }

  /** A label exists exactly for a text that is not blank and holds that
      text as stored; the header exists exactly when `hasHeader()` holds;
      the body shows the content; the footer exists exactly when it is
      truthy. */
  lemma SkeletonShape(st: SidebarState, captured: seq<Value>)
    ensures var r := Skeleton(st, captured);
      && (r.title.Some? <==> Shows(st.title))
      && (r.title.Some? ==> r.title.value == st.title.value)
      && (r.subtitle.Some? <==> Shows(st.subtitle))
      && (r.subtitle.Some? ==> r.subtitle.value == st.subtitle.value)
      && (HeaderIn(r) <==> HasHeader(st))
      && r.body == Content(st, captured) && r.scroll == st.scroll && r.dividers == st.dividers
      && (r.footer.Some? <==> Truthy(st.footer))
  {
  }

  function TitleNode(t: string): Node {
    Make("label", TitleId, "xsidebar__title", t, [])
  }

  function SubtitleNode(t: string): Node {
    Make("label", SubtitleId, "xsidebar__subtitle", t, [])
  }

  const Divider: Node := El("divider", "", "", "", map["_muted" := "true"], [])

  /** The title, then the subtitle. */
  function LabelNodes(sh: Shape): seq<Node> {
    (if sh.title.Some? then [TitleNode(sh.title.value)] else [])
    + (if sh.subtitle.Some? then [SubtitleNode(sh.subtitle.value)] else [])
  }

  /** The titles stack, when there is a label. */
  function Titles(sh: Shape): seq<Node> {
    if sh.title.None? && sh.subtitle.None? then []
    else [El("stack", "", "xsidebar__titles", "", map["_direction" := "vertical", "_gap" := "2"], LabelNodes(sh))]
  }

  /** The left part of the header row: the logo, then the titles. */
  function HeadLeft(sh: Shape): Node {
    El("stack", "", "xsidebar__head-left", "", map["_direction" := "horizontal", "_gap" := "8", "_align" := "center"],
       (if sh.logo.Some? then [User(sh.logo.value)] else []) + Titles(sh))
  }

  /** The actions stack, when there are actions. */
  function ActionsStack(sh: Shape): seq<Node> {
    if sh.actions == [] then []
    else [El("stack", "", "xsidebar__actions", "", map["_direction" := "horizontal", "_gap" := "6", "_align" := "center"], Users(sh.actions))]
  }

  /** `buildHeader`'s view: the header row with the left part and the
      actions. */
  function HeaderNode(sh: Shape): Node {
    Make("view", "", "xsidebar__header", "",
         [El("stack", "", "xsidebar__header-row", "", map["_direction" := "horizontal", "_gap" := "8", "_align" := "center", "_justify" := "space-between"],
             [HeadLeft(sh)] + ActionsStack(sh))])
  }

  /** The header and the divider under it. */
  function HeaderPart(sh: Shape): seq<Node> {
    if !HeaderIn(sh) then [] else [HeaderNode(sh)] + (if sh.dividers then [Divider] else [])
  }

  /** `buildBody`: the content, inside a scroll area when scrolling. */
  function BodyNode(sh: Shape): Node {
    Make("view", "", "xsidebar__body", "",
         if sh.scroll then [Make("scroll", "", "xsidebar__scroll", "", Users(sh.body))] else Users(sh.body))
  }

  /** The divider above the footer, and the footer. */
  function FooterPart(sh: Shape): seq<Node> {
    if sh.footer.None? then []
    else (if sh.dividers then [Divider] else []) + [Make("view", "", "xsidebar__footer", "", [User(sh.footer.value)])]
  }

  /** The panel `buildSkeleton` appends. */
  function Render(sh: Shape): Node {
    Make("view", PanelId, "xsidebar__panel", "", HeaderPart(sh) + [BodyNode(sh)] + FooterPart(sh))
  }

  /** The panel holds the header, a divider when there is a header and
      dividers are on, the body, a divider when there is a footer and
      dividers are on, and the footer; the header exists exactly when
      `hasHeader()` holds; the body shows the navigation over the captured
      children, in a scroll area exactly when scrolling. */
  lemma PanelLayout(st: SidebarState, captured: seq<Value>)
    ensures var sh := Skeleton(st, captured);
      && Render(sh).children == HeaderPart(sh) + [BodyNode(sh)] + FooterPart(sh)
      && (HeaderPart(sh) != [] <==> HasHeader(st))
      && (HasHeader(st) ==> HeaderPart(sh) == [HeaderNode(sh)] + (if st.dividers then [Divider] else []))
      && (FooterPart(sh) != [] <==> Truthy(st.footer))
      && (Truthy(st.footer) ==>
            FooterPart(sh) == (if st.dividers then [Divider] else []) + [Make("view", "", "xsidebar__footer", "", [User(st.footer)])])
      && (Truthy(st.nav) ==> sh.body == [st.nav])
      && (!Truthy(st.nav) ==> sh.body == captured)
      && (st.scroll ==> BodyNode(sh).children == [Make("scroll", "", "xsidebar__scroll", "", Users(sh.body))])
      && (!st.scroll ==> BodyNode(sh).children == Users(sh.body))
  {
  }

  /** The header row holds the left part, then the actions exactly when
      there are some; the left part holds the logo when set, then the
      titles stack with the title before the subtitle. */
  lemma HeaderLayout(sh: Shape)
    ensures HeaderNode(sh).children[0].children == [HeadLeft(sh)] + ActionsStack(sh)
    ensures ActionsStack(sh) != [] <==> sh.actions != []
    ensures HeadLeft(sh).children == (if sh.logo.Some? then [User(sh.logo.value)] else []) + Titles(sh)
    ensures Titles(sh) != [] ==> Titles(sh)[0].children == LabelNodes(sh)
    ensures Titles(sh) != [] <==> sh.title.Some? || sh.subtitle.Some?
    ensures HeaderNode(sh).children[0].attrs == map["_direction" := "horizontal", "_gap" := "8", "_align" := "center", "_justify" := "space-between"]
    ensures HeadLeft(sh).attrs == map["_direction" := "horizontal", "_gap" := "8", "_align" := "center"]
    ensures Titles(sh) != [] ==> Titles(sh)[0].attrs == map["_direction" := "vertical", "_gap" := "2"]
    ensures ActionsStack(sh) != [] ==> ActionsStack(sh)[0].attrs == map["_direction" := "horizontal", "_gap" := "6", "_align" := "center"]
  {
  }

  lemma LabelNodesIds(sh: Shape, id: string)
    requires id == TitleId || id == SubtitleId
    ensures HasId(LabelNodes(sh), id) <==> (id == TitleId && sh.title.Some?) || (id == SubtitleId && sh.subtitle.Some?)
  {
    IdsDistinct();
    var a := if sh.title.Some? then [TitleNode(sh.title.value)] else [];
    var b := if sh.subtitle.Some? then [SubtitleNode(sh.subtitle.value)] else [];
    HasIdAppend(a, b, id);
    if sh.title.Some? {
      HasIdOne(TitleNode(sh.title.value), id);
    }
    if sh.subtitle.Some? {
      HasIdOne(SubtitleNode(sh.subtitle.value), id);
    }
  }

  lemma HeaderIds(sh: Shape, id: string)
    requires id == TitleId || id == SubtitleId
    ensures NodeHasId(HeaderNode(sh), id) <==> (id == TitleId && sh.title.Some?) || (id == SubtitleId && sh.subtitle.Some?)
  {
    IdsDistinct();
    var row := HeaderNode(sh).children[0];
    HasIdOne(row, id);
    HasIdAppend([HeadLeft(sh)], ActionsStack(sh), id);
    HasIdOne(HeadLeft(sh), id);
    if sh.actions != [] {
      HasIdOne(ActionsStack(sh)[0], id);
      UsersNoId(sh.actions, id);
    }
    var logo := if sh.logo.Some? then [User(sh.logo.value)] else [];
    HasIdAppend(logo, Titles(sh), id);
    if sh.logo.Some? {
      HasIdOne(User(sh.logo.value), id);
    }
    if Titles(sh) != [] {
      HasIdOne(Titles(sh)[0], id);
    }
    LabelNodesIds(sh, id);
  }

  /** The body and the footer hold no label. */
  lemma RestIds(sh: Shape, id: string)
    requires id == TitleId || id == SubtitleId
    ensures !NodeHasId(BodyNode(sh), id) && !HasId(FooterPart(sh), id) && !NodeHasId(Divider, id)
  {
    IdsDistinct();
    UsersNoId(sh.body, id);
    if sh.scroll {
      HasIdOne(Make("scroll", "", "xsidebar__scroll", "", Users(sh.body)), id);
    }
    if sh.footer.Some? {
      var f := Make("view", "", "xsidebar__footer", "", [User(sh.footer.value)]);
      HasIdOne(User(sh.footer.value), id);
      HasIdAppend(if sh.dividers then [Divider] else [], [f], id);
      HasIdOne(f, id);
      if sh.dividers {
        HasIdOne(Divider, id);
      }
    }
  }

  /** The title label exists exactly when the shape has a title, and the
      subtitle label exactly when it has a subtitle. */
  lemma RenderIds(sh: Shape, id: string)
    requires id == TitleId || id == SubtitleId
    ensures NodeHasId(Render(sh), id) <==> (id == TitleId && sh.title.Some?) || (id == SubtitleId && sh.subtitle.Some?)
  {
    IdsDistinct();
    HasIdAppend(HeaderPart(sh) + [BodyNode(sh)], FooterPart(sh), id);
    HasIdAppend(HeaderPart(sh), [BodyNode(sh)], id);
    HasIdOne(BodyNode(sh), id);
    RestIds(sh, id);
    if HeaderIn(sh) {
      HasIdAppend([HeaderNode(sh)], if sh.dividers then [Divider] else [], id);
      HasIdOne(HeaderNode(sh), id);
      if sh.dividers {
        HasIdOne(Divider, id);
      }
      HeaderIds(sh, id);
    } else {
      assert !(sh.title.Some? || sh.subtitle.Some?);
    }
  }

  /** The two labels whose text the widget rewrites in place. */
  datatype Which = TitleLabel | SubtitleLabel

  function LabelId(w: Which): (r: string)
    ensures r == TitleId || r == SubtitleId
  {
    if w == TitleLabel then TitleId else SubtitleId
  }

  /** The shape after the host rewrites the text of the label with that
      id, when it exists. */
  function Retext(sh: Shape, w: Which, t: string): Shape {
    if w == TitleLabel then (if sh.title.Some? then sh.(title := Some(t)) else sh)
    else if sh.subtitle.Some? then sh.(subtitle := Some(t)) else sh
  }

  lemma RetextLabelNodes(sh: Shape, w: Which, t: string)
    ensures SetText(LabelNodes(sh), LabelId(w), t) == LabelNodes(Retext(sh, w, t))
  {
    var id := LabelId(w);
    IdsDistinct();
    var a := if sh.title.Some? then [TitleNode(sh.title.value)] else [];
    var b := if sh.subtitle.Some? then [SubtitleNode(sh.subtitle.value)] else [];
    SetTextAppend(a, b, id, t);
    if sh.title.Some? {
      SetTextOne(TitleNode(sh.title.value), id, t);
    }
    if sh.subtitle.Some? {
      SetTextOne(SubtitleNode(sh.subtitle.value), id, t);
    }
  }

  lemma RetextHeadLeft(sh: Shape, w: Which, t: string)
    ensures SetNodeText(HeadLeft(sh), LabelId(w), t) == HeadLeft(Retext(sh, w, t))
  {
    var id := LabelId(w);
    var logo := if sh.logo.Some? then [User(sh.logo.value)] else [];
    SetTextAppend(logo, Titles(sh), id, t);
    if sh.logo.Some? {
      SetTextOne(User(sh.logo.value), id, t);
    }
    if Titles(sh) != [] {
      SetTextOne(Titles(sh)[0], id, t);
      RetextLabelNodes(sh, w, t);
    }
  }

  lemma RetextHeader(sh: Shape, w: Which, t: string)
    ensures SetNodeText(HeaderNode(sh), LabelId(w), t) == HeaderNode(Retext(sh, w, t))
  {
    var id := LabelId(w);
    IdsDistinct();
    var row := HeaderNode(sh).children[0];
    SetTextOne(row, id, t);
    SetTextAppend([HeadLeft(sh)], ActionsStack(sh), id, t);
    SetTextOne(HeadLeft(sh), id, t);
    RetextHeadLeft(sh, w, t);
    if sh.actions != [] {
      SetTextOne(ActionsStack(sh)[0], id, t);
      UsersNoId(sh.actions, id);
      SetTextAbsent(Users(sh.actions), id, t);
    }
  }

  /** Rewriting a label's text in place gives the very panel that a
      rebuild with that text would give. */
  lemma RetextRender(sh: Shape, w: Which, t: string)
    ensures SetNodeText(Render(sh), LabelId(w), t) == Render(Retext(sh, w, t))
  {
    var id := LabelId(w);
    IdsDistinct();
    var sh' := Retext(sh, w, t);
    SetTextAppend(HeaderPart(sh) + [BodyNode(sh)], FooterPart(sh), id, t);
    SetTextAppend(HeaderPart(sh), [BodyNode(sh)], id, t);
    RestIds(sh, id);
    SetTextOne(BodyNode(sh), id, t);
    SetNodeTextAbsent(BodyNode(sh), id, t);
    SetTextAbsent(FooterPart(sh), id, t);
    assert BodyNode(sh') == BodyNode(sh) && FooterPart(sh') == FooterPart(sh);
    if HeaderIn(sh) {
      SetTextAppend([HeaderNode(sh)], if sh.dividers then [Divider] else [], id, t);
      SetTextOne(HeaderNode(sh), id, t);
      RetextHeader(sh, w, t);
      if sh.dividers {
        SetTextOne(Divider, id, t);
        SetNodeTextAbsent(Divider, id, t);
      }
    }
  }

  /** What `updateTitles()` does to the panel: each label that exists
      gets the stored text, "" when there is none. */
  function Retitled(sh: Shape, st: SidebarState): Shape {
    Retext(Retext(sh, TitleLabel, TextOf(st.title)), SubtitleLabel, TextOf(st.subtitle))
  }

  /** `updateTitles()` on a freshly built panel changes nothing: the
      labels already hold the stored texts. */
  lemma RetitledSkeleton(st: SidebarState, captured: seq<Value>)
    ensures Retitled(Skeleton(st, captured), st) == Skeleton(st, captured)
  {
    IdsDistinct();
  }

  /** A second `updateTitles()` changes nothing more. */
  lemma RetitledTwice(sh: Shape, st: SidebarState)
    ensures Retitled(Retitled(sh, st), st) == Retitled(sh, st)
  {
    IdsDistinct();
  }

  /** The panel as the `_title` and `_subtitle` setters leave it: each
      label, when it exists, holds the stored text; a label may be missing
      for a text that is not blank, or linger for one that is; the rest is
      the skeleton's, and the header exists exactly when `hasHeader()`
      holds. */
  predicate Agrees(sh: Shape, st: SidebarState, captured: seq<Value>) {
    && sh == Skeleton(st, captured).(title := Relabel(sh.title, st.title), subtitle := Relabel(sh.subtitle, st.subtitle))
    && (HeaderIn(sh) <==> HasHeader(st))
  }

  /** A label that exists holds the stored text; one that does not stays
      missing. */
  function Relabel(l: Option<string>, t: Option<string>): (r: Option<string>)
    ensures r.Some? <==> l.Some?
    ensures r.Some? ==> r.value == TextOf(t)
  {
    if l.Some? then Some(TextOf(t)) else None
  }

  /** The skeleton of the settings agrees with them. */
  lemma SkeletonAgrees(st: SidebarState, captured: seq<Value>)
    ensures Agrees(Skeleton(st, captured), st, captured)
  {
    SkeletonShape(st, captured);
  }

  /** Settings that only the layout shows (side, width, collapsed) leave
      the panel as it is. */
  lemma LayoutOnly(sh: Shape, st: SidebarState, st2: SidebarState, captured: seq<Value>)
    requires st2 == st.(side := st2.side, width := st2.width, collapsed := st2.collapsed)
    requires Agrees(sh, st, captured)
    ensures Agrees(sh, st2, captured) && Retitled(sh, st2) == sh
    ensures Skeleton(st2, captured) == Skeleton(st, captured)
  {
    IdsDistinct();
  }

  /** When the header neither appears nor disappears, writing the new texts
      into the labels that exist keeps the panel in agreement; a text that
      did not change leaves its label as it was. */
  lemma RetitledAgrees(sh: Shape, st: SidebarState, st2: SidebarState, captured: seq<Value>)
    requires st2 == st.(title := st2.title, subtitle := st2.subtitle)
    requires Agrees(sh, st, captured) && HasHeader(st2) == HasHeader(st)
    ensures Agrees(Retitled(sh, st2), st2, captured)
    ensures st2.subtitle == st.subtitle ==> Retitled(sh, st2) == Retext(sh, TitleLabel, TextOf(st2.title))
    ensures st2.title == st.title ==> Retitled(sh, st2) == Retext(sh, SubtitleLabel, TextOf(st2.subtitle))
  {
    IdsDistinct();
  }

  /** When no label appears or disappears, writing the new texts into the
      labels gives the skeleton of the new settings. */
  lemma RetitledFresh(st: SidebarState, st2: SidebarState, captured: seq<Value>)
    requires st2 == st.(title := st2.title, subtitle := st2.subtitle)
    requires Shows(st2.title) == Shows(st.title) && Shows(st2.subtitle) == Shows(st.subtitle)
    ensures Retitled(Skeleton(st, captured), st2) == Skeleton(st2, captured)
    ensures st2.subtitle == st.subtitle ==> Retitled(Skeleton(st, captured), st2) == Retext(Skeleton(st, captured), TitleLabel, TextOf(st2.title))
    ensures st2.title == st.title ==> Retitled(Skeleton(st, captured), st2) == Retext(Skeleton(st, captured), SubtitleLabel, TextOf(st2.subtitle))
  {
    IdsDistinct();
  }

  /** The class's own tokens. */
  const OwnTokens: set<string> := {"xsidebar", "xsidebar--left", "xsidebar--right", "xsidebar--collapsed", "xsidebar--dividers"}

  /** The modifiers after the caller's classes: the side, then collapsed
      and dividers when set. */
  function Trail(st: SidebarState): seq<string> {
    [SideToken(st.side)] + (if st.collapsed then ["xsidebar--collapsed"] else [])
    + (if st.dividers then ["xsidebar--dividers"] else [])
  }

  /** `buildClassName()`. */
  function SidebarClass(existing: string, st: SidebarState): string {
    ClassName(["xsidebar"], existing, OwnTokens, Trail(st))
  }

  lemma SidePlain(s: Side)
    ensures Tokens([SideToken(s)]) && |SideToken(s)| == (if s == Left then 14 else 15)
  {
    PlainToken(SideToken(s));
  }

  lemma LeadPlain()
    ensures Tokens(["xsidebar"]) && NoDup(["xsidebar"]) && "xsidebar" in OwnTokens
  {
    PlainToken("xsidebar");
  }

  lemma FlagsPlain(collapsed: bool, dividers: bool)
    ensures Tokens((if collapsed then ["xsidebar--collapsed"] else []) + (if dividers then ["xsidebar--dividers"] else []))
  {
    var b := if collapsed then ["xsidebar--collapsed"] else [];
    var c := if dividers then ["xsidebar--dividers"] else [];
    assert Tokens(b) by {
      if collapsed {
        PlainToken("xsidebar--collapsed");
      }
    }
    assert Tokens(c) by {
      if dividers {
        PlainToken("xsidebar--dividers");
      }
    }
    TokensAppend(b, c);
  }

  /** The modifiers are tokens, distinct, owned, and none is "xsidebar". */
  lemma TrailPlain(st: SidebarState)
    ensures Tokens(["xsidebar"]) && NoDup(["xsidebar"]) && Tokens(Trail(st)) && NoDup(Trail(st))
    ensures forall x | x in Trail(st) :: x in OwnTokens && x != "xsidebar"
  {
    LeadPlain();
    SidePlain(st.side);
    var a := [SideToken(st.side)];
    var f := (if st.collapsed then ["xsidebar--collapsed"] else []) + (if st.dividers then ["xsidebar--dividers"] else []);
    FlagsPlain(st.collapsed, st.dividers);
    TokensAppend(a, f);
    assert Trail(st) == a + f;
    var t := Trail(st);
    assert forall i | 0 <= i < |t| :: |t[i]| == |SideToken(st.side)| || |t[i]| == 19 || |t[i]| == 18;
    assert forall i | 1 <= i < |t| :: |t[i]| == 19 || |t[i]| == 18;
    assert |t| == 3 ==> |t[1]| == 19 && |t[2]| == 18;
  }

  /** The class is "xsidebar", the caller's other classes once each in
      their order, the side modifier, the collapsed modifier exactly when
      collapsed and the dividers modifier exactly when dividers are on, in
      that order and without duplicates. */
  lemma SidebarClassShape(existing: string, st: SidebarState)
    ensures Words(SidebarClass(existing, st))
         == ["xsidebar"] + Dedup(Without(Words(existing), OwnTokens)) + Trail(st)
    ensures NoDup(Words(SidebarClass(existing, st)))
  {
    var d := Dedup(Without(Words(existing), OwnTokens));
    var t := Trail(st);
    TrailPlain(st);
    ClassTokensShape(["xsidebar"], existing, OwnTokens, t);
    ClassTokensOrder(["xsidebar"], existing, OwnTokens, t);
  }

  /** A layout pass discards the modifiers of any earlier one. */
  lemma SidebarClassOverride(existing: string, a: SidebarState, b: SidebarState)
    ensures SidebarClass(SidebarClass(existing, a), b) == SidebarClass(existing, b)
  {
    TrailPlain(a);
    TrailPlain(b);
    ClassNameOverride(["xsidebar"], Trail(a), ["xsidebar"], Trail(b), existing, OwnTokens);
  }

  const Managed: set<string> := {"--xsidebar-width"}

  lemma WidthProp() ensures PropName("--xsidebar-width") { PlainProp("--xsidebar-width"); }

  /** The declaration `applyLayout` appends: the width when it is not "". */
  function OwnPairs(width: string): seq<(string, string)> {
    if width != "" then [("--xsidebar-width", width)] else []
  }

  /** The style half of `applyLayout`. */
  method LayoutStyleOf(style: string, width: string) returns (r: string)
    ensures r == Layout(style, OwnPairs(width), Managed)
  {
    var base := StripManagedStyles(style, Managed);
    var ps: seq<(string, string)> := if width != "" then [("--xsidebar-width", width)] else [];
    r := LayoutStyle(base, Decls(ps));
  }

  /** The pairs of the passes `parse` runs, one per setter it calls, each
      with the width stored at that point. */
  function ParsePairs(widths: seq<string>): seq<seq<(string, string)>> {
    seq(|widths|, i requires 0 <= i < |widths| => OwnPairs(widths[i]))
  }

  /** Construction lays out once for each setter `parse` runs and once more
      at the end. When none of the widths stored along the way holds a ';',
      the earlier passes leave nothing behind and the style is the single
      pass the constructor states. */
  lemma ParsePassesCollapse(style: string, widths: seq<string>, width: string)
    requires forall i | 0 <= i < |widths| :: widths[i] != "" ==> PropValue(widths[i])
    ensures Layout(Passes(style, ParsePairs(widths), Managed), OwnPairs(width), Managed)
         == Layout(style, OwnPairs(width), Managed)
  {
    var passes := ParsePairs(widths);
    WidthProp();
    forall i | 0 <= i < |widths|
      ensures Owned(passes[i], Managed)
    {
      if widths[i] != "" {
        OwnedOne("--xsidebar-width", widths[i], Managed);
      }
    }
    PassesCollapse(style, passes, OwnPairs(width), Managed);
  }

  /** The laid-out style is the caller's declarations without any width,
      then the width; a later pass replaces that width. */
  lemma SidebarStyle(style: string, width: string, later: string)
    requires PropValue(width)
    ensures Pieces(Layout(style, OwnPairs(width), Managed)) == Kept(style, Managed) + [Decl("--xsidebar-width", width)]
    ensures forall i | 0 <= i < |Kept(style, Managed)| :: PropOf(Kept(style, Managed)[i]) != "--xsidebar-width"
    ensures Layout(Layout(style, OwnPairs(width), Managed), OwnPairs(later), Managed) == Layout(style, OwnPairs(later), Managed)
  {
    var ps := OwnPairs(width);
    assert ps == [("--xsidebar-width", width)];
    WidthProp();
    OwnedOne("--xsidebar-width", width, Managed);
    LayoutPieces(style, ps, Managed);
    assert Decls(ps) == [Decl("--xsidebar-width", width)];
    LayoutOverride(style, ps, OwnPairs(later), Managed);
  }

  /** A call of `_on_toggle` with the new collapsed flag. */
  datatype Event = Toggled(collapsed: bool)

  /** The calls `setCollapsed` makes when the flag goes from `was` to
      `now`: one, with the new flag, only on a change, when not silent and
      when `_on_toggle` is a function. */
  function ToggleEvents(was: bool, now: bool, silent: bool, hasOnToggle: bool): (r: seq<Event>)
    ensures r == [] || r == [Toggled(now)]
    ensures r != [] <==> was != now && !silent && hasOnToggle
  {
    if was != now && !silent && hasOnToggle then [Toggled(now)] else []
  }

  /** What the constructor reads from its configuration: the settings,
      the captured children, the creation class and the laid-out style. */
  method Setup(data: Value) returns (s: SidebarState, c: seq<Value>, b: string, css: string, k: string, sk: Shape)
    ensures s == StateOf(data) && c == ItemsOr(Field(data, "_children"))
    ensures b == (if Truthy(Field(data, "class")) then ToStr(Field(data, "class")) else "xsidebar")
    ensures css == Layout(TruthyText(Field(data, "style")), OwnPairs(s.width), Managed)
    ensures k == SidebarClass(b, s) && sk == Skeleton(s, c)
  {
    s := StateOf(data);
    c := ItemsOr(Field(data, "_children"));
    b := if Truthy(Field(data, "class")) then ToStr(Field(data, "class")) else "xsidebar";
    css := LayoutStyleOf(TruthyText(Field(data, "style")), s.width);
    k := SidebarClass(b, s);
    sk := Skeleton(s, c);
  }

  class XSidebar {
    /** The class string the widget was created with. */
    const base: string
    var cls: string
    var style: string
    var st: SidebarState
    /** The children captured from the configuration at construction. */
    var captured: seq<Value>
    /** What the panel appended by the last `buildSkeleton` shows, as
        patched in place since; the nodes are `Root()`. */
    var built: Shape
    /** How many times the panel has been rebuilt since construction. */
    var rebuilds: nat
    /** Whether `_on_toggle` was given as a function. */
    const hasOnToggle: bool

    /** The panel and the nodes under it. */
    function Root(): Node
      reads this`built
    {
      Render(built)
    }

    /** The panel is the skeleton of the settings and the class shows
        them. */
    predicate Valid()
      reads this`built, this`st, this`captured, this`cls
    {
      built == Skeleton(st, captured) && Composed()
    }

    /** The panel agrees with the settings as the setters keep it. */
    predicate Consistent()
      reads this`built, this`st, this`captured, this`cls
    {
      Agrees(built, st, captured) && Composed()
    }

    /** The class is the one composed from the creation class and the
        settings. */
    predicate Composed()
      reads this`st, this`cls
    {
      cls == SidebarClass(base, st)
    }

    /** `isCollapsed()`. */
    function IsCollapsed(): bool
      reads this`st
    {
      st.collapsed
    }

    /** `updateTitles()`: each label that exists gets the stored text. */
    method UpdateTitles()
      modifies this`built
      ensures built == Retitled(old(built), st)
      ensures old(built) == Skeleton(st, captured) ==> built == old(built)
    {
      RetitledSkeleton(st, captured);
      if built.title.Some? {
        built := built.(title := Some(TextOf(st.title)));
      }
      if built.subtitle.Some? {
        built := built.(subtitle := Some(TextOf(st.subtitle)));
      }
    }

    /** The class half of `applyLayout()`: the class composed again from
        the current one. */
    method ApplyClass(ghost prev: SidebarState)
      requires cls == SidebarClass(base, prev)
      modifies this`cls
      ensures cls == SidebarClass(old(cls), st) && Composed()
    {
      SidebarClassOverride(base, prev, st);
      cls := SidebarClass(cls, st);
    }

    /** `applyLayout()`: the class composed again, the style, then
        `updateTitles()`. */
    method ApplyLayout(ghost prev: SidebarState)
      requires cls == SidebarClass(base, prev)
      modifies this`cls, this`style, this`built
      ensures Composed()
      ensures style == Layout(old(style), OwnPairs(st.width), Managed)
      ensures built == Retitled(old(built), st)
      ensures old(built) == Skeleton(st, captured) ==> built == old(built)
    {
      ApplyClass(prev);
      ghost var c := cls;
      var w := st.width;
      var css := LayoutStyleOf(style, w);
      style := css;
      UpdateTitles();
      assert cls == c;
    }

    /** `rebuild()`: the old panel is removed, a new skeleton appended, and
        the layout applied; the `updateTitles()` inside `applyLayout()`
        leaves a fresh skeleton as it is (`RetitledSkeleton`). */
    method Rebuild(ghost prev: SidebarState)
      requires cls == SidebarClass(base, prev)
      modifies this`cls, this`style, this`built, this`rebuilds
      ensures Valid() && rebuilds == old(rebuilds) + 1
      ensures style == Layout(old(style), OwnPairs(st.width), Managed)
    {
      built, rebuilds := Skeleton(st, captured), rebuilds + 1;
      ApplyLayout(prev);
    }

    /** Construction: the caller's `_children` are captured, the settings
        read, the panel built and the layout applied. */
    constructor(data: Value)
      ensures st == StateOf(data) && captured == ItemsOr(Field(data, "_children"))
      ensures base == (if Truthy(Field(data, "class")) then ToStr(Field(data, "class")) else "xsidebar")
      ensures style == Layout(TruthyText(Field(data, "style")), OwnPairs(st.width), Managed)
      ensures hasOnToggle == Field(data, "_on_toggle").Fun?
      ensures Valid() && rebuilds == 0
    {
      var s, c, b, css, k, sk := Setup(data);
      base := b;
      st := s;
      captured := c;
      cls := k;
      style := css;
      built := sk;
      rebuilds := 0;
      hasOnToggle := Field(data, "_on_toggle").Fun?;
    }

    /** The setters that only lay out again: the new settings are stored
        and `applyLayout()` runs; the panel is left as it is. */
    method Relayout(next: SidebarState)
      requires next == st.(side := next.side, width := next.width, collapsed := next.collapsed)
      requires Consistent()
      modifies this`st, this`cls, this`style, this`built
      ensures st == next && Consistent() && built == old(built) && Skeleton(st, captured) == Skeleton(old(st), captured)
      ensures style == Layout(old(style), OwnPairs(st.width), Managed)
    {
      ghost var prev := st;
      LayoutOnly(built, prev, next, captured);
      st := next;
      ApplyLayout(prev);
    }

    /** `setCollapsed(v, silent)`: the flag is stored and the layout
        applied; `fired` holds the `_on_toggle` calls made afterwards: one,
        with the new flag, only when it changed and the call is not
        silent. */
    method SetCollapsed(v: Value, silent: bool) returns (fired: seq<Event>)
      requires Consistent()
      modifies this
      ensures fired == ToggleEvents(old(st.collapsed), st.collapsed, silent, hasOnToggle)
      ensures old(Valid()) ==> Valid()
      ensures st == old(st).(collapsed := BoolOr(v, false)) && Consistent() && built == old(built)
      ensures style == Layout(old(style), OwnPairs(st.width), Managed)
      ensures captured == old(captured) && rebuilds == old(rebuilds)
    {
      var was := st.collapsed;
      Relayout(st.(collapsed := BoolOr(v, false)));
      fired := ToggleEvents(was, st.collapsed, silent, hasOnToggle);
    }

    /** `toggleCollapsed()`: the flag flips and `_on_toggle` is told when
        it is a function. */
    method ToggleCollapsed() returns (fired: seq<Event>)
      requires Consistent()
      modifies this
      ensures st == old(st).(collapsed := !old(st.collapsed)) && Consistent() && built == old(built)
      ensures fired == (if hasOnToggle then [Toggled(st.collapsed)] else [])
      ensures captured == old(captured) && rebuilds == old(rebuilds)
    {
      fired := SetCollapsed(Bool(!st.collapsed), false);
    }

    /** The `_collapsed` setter: the flag and the layout, no call. */
    method SetCollapsedProp(v: Value)
      requires Consistent()
      modifies this
      ensures st == old(st).(collapsed := BoolOr(v, false)) && Consistent() && built == old(built)
      ensures style == Layout(old(style), OwnPairs(st.width), Managed)
      ensures captured == old(captured) && rebuilds == old(rebuilds)
    {
      Relayout(st.(collapsed := BoolOr(v, false)));
    }

    /** The `_side` setter. */
    method SetSide(v: Value)
      requires Consistent()
      modifies this
      ensures st == old(st).(side := NormalizeSide(v)) && Consistent() && built == old(built)
      ensures style == Layout(old(style), OwnPairs(st.width), Managed)
      ensures captured == old(captured) && rebuilds == old(rebuilds)
    {
      Relayout(st.(side := NormalizeSide(v)));
    }

    /** The `_width` setter. */
    method SetWidth(v: Value)
      requires Consistent()
      modifies this
      ensures st == old(st).(width := WidthOf(v)) && Consistent() && built == old(built)
      ensures style == Layout(old(style), OwnPairs(st.width), Managed)
      ensures captured == old(captured) && rebuilds == old(rebuilds)
    {
      Relayout(st.(width := WidthOf(v)));
    }

    /** The `_title` and `_subtitle` setters' `else` branch: the new texts
        are stored without a rebuild and the labels that exist get them,
        through `updateTitles()` and then `applyLayout()`, which updates
        them again. */
    method RetitleTo(next: SidebarState)
      requires Composed()
      modifies this`st, this`cls, this`style, this`built
      ensures st == next && Composed() && built == Retitled(old(built), next)
      ensures style == Layout(old(style), OwnPairs(st.width), Managed)
    {
      ghost var prev := st;
      RetitledTwice(built, next);
      st := next;
      UpdateTitles();
      ApplyLayout(prev);
    }

    /** New settings stored, then `rebuild()`. */
    method SetAndRebuild(next: SidebarState)
      requires Composed()
      modifies this`st, this`cls, this`style, this`built, this`rebuilds
      ensures st == next && Valid() && rebuilds == old(rebuilds) + 1
      ensures style == Layout(old(style), OwnPairs(st.width), Managed)
    {
      ghost var prev := st;
      st := next;
      Rebuild(prev);
    }

    /** The `_title` setter as written: it rebuilds when the header's
        presence flips, and otherwise writes the text into the title label
        when that exists. */
    method SetTitle(v: Value)
      requires Consistent()
      modifies this
      ensures st == old(st).(title := OptText(v)) && Consistent()
      ensures var rebuilt := HasHeader(old(st)) != HasHeader(st);
        && rebuilds == old(rebuilds) + (if rebuilt then 1 else 0)
        && built == (if rebuilt then Skeleton(st, captured) else Retext(old(built), TitleLabel, TextOf(st.title)))
      ensures style == Layout(old(style), OwnPairs(st.width), Managed) && captured == old(captured)
    {
      var next := st.(title := OptText(v));
      if HasHeader(st) != HasHeader(next) {
        SetAndRebuild(next);
        SkeletonAgrees(next, captured);
      } else {
        RetitledAgrees(built, st, next, captured);
        RetitleTo(next);
      }
    }

    /** The `_title` setter as intended: it rebuilds whenever the title
        label's presence flips. */
    method SetTitleFixed(v: Value)
      requires Valid()
      modifies this
      ensures st == old(st).(title := OptText(v)) && Valid()
      ensures var rebuilt := Shows(old(st.title)) != Shows(st.title);
        && rebuilds == old(rebuilds) + (if rebuilt then 1 else 0)
        && (!rebuilt ==> built == Retext(old(built), TitleLabel, TextOf(st.title)))
      ensures style == Layout(old(style), OwnPairs(st.width), Managed) && captured == old(captured)
    {
      var next := st.(title := OptText(v));
      if Shows(st.title) != Shows(next.title) {
        SetAndRebuild(next);
      } else {
        SkeletonAgrees(st, captured);
        RetitledFresh(st, next, captured);
        RetitleTo(next);
      }
    }

    /** The `_subtitle` setter as written: the same steps as `_title`'s, on
        the subtitle label. */
    method SetSubtitle(v: Value)
      requires Consistent()
      modifies this
      ensures st == old(st).(subtitle := OptText(v)) && Consistent()
      ensures var rebuilt := HasHeader(old(st)) != HasHeader(st);
        && rebuilds == old(rebuilds) + (if rebuilt then 1 else 0)
        && built == (if rebuilt then Skeleton(st, captured) else Retext(old(built), SubtitleLabel, TextOf(st.subtitle)))
      ensures style == Layout(old(style), OwnPairs(st.width), Managed) && captured == old(captured)
    {
      var next := st.(subtitle := OptText(v));
      if HasHeader(st) != HasHeader(next) {
        SetAndRebuild(next);
        SkeletonAgrees(next, captured);
      } else {
        RetitledAgrees(built, st, next, captured);
        RetitleTo(next);
      }
    }

    /** The `_subtitle` setter as intended: it rebuilds whenever the
        subtitle label's presence flips. */
    method SetSubtitleFixed(v: Value)
      requires Valid()
      modifies this
      ensures st == old(st).(subtitle := OptText(v)) && Valid()
      ensures var rebuilt := Shows(old(st.subtitle)) != Shows(st.subtitle);
        && rebuilds == old(rebuilds) + (if rebuilt then 1 else 0)
        && (!rebuilt ==> built == Retext(old(built), SubtitleLabel, TextOf(st.subtitle)))
      ensures style == Layout(old(style), OwnPairs(st.width), Managed) && captured == old(captured)
    {
      var next := st.(subtitle := OptText(v));
      if Shows(st.subtitle) != Shows(next.subtitle) {
        SetAndRebuild(next);
      } else {
        SkeletonAgrees(st, captured);
        RetitledFresh(st, next, captured);
        RetitleTo(next);
      }
    }

    /** The `_logo` setter. */
    method SetLogo(v: Value)
      requires Composed()
      modifies this
      ensures st == old(st).(logo := v) && Valid() && rebuilds == old(rebuilds) + 1
      ensures style == Layout(old(style), OwnPairs(st.width), Managed) && captured == old(captured)
    {
      SetAndRebuild(st.(logo := v));
    }

    /** The `_actions` setter: a non-array gives none. */
    method SetActions(v: Value)
      requires Composed()
      modifies this
      ensures st == old(st).(actions := ListOf(v)) && Valid() && rebuilds == old(rebuilds) + 1
      ensures style == Layout(old(style), OwnPairs(st.width), Managed) && captured == old(captured)
    {
      SetAndRebuild(st.(actions := ListOf(v)));
    }

    /** The `_nav` setter. */
    method SetNav(v: Value)
      requires Composed()
      modifies this
      ensures st == old(st).(nav := v) && Valid() && rebuilds == old(rebuilds) + 1
      ensures style == Layout(old(style), OwnPairs(st.width), Managed) && captured == old(captured)
    {
      SetAndRebuild(st.(nav := v));
    }

    /** The `_scroll` setter. */
    method SetScroll(v: Value)
      requires Composed()
      modifies this
      ensures st == old(st).(scroll := BoolOr(v, true)) && Valid() && rebuilds == old(rebuilds) + 1
      ensures style == Layout(old(style), OwnPairs(st.width), Managed) && captured == old(captured)
    {
      SetAndRebuild(st.(scroll := BoolOr(v, true)));
    }

    /** The `_dividers` setter. */
    method SetDividers(v: Value)
      requires Composed()
      modifies this
      ensures st == old(st).(dividers := BoolOr(v, true)) && Valid() && rebuilds == old(rebuilds) + 1
      ensures style == Layout(old(style), OwnPairs(st.width), Managed) && captured == old(captured)
    {
      SetAndRebuild(st.(dividers := BoolOr(v, true)));
    }

    /** The `_footer` setter. */
    method SetFooter(v: Value)
      requires Composed()
      modifies this
      ensures st == old(st).(footer := v) && Valid() && rebuilds == old(rebuilds) + 1
      ensures style == Layout(old(style), OwnPairs(st.width), Managed) && captured == old(captured)
    {
      SetAndRebuild(st.(footer := v));
    }
  }

  /** A sidebar with the subtitle "S" and no title, given the title "T":
      the header is there before and after, so `_title` only updates the
      title label, which does not exist; the panel shows no title where
      the skeleton of the new settings has one. */
  lemma MissingTitle()
    ensures var before := SidebarState(Left, DefaultWidth, None, Some("S"), Undef, None, Undef, true, true, Undef, false);
      var now := before.(title := Some("T"));
      var after := Retext(Skeleton(before, []), TitleLabel, "T");
      && HasHeader(before) && HasHeader(now)
      && !NodeHasId(Render(after), TitleId)
      && NodeHasId(Render(Skeleton(now, [])), TitleId)
  {
    TrimOfTrimmed("S");
    TrimOfTrimmed("T");
    var before := SidebarState(Left, DefaultWidth, None, Some("S"), Undef, None, Undef, true, true, Undef, false);
    RenderIds(Retext(Skeleton(before, []), TitleLabel, "T"), TitleId);
    RenderIds(Skeleton(before.(title := Some("T")), []), TitleId);
  }

  /** A sidebar titled "T" with the subtitle "S", given the title "": the
      header stays, so the title label keeps existing with an empty text
      where the skeleton of the new settings has no title label. */
  lemma StaleTitle()
    ensures var before := SidebarState(Left, DefaultWidth, Some("T"), Some("S"), Undef, None, Undef, true, true, Undef, false);
      var now := before.(title := OptText(Str("")));
      var after := Retext(Skeleton(before, []), TitleLabel, TextOf(now.title));
      && HasHeader(before) && HasHeader(now)
      && after.title == Some("") && NodeHasId(Render(after), TitleId)
      && !NodeHasId(Render(Skeleton(now, [])), TitleId)
  {
    TrimOfTrimmed("S");
    TrimOfTrimmed("T");
    var before := SidebarState(Left, DefaultWidth, Some("T"), Some("S"), Undef, None, Undef, true, true, Undef, false);
    RenderIds(Retext(Skeleton(before, []), TitleLabel, ""), TitleId);
    RenderIds(Skeleton(before.(title := None), []), TitleId);
  }

  /** A sidebar titled "T" with no subtitle, given the subtitle "S": the
      header is there before and after, so `_subtitle` only updates the
      subtitle label, which does not exist; the panel shows no subtitle
      where the skeleton of the new settings has one. */
  lemma MissingSubtitle()
    ensures var before := SidebarState(Left, DefaultWidth, Some("T"), None, Undef, None, Undef, true, true, Undef, false);
      var now := before.(subtitle := Some("S"));
      var after := Retext(Skeleton(before, []), SubtitleLabel, "S");
      && HasHeader(before) && HasHeader(now)
      && !NodeHasId(Render(after), SubtitleId)
      && NodeHasId(Render(Skeleton(now, [])), SubtitleId)
  {
    TrimOfTrimmed("S");
    TrimOfTrimmed("T");
    var before := SidebarState(Left, DefaultWidth, Some("T"), None, Undef, None, Undef, true, true, Undef, false);
    RenderIds(Retext(Skeleton(before, []), SubtitleLabel, "S"), SubtitleId);
    RenderIds(Skeleton(before.(subtitle := Some("S")), []), SubtitleId);
  }
}

=== FILE: spacer.dfy ===
/** XSpacer: an empty box that takes a fixed size along one axis.
    `applyLayout` rewrites the host's `style`; the class is left alone. */
module Spacer {
  import opened Text
  import opened Values
  import opened Styles
  import opened Names

  datatype Direction = Vertical | Horizontal

  const Managed: set<string> := {"width", "height", "min-width", "min-height"}

  /** Only "horizontal" is horizontal. */
  function NormalizeDirection(v: Value): (r: Direction)
    ensures r == Horizontal <==> v == Str("horizontal")
  {
    if v == Str("horizontal") then Horizontal else Vertical
  }

  /** A finite non-negative number is kept; anything else is 16. */
  function NormalizeSize(v: Value): (r: int)
    ensures r >= 0
    ensures IsFinite(v) && v.n.v >= 0 ==> r == v.n.v
    ensures !(IsFinite(v) && v.n.v >= 0) ==> r == 16
  {
    NonNegOr(v, 16)
  }

  /** The two declarations `applyLayout` appends. */
  function OwnPairs(size: int, d: Direction): seq<(string, string)> {
    if d == Horizontal then [("width", Px(size)), ("min-width", Px(size))]
    else [("height", Px(size)), ("min-height", Px(size))]
  }

  /** Exactly two declarations, both the size in pixels: width and min-width
      when horizontal, height and min-height when vertical. */
  lemma OwnPairsContent(size: int, d: Direction)
    ensures var ps := OwnPairs(size, d);
      && |ps| == 2
      && ps[0].1 == Px(size) && ps[1].1 == Px(size)
      && (d == Horizontal <==> ps[0].0 == "width" && ps[1].0 == "min-width")
      && (d == Vertical <==> ps[0].0 == "height" && ps[1].0 == "min-height")
  {
  }

  lemma WidthProp() ensures PropName("width") { PlainProp("width"); }
  lemma MinWidthProp() ensures PropName("min-width") { PlainProp("min-width"); }
  lemma HeightProp() ensures PropName("height") { PlainProp("height"); }
  lemma MinHeightProp() ensures PropName("min-height") { PlainProp("min-height"); }

  /** Every emitted pair is a normal declaration of a managed property. */
  lemma OwnPairsOwned(size: int, d: Direction)
    ensures Owned(OwnPairs(size, d), Managed)
  {
    PxValue(size);
    if d == Horizontal {
      WidthProp();
      MinWidthProp();
      OwnedOne("width", Px(size), Managed);
      OwnedOne("min-width", Px(size), Managed);
      OwnedAppend([("width", Px(size))], [("min-width", Px(size))], Managed);
    } else {
      HeightProp();
      MinHeightProp();
      OwnedOne("height", Px(size), Managed);
      OwnedOne("min-height", Px(size), Managed);
      OwnedAppend([("height", Px(size))], [("min-height", Px(size))], Managed);
    }
  }

  /** The style half of `applyLayout`. */
  method LayoutStyleOf(style: string, size: int, d: Direction) returns (r: string)
    ensures r == Layout(style, OwnPairs(size, d), Managed)
  {
    var base := StripManagedStyles(style, Managed);
    var ps: seq<(string, string)>;
    if d == Horizontal {
      ps := [("width", Px(size)), ("min-width", Px(size))];
    } else {
      ps := [("height", Px(size)), ("min-height", Px(size))];
    }
    r := LayoutStyle(base, Decls(ps));
  }

  class XSpacer {
    var style: string
    var size: int
    var direction: Direction

    function LayoutOf(base: string): string
      reads this
    {
      Layout(base, OwnPairs(size, direction), Managed)
    }

    method ApplyLayout()
      modifies this
      ensures style == Layout(old(style), OwnPairs(size, direction), Managed)
      ensures size == old(size) && direction == old(direction)
    {
      style := LayoutStyleOf(style, size, direction);
    }

    constructor(data: Value)
      ensures size == NormalizeSize(Field(data, "_size"))
      ensures direction == NormalizeDirection(Field(data, "_direction"))
      ensures style == LayoutOf(TruthyText(Field(data, "style")))
    {
      style := TruthyText(Field(data, "style"));
      size := NormalizeSize(Field(data, "_size"));
      direction := NormalizeDirection(Field(data, "_direction"));
      new;
      ApplyLayout();
    }

    method SetSize(v: Value)
      modifies this
      ensures size == NormalizeSize(v) && direction == old(direction)
      ensures style == LayoutOf(old(style))
    {
      size := NormalizeSize(v);
      ApplyLayout();
    }

    method SetDirection(v: Value)
      modifies this
      ensures direction == NormalizeDirection(v) && size == old(size)
      ensures style == LayoutOf(old(style))
    {
      direction := NormalizeDirection(v);
      ApplyLayout();
    }
  }

  /** A layout pass discards every declaration an earlier pass emitted, so no
      caller or stale width, height, min-width or min-height survives (turning
      a horizontal spacer vertical leaves no width behind), and a second pass
      with unchanged fields changes nothing. */
  lemma LayoutOverrides(style: string, size1: int, d1: Direction, ps2: seq<(string, string)>)
    ensures Layout(Layout(style, OwnPairs(size1, d1), Managed), ps2, Managed) == Layout(style, ps2, Managed)
  {
    OwnPairsOwned(size1, d1);
    LayoutOverride(style, OwnPairs(size1, d1), ps2, Managed);
  }

  /** The declarations of the laid-out style: the caller's surviving ones, in
      their order and none of them a managed property, then the two sizes. */
  lemma LayoutDeclarations(style: string, size: int, d: Direction)
    ensures Pieces(Layout(style, OwnPairs(size, d), Managed)) == Kept(style, Managed) + Decls(OwnPairs(size, d))
    ensures forall i | 0 <= i < |Kept(style, Managed)| :: PropOf(Kept(style, Managed)[i]) !in Managed
  {
    OwnPairsOwned(size, d);
    LayoutPieces(style, OwnPairs(size, d), Managed);
  }
}

=== FILE: stack.dfy ===
/** XStack: a flex container that lays its children out vertically or
    horizontally. Its state is normalised from loose inputs; `applyLayout`
    rewrites the host's `class` and `style` from that state. */
module Stack {
  import opened Text
  import opened Values
  import opened Styles
  import opened Classes
  import opened Names

  datatype Direction = Vertical | Horizontal
  datatype Align = Start | Center | End | Stretch
  datatype Justify = JStart | JCenter | JEnd | SpaceBetween | SpaceAround | SpaceEvenly

  function AlignName(a: Align): string {
    match a
    case Start => "start"
    case Center => "center"
    case End => "end"
    case Stretch => "stretch"
  }

  function JustifyName(j: Justify): string {
    match j
    case JStart => "start"
    case JCenter => "center"
    case JEnd => "end"
    case SpaceBetween => "space-between"
    case SpaceAround => "space-around"
    case SpaceEvenly => "space-evenly"
  }

  /** The style properties the widget owns; a caller's own declaration of any
      of them is dropped. */
  const Managed: set<string> := {"--xstack-gap", "align-items", "justify-content", "flex-wrap", "flex"}

  /** The class tokens the widget owns. */
  const OwnTokens: set<string> := {"xstack", "xstack--v", "xstack--h"}

  /** Anything but "horizontal" is vertical. */
  function NormalizeDirection(v: Value): (r: Direction)
    ensures r == Horizontal <==> v == Str("horizontal")
  {
    if v == Str("horizontal") then Horizontal else Vertical
  }

  /** The four accepted spellings are kept; anything else is "stretch". */
  function NormalizeAlign(v: Value): (r: Align)
    ensures v.Str? && v.s in {"start", "center", "end", "stretch"} ==> AlignName(r) == v.s
    ensures !(v.Str? && v.s in {"start", "center", "end", "stretch"}) ==> r == Stretch
  {
    match v
    case Str(s) =>
      if s == "start" then Start
      else if s == "center" then Center
      else if s == "end" then End
      else Stretch
    case _ => Stretch
  }

  /** The six accepted spellings are kept; anything else is "start". */
  function NormalizeJustify(v: Value): (r: Justify)
    ensures v.Str? && v.s in {"start", "center", "end", "space-between", "space-around", "space-evenly"}
      ==> JustifyName(r) == v.s
    ensures !(v.Str? && v.s in {"start", "center", "end", "space-between", "space-around", "space-evenly"})
      ==> r == JStart
  {
    match v
    case Str(s) =>
      if s == "center" then JCenter
      else if s == "end" then JEnd
      else if s == "space-between" then SpaceBetween
      else if s == "space-around" then SpaceAround
      else if s == "space-evenly" then SpaceEvenly
      else JStart
    case _ => JStart
  }

  /** A finite number is kept; anything else means "no gap". */
  function NormalizeGap(v: Value): (r: Option<int>)
    ensures r.Some? <==> IsFinite(v)
    ensures r.Some? ==> r.value == v.n.v
  {
    if IsFinite(v) then Some(v.n.v) else None
  }

  /** Every value the normalisers can produce is read back unchanged. */
  lemma NormalizeRoundTrip(d: Direction, a: Align, j: Justify)
    ensures NormalizeDirection(Str(if d == Horizontal then "horizontal" else "vertical")) == d
    ensures NormalizeAlign(Str(AlignName(a))) == a
    ensures NormalizeJustify(Str(JustifyName(j))) == j
  {
  }

  /** `mapAlign`: the flex keyword for an alignment. */
  function MapAlign(a: Align): string {
    match a
    case Start => "flex-start"
    case End => "flex-end"
    case Center => "center"
    case Stretch => "stretch"
  }

  /** `mapJustify`: start and end become flex keywords; the rest keep their name. */
  function MapJustify(j: Justify): (r: string)
    ensures j !in {JStart, JEnd} ==> r == JustifyName(j)
  {
    match j
    case JStart => "flex-start"
    case JEnd => "flex-end"
    case JCenter => "center"
    case _ => JustifyName(j)
  }

  /** Distinct settings give distinct CSS: neither mapping loses information. */
  lemma MapInjective(a: Align, b: Align, j: Justify, k: Justify)
    ensures MapAlign(a) == MapAlign(b) ==> a == b
    ensures MapJustify(j) == MapJustify(k) ==> j == k
  {
  }

  /** The direction modifier, and the one it excludes. */
  function DirToken(d: Direction): string {
    if d == Horizontal then "xstack--h" else "xstack--v"
  }

  function OtherToken(d: Direction): string {
    if d == Horizontal then "xstack--v" else "xstack--h"
  }

  /** `buildClassName(direction)`: "xstack", the direction modifier, the
      caller's classes without the widget's tokens, then the `_class` extras. */
  function StackClass(d: Direction, existing: string, extra: string): string {
    ClassName(["xstack", DirToken(d)], existing, OwnTokens, Words(extra))
  }

  /** The class starts with "xstack" and the modifier of the direction; it
      holds each token once; it holds exactly those two, the caller's classes
      other than the widget's own, and the extras. */
  lemma LeadTokens(d: Direction)
    ensures Tokens(["xstack", DirToken(d)]) && NoDup(["xstack", DirToken(d)])
  {
    PlainTokens("xstack", DirToken(d));
  }

  lemma StackClassShape(d: Direction, existing: string, extra: string)
    ensures |Words(StackClass(d, existing, extra))| >= 2
    ensures Words(StackClass(d, existing, extra))[..2] == ["xstack", DirToken(d)]
    ensures NoDup(Words(StackClass(d, existing, extra)))
    ensures forall x :: x in Words(StackClass(d, existing, extra)) <==>
      x == "xstack" || x == DirToken(d) || (x in Words(existing) && x !in OwnTokens) || x in Words(extra)
  {
    WordsTokens(extra);
    LeadTokens(d);
    ClassTokensShape(["xstack", DirToken(d)], existing, OwnTokens, Words(extra));
  }

  /** No stale modifier: the other direction's token is gone, unless the
      `_class` extras bring it back themselves. */
  lemma StackOtherAbsent(d: Direction, existing: string, extra: string)
    requires OtherToken(d) !in Words(extra)
    ensures OtherToken(d) !in Words(StackClass(d, existing, extra))
  {
    StackClassShape(d, existing, extra);
  }

  /** The (property, value) pairs `applyLayout` appends, in its order. */
  function OwnPairs(gap: Option<int>, align: Align, justify: Justify, wrap: bool, grow: bool): seq<(string, string)> {
    (if gap.Some? then [("--xstack-gap", Px(gap.value))] else [])
    + [("align-items", MapAlign(align))]
    + [("justify-content", MapJustify(justify))]
    + (if wrap then [("flex-wrap", "wrap")] else [])
    + (if grow then [("flex", "1 1 auto")] else [])
  }

  /** What the widget emits: align-items and justify-content always, in that
      order; the gap exactly when it is a number, and first; flex-wrap:wrap
      exactly when wrapping; flex:1 1 auto exactly when growing. */
  lemma OwnPairsContent(gap: Option<int>, align: Align, justify: Justify, wrap: bool, grow: bool)
    ensures var ps := OwnPairs(gap, align, justify, wrap, grow);
      && (exists i | 0 <= i < |ps| - 1 :: ps[i] == ("align-items", MapAlign(align))
                                           && ps[i + 1] == ("justify-content", MapJustify(justify)))
      && (gap.Some? ==> ps[0] == ("--xstack-gap", Px(gap.value)))
      && (gap.None? ==> forall i | 0 <= i < |ps| :: ps[i].0 != "--xstack-gap")
      && (("flex-wrap", "wrap") in ps <==> wrap)
      && (("flex", "1 1 auto") in ps <==> grow)
  {
    var ps := OwnPairs(gap, align, justify, wrap, grow);
    var k := if gap.Some? then 1 else 0;
    assert ps[k] == ("align-items", MapAlign(align));
    assert ps[k + 1] == ("justify-content", MapJustify(justify));
  }

  lemma GapProp() ensures PropName("--xstack-gap") { PlainProp("--xstack-gap"); }
  lemma AlignProp() ensures PropName("align-items") { PlainProp("align-items"); }
  lemma JustifyProp() ensures PropName("justify-content") { PlainProp("justify-content"); }
  lemma WrapProp() ensures PropName("flex-wrap") { PlainProp("flex-wrap"); }
  lemma FlexProp() ensures PropName("flex") { PlainProp("flex"); }

  lemma AlignValue(a: Align) ensures PropValue(MapAlign(a)) {}
  lemma JustifyValue(j: Justify) ensures PropValue(MapJustify(j)) {}
  lemma FixedValues() ensures PropValue("wrap") && PropValue("1 1 auto") {}

  /** Every emitted pair is a normal declaration of a managed property. */
  lemma OwnPairsOwned(gap: Option<int>, align: Align, justify: Justify, wrap: bool, grow: bool)
    ensures Owned(OwnPairs(gap, align, justify, wrap, grow), Managed)
  {
    var g := if gap.Some? then [("--xstack-gap", Px(gap.value))] else [];
    var a := [("align-items", MapAlign(align))];
    var j := [("justify-content", MapJustify(justify))];
    var w := if wrap then [("flex-wrap", "wrap")] else [];
    var f := if grow then [("flex", "1 1 auto")] else [];
    assert Owned(g, Managed) by {
      if gap.Some? {
        GapProp();
        PxValue(gap.value);
        OwnedOne("--xstack-gap", Px(gap.value), Managed);
      }
    }
    assert Owned(a, Managed) by {
      AlignProp();
      AlignValue(align);
      OwnedOne("align-items", MapAlign(align), Managed);
    }
    assert Owned(j, Managed) by {
      JustifyProp();
      JustifyValue(justify);
      OwnedOne("justify-content", MapJustify(justify), Managed);
    }
    assert Owned(w, Managed) by {
      if wrap {
        WrapProp();
        FixedValues();
        OwnedOne("flex-wrap", "wrap", Managed);
      }
    }
    assert Owned(f, Managed) by {
      if grow {
        FlexProp();
        FixedValues();
        OwnedOne("flex", "1 1 auto", Managed);
      }
    }
    OwnedAppend(g, a, Managed);
    OwnedAppend(g + a, j, Managed);
    OwnedAppend(g + a + j, w, Managed);
    OwnedAppend(g + a + j + w, f, Managed);
  }

  class XStack {
    /** The host's `class` and `style` attributes. */
    var cls: string
    var style: string
    /** `_class`: extra classes appended after the caller's own. */
    var extra: string
    var direction: Direction
    var gap: Option<int>
    var align: Align
    var justify: Justify
    var wrap: bool
    var grow: bool

    /** The style `applyLayout` computes from a caller style and the fields. */
    function LayoutOf(base: string): string
      reads this
    {
      Layout(base, OwnPairs(gap, align, justify, wrap, grow), Managed)
    }

    /** `applyLayout`: rewrites class and style from the fields, nothing else. */
    method ApplyLayout()
      modifies this
      ensures cls == StackClass(direction, old(cls), extra)
      ensures style == Layout(old(style), OwnPairs(gap, align, justify, wrap, grow), Managed)
      ensures extra == old(extra) && direction == old(direction) && gap == old(gap)
      ensures align == old(align) && justify == old(justify) && wrap == old(wrap) && grow == old(grow)
    {
      cls := StackClass(direction, cls, extra);
      var base := StripManagedStyles(style, Managed);
      var ps := if gap.Some? then [("--xstack-gap", Px(gap.value))] else [];
      ps := ps + [("align-items", MapAlign(align))];
      ps := ps + [("justify-content", MapJustify(justify))];
      ps := ps + if wrap then [("flex-wrap", "wrap")] else [];
      ps := ps + if grow then [("flex", "1 1 auto")] else [];
      style := LayoutStyle(base, Decls(ps));
    }

    /** Construction: defaults, the normalised inputs, then one layout pass.
        `class` falls back to "xstack" when the caller gives none. */
    constructor(data: Value)
      ensures direction == NormalizeDirection(Field(data, "_direction"))
      ensures gap == NormalizeGap(Field(data, "_gap"))
      ensures align == NormalizeAlign(Field(data, "_align"))
      ensures justify == NormalizeJustify(Field(data, "_justify"))
      ensures wrap == IsTrue(Field(data, "_wrap")) && grow == IsTrue(Field(data, "_grow"))
      ensures extra == TruthyText(Field(data, "_class"))
      ensures cls == StackClass(direction, if Truthy(Field(data, "class")) then ToStr(Field(data, "class")) else "xstack", extra)
      ensures style == LayoutOf(TruthyText(Field(data, "style")))
    {
      cls := if Truthy(Field(data, "class")) then ToStr(Field(data, "class")) else "xstack";
      style := TruthyText(Field(data, "style"));
      extra := TruthyText(Field(data, "_class"));
      direction := NormalizeDirection(Field(data, "_direction"));
      gap := NormalizeGap(Field(data, "_gap"));
      align := NormalizeAlign(Field(data, "_align"));
      justify := NormalizeJustify(Field(data, "_justify"));
      wrap := IsTrue(Field(data, "_wrap"));
      grow := IsTrue(Field(data, "_grow"));
      new;
      ApplyLayout();
    }

    method SetDirection(v: Value)
      modifies this
      ensures direction == NormalizeDirection(v)
      ensures gap == old(gap) && align == old(align) && justify == old(justify)
      ensures wrap == old(wrap) && grow == old(grow) && extra == old(extra)
      ensures cls == StackClass(direction, old(cls), extra) && style == LayoutOf(old(style))
    {
      direction := NormalizeDirection(v);
      ApplyLayout();
    }

    method SetGap(v: Value)
      modifies this
      ensures gap == NormalizeGap(v)
      ensures direction == old(direction) && align == old(align) && justify == old(justify)
      ensures wrap == old(wrap) && grow == old(grow) && extra == old(extra)
      ensures cls == StackClass(direction, old(cls), extra) && style == LayoutOf(old(style))
    {
      gap := NormalizeGap(v);
      ApplyLayout();
    }

    method SetAlign(v: Value)
      modifies this
      ensures align == NormalizeAlign(v)
      ensures direction == old(direction) && gap == old(gap) && justify == old(justify)
      ensures wrap == old(wrap) && grow == old(grow) && extra == old(extra)
      ensures cls == StackClass(direction, old(cls), extra) && style == LayoutOf(old(style))
    {
      align := NormalizeAlign(v);
      ApplyLayout();
    }

    method SetJustify(v: Value)
      modifies this
      ensures justify == NormalizeJustify(v)
      ensures direction == old(direction) && gap == old(gap) && align == old(align)
      ensures wrap == old(wrap) && grow == old(grow) && extra == old(extra)
      ensures cls == StackClass(direction, old(cls), extra) && style == LayoutOf(old(style))
    {
      justify := NormalizeJustify(v);
      ApplyLayout();
    }

    method SetWrap(v: Value)
      modifies this
      ensures wrap == IsTrue(v)
      ensures direction == old(direction) && gap == old(gap) && align == old(align)
      ensures justify == old(justify) && grow == old(grow) && extra == old(extra)
      ensures cls == StackClass(direction, old(cls), extra) && style == LayoutOf(old(style))
    {
      wrap := IsTrue(v);
      ApplyLayout();
    }

    method SetGrow(v: Value)
      modifies this
      ensures grow == IsTrue(v)
      ensures direction == old(direction) && gap == old(gap) && align == old(align)
      ensures justify == old(justify) && wrap == old(wrap) && extra == old(extra)
      ensures cls == StackClass(direction, old(cls), extra) && style == LayoutOf(old(style))
    {
      grow := IsTrue(v);
      ApplyLayout();
    }
  }

  /** A layout pass discards what an earlier pass produced: with the same
      `_class` extras, the class and style after two passes are those of the
      last pass alone. So a second pass with unchanged fields changes nothing,
      and no stale direction modifier or declaration is left behind. The
      extras must not themselves name one of the widget's own tokens (an extra
      "xstack--v" on a horizontal stack would be moved behind the caller's
      classes on the next pass). */
  lemma LayoutOverrides(d1: Direction, d2: Direction, cls: string, extra: string, style: string,
                        ps1: seq<(string, string)>, ps2: seq<(string, string)>)
    requires forall x | x in Words(extra) :: x !in OwnTokens
    requires Owned(ps1, Managed)
    ensures StackClass(d2, StackClass(d1, cls, extra), extra) == StackClass(d2, cls, extra)
    ensures Layout(Layout(style, ps1, Managed), ps2, Managed) == Layout(style, ps2, Managed)
  {
    WordsTokens(extra);
    LeadTokens(d1);
    LeadTokens(d2);
    ClassNameStable(["xstack", DirToken(d1)], ["xstack", DirToken(d2)], cls, OwnTokens, Words(extra));
    LayoutOverride(style, ps1, ps2, Managed);
  }

  /** The declarations of the laid-out style: the caller's surviving ones,
      none of them a managed property, then the widget's own in order. */
  lemma LayoutDeclarations(style: string, gap: Option<int>, align: Align, justify: Justify, wrap: bool, grow: bool)
    ensures var ps := OwnPairs(gap, align, justify, wrap, grow);
      Pieces(Layout(style, ps, Managed)) == Kept(style, Managed) + Decls(ps)
    ensures forall i | 0 <= i < |Kept(style, Managed)| :: PropOf(Kept(style, Managed)[i]) !in Managed
  {
    OwnPairsOwned(gap, align, justify, wrap, grow);
    LayoutPieces(style, OwnPairs(gap, align, justify, wrap, grow), Managed);
  }
}

=== FILE: styles.dfy ===
/** The inline-style handling every layout widget shares: `stripManagedStyles`
    (parse a `prop:value; …` string, drop the declarations the widget manages,
    re-join the rest with "; ") and the `styleParts` assembly of `applyLayout`
    (the stripped caller style first, then the widget's own declarations). One
    definition over a managed-property set serves every widget. */
module Styles {
  import opened Text
  import opened Values

  /** `style.split(";").map(trim).filter(Boolean)`. */
  function Pieces(style: string): (r: seq<string>)
    ensures forall i | 0 <= i < |r| :: r[i] != [] && Trimmed(r[i]) && ';' !in r[i]
  {
    var sp := Split(style, ';');
    var t := TrimAll(sp);
    var r := Without(t, {""});
    WithoutMembers(t, {""});
    assert forall i | 0 <= i < |r| :: r[i] != [] && Trimmed(r[i]) && ';' !in r[i] by {
      forall i | 0 <= i < |r| ensures r[i] != [] && Trimmed(r[i]) && ';' !in r[i] {
        assert r[i] in r;
        var j :| 0 <= j < |t| && t[j] == r[i];
        assert ';' !in sp[j];
        TrimIn(sp[j], ';');
      }
    }
    r
  }

  function TrimAll(xs: seq<string>): (r: seq<string>)
    ensures |r| == |xs|
    ensures forall i | 0 <= i < |xs| :: r[i] == Trim(xs[i])
  {
    seq(|xs|, i requires 0 <= i < |xs| => Trim(xs[i]))
  }

  /** A property name as the widget writes it back: non-empty, trimmed,
      lower-case, and free of ':' and ';'. */
  predicate PropName(p: string) {
    p != [] && Trimmed(p) && NoUpper(p) && ':' !in p && ';' !in p
  }

  /** A value as the widget writes it back: non-empty, trimmed, free of ';'. */
  predicate PropValue(v: string) {
    v != [] && Trimmed(v) && ';' !in v
  }

  /** A pixel length is a valid value. */
  lemma PxValue(n: int)
    ensures PropValue(Px(n))
  {
    var r := Px(n);
    assert ';' !in r;
  }

  /** `${prop}:${val}`. */
  function Decl(p: string, v: string): string {
    p + ":" + v
  }

  /** The property of a declaration: the text before its first ':'. */
  function PropOf(d: string): string {
    var k := IndexOf(d, ':');
    if k < 0 then d else d[..k]
  }

  /** A declaration in the normal form `stripManagedStyles` emits. */
  predicate Clean(d: string) {
    var k := IndexOf(d, ':');
    k >= 0 && PropName(d[..k]) && PropValue(d[k + 1..])
  }

  /** A declaration built from a normal property and value is clean, and its
      property reads back. */
  lemma DeclClean(p: string, v: string)
    requires PropName(p) && PropValue(v)
    ensures Clean(Decl(p, v)) && PropOf(Decl(p, v)) == p
  {
    IndexOfAfterPrefix(p, ':', v);
    var d := Decl(p, v);
    assert d[..|p|] == p;
    assert d[|p| + 1..] == v;
  }

  /** A declaration built from a normal property and value is clean, free of
      ';', and its property reads back. */
  lemma DeclOk(p: string, v: string)
    requires PropName(p) && PropValue(v)
    ensures Clean(Decl(p, v)) && ';' !in Decl(p, v) && PropOf(Decl(p, v)) == p
  {
    DeclClean(p, v);
    CleanNoSemi(Decl(p, v));
  }

  /** The declarations for a list of (property, value) pairs. */
  function Decls(ps: seq<(string, string)>): (r: seq<string>)
    ensures |r| == |ps|
    ensures forall i | 0 <= i < |ps| :: r[i] == Decl(ps[i].0, ps[i].1)
  {
    seq(|ps|, i requires 0 <= i < |ps| => Decl(ps[i].0, ps[i].1))
  }

  /** Pairs a widget may emit: normal properties it manages, normal values. */
  predicate Owned(ps: seq<(string, string)>, managed: set<string>) {
    forall i | 0 <= i < |ps| :: PropName(ps[i].0) && ps[i].0 in managed && PropValue(ps[i].1)
  }

  /** What a widget emits from owned pairs is stripped again on the next pass. */
  lemma DeclsOwned(ps: seq<(string, string)>, managed: set<string>)
    requires Owned(ps, managed)
    ensures forall i | 0 <= i < |Decls(ps)| ::
      Clean(Decls(ps)[i]) && ';' !in Decls(ps)[i] && PropOf(Decls(ps)[i]) in managed
  {
    forall i | 0 <= i < |ps|
      ensures Clean(Decls(ps)[i]) && ';' !in Decls(ps)[i] && PropOf(Decls(ps)[i]) in managed
    {
      DeclOk(ps[i].0, ps[i].1);
    }
  }

  /** The fate of one trimmed part in the loop of `stripManagedStyles`: dropped
      when it has no ':' or an empty property or value, or when its
      lower-cased property is managed; otherwise re-emitted as `prop:value`. */
  function KeepOne(part: string, managed: set<string>): Option<string>
  {
    var idx := IndexOf(part, ':');
    if idx == -1 then None
    else
      var prop := Lower(Trim(part[..idx]));
      var val := Trim(part[idx + 1..]);
      if prop == "" || val == "" || prop in managed then None
      else Some(prop + ":" + val)
  }

  /** Whatever survives is a clean declaration of an unmanaged property. */
  lemma KeepOneSound(part: string, managed: set<string>)
    requires ';' !in part
    ensures KeepOne(part, managed).Some? ==>
      Clean(KeepOne(part, managed).value) && PropOf(KeepOne(part, managed).value) !in managed
  {
    var idx := IndexOf(part, ':');
    if idx != -1 && KeepOne(part, managed).Some? {
      KeptClean(part, idx, managed);
    }
  }

  lemma KeptClean(part: string, idx: int, managed: set<string>)
    requires 0 <= idx < |part| && ':' !in part[..idx] && ';' !in part
    requires Lower(Trim(part[..idx])) != "" && Trim(part[idx + 1..]) != ""
    requires Lower(Trim(part[..idx])) !in managed
    ensures Clean(Lower(Trim(part[..idx])) + ":" + Trim(part[idx + 1..]))
    ensures PropOf(Lower(Trim(part[..idx])) + ":" + Trim(part[idx + 1..])) !in managed
  {
    var raw := Trim(part[..idx]);
    var prop := Lower(raw);
    var val := Trim(part[idx + 1..]);
    TrimIn(part[..idx], ':');
    TrimIn(part[..idx], ';');
    TrimIn(part[idx + 1..], ';');
    assert ';' !in part[..idx] && ';' !in part[idx + 1..];
    LowerKeeps(raw, ':');
    LowerKeeps(raw, ';');
    LowerTrimmed(raw);
    DeclClean(prop, val);
  }

  /** Lower-casing does not produce ':' or ';'. */
  lemma LowerKeeps(s: string, c: char)
    requires !('A' <= c <= 'Z') && !('a' <= c <= 'z')
    ensures c in Lower(s) ==> c in s
  {
    if c in Lower(s) {
      var i :| 0 <= i < |s| && Lower(s)[i] == c;
      assert s[i] == c;
    }
  }

  /** Lower-casing keeps a trimmed string trimmed. */
  lemma LowerTrimmed(s: string)
    requires Trimmed(s)
    ensures Trimmed(Lower(s))
  {
  }

  /** The declarations the loop keeps, in the order of the parts. */
  function KeptDecls(parts: seq<string>, managed: set<string>): (r: seq<string>)
    ensures |r| <= |parts|
  {
    if parts == [] then []
    else
      KeptDecls(parts[..|parts| - 1], managed) + OptSeq(KeepOne(parts[|parts| - 1], managed))
  }

  /** The kept declaration of one part, as a list of zero or one items. */
  function OptSeq(o: Option<string>): seq<string> {
    if o.Some? then [o.value] else []
  }

  /** Keeping one more part appends that part's fate. */
  lemma KeptSnoc(xs: seq<string>, x: string, managed: set<string>)
    ensures KeptDecls(xs + [x], managed) == KeptDecls(xs, managed) + OptSeq(KeepOne(x, managed))
  {
    assert (xs + [x])[..|xs|] == xs;
  }

  /** Every survivor is a clean declaration (lower-case trimmed property,
      trimmed non-empty value) whose property is not managed. */
  lemma {:induction false} KeptSound(parts: seq<string>, managed: set<string>)
    requires forall i | 0 <= i < |parts| :: ';' !in parts[i]
    ensures forall i | 0 <= i < |KeptDecls(parts, managed)| ::
      Clean(KeptDecls(parts, managed)[i]) && PropOf(KeptDecls(parts, managed)[i]) !in managed
    decreases |parts|
  {
    if parts != [] {
      KeptSound(parts[..|parts| - 1], managed);
      KeepOneSound(parts[|parts| - 1], managed);
    }
  }

  /** The declarations `stripManagedStyles` keeps from a style string. */
  function Kept(style: string, managed: set<string>): seq<string> {
    if style == "" then [] else KeptDecls(Pieces(style), managed)
  }

  /** The function `stripManagedStyles` computes. */
  function StripSpec(style: string, managed: set<string>): string {
    Join(Kept(style, managed), "; ")
  }

  /** `stripManagedStyles(style)`, as the loop over the parts. */
  method StripManagedStyles(style: string, managed: set<string>) returns (r: string)
    ensures r == StripSpec(style, managed)
  {
    if style == "" {
      return "";
    }
    var parts := Pieces(style);
    var kept: seq<string> := [];
    var i := 0;
    while i < |parts|
      invariant 0 <= i <= |parts|
      invariant kept == KeptDecls(parts[..i], managed)
    {
      var keep, decl := KeepPart(parts[i], managed);
      if keep {
        KeptStep(parts, i, managed, Some(decl));
        kept := kept + [decl];
      } else {
        KeptStep(parts, i, managed, None);
      }
      i := i + 1;
    }
    assert parts[..i] == parts;
    r := Join(kept, "; ");
  }

  /** The body of the loop for one part. */
  method KeepPart(part: string, managed: set<string>) returns (keep: bool, decl: string)
    ensures KeepOne(part, managed) == if keep then Some(decl) else None
  {
    keep, decl := false, "";
    var idx := IndexOf(part, ':');
    if idx != -1 {
      var prop := Lower(Trim(part[..idx]));
      var val := Trim(part[idx + 1..]);
      if prop != "" && val != "" && prop !in managed {
        keep, decl := true, prop + ":" + val;
      }
    }
  }

  lemma KeptStep(parts: seq<string>, i: int, managed: set<string>, d: Option<string>)
    requires 0 <= i < |parts| && d == KeepOne(parts[i], managed)
    ensures KeptDecls(parts[..i + 1], managed) == KeptDecls(parts[..i], managed) + OptSeq(d)
  {
    assert parts[..i + 1] == parts[..i] + [parts[i]];
    KeptSnoc(parts[..i], parts[i], managed);
  }

  /** Keeping distributes over concatenation of parts. */
  lemma {:induction false} KeptAppend(xs: seq<string>, ys: seq<string>, managed: set<string>)
    ensures KeptDecls(xs + ys, managed) == KeptDecls(xs, managed) + KeptDecls(ys, managed)
    decreases |ys|
  {
    if ys == [] {
      assert xs + ys == xs;
    } else {
      var ys' := ys[..|ys| - 1];
      var y := ys[|ys| - 1];
      assert ys == ys' + [y];
      KeptAppend(xs, ys', managed);
      KeptAppendStep(xs, ys', y, managed);
    }
  }

  lemma KeptAppendStep(xs: seq<string>, ys: seq<string>, y: string, managed: set<string>)
    requires KeptDecls(xs + ys, managed) == KeptDecls(xs, managed) + KeptDecls(ys, managed)
    ensures KeptDecls(xs + (ys + [y]), managed) == KeptDecls(xs, managed) + KeptDecls(ys + [y], managed)
  {
    var o := OptSeq(KeepOne(y, managed));
    assert KeptDecls(xs + (ys + [y]), managed) == KeptDecls(xs + ys, managed) + o by {
      SnocAssoc(xs, ys, y);
      KeptSnoc(xs + ys, y, managed);
    }
    assert KeptDecls(ys + [y], managed) == KeptDecls(ys, managed) + o by {
      KeptSnoc(ys, y, managed);
    }
    Assoc(KeptDecls(xs, managed), KeptDecls(ys, managed), o);
  }

  /** A declaration built from a normal property and value passes the loop
      unchanged exactly when its property is not managed. */
  lemma KeepOneDecl(p: string, v: string, managed: set<string>)
    requires PropName(p) && PropValue(v)
    ensures KeepOne(p + ":" + v, managed) == if p in managed then None else Some(p + ":" + v)
  {
    var d := p + ":" + v;
    IndexOfAfterPrefix(p, ':', v);
    assert d[..|p|] == p;
    assert d[|p| + 1..] == v;
    TrimOfTrimmed(p);
    TrimOfTrimmed(v);
    LowerOfLower(p);
  }

  /** A clean declaration passes the loop unchanged exactly when its property
      is not managed. */
  lemma KeepOneClean(d: string, managed: set<string>)
    requires Clean(d)
    ensures KeepOne(d, managed) == if PropOf(d) in managed then None else Some(d)
  {
    var k := IndexOf(d, ':');
    var p := d[..k];
    var v := d[k + 1..];
    assert d == p + ":" + v;
    KeepOneDecl(p, v, managed);
  }

  /** Clean, unmanaged declarations all survive. */
  lemma {:induction false} KeptAllUnmanaged(xs: seq<string>, managed: set<string>)
    requires forall i | 0 <= i < |xs| :: Clean(xs[i]) && ';' !in xs[i] && PropOf(xs[i]) !in managed
    ensures KeptDecls(xs, managed) == xs
    decreases |xs|
  {
    if xs != [] {
      var xs' := xs[..|xs| - 1];
      var x := xs[|xs| - 1];
      assert xs == xs' + [x];
      KeptAllUnmanaged(xs', managed);
      KeepOneClean(x, managed);
      KeptSnoc(xs', x, managed);
    }
  }

  /** Clean declarations of managed properties never survive. */
  lemma {:induction false} KeptNoneManaged(xs: seq<string>, managed: set<string>)
    requires forall i | 0 <= i < |xs| :: Clean(xs[i]) && ';' !in xs[i] && PropOf(xs[i]) in managed
    ensures KeptDecls(xs, managed) == []
    decreases |xs|
  {
    if xs != [] {
      var xs' := xs[..|xs| - 1];
      var x := xs[|xs| - 1];
      assert xs == xs' + [x];
      KeptNoneManaged(xs', managed);
      KeepOneClean(x, managed);
      KeptSnoc(xs', x, managed);
    }
  }

  /** Splitting a "; "-joined list of clean declarations recovers the list. */
  lemma PiecesJoin(xs: seq<string>)
    requires forall i | 0 <= i < |xs| :: Clean(xs[i]) && ';' !in xs[i]
    ensures Pieces(Join(xs, "; ")) == xs
  {
    if xs == [] {
      PiecesEmpty();
    } else {
      forall i | 0 <= i < |xs| ensures xs[i] != [] && Trimmed(xs[i]) {
        CleanTrimmed(xs[i]);
      }
      PiecesJoinTrimmed(xs);
    }
  }

  lemma PiecesEmpty()
    ensures Pieces("") == []
  {
    assert Split("", ';') == [""];
    assert TrimAll([""]) == [""];
    assert Without([""], {""}) == [];
  }

  lemma PiecesJoinTrimmed(xs: seq<string>)
    requires |xs| >= 1
    requires forall i | 0 <= i < |xs| :: xs[i] != [] && Trimmed(xs[i]) && ';' !in xs[i]
    ensures Pieces(Join(xs, "; ")) == xs
  {
    TrimSplitJoin(xs);
    WithoutNone(xs, {""});
  }

  /** The trimmed pieces of a "; "-joined list of trimmed items are the items. */
  lemma TrimSplitJoin(xs: seq<string>)
    requires |xs| >= 1
    requires forall i | 0 <= i < |xs| :: xs[i] != [] && Trimmed(xs[i]) && ';' !in xs[i]
    ensures TrimAll(Split(Join(xs, "; "), ';')) == xs
  {
    SplitJoinSemi(xs);
    TrimPieces(Split(Join(xs, "; "), ';'), xs);
  }

  lemma TrimPieces(sp: seq<string>, xs: seq<string>)
    requires |sp| == |xs| >= 1
    requires forall i | 0 <= i < |xs| :: Trimmed(xs[i])
    requires sp[0] == "" + xs[0]
    requires forall i | 1 <= i < |xs| :: sp[i] == " " + xs[i]
    ensures TrimAll(sp) == xs
  {
    var t := TrimAll(sp);
    forall i | 0 <= i < |xs| ensures t[i] == xs[i] {
      TrimPiece(sp, xs, i);
    }
  }

  lemma SplitJoinSemi(xs: seq<string>)
    requires |xs| >= 1
    requires forall i | 0 <= i < |xs| :: ';' !in xs[i]
    ensures |Split(Join(xs, "; "), ';')| == |xs|
    ensures Split(Join(xs, "; "), ';')[0] == "" + xs[0]
    ensures forall i | 1 <= i < |xs| :: Split(Join(xs, "; "), ';')[i] == " " + xs[i]
  {
    assert "; " == [';'] + " ";
    SplitJoin("", xs, ';', " ");
    assert "" + Join(xs, "; ") == Join(xs, "; ");
  }

  lemma TrimPiece(sp: seq<string>, xs: seq<string>, i: int)
    requires |sp| == |xs| && 0 <= i < |xs|
    requires Trimmed(xs[i])
    requires sp[0] == "" + xs[0]
    requires i >= 1 ==> sp[i] == " " + xs[i]
    ensures Trim(sp[i]) == xs[i]
  {
    TrimOfTrimmed(xs[i]);
    if i == 0 {
      assert sp[0] == xs[0];
    } else {
      TrimLeadingSpace(' ', xs[i]);
    }
  }

  lemma CleanTrimmed(d: string)
    requires Clean(d)
    ensures d != [] && Trimmed(d)
  {
    var k := IndexOf(d, ':');
    assert d == d[..k] + ":" + d[k + 1..];
    assert d[0] == d[..k][0];
    assert d[|d| - 1] == d[k + 1..][|d[k + 1..]| - 1];
  }

  /** The `styleParts` of `applyLayout`: the stripped caller style when it is
      non-empty, then the widget's own declarations, joined by "; ". */
  function LayoutStyle(base: string, own: seq<string>): (r: string)
  {
    Join((if base != "" then [base] else []) + own, "; ")
  }

  /** A layout style is the "; "-join of the kept caller declarations followed by
      the widget's own. */
  lemma LayoutStyleJoin(kept: seq<string>, own: seq<string>)
    requires forall i | 0 <= i < |kept| :: Clean(kept[i])
    ensures LayoutStyle(Join(kept, "; "), own) == Join(kept + own, "; ")
  {
    forall i | 0 <= i < |kept| ensures kept[i] != [] {
      CleanTrimmed(kept[i]);
    }
    JoinEmpty(kept, "; ");
    if kept == [] {
      assert kept + own == own;
    } else if own == [] {
      assert kept + own == kept;
      assert [Join(kept, "; ")] + own == [Join(kept, "; ")];
    } else {
      JoinAppend(kept, own, "; ");
      JoinAppend([Join(kept, "; ")], own, "; ");
    }
  }

  /** What survives stripping is clean, free of ';' and unmanaged. */
  lemma KeptOfStyle(style: string, managed: set<string>)
    ensures forall i | 0 <= i < |Kept(style, managed)| ::
      Clean(Kept(style, managed)[i]) && ';' !in Kept(style, managed)[i]
      && PropOf(Kept(style, managed)[i]) !in managed
  {
    if style != "" {
      KeptSound(Pieces(style), managed);
      forall i | 0 <= i < |Kept(style, managed)| ensures ';' !in Kept(style, managed)[i] {
        CleanNoSemi(Kept(style, managed)[i]);
      }
    }
  }

  /** Stripping a "; "-joined list of clean declarations keeps what the loop
      keeps of the list itself. */
  lemma KeptOfJoin(xs: seq<string>, managed: set<string>)
    requires forall i | 0 <= i < |xs| :: Clean(xs[i]) && ';' !in xs[i]
    ensures Kept(Join(xs, "; "), managed) == KeptDecls(xs, managed)
  {
    forall i | 0 <= i < |xs| ensures xs[i] != [] {
      CleanTrimmed(xs[i]);
    }
    JoinEmpty(xs, "; ");
    if xs != [] {
      PiecesJoin(xs);
    }
  }

  /** The caller's surviving declarations pass again, the widget's own do not. */
  lemma KeptOwn(kept: seq<string>, own: seq<string>, managed: set<string>)
    requires forall i | 0 <= i < |kept| :: Clean(kept[i]) && ';' !in kept[i] && PropOf(kept[i]) !in managed
    requires forall i | 0 <= i < |own| :: Clean(own[i]) && ';' !in own[i] && PropOf(own[i]) in managed
    ensures KeptDecls(kept + own, managed) == kept
  {
    KeptAppend(kept, own, managed);
    KeptAllUnmanaged(kept, managed);
    KeptNoneManaged(own, managed);
    assert kept + [] == kept;
  }

  /** Stripping a style the widget itself produced gives back exactly the
      caller's surviving declarations: the widget's own declarations are all
      managed and disappear, the kept ones pass through unchanged. Running the
      layout again therefore reproduces the same style. */
  lemma StripOwnLayout(style: string, own: seq<string>, managed: set<string>)
    requires forall i | 0 <= i < |own| :: Clean(own[i]) && ';' !in own[i] && PropOf(own[i]) in managed
    ensures StripSpec(LayoutStyle(StripSpec(style, managed), own), managed) == StripSpec(style, managed)
    ensures LayoutStyle(StripSpec(LayoutStyle(StripSpec(style, managed), own), managed), own)
         == LayoutStyle(StripSpec(style, managed), own)
  {
    var kept := Kept(style, managed);
    KeptOfStyle(style, managed);
    LayoutStyleJoin(kept, own);
    KeptOfJoin(kept + own, managed);
    KeptOwn(kept, own, managed);
  }

  lemma CleanNoSemi(d: string)
    requires Clean(d)
    ensures ';' !in d
  {
    var k := IndexOf(d, ':');
    assert d == d[..k] + ":" + d[k + 1..];
  }

  /** Stripping is idempotent. */
  lemma StripIdempotent(style: string, managed: set<string>)
    ensures StripSpec(StripSpec(style, managed), managed) == StripSpec(style, managed)
  {
    var kept := Kept(style, managed);
    KeptOfStyle(style, managed);
    KeptOfJoin(kept, managed);
    KeptAllUnmanaged(kept, managed);
  }

  /** A widget's layout pass: the caller's style stripped of the managed
      properties, then the widget's own (property, value) pairs. */
  function Layout(style: string, ps: seq<(string, string)>, managed: set<string>): string {
    LayoutStyle(StripSpec(style, managed), Decls(ps))
  }

  /** Owned pairs are closed under concatenation... */
  lemma OwnedAppend(a: seq<(string, string)>, b: seq<(string, string)>, managed: set<string>)
    requires Owned(a, managed) && Owned(b, managed)
    ensures Owned(a + b, managed)
  {
    forall i | 0 <= i < |a + b|
      ensures PropName((a + b)[i].0) && (a + b)[i].0 in managed && PropValue((a + b)[i].1)
    {
      if i >= |a| {
        assert (a + b)[i] == b[i - |a|];
      }
    }
  }

  /** ...and a single pair is owned when its property is a managed name. */
  lemma OwnedOne(p: string, v: string, managed: set<string>)
    requires PropName(p) && p in managed && PropValue(v)
    ensures Owned([(p, v)], managed)
  {
  }

  /** The declarations of concatenated pair lists are concatenated. */
  lemma DeclsAppend(a: seq<(string, string)>, b: seq<(string, string)>)
    ensures Decls(a + b) == Decls(a) + Decls(b)
  {
  }

  /** A layout pass undoes the previous one: laying out a style the widget
      itself produced gives what laying out the original caller style would,
      whatever pairs either pass used. In particular a second pass with the
      same pairs changes nothing. */
  lemma LayoutOverride(style: string, ps1: seq<(string, string)>, ps2: seq<(string, string)>, managed: set<string>)
    requires Owned(ps1, managed)
    ensures Layout(Layout(style, ps1, managed), ps2, managed) == Layout(style, ps2, managed)
  {
    DeclsOwned(ps1, managed);
    StripOwnLayout(style, Decls(ps1), managed);
  }

  /** Layout passes run one after another, each with its own pairs, as a
      widget's setters run them while its configuration is parsed. */
  function Passes(style: string, passes: seq<seq<(string, string)>>, managed: set<string>): string
    decreases |passes|
  {
    if passes == [] then style else Passes(Layout(style, passes[0], managed), passes[1..], managed)
  }

  /** However many passes with owned pairs ran before, the next pass gives
      what that pass alone gives on the caller's style. */
  lemma {:induction false} PassesCollapse(style: string, passes: seq<seq<(string, string)>>, last: seq<(string, string)>, managed: set<string>)
    requires forall i | 0 <= i < |passes| :: Owned(passes[i], managed)
    ensures Layout(Passes(style, passes, managed), last, managed) == Layout(style, last, managed)
    decreases |passes|
  {
    if passes != [] {
      PassesCollapse(Layout(style, passes[0], managed), passes[1..], last, managed);
      LayoutOverride(style, passes[0], last, managed);
    }
  }

  /** The declarations of a laid-out style are the caller's surviving
      declarations, none of a managed property, followed by the widget's own in
      the order of the pairs. */
  lemma LayoutPieces(style: string, ps: seq<(string, string)>, managed: set<string>)
    requires Owned(ps, managed)
    ensures Pieces(Layout(style, ps, managed)) == Kept(style, managed) + Decls(ps)
    ensures forall i | 0 <= i < |Kept(style, managed)| :: PropOf(Kept(style, managed)[i]) !in managed
  {
    var kept := Kept(style, managed);
    var own := Decls(ps);
    DeclsOwned(ps, managed);
    KeptOfStyle(style, managed);
    LayoutStyleJoin(kept, own);
    assert forall i | 0 <= i < |kept + own| :: Clean((kept + own)[i]) && ';' !in (kept + own)[i] by {
      forall i | 0 <= i < |kept + own| ensures Clean((kept + own)[i]) && ';' !in (kept + own)[i] {
        if i >= |kept| {
          assert (kept + own)[i] == own[i - |kept|];
        }
      }
    }
    PiecesJoin(kept + own);
  }

  /** Every clean caller declaration whose property is not managed survives. */
  lemma {:induction false} KeptKeepsUnmanaged(parts: seq<string>, managed: set<string>, i: int)
    requires forall j | 0 <= j < |parts| :: ';' !in parts[j]
    requires 0 <= i < |parts| && Clean(parts[i]) && PropOf(parts[i]) !in managed
    ensures parts[i] in KeptDecls(parts, managed)
    decreases |parts|
  {
    if i == |parts| - 1 {
      KeepOneClean(parts[i], managed);
    } else {
      KeptKeepsUnmanaged(parts[..|parts| - 1], managed, i);
    }
  }

  /** `if (v) styleParts.push(`${prop}:${v}`)` for a value stored as given:
      one declaration with the value's text when it is truthy, none otherwise. */
  function IfSet(prop: string, v: Value): seq<(string, string)> {
    if Truthy(v) then [(prop, ToStr(v))] else []
  }

  /** A stored value whose text can be written back as a declaration value. */
  predicate CleanValue(v: Value) {
    Truthy(v) ==> PropValue(ToStr(v))
  }

  lemma IfSetOwned(prop: string, v: Value, managed: set<string>)
    requires PropName(prop) && prop in managed && CleanValue(v)
    ensures Owned(IfSet(prop, v), managed)
  {
  }

  /** `${n}px` for any JavaScript number, the non-finite ones included. */
  function NumPx(n: Num): (r: string)
    ensures n.Fin? ==> r == Px(n.v)
  {
    ToStr(Number(n)) + "px"
  }

  lemma NumPxValue(n: Num)
    ensures PropValue(NumPx(n))
  {
    match n
    case Fin(k) => PxValue(k);
    case NaN => assert NumPx(n) == "NaNpx";
    case PosInf => assert NumPx(n) == "Infinitypx";
    case NegInf => assert NumPx(n) == "-Infinitypx";
  }
}

=== FILE: table.dfy ===
/** XTable: a data table. The header row has one cell per column; the body
    has one row per data row, each with one cell per column, or a single
    "empty" row when there is no data. Rows come from the `_rows` array or
    from a key of the host's data store, and `onData` replaces them.

    The host's data store (`_xd._o`) is a parameter; a column's `render`
    function is opaque and is called through the `Renderer` parameter. */
module Table {
  import opened Text
  import opened Values
  import opened Classes

  datatype Align = Start | Center | End

  /** What a column's `render` function returns: a host widget instance, or
      any other value. */
  datatype Output = Instance(ref: nat) | Returned(v: Value)

  /** `col.render(value, row, index)`, given the render function itself. */
  type Renderer = (Value, Value, Value, nat) -> Output

  /** What a cell shows: a text, an appended widget instance, or a widget
      created from a node description. */
  datatype Content = CellText(t: string) | CellWidget(ref: nat) | CellCreated(desc: Value)

  datatype HeadCell = HeadCell(cls: string, style: Option<string>, text: Value)
  datatype Cell = Cell(cls: string, style: Option<string>, colspan: Option<string>, content: Content)
  datatype Row = Row(cls: string, dataKey: Option<string>, cells: seq<Cell>)

  const AllMods: set<string> := {"xtable--dense", "xtable--striped", "xtable--hover", "xtable--bordered"}
  const DefaultEmptyText: string := "No data"

  /** `normalizeAlign`: the three alignments or none. */
  function NormalizeAlign(v: Value): (r: Option<Align>)
    ensures r == Some(Start) <==> v == Str("start")
    ensures r == Some(Center) <==> v == Str("center")
    ensures r == Some(End) <==> v == Str("end")
  {
    if v == Str("start") then Some(Start)
    else if v == Str("center") then Some(Center)
    else if v == Str("end") then Some(End)
    else None
  }

  /** `mapAlign`: start is left, end is right, center stays. */
  function MapAlign(a: Option<Align>): (r: Option<string>)
    ensures r.None? <==> a.None?
  {
    match a
    case None => None
    case Some(Start) => Some("left")
    case Some(End) => Some("right")
    case Some(Center) => Some("center")
  }

  /** The text-align a column asks for, from its raw `align`. */
  lemma AlignText(v: Value)
    ensures MapAlign(NormalizeAlign(v)) == Some("left") <==> v == Str("start")
    ensures MapAlign(NormalizeAlign(v)) == Some("right") <==> v == Str("end")
    ensures MapAlign(NormalizeAlign(v)) == Some("center") <==> v == Str("center")
    ensures MapAlign(NormalizeAlign(v)).None? <==> v !in {Str("start"), Str("center"), Str("end")}
  {
  }

  /** The `width:` and `text-align:` parts of a column's cell style. */
  function StyleParts(col: Value): seq<string> {
    var w := Field(col, "width");
    var a := MapAlign(NormalizeAlign(Field(col, "align")));
    (if Truthy(w) then ["width:" + ToStr(w)] else []) + (if a.Some? then ["text-align:" + a.value] else [])
  }

  /** The style of a column's header and body cells: the parts joined by
      "; ", left out when empty. */
  function ColStyle(col: Value): Option<string> {
    var s := Join(StyleParts(col), "; ");
    if s != "" then Some(s) else None
  }

  /** The style is absent exactly when the column has neither a width nor an
      alignment; otherwise it is the width, then the alignment. */
  lemma ColStyleShape(col: Value)
    ensures var w := Field(col, "width");
      var a := MapAlign(NormalizeAlign(Field(col, "align")));
      && (ColStyle(col).None? <==> !Truthy(w) && a.None?)
      && (Truthy(w) && a.Some? ==> ColStyle(col) == Some("width:" + ToStr(w) + "; text-align:" + a.value))
      && (Truthy(w) && a.None? ==> ColStyle(col) == Some("width:" + ToStr(w)))
      && (!Truthy(w) && a.Some? ==> ColStyle(col) == Some("text-align:" + a.value))
  {
    var w := Field(col, "width");
    var a := MapAlign(NormalizeAlign(Field(col, "align")));
    if Truthy(w) && a.Some? {
      var ps := StyleParts(col);
      assert ps == ["width:" + ToStr(w), "text-align:" + a.value];
      assert ps[1..] == ["text-align:" + a.value];
      JoinUnfold(ps, "; ");
      assert "; text-align:" == "; " + "text-align:";
      Assoc4("width:" + ToStr(w), "; ", "text-align:", a.value);
    } else if Truthy(w) {
      assert StyleParts(col) == ["width:" + ToStr(w)];
    } else if a.Some? {
      assert StyleParts(col) == ["text-align:" + a.value];
    } else {
      assert StyleParts(col) == [];
    }
  }

  lemma Assoc4(p: string, q: string, r: string, t: string)
    ensures p + q + (r + t) == p + (q + r) + t
  {
  }

  /** A cell's class: the base, then the column's `class` when set. */
  function ColClass(base: string, col: Value): string {
    var c := Field(col, "class");
    base + (if Truthy(c) then " " + ToStr(c) else "")
  }

  /** The header cell of a column: its label, or its key when the label is
      not set. */
  function HeadOf(col: Value): (r: HeadCell)
    ensures Truthy(Field(col, "label")) ==> r.text == Field(col, "label")
    ensures !Truthy(Field(col, "label")) ==> r.text == Field(col, "key")
    ensures r.style == ColStyle(col)
  {
    var caption := Field(col, "label");
    HeadCell(ColClass("xtable__th", col), ColStyle(col), if Truthy(caption) then caption else Field(col, "key"))
  }

  /** `isXObjectData`: an object whose `_type` is a string. */
  predicate IsNodeData(v: Value) {
    v.Obj? && Field(v, "_type").Str?
  }

  /** `appendCellContent`: a widget instance is appended, a node description
      is created and appended, anything else becomes text. */
  function ContentOf(out: Output): (r: Content)
    ensures r.CellText? <==> out.Returned? && !IsNodeData(out.v)
    ensures r.CellText? ==> r.t == TextOrEmpty(out.v)
  {
    match out
    case Instance(ref) => CellWidget(ref)
    case Returned(v) => if IsNodeData(v) then CellCreated(v) else CellText(TextOrEmpty(v))
  }

  /** `row ? row[col.key] : undefined`. */
  function CellValue(col: Value, row: Value): Value {
    if Truthy(row) then Index(row, ToStr(Field(col, "key"))) else Undef
  }

  /** The body cell for one column of one row. */
  function CellAt(col: Value, row: Value, index: nat, call: Renderer): (r: Cell)
    ensures !Truthy(Field(col, "render")) ==> r.content == CellText(TextOrEmpty(CellValue(col, row)))
    ensures Truthy(Field(col, "render")) ==> r.content == ContentOf(call(Field(col, "render"), CellValue(col, row), row, index))
    ensures r.style == ColStyle(col) && r.colspan.None?
  {
    var render := Field(col, "render");
    var content := if Truthy(render) then ContentOf(call(render, CellValue(col, row), row, index))
                   else CellText(TextOrEmpty(CellValue(col, row)));
    Cell(ColClass("xtable__td", col), ColStyle(col), None, content)
  }

  /** A row given as an array shows, in a column keyed by a position, the
      element at that position. */
  lemma CellOfArrayRow(col: Value, ref: nat, items: seq<Value>, k: nat, index: nat, call: Renderer)
    requires Field(col, "key") == Str(NatText(k)) && k < |items| && !Truthy(Field(col, "render"))
    ensures CellAt(col, Arr(ref, items), index, call).content == CellText(TextOrEmpty(items[k]))
  {
    IndexAt(Arr(ref, items), k);
  }

  /** The `data-key` of a row: set when the row key is set and the row's
      value under it is neither null nor undefined. */
  function DataKey(rowKey: Value, row: Value): (r: Option<string>)
    ensures r.Some? <==> Truthy(rowKey) && Truthy(row) && !Nullish(Index(row, ToStr(rowKey)))
  {
    if Truthy(rowKey) && Truthy(row) && !Nullish(Index(row, ToStr(rowKey))) then Some(ToStr(Index(row, ToStr(rowKey))))
    else None
  }

  function Cells(cols: seq<Value>, row: Value, index: nat, call: Renderer): seq<Cell> {
    seq(|cols|, j requires 0 <= j < |cols| => CellAt(cols[j], row, index, call))
  }

  function RowAt(cols: seq<Value>, row: Value, index: nat, rowKey: Value, call: Renderer): Row {
    Row("xtable__row", DataKey(rowKey, row), Cells(cols, row, index, call))
  }

  /** The single row shown when there is no data. */
  function EmptyRow(columns: nat, emptyText: string): Row {
    var span := if columns > 1 then columns else 1;
    Row("xtable__row xtable__row--empty", None, [Cell("xtable__td xtable__empty", None, Some(IntText(span)), CellText(emptyText))])
  }

  /** The body `renderBody` builds. */
  function Body(rows: seq<Value>, cols: seq<Value>, rowKey: Value, emptyText: string, call: Renderer): seq<Row> {
    if rows == [] then [EmptyRow(|cols|, emptyText)]
    else seq(|rows|, i requires 0 <= i < |rows| => RowAt(cols, rows[i], i, rowKey, call))
  }

  /** Without rows the body is one row of one cell spanning every column
      (at least one) and showing the empty text. */
  lemma BodyEmpty(cols: seq<Value>, rowKey: Value, emptyText: string, call: Renderer)
    ensures var b := Body([], cols, rowKey, emptyText, call);
      && |b| == 1 && |b[0].cells| == 1
      && b[0].cells[0].content == CellText(emptyText)
      && b[0].cells[0].colspan == Some(IntText(if |cols| > 1 then |cols| else 1))
  {
  }

  /** With rows, the body has one row per data row in order, each with one
      cell per column in column order, cell (i, j) showing column j of row
      i. */
  lemma BodyRows(rows: seq<Value>, cols: seq<Value>, rowKey: Value, emptyText: string, call: Renderer)
    requires rows != []
    ensures var b := Body(rows, cols, rowKey, emptyText, call);
      && |b| == |rows|
      && (forall i | 0 <= i < |rows| :: b[i].dataKey == DataKey(rowKey, rows[i]) && |b[i].cells| == |cols|)
      && (forall i, j | 0 <= i < |rows| && 0 <= j < |cols| :: b[i].cells[j] == CellAt(cols[j], rows[i], i, call))
  {
  }

  /** `resolveRows`: an array is used as is; a string names an entry of the
      data store, used when it is an array, else through its `rows` array;
      anything else gives no rows. */
  function ResolveRows(rows: Value, store: map<string, Value>): (r: seq<Value>)
    ensures rows.Arr? ==> r == rows.items
    ensures !rows.Arr? && !rows.Str? ==> r == []
    ensures rows.Str? && rows.s !in store ==> r == []
    ensures rows.Str? && rows.s in store && store[rows.s].Arr? ==> r == store[rows.s].items
    ensures rows.Str? && rows.s in store && store[rows.s].Obj? && Field(store[rows.s], "rows").Arr? ==>
      r == Field(store[rows.s], "rows").items
    ensures rows.Str? && rows.s in store && !store[rows.s].Arr? && !Field(store[rows.s], "rows").Arr? ==> r == []
  {
    if rows.Arr? then rows.items
    else if rows.Str? then
      var data := if rows.s in store then store[rows.s] else Undef;
      if data.Arr? then data.items
      else if Truthy(data) && Field(data, "rows").Arr? then Field(data, "rows").items
      else []
    else []
  }

  /** JavaScript's `===` on the values compared here: arrays, objects and
      functions by identity. */
  predicate Same(a: Value, b: Value) {
    match a
    case Arr(r, _) => b.Arr? && b.ref == r
    case Obj(r, _) => b.Obj? && b.ref == r
    case Fun(r) => b.Fun? && b.ref == r
    case Number(n) => n != NaN && a == b
    case _ => a == b
  }

  /** The rows `onData` takes from its payload when there is no `_on_data`
      handler: the payload if it is an array, else its `rows` array, else a
      new empty array (here with reference `newRef`). */
  function RowsFromData(data: Value, newRef: nat): (r: Value)
    ensures r.Arr?
  {
    if data.Arr? then data
    else if Truthy(data) && Field(data, "rows").Arr? then Field(data, "rows")
    else Arr(newRef, [])
  }

  /** Whatever the store holds, the table then shows the payload's rows. */
  lemma RowsFromDataShown(data: Value, newRef: nat, store: map<string, Value>)
    ensures !data.Arr? && Truthy(data) && Field(data, "rows").Arr? ==>
      ResolveRows(RowsFromData(data, newRef), store) == Field(data, "rows").items
    ensures data.Arr? ==> ResolveRows(RowsFromData(data, newRef), store) == data.items
    ensures !data.Arr? && !(Truthy(data) && Field(data, "rows").Arr?) ==> ResolveRows(RowsFromData(data, newRef), store) == []
  {
  }

  /** The modifiers `applyLayout` sets, in its order. */
  function NextMods(dense: bool, striped: bool, hover: bool, bordered: bool): seq<string> {
    (if dense then ["xtable--dense"] else []) + (if striped then ["xtable--striped"] else [])
    + (if hover then ["xtable--hover"] else []) + (if bordered then ["xtable--bordered"] else [])
  }

  /** `addClass("xtable")` then `replaceClass(allMods, nextMods)`. */
  function TableClasses(cs: set<string>, dense: bool, striped: bool, hover: bool, bordered: bool): set<string> {
    ReplaceClass(cs + {"xtable"}, AllMods, set x | x in NextMods(dense, striped, hover, bordered))
  }

  /** After a pass the base class is present, each modifier is present
      exactly when its flag is set, and the caller's other classes stay. */
  lemma TableClassesShape(cs: set<string>, dense: bool, striped: bool, hover: bool, bordered: bool)
    ensures var r := TableClasses(cs, dense, striped, hover, bordered);
      && "xtable" in r
      && ("xtable--dense" in r <==> dense) && ("xtable--striped" in r <==> striped)
      && ("xtable--hover" in r <==> hover) && ("xtable--bordered" in r <==> bordered)
      && (forall x | x !in AllMods && x != "xtable" :: x in r <==> x in cs)
  {
    var m := set x | x in NextMods(dense, striped, hover, bordered);
    assert m <= AllMods;
    ReplaceFamily(cs + {"xtable"}, AllMods, m);
  }

  /** The `_hover` and `_bordered` setters: `v === false ? false :
      normalizeBoolean(v)`, which is the plain true/"true" test. Unlike
      construction without the key, a setter given undefined turns the flag
      off. */
  lemma SetterFlag(v: Value)
    ensures (if v == Bool(false) then false else IsTrue(v)) == IsTrue(v)
    ensures BoolOr(Undef, true) && !IsTrue(Undef)
  {
  }

  /** The table's settings, as the setters store them. */
  datatype Settings = Settings(
    columns: seq<Value>,
    /** `__rows`: an array, a data-store key, or anything the caller gave. */
    rows: Value,
    rowKey: Value,
    dense: bool, striped: bool, hover: bool, bordered: bool,
    emptyText: string,
    /** Whether an `_on_data` handler is set. */
    hasHandler: bool)

  /** A hover or bordered flag after construction: the host's `parse` runs
      the setter when the key is given, storing the true/"true" test, and
      `applyPropsFromData` reads that boolean back; an absent key keeps the
      field's initial `true`. */
  function ParsedFlag(v: Value): (r: bool)
    ensures v == Undef ==> r
    ensures v != Undef ==> (r <==> v == Bool(true) || v == Str("true"))
  {
    if v == Undef then true else BoolOr(Bool(if v == Bool(false) then false else IsTrue(v)), true)
  }

  /** The settings after construction: `parse` runs the setters of the keys
      given, then `applyPropsFromData()` reads them back through the getters.
      Columns must be an array, the row key is kept as text unless null or
      undefined, dense and striped take the true/"true" test, hover and
      bordered are on when absent and otherwise take the same test, and a
      falsy empty text gives "No data". */
  function InitialSettings(data: Value): (r: Settings)
    ensures r.columns == ItemsOr(Field(data, "_columns")) && r.rows == Field(data, "_rows")
    ensures Nullish(Field(data, "_row_key")) <==> r.rowKey == Undef
    ensures r.hover == ParsedFlag(Field(data, "_hover"))
    ensures r.bordered == ParsedFlag(Field(data, "_bordered"))
    ensures r.dense == IsTrue(Field(data, "_dense")) && r.striped == IsTrue(Field(data, "_striped"))
    ensures !Truthy(Field(data, "_empty_text")) ==> r.emptyText == DefaultEmptyText
  {
    Settings(ItemsOr(Field(data, "_columns")), Field(data, "_rows"),
             if Nullish(Field(data, "_row_key")) then Undef else Str(ToStr(Field(data, "_row_key"))),
             IsTrue(Field(data, "_dense")), IsTrue(Field(data, "_striped")),
             ParsedFlag(Field(data, "_hover")), ParsedFlag(Field(data, "_bordered")),
             if Truthy(Field(data, "_empty_text")) then ToStr(Field(data, "_empty_text")) else DefaultEmptyText,
             !Nullish(Field(data, "_on_data")))
  }

  /** The body for the current settings. */
  function BodyOf(st: Settings, store: map<string, Value>, call: Renderer): seq<Row> {
    Body(ResolveRows(st.rows, store), st.columns, st.rowKey, st.emptyText, call)
  }

  /** The header for the current columns. */
  predicate HeadShown(head: seq<HeadCell>, columns: seq<Value>) {
    |head| == |columns| && forall j | 0 <= j < |columns| :: head[j] == HeadOf(columns[j])
  }

  class XTable {
    var classes: set<string>
    var st: Settings
    var inflight: bool
    /** The rows when the pending `onData` call started. */
    var prevRows: Value
    /** The payload of the pending `onData` call. */
    var pending: Value
    /** The header row's cells and the body's rows. */
    var head: seq<HeadCell>
    var body: seq<Row>

    /** `applyLayout()`. */
    method ApplyLayout()
      modifies this
      ensures classes == TableClasses(old(classes), st.dense, st.striped, st.hover, st.bordered)
      ensures st == old(st) && inflight == old(inflight) && prevRows == old(prevRows)
      ensures pending == old(pending) && head == old(head) && body == old(body)
    {
      classes := TableClasses(classes, st.dense, st.striped, st.hover, st.bordered);
    }

    /** `buildHeader()`: the old header is cleared and one cell per column
        is appended, in column order. */
    method BuildHeader()
      modifies this
      ensures HeadShown(head, st.columns)
      ensures classes == old(classes) && st == old(st) && inflight == old(inflight)
      ensures prevRows == old(prevRows) && pending == old(pending) && body == old(body)
    {
      var cols := st.columns;
      var h: seq<HeadCell> := [];
      var j := 0;
      while j < |cols|
        invariant 0 <= j <= |cols|
        invariant |h| == j && forall k | 0 <= k < j :: h[k] == HeadOf(cols[k])
      {
        var col := cols[j];
        var caption := Field(col, "label");
        var text := if Truthy(caption) then caption else Field(col, "key");
        h := h + [HeadCell(ColClass("xtable__th", col), ColStyle(col), text)];
        j := j + 1;
      }
      head := h;
    }

    /** The cells of one data row, one per column in column order. */
    method RenderRow(row: Value, index: nat, call: Renderer) returns (r: Row)
      ensures r == RowAt(st.columns, row, index, st.rowKey, call)
    {
      var cols := st.columns;
      var key := st.rowKey;
      var dataKey: Option<string> := None;
      if Truthy(key) && Truthy(row) && !Nullish(Index(row, ToStr(key))) {
        dataKey := Some(ToStr(Index(row, ToStr(key))));
      }
      var cells: seq<Cell> := [];
      var j := 0;
      while j < |cols|
        invariant 0 <= j <= |cols|
        invariant |cells| == j && forall k | 0 <= k < j :: cells[k] == CellAt(cols[k], row, index, call)
      {
        var td := RenderCell(cols[j], row, index, call);
        cells := cells + [td];
        j := j + 1;
      }
      assert cells == Cells(cols, row, index, call);
      r := Row("xtable__row", dataKey, cells);
    }

    /** One body cell: its class and style from the column, then either the
        render function's output or the row's value as text. */
    method RenderCell(col: Value, row: Value, index: nat, call: Renderer) returns (td: Cell)
      ensures td == CellAt(col, row, index, call)
    {
      var value := CellValue(col, row);
      var render := Field(col, "render");
      var content;
      if Truthy(render) {
        content := ContentOf(call(render, value, row, index));
      } else {
        content := CellText(TextOrEmpty(value));
      }
      td := Cell(ColClass("xtable__td", col), ColStyle(col), None, content);
    }

    /** `renderBody()`: the old body is cleared, then either the empty row or
        one row per data row is appended. */
    method RenderBody(store: map<string, Value>, call: Renderer)
      modifies this
      ensures body == BodyOf(st, store, call)
      ensures classes == old(classes) && st == old(st) && inflight == old(inflight)
      ensures prevRows == old(prevRows) && pending == old(pending) && head == old(head)
    {
      var data := ResolveRows(st.rows, store);
      var b := RenderRows(data, call);
      body := b;
    }

    /** The rows `renderBody` appends for the resolved data rows. */
    method RenderRows(data: seq<Value>, call: Renderer) returns (b: seq<Row>)
      ensures b == Body(data, st.columns, st.rowKey, st.emptyText, call)
    {
      b := [];
      if |data| == 0 {
        var count := if |st.columns| > 1 then |st.columns| else 1;
        var cell := Cell("xtable__td xtable__empty", None, Some(IntText(count)), CellText(st.emptyText));
        b := b + [Row("xtable__row xtable__row--empty", None, [cell])];
        return;
      }
      var i := 0;
      while i < |data|
        invariant 0 <= i <= |data|
        invariant |b| == i && forall k | 0 <= k < i :: b[k] == RowAt(st.columns, data[k], k, st.rowKey, call)
      {
        var tr := RenderRow(data[i], i, call);
        b := b + [tr];
        i := i + 1;
      }
    }

    /** Construction: `applyPropsFromData`, `applyLayout`, `buildSkeleton`
        (with the header), then `renderBody`. */
    constructor(data: Value, store: map<string, Value>, call: Renderer)
      ensures st == InitialSettings(data) && !inflight
      ensures classes == TableClasses(ClassList(if Truthy(Field(data, "class")) then ToStr(Field(data, "class")) else "xtable"),
                                      st.dense, st.striped, st.hover, st.bordered)
      ensures HeadShown(head, st.columns)
      ensures body == BodyOf(st, store, call)
    {
      classes := ClassList(if Truthy(Field(data, "class")) then ToStr(Field(data, "class")) else "xtable");
      st := InitialSettings(data);
      inflight := false;
      prevRows := Undef;
      pending := Undef;
      head := [];
      body := [];
      new;
      ApplyLayout();
      BuildHeader();
      RenderBody(store, call);
    }

    /** `refresh()`. */
    method Refresh(store: map<string, Value>, call: Renderer)
      modifies this
      ensures body == BodyOf(st, store, call)
      ensures classes == old(classes) && st == old(st) && inflight == old(inflight)
      ensures prevRows == old(prevRows) && pending == old(pending) && head == old(head)
    {
      RenderBody(store, call);
    }

    /** The `_columns` setter: a non-array is stored as no columns; header
        and body are rebuilt. */
    method SetColumns(v: Value, store: map<string, Value>, call: Renderer)
      modifies this
      ensures st == old(st).(columns := ItemsOr(v))
      ensures HeadShown(head, st.columns) && body == BodyOf(st, store, call)
      ensures classes == old(classes) && inflight == old(inflight)
      ensures prevRows == old(prevRows) && pending == old(pending)
    {
      st := st.(columns := ItemsOr(v));
      BuildHeader();
      RenderBody(store, call);
    }

    /** The `_rows` setter: the value is stored as given and the body is
        re-rendered. */
    method SetRows(v: Value, store: map<string, Value>, call: Renderer)
      modifies this
      ensures st == old(st).(rows := v)
      ensures body == BodyOf(st, store, call)
      ensures classes == old(classes) && inflight == old(inflight)
      ensures prevRows == old(prevRows) && pending == old(pending) && head == old(head)
    {
      st := st.(rows := v);
      RenderBody(store, call);
    }

    /** The `_row_key` setter stores the raw value and renders nothing. */
    method SetRowKey(v: Value)
      modifies this
      ensures st == old(st).(rowKey := v)
      ensures classes == old(classes) && inflight == old(inflight)
      ensures prevRows == old(prevRows) && pending == old(pending) && head == old(head) && body == old(body)
    {
      st := st.(rowKey := v);
    }

    /** The `_dense` setter. */
    method SetDense(v: Value)
      modifies this
      ensures st == old(st).(dense := IsTrue(v))
      ensures classes == TableClasses(old(classes), st.dense, st.striped, st.hover, st.bordered)
      ensures inflight == old(inflight) && prevRows == old(prevRows) && pending == old(pending)
      ensures head == old(head) && body == old(body)
    {
      st := st.(dense := IsTrue(v));
      ApplyLayout();
    }

    /** The `_striped` setter. */
    method SetStriped(v: Value)
      modifies this
      ensures st == old(st).(striped := IsTrue(v))
      ensures classes == TableClasses(old(classes), st.dense, st.striped, st.hover, st.bordered)
      ensures inflight == old(inflight) && prevRows == old(prevRows) && pending == old(pending)
      ensures head == old(head) && body == old(body)
    {
      st := st.(striped := IsTrue(v));
      ApplyLayout();
    }

    /** The `_hover` setter: `v === false ? false : normalizeBoolean(v)`. */
    method SetHover(v: Value)
      modifies this
      ensures st == old(st).(hover := IsTrue(v))
      ensures classes == TableClasses(old(classes), st.dense, st.striped, st.hover, st.bordered)
      ensures inflight == old(inflight) && prevRows == old(prevRows) && pending == old(pending)
      ensures head == old(head) && body == old(body)
    {
      st := st.(hover := if v == Bool(false) then false else IsTrue(v));
      ApplyLayout();
    }

    /** The `_bordered` setter, like `_hover`. */
    method SetBordered(v: Value)
      modifies this
      ensures st == old(st).(bordered := IsTrue(v))
      ensures classes == TableClasses(old(classes), st.dense, st.striped, st.hover, st.bordered)
      ensures inflight == old(inflight) && prevRows == old(prevRows) && pending == old(pending)
      ensures head == old(head) && body == old(body)
    {
      st := st.(bordered := if v == Bool(false) then false else IsTrue(v));
      ApplyLayout();
    }

    /** The `_empty_text` setter: a falsy value restores "No data"; the body
        is re-rendered. */
    method SetEmptyText(v: Value, store: map<string, Value>, call: Renderer)
      modifies this
      ensures st == old(st).(emptyText := if Truthy(v) then ToStr(v) else DefaultEmptyText)
      ensures body == BodyOf(st, store, call)
      ensures classes == old(classes) && inflight == old(inflight)
      ensures prevRows == old(prevRows) && pending == old(pending) && head == old(head)
    {
      st := st.(emptyText := if Truthy(v) then ToStr(v) else DefaultEmptyText);
      RenderBody(store, call);
    }

    /** The start of `onData`, up to the host call it awaits: a call made
        while another is in flight returns at once and changes nothing. */
    method OnDataStart(data: Value) returns (accepted: bool)
      modifies this
      ensures accepted <==> !old(inflight)
      ensures accepted ==> inflight && prevRows == old(st.rows) && pending == data
      ensures !accepted ==> inflight == old(inflight) && prevRows == old(prevRows) && pending == old(pending)
      ensures classes == old(classes) && st == old(st) && head == old(head) && body == old(body)
    {
      if inflight {
        return false;
      }
      inflight := true;
      prevRows := st.rows;
      pending := data;
      accepted := true;
    }

    /** The rest of `onData`, once the host's `onData` has returned with the
        rows at `hostRows` (an `_on_data` handler may have set them). Without
        a handler the rows become the payload's rows and the body is
        re-rendered only if that changed the rows' identity; with one, only
        if the handler changed it. The guard is then released. */
    method OnDataFinish(hostRows: Value, newRef: nat, store: map<string, Value>, call: Renderer)
      requires inflight
      requires !(hostRows.Arr? && hostRows.ref == newRef)
      modifies this
      ensures !inflight
      ensures st == old(st).(rows := if st.hasHandler then hostRows else RowsFromData(pending, newRef))
      ensures var changed := if st.hasHandler then !Same(hostRows, prevRows) else !Same(hostRows, st.rows);
        body == (if changed then BodyOf(st, store, call) else old(body))
      ensures classes == old(classes) && head == old(head) && prevRows == old(prevRows) && pending == old(pending)
    {
      if !st.hasHandler {
        var next := RowsFromData(pending, newRef);
        var changed := !Same(hostRows, next);
        st := st.(rows := next);
        if changed {
          Refresh(store, call);
        }
      } else {
        st := st.(rows := hostRows);
        if !Same(hostRows, prevRows) {
          Refresh(store, call);
        }
      }
      inflight := false;
    }
  }
}

=== FILE: text.dfy ===
/** String helpers shared by every widget: the whitespace set that `trim` and
    the class splitter use, ASCII lower-casing, `split`/`join`, the
    whitespace-separated class tokens, first-seen de-duplication (what
    `Array.from(new Set(tokens))` computes) and decimal rendering of integers. */
module Text {

  datatype Option<T> = None | Some(value: T)

  /** The characters `String.prototype.trim` and the `/\s+/` splitter treat as
      whitespace, restricted to a fixed set. */
  predicate IsSpace(c: char) {
    c == ' ' || c == '\t' || c == '\n' || c == '\r' || c == '\U{000B}' || c == '\U{000C}'
    || c == '\U{00A0}' || c == '\U{FEFF}' || c == '\U{2028}' || c == '\U{2029}'
  }

  predicate NoSpace(s: string) {
    forall i | 0 <= i < |s| :: !IsSpace(s[i])
  }

  predicate AllSpace(s: string) {
    forall i | 0 <= i < |s| :: IsSpace(s[i])
  }

  /** A string with no whitespace at either end. */
  predicate Trimmed(s: string) {
    s == [] || (!IsSpace(s[0]) && !IsSpace(s[|s| - 1]))
  }

  /** The end of the run of whitespace that starts at `i`. */
  function SkipSpace(s: string, i: nat): (r: nat)
    requires i <= |s|
    ensures i <= r <= |s|
    ensures r < |s| ==> !IsSpace(s[r])
    decreases |s| - i
  {
    if i < |s| && IsSpace(s[i]) then SkipSpace(s, i + 1) else i
  }

  /** The start of the run of whitespace that ends at `j`, not going below `lo`. */
  function BackSpace(s: string, lo: nat, j: nat): (r: nat)
    requires lo <= j <= |s|
    ensures lo <= r <= j
    ensures r > lo ==> !IsSpace(s[r - 1])
    decreases j
  {
    if j > lo && IsSpace(s[j - 1]) then BackSpace(s, lo, j - 1) else j
  }

  /** `s.trim()`. */
  function Trim(s: string): (r: string)
    ensures Trimmed(r)
    ensures |r| <= |s|
  {
    var a := SkipSpace(s, 0);
    var b := BackSpace(s, a, |s|);
    s[a..b]
  }

  /** Trimming removes only whitespace, and only at the two ends: the
      result is a slice of the input with whitespace on either side. */
  lemma TrimSlice(s: string)
    ensures exists a, b | 0 <= a <= b <= |s| :: Trim(s) == s[a..b] && AllSpace(s[..a]) && AllSpace(s[b..])
  {
    var a := SkipSpace(s, 0);
    var b := BackSpace(s, a, |s|);
    SkipSpaceAll(s, 0);
    BackSpaceAll(s, a, |s|);
    assert AllSpace(s[..a]) && AllSpace(s[b..]);
  }

  lemma {:induction false} SkipSpaceAll(s: string, i: nat)
    requires i <= |s|
    ensures forall k | i <= k < SkipSpace(s, i) :: IsSpace(s[k])
    decreases |s| - i
  {
    if i < |s| && IsSpace(s[i]) {
      SkipSpaceAll(s, i + 1);
    }
  }

  lemma {:induction false} BackSpaceAll(s: string, lo: nat, j: nat)
    requires lo <= j <= |s|
    ensures forall k | BackSpace(s, lo, j) <= k < j :: IsSpace(s[k])
    decreases j
  {
    if j > lo && IsSpace(s[j - 1]) {
      BackSpaceAll(s, lo, j - 1);
    }
  }

  /** Trimming a string that has no whitespace at its ends changes nothing. */
  lemma TrimOfTrimmed(s: string)
    requires Trimmed(s)
    ensures Trim(s) == s
  {
    assert SkipSpace(s, 0) == 0;
    assert BackSpace(s, 0, |s|) == |s|;
    assert s[0..|s|] == s;
  }

  /** A string trims to "" exactly when it is made of whitespace only. */
  lemma TrimEmptyIffAllSpace(s: string)
    ensures Trim(s) == [] <==> AllSpace(s)
  {
    var a := SkipSpace(s, 0);
    var b := BackSpace(s, a, |s|);
    SkipSpaceAll(s, 0);
    BackSpaceAll(s, a, |s|);
  }

  lemma {:induction false} SkipShift(c: char, s: string, i: nat)
    requires i <= |s|
    ensures SkipSpace([c] + s, i + 1) == SkipSpace(s, i) + 1
    decreases |s| - i
  {
    if i < |s| && IsSpace(s[i]) {
      SkipShift(c, s, i + 1);
    }
  }

  lemma {:induction false} BackShift(c: char, s: string, lo: nat, j: nat)
    requires lo <= j <= |s|
    ensures BackSpace([c] + s, lo + 1, j + 1) == BackSpace(s, lo, j) + 1
    decreases j
  {
    if j > lo && IsSpace(s[j - 1]) {
      BackShift(c, s, lo, j - 1);
    }
  }

  /** Leading whitespace disappears under trimming. */
  lemma TrimLeadingSpace(c: char, s: string)
    requires IsSpace(c)
    ensures Trim([c] + s) == Trim(s)
  {
    var a := SkipSpace(s, 0);
    var b := BackSpace(s, a, |s|);
    LeadingSpaceBounds(c, s);
    SliceShift(c, s, a, b);
  }

  lemma LeadingSpaceBounds(c: char, s: string)
    requires IsSpace(c)
    ensures SkipSpace([c] + s, 0) == SkipSpace(s, 0) + 1
    ensures BackSpace([c] + s, SkipSpace(s, 0) + 1, |s| + 1) == BackSpace(s, SkipSpace(s, 0), |s|) + 1
  {
    LeadingSkip(c, s);
    BackShift(c, s, SkipSpace(s, 0), |s|);
  }

  lemma LeadingSkip(c: char, s: string)
    requires IsSpace(c)
    ensures SkipSpace([c] + s, 0) == SkipSpace(s, 0) + 1
  {
    var u := [c] + s;
    assert u[0] == c;
    SkipShift(c, s, 0);
  }

  lemma PrefixSlice(p: string, s: string, a: nat, b: nat)
    requires a <= b <= |s|
    ensures (p + s)[|p| + a..|p| + b] == s[a..b]
  {
    forall k | 0 <= k < b - a
      ensures (p + s)[|p| + a..|p| + b][k] == s[a..b][k]
    {
      assert (p + s)[|p| + a + k] == s[a + k];
    }
  }

  lemma SliceShift(c: char, s: string, a: nat, b: nat)
    requires a <= b <= |s|
    ensures ([c] + s)[a + 1..b + 1] == s[a..b]
  {
  }

  /** Trimming never introduces a character. */
  lemma TrimIn(s: string, c: char)
    ensures c in Trim(s) ==> c in s
  {
    var a := SkipSpace(s, 0);
    var b := BackSpace(s, a, |s|);
    if c in s[a..b] {
      var i :| 0 <= i < b - a && s[a..b][i] == c;
      assert s[a + i] == c;
    }
  }

  predicate IsBlank(s: string) {
    Trim(s) == []
  }

  function LowerChar(c: char): char {
    if 'A' <= c <= 'Z' then (c as int + 32) as char else c
  }

  predicate NoUpper(s: string) {
    forall i | 0 <= i < |s| :: !('A' <= s[i] <= 'Z')
  }

  /** `s.toLowerCase()` on the ASCII letters. */
  function Lower(s: string): (r: string)
    ensures |r| == |s|
    ensures NoUpper(r)
    ensures forall i | 0 <= i < |s| :: r[i] == LowerChar(s[i])
  {
    seq(|s|, i requires 0 <= i < |s| => LowerChar(s[i]))
  }

  /** Lower-casing leaves a string without capitals unchanged. */
  lemma LowerOfLower(s: string)
    requires NoUpper(s)
    ensures Lower(s) == s
  {
  }

  /** The first position of `c` in `s`, or -1 (`s.indexOf(c)`). */
  function IndexOf(s: string, c: char): (r: int)
    ensures -1 <= r < |s|
    ensures r == -1 <==> c !in s
    ensures r >= 0 ==> s[r] == c
    ensures forall k | 0 <= k < r :: s[k] != c
  {
    if |s| == 0 then -1
    else if s[0] == c then 0
    else
      var k := IndexOf(s[1..], c);
      if k < 0 then -1 else k + 1
  }

  /** The first separator of `p + [c] + v` is the one after `p` when `p` has none. */
  lemma IndexOfAfterPrefix(p: string, c: char, v: string)
    requires c !in p
    ensures IndexOf(p + [c] + v, c) == |p|
  {
    var s := p + [c] + v;
    assert s[|p|] == c;
    assert s[..|p|] == p;
  }

  /** `s.split(c)`: the pieces between the occurrences of `c`. */
  function Split(s: string, c: char): (r: seq<string>)
    ensures |r| >= 1
    ensures forall i | 0 <= i < |r| :: c !in r[i]
    decreases |s|
  {
    var k := IndexOf(s, c);
    if k < 0 then [s]
    else
      assert forall j | 0 <= j < k :: s[..k][j] != c;
      [s[..k]] + Split(s[k + 1..], c)
  }

  /** `xs.join(sep)`. */
  function Join(xs: seq<string>, sep: string): (r: string)
    decreases |xs|
  {
    if |xs| == 0 then "" else if |xs| == 1 then xs[0] else xs[0] + sep + Join(xs[1..], sep)
  }

  /** Joining nothing gives "", and joining only when there is something. */
  lemma JoinEmpty(xs: seq<string>, sep: string)
    requires forall i | 0 <= i < |xs| :: xs[i] != []
    ensures Join(xs, sep) == [] <==> xs == []
  {
    if |xs| > 1 {
      assert |Join(xs, sep)| >= |xs[0]|;
    }
  }

  /** Joining is associative in its list argument: a joined prefix can be
      spliced in front of more items. */
  lemma {:induction false} JoinAppend(xs: seq<string>, ys: seq<string>, sep: string)
    requires xs != [] && ys != []
    ensures Join(xs + ys, sep) == Join(xs, sep) + sep + Join(ys, sep)
    decreases |xs|
  {
    if |xs| == 1 {
      assert (xs + ys)[1..] == ys;
    } else {
      assert (xs + ys)[1..] == xs[1..] + ys;
      JoinAppend(xs[1..], ys, sep);
    }
  }

  /** Splitting at a first separator peels off the piece before it. */
  lemma SplitCons(a: string, c: char, b: string)
    requires c !in a
    ensures Split(a + [c] + b, c) == [a] + Split(b, c)
  {
    var s := a + [c] + b;
    IndexOfAfterPrefix(a, c, b);
    assert s[..|a|] == a;
    assert s[|a| + 1..] == b;
  }

  /** Splitting a joined list recovers the items when the separator starts with
      the split character and no item contains it; every piece after the first
      keeps the rest of the separator in front. */
  lemma {:induction false} SplitJoin(p: string, xs: seq<string>, c: char, rest: string)
    requires |xs| >= 1
    requires forall i | 0 <= i < |xs| :: c !in xs[i]
    requires c !in rest && c !in p
    ensures |Split(p + Join(xs, [c] + rest), c)| == |xs|
    ensures Split(p + Join(xs, [c] + rest), c)[0] == p + xs[0]
    ensures forall i | 1 <= i < |xs| :: Split(p + Join(xs, [c] + rest), c)[i] == rest + xs[i]
    decreases |xs|
  {
    if |xs| == 1 {
      SplitOne(p + xs[0], c);
    } else {
      SplitJoin(rest, xs[1..], c, rest);
      var t := Split(rest + Join(xs[1..], [c] + rest), c);
      assert forall i | 1 <= i < |xs| - 1 :: t[i] == rest + xs[i + 1] by {
        forall i | 1 <= i < |xs| - 1 ensures t[i] == rest + xs[i + 1] {
          assert xs[1..][i] == xs[i + 1];
        }
      }
      SplitJoinStep(p, xs, c, rest, t);
    }
  }

  lemma SplitOne(s: string, c: char)
    requires c !in s
    ensures Split(s, c) == [s]
  {
  }

  lemma SplitJoinStep(p: string, xs: seq<string>, c: char, rest: string, t: seq<string>)
    requires |xs| >= 2
    requires c !in xs[0] && c !in p
    requires t == Split(rest + Join(xs[1..], [c] + rest), c)
    requires |t| == |xs| - 1 && t[0] == rest + xs[1]
    requires forall i | 1 <= i < |xs| - 1 :: t[i] == rest + xs[i + 1]
    ensures |Split(p + Join(xs, [c] + rest), c)| == |xs|
    ensures Split(p + Join(xs, [c] + rest), c)[0] == p + xs[0]
    ensures forall i | 1 <= i < |xs| :: Split(p + Join(xs, [c] + rest), c)[i] == rest + xs[i]
  {
    JoinRegroup(p, xs, c, rest);
    SplitCons(p + xs[0], c, rest + Join(xs[1..], [c] + rest));
    var r := Split(p + Join(xs, [c] + rest), c);
    assert r == [p + xs[0]] + t;
    forall i | 1 <= i < |xs| ensures r[i] == rest + xs[i] {
      assert r[i] == t[i - 1];
    }
  }

  /** A join split at its first separator character. */
  lemma JoinRegroup(p: string, xs: seq<string>, c: char, rest: string)
    requires |xs| >= 2
    ensures p + Join(xs, [c] + rest) == (p + xs[0]) + [c] + (rest + Join(xs[1..], [c] + rest))
  {
    JoinUnfold(xs, [c] + rest);
    ConcatShift(p, xs[0], [c], rest, Join(xs[1..], [c] + rest));
  }

  /** Regrouping a concatenation of five strings. */
  lemma ConcatShift(p: string, x: string, c: string, rest: string, tail: string)
    ensures p + (x + (c + rest) + tail) == (p + x) + c + (rest + tail)
  {
  }

  lemma JoinUnfold(xs: seq<string>, sep: string)
    requires |xs| >= 2
    ensures Join(xs, sep) == xs[0] + sep + Join(xs[1..], sep)
  {
  }

  /** `s.split(/\s+/).map(trim).filter(Boolean)`: the maximal runs of
      non-whitespace characters, in order. */
  function Words(s: string): seq<string> {
    WordsFrom(s, 0)
  }

  /** The words of `s` from position `i` on. */
  function WordsFrom(s: string, i: nat): seq<string>
    requires i <= |s|
    decreases |s| - i
  {
    var a := SkipSpace(s, i);
    if a == |s| then []
    else
      var b := WordEnd(s, a);
      [s[a..b]] + WordsFrom(s, b)
  }

  /** The end of the run of non-whitespace characters that starts at `i`. */
  function WordEnd(s: string, i: nat): (r: nat)
    requires i <= |s|
    ensures i <= r <= |s|
    ensures r < |s| ==> IsSpace(s[r])
    ensures i < |s| && !IsSpace(s[i]) ==> r > i
    decreases |s| - i
  {
    if i < |s| && !IsSpace(s[i]) then WordEnd(s, i + 1) else i
  }

  lemma {:induction false} WordEndNoSpace(s: string, i: nat)
    requires i <= |s|
    ensures NoSpace(s[i..WordEnd(s, i)])
    decreases |s| - i
  {
    if i < |s| && !IsSpace(s[i]) {
      WordEndNoSpace(s, i + 1);
      assert s[i..WordEnd(s, i)] == [s[i]] + s[i + 1..WordEnd(s, i + 1)];
    }
  }

  predicate Tokens(xs: seq<string>) {
    forall i | 0 <= i < |xs| :: xs[i] != [] && NoSpace(xs[i])
  }

  /** Every word is a non-empty run without whitespace. */
  lemma WordsTokens(s: string)
    ensures Tokens(Words(s))
  {
    WordsFromTokens(s, 0);
  }

  lemma {:induction false} WordsFromTokens(s: string, i: nat)
    requires i <= |s|
    ensures Tokens(WordsFrom(s, i))
    decreases |s| - i
  {
    var a := SkipSpace(s, i);
    if a < |s| {
      var b := WordEnd(s, a);
      WordEndNoSpace(s, a);
      WordsFromTokens(s, b);
      TokensCons(s[a..b], WordsFrom(s, b));
    }
  }

  lemma TokensCons(x: string, xs: seq<string>)
    requires x != [] && NoSpace(x) && Tokens(xs)
    ensures Tokens([x] + xs)
  {
    assert forall i | 1 <= i < |xs| + 1 :: ([x] + xs)[i] == xs[i - 1];
  }

  /** Positions shift with a prefix. */
  lemma {:induction false} SkipSpaceShift(p: string, s: string, i: nat)
    requires i <= |s|
    ensures SkipSpace(p + s, |p| + i) == |p| + SkipSpace(s, i)
    decreases |s| - i
  {
    assert (p + s)[|p| + i..] == s[i..];
    if i < |s| {
      assert (p + s)[|p| + i] == s[i];
      if IsSpace(s[i]) {
        SkipSpaceShift(p, s, i + 1);
      }
    }
  }

  lemma {:induction false} WordEndShift(p: string, s: string, i: nat)
    requires i <= |s|
    ensures WordEnd(p + s, |p| + i) == |p| + WordEnd(s, i)
    decreases |s| - i
  {
    if i < |s| {
      assert (p + s)[|p| + i] == s[i];
      if !IsSpace(s[i]) {
        WordEndShift(p, s, i + 1);
      }
    }
  }

  lemma {:induction false} WordsFromShift(p: string, s: string, i: nat)
    requires i <= |s|
    ensures WordsFrom(p + s, |p| + i) == WordsFrom(s, i)
    decreases |s| - i
  {
    var a := SkipSpace(s, i);
    if a < |s| {
      var b := WordEnd(s, a);
      WordsFromShift(p, s, b);
      WordsFromShiftStep(p, s, i, a, b);
    } else {
      SkipSpaceShift(p, s, i);
    }
  }

  lemma WordsFromShiftStep(p: string, s: string, i: nat, a: nat, b: nat)
    requires i <= |s| && a == SkipSpace(s, i) && a < |s| && b == WordEnd(s, a)
    requires WordsFrom(p + s, |p| + b) == WordsFrom(s, b)
    ensures WordsFrom(p + s, |p| + i) == WordsFrom(s, i)
  {
    SkipSpaceShift(p, s, i);
    WordEndShift(p, s, a);
    PrefixSlice(p, s, a, b);
  }

  /** The words of a token followed by whitespace (or nothing) start with
      that token. */
  lemma WordsCons(x: string, rest: string)
    requires x != [] && NoSpace(x)
    requires rest == [] || IsSpace(rest[0])
    ensures Words(x + rest) == [x] + Words(rest)
  {
    var s := x + rest;
    assert s[0] == x[0];
    assert SkipSpace(s, 0) == 0;
    WordEndOfToken(x, rest, 0);
    assert s[0..|x|] == x;
    WordsFromShift(x, rest, 0);
  }

  lemma {:induction false} WordEndOfToken(x: string, rest: string, i: nat)
    requires i <= |x| && NoSpace(x)
    requires rest == [] || IsSpace(rest[0])
    ensures WordEnd(x + rest, i) == |x|
    decreases |x| - i
  {
    if i < |x| {
      assert (x + rest)[i] == x[i];
      WordEndOfToken(x, rest, i + 1);
    } else if rest != [] {
      assert (x + rest)[i] == rest[0];
    }
  }

  /** Leading whitespace does not change the words. */
  lemma WordsLeadingSpace(j: string)
    ensures Words(" " + j) == Words(j)
  {
    var s := " " + j;
    assert s[0] == ' ';
    assert SkipSpace(s, 0) == SkipSpace(s, 1);
    assert WordsFrom(s, 0) == WordsFrom(s, 1);
    WordsFromShift(" ", j, 0);
  }

  /** Splitting a space-joined list of tokens gives the tokens back. */
  lemma {:induction false} WordsJoin(xs: seq<string>)
    requires Tokens(xs)
    ensures Words(Join(xs, " ")) == xs
    decreases |xs|
  {
    if |xs| == 1 {
      WordsCons(xs[0], "");
      assert xs[0] + "" == xs[0];
    } else if |xs| > 1 {
      assert Tokens(xs[1..]);
      WordsJoin(xs[1..]);
      WordsJoinCons(xs);
    }
  }

  lemma {:induction false} WordsJoinCons(xs: seq<string>)
    requires Tokens(xs) && |xs| > 1
    requires Words(Join(xs[1..], " ")) == xs[1..]
    ensures Words(Join(xs, " ")) == xs
  {
    var j := Join(xs[1..], " ");
    var x := xs[0];
    assert x != [] && NoSpace(x);
    assert Words(Join(xs, " ")) == [x] + Words(j) by {
      JoinCons(xs, " ", j);
      WordsConsSpace(x, j, Join(xs, " "));
    }
    assert [x] + xs[1..] == xs;
  }

  lemma JoinCons(xs: seq<string>, sep: string, j: string)
    requires |xs| > 1 && j == Join(xs[1..], sep)
    ensures Join(xs, sep) == xs[0] + (sep + j)
  {
  }

  lemma WordsConsSpace(x: string, j: string, s: string)
    requires x != [] && NoSpace(x) && s == x + (" " + j)
    ensures Words(s) == [x] + Words(j)
  {
    WordsCons(x, " " + j);
    WordsLeadingSpace(j);
  }



  predicate NoDup(xs: seq<string>) {
    forall i, j | 0 <= i < j < |xs| :: xs[i] != xs[j]
  }

  /** `Array.from(new Set(xs))`: each string once, at its first position. */
  function Dedup(xs: seq<string>): (r: seq<string>)
    decreases |xs|
  {
    if xs == [] then []
    else
      var init := Dedup(xs[..|xs| - 1]);
      var x := xs[|xs| - 1];
      if x in init then init else init + [x]
  }

  /** `xs.filter(x => !removed.has(x))`. */
  function Without(xs: seq<string>, removed: set<string>): (r: seq<string>)
    ensures |r| <= |xs|
    decreases |xs|
  {
    if xs == [] then []
    else
      var init := Without(xs[..|xs| - 1], removed);
      var x := xs[|xs| - 1];
      if x in removed then init else init + [x]
  }

  /** De-duplication keeps exactly the strings of the list. */
  lemma {:induction false} DedupMembers(xs: seq<string>)
    ensures forall x :: x in Dedup(xs) <==> x in xs
    decreases |xs|
  {
    if xs != [] {
      DedupMembers(xs[..|xs| - 1]);
      assert xs == xs[..|xs| - 1] + [xs[|xs| - 1]];
    }
  }

  /** Filtering keeps exactly the strings that are not removed. */
  lemma {:induction false} WithoutMembers(xs: seq<string>, removed: set<string>)
    ensures forall x :: x in Without(xs, removed) <==> x in xs && x !in removed
    decreases |xs|
  {
    if xs != [] {
      WithoutMembers(xs[..|xs| - 1], removed);
      assert xs == xs[..|xs| - 1] + [xs[|xs| - 1]];
    }
  }

  /** Filtering commutes with concatenation. */
  lemma {:induction false} WithoutAppend(xs: seq<string>, ys: seq<string>, removed: set<string>)
    ensures Without(xs + ys, removed) == Without(xs, removed) + Without(ys, removed)
    decreases |ys|
  {
    if ys == [] {
      assert xs + ys == xs;
    } else {
      var ys' := ys[..|ys| - 1];
      assert (xs + ys)[..|xs + ys| - 1] == xs + ys';
      WithoutAppend(xs, ys', removed);
    }
  }

  /** Filtering keeps a list none of whose items it removes. */
  lemma {:induction false} WithoutNone(xs: seq<string>, removed: set<string>)
    requires forall x | x in xs :: x !in removed
    ensures Without(xs, removed) == xs
    decreases |xs|
  {
    if xs != [] {
      WithoutNone(xs[..|xs| - 1], removed);
    }
  }

  /** A duplicate-free list is its own de-duplication. */
  lemma {:induction false} DedupOfNoDup(xs: seq<string>)
    requires NoDup(xs)
    ensures Dedup(xs) == xs
    decreases |xs|
  {
    if xs != [] {
      DedupOfNoDup(xs[..|xs| - 1]);
    }
  }

  /** De-duplication leaves each string once. */
  lemma {:induction false} DedupNoDup(xs: seq<string>)
    ensures NoDup(Dedup(xs))
    decreases |xs|
  {
    if xs != [] {
      var init := Dedup(xs[..|xs| - 1]);
      DedupNoDup(xs[..|xs| - 1]);
      var x := xs[|xs| - 1];
      if x !in init {
        NoDupSnoc(init, x);
      }
    }
  }

  lemma NoDupSnoc(xs: seq<string>, x: string)
    requires NoDup(xs) && x !in xs
    ensures NoDup(xs + [x])
  {
  }

  /** De-duplication of `xs + [x]` grows only by a new `x`. */
  lemma DedupSnoc(xs: seq<string>, x: string)
    ensures Dedup(xs + [x]) == if x in xs then Dedup(xs) else Dedup(xs) + [x]
  {
    assert (xs + [x])[..|xs + [x]| - 1] == xs;
    DedupMembers(xs);
  }

  /** Lists with no string in common are de-duplicated separately. */
  lemma {:induction false} DedupDisjoint(xs: seq<string>, ys: seq<string>)
    requires forall y | y in ys :: y !in xs
    ensures Dedup(xs + ys) == Dedup(xs) + Dedup(ys)
    decreases |ys|
  {
    if ys == [] {
      assert xs + ys == xs;
    } else {
      var ys' := ys[..|ys| - 1];
      var y := ys[|ys| - 1];
      assert ys == ys' + [y];
      assert xs + ys == (xs + ys') + [y];
      DedupDisjoint(xs, ys');
      DedupSnoc(xs + ys', y);
      DedupSnoc(ys', y);
    }
  }

  /** De-duplicating two lists with the same elements and the same
      de-duplication, each followed by the same suffix, agrees. */
  lemma {:induction false} DedupCongruent(xs: seq<string>, ys: seq<string>, zs: seq<string>)
    requires Dedup(xs) == Dedup(ys)
    requires forall x :: x in xs <==> x in ys
    ensures Dedup(xs + zs) == Dedup(ys + zs)
    decreases |zs|
  {
    if zs == [] {
      assert xs + zs == xs && ys + zs == ys;
    } else {
      var zs' := zs[..|zs| - 1];
      var z := zs[|zs| - 1];
      assert xs + zs == (xs + zs') + [z];
      assert ys + zs == (ys + zs') + [z];
      DedupCongruent(xs, ys, zs');
      DedupSnoc(xs + zs', z);
      DedupSnoc(ys + zs', z);
      assert z in xs + zs' <==> z in ys + zs';
    }
  }

  /** Items that are already present do not change the de-duplication. */
  lemma {:induction false} DedupAbsorb(xs: seq<string>, zs: seq<string>)
    requires forall z | z in zs :: z in xs
    ensures Dedup(xs + zs) == Dedup(xs)
    decreases |zs|
  {
    if zs == [] {
      assert xs + zs == xs;
    } else {
      var zs' := zs[..|zs| - 1];
      var z := zs[|zs| - 1];
      assert xs + zs == (xs + zs') + [z];
      DedupAbsorb(xs, zs');
      DedupSnoc(xs + zs', z);
    }
  }

  /** De-duplicating an already de-duplicated tail changes nothing. */
  lemma {:induction false} DedupInner(xs: seq<string>, ys: seq<string>)
    ensures Dedup(xs + Dedup(ys)) == Dedup(xs + ys)
    decreases |ys|
  {
    if ys != [] {
      var ys' := ys[..|ys| - 1];
      var y := ys[|ys| - 1];
      assert ys == ys' + [y];
      assert xs + ys == xs + ys' + [y];
      DedupInner(xs, ys');
      DedupInnerStep(xs, ys', y);
    }
  }

  lemma SnocAssoc(a: seq<string>, b: seq<string>, y: string)
    ensures a + (b + [y]) == (a + b) + [y]
  {
  }

  lemma Assoc(a: seq<string>, b: seq<string>, c: seq<string>)
    ensures a + b + c == a + (b + c)
  {
  }

  lemma DedupInnerStep(xs: seq<string>, ys: seq<string>, y: string)
    requires Dedup(xs + Dedup(ys)) == Dedup(xs + ys)
    ensures Dedup(xs + Dedup(ys + [y])) == Dedup(xs + ys + [y])
  {
    var d := Dedup(ys);
    if y in ys {
      assert Dedup(ys + [y]) == d by { DedupSnoc(ys, y); }
      assert y in xs + ys;
      assert Dedup(xs + ys + [y]) == Dedup(xs + ys) by { DedupSnoc(xs + ys, y); }
    } else {
      assert Dedup(ys + [y]) == d + [y] by { DedupSnoc(ys, y); }
      SnocAssoc(xs, d, y);
      if y in xs {
        assert Dedup(xs + ys + [y]) == Dedup(xs + ys) by { DedupSnoc(xs + ys, y); }
        assert Dedup((xs + d) + [y]) == Dedup(xs + d) by { DedupSnoc(xs + d, y); }
      } else {
        DedupMembers(ys);
        assert y !in d;
        assert Dedup(xs + ys + [y]) == Dedup(xs + ys) + [y] by { DedupSnoc(xs + ys, y); }
        assert Dedup((xs + d) + [y]) == Dedup(xs + d) + [y] by { DedupSnoc(xs + d, y); }
      }
    }
  }

  /** De-duplication keeps the de-duplicated prefix in front. */
  lemma {:induction false} DedupPrefix(xs: seq<string>, ys: seq<string>)
    ensures |Dedup(xs)| <= |Dedup(xs + ys)|
    ensures Dedup(xs + ys)[..|Dedup(xs)|] == Dedup(xs)
    decreases |ys|
  {
    if ys == [] {
      assert xs + ys == xs;
    } else {
      var ys' := ys[..|ys| - 1];
      assert xs + ys == (xs + ys') + [ys[|ys| - 1]];
      DedupPrefix(xs, ys');
      DedupSnoc(xs + ys', ys[|ys| - 1]);
    }
  }

  /** Filtering commutes with de-duplication. */
  lemma {:induction false} WithoutDedup(xs: seq<string>, removed: set<string>)
    ensures Without(Dedup(xs), removed) == Dedup(Without(xs, removed))
    decreases |xs|
  {
    if xs != [] {
      var xs' := xs[..|xs| - 1];
      var x := xs[|xs| - 1];
      assert xs == xs' + [x];
      WithoutDedup(xs', removed);
      WithoutDedupStep(xs', x, removed);
    }
  }

  lemma WithoutSnoc(xs: seq<string>, x: string, removed: set<string>)
    ensures Without(xs + [x], removed) == if x in removed then Without(xs, removed) else Without(xs, removed) + [x]
  {
    assert (xs + [x])[..|xs + [x]| - 1] == xs;
  }

  lemma WithoutDedupStep(xs: seq<string>, x: string, removed: set<string>)
    requires Without(Dedup(xs), removed) == Dedup(Without(xs, removed))
    ensures Without(Dedup(xs + [x]), removed) == Dedup(Without(xs + [x], removed))
  {
    var d := Dedup(xs);
    var w := Without(xs, removed);
    WithoutMembers(xs, removed);
    WithoutSnoc(xs, x, removed);
    DedupSnoc(xs, x);
    if x in removed {
      if x !in xs {
        WithoutSnoc(d, x, removed);
      }
    } else {
      DedupSnoc(w, x);
      assert x in w <==> x in xs;
      if x !in xs {
        WithoutSnoc(d, x, removed);
      }
    }
  }

  function DigitChar(d: nat): char
    requires d < 10
  {
    ('0' as int + d) as char
  }

  /** Decimal digits of a natural number. */
  function NatText(n: nat): (r: string)
    ensures r != []
    ensures forall i | 0 <= i < |r| :: '0' <= r[i] <= '9'
  {
    if n < 10 then [DigitChar(n)] else NatText(n / 10) + [DigitChar(n % 10)]
  }

  /** `String(n)` for an integer. */
  function IntText(n: int): (r: string)
    ensures r != []
    ensures forall i | 0 <= i < |r| :: ('0' <= r[i] <= '9') || r[i] == '-'
  {
    if n < 0 then "-" + NatText(-n) else NatText(n)
  }

  /** `${n}px` for a whole number of pixels. */
  function Px(n: int): (r: string)
    ensures |r| >= 3 && r[|r| - 2..] == "px"
    ensures forall i | 0 <= i < |r| :: !IsSpace(r[i]) && r[i] != ';' && r[i] != ':'
  {
    var d := IntText(n);
    assert forall i | 0 <= i < |d| :: !IsSpace(d[i]) && d[i] != ';' && d[i] != ':';
    d + "px"
  }

  /** The value of a string of decimal digits, read left to right. */
  function DigitsValue(s: string): int
  {
    if s == [] then 0 else DigitsValue(s[..|s| - 1]) * 10 + (s[|s| - 1] as int - '0' as int)
  }

  /** The value of an optionally signed string of decimal digits. */
  function IntValue(s: string): int {
    if s != [] && s[0] == '-' then -DigitsValue(s[1..]) else DigitsValue(s)
  }

  /** Reading back the digits of `n` gives `n`. */
  lemma {:induction false} NatTextValue(n: nat)
    ensures DigitsValue(NatText(n)) == n
  {
    if n >= 10 {
      var d := NatText(n / 10);
      var r := d + [DigitChar(n % 10)];
      assert r[..|r| - 1] == d;
      NatTextValue(n / 10);
    }
  }

  /** Reading back `String(n)` gives `n`, sign included. */
  lemma IntTextValue(n: int)
    ensures IntValue(IntText(n)) == n
  {
    if n < 0 {
      NatTextValue(-n);
      assert IntText(n)[1..] == NatText(-n);
    } else {
      NatTextValue(n);
    }
  }

  /** Different integers have different decimal texts. */
  lemma IntTextInjective(a: int, b: int)
    ensures IntText(a) == IntText(b) <==> a == b
  {
    IntTextValue(a);
    IntTextValue(b);
  }

  /** The number in front of the "px" suffix reads back as `n`. */
  lemma PxReadsBack(n: int)
    ensures IntValue(Px(n)[..|Px(n)| - 2]) == n
  {
    assert Px(n)[..|Px(n)| - 2] == IntText(n);
    IntTextValue(n);
  }

  /** Different pixel counts give different declarations' values. */
  lemma PxInjective(a: int, b: int)
    ensures Px(a) == Px(b) <==> a == b
  {
    PxReadsBack(a);
    PxReadsBack(b);
  }

  /** The digits of `n` start with '0' only when `n` is 0. */
  lemma {:induction false} NatTextLead(n: nat)
    ensures NatText(n)[0] == '0' <==> n == 0
  {
    if n >= 10 {
      NatTextLead(n / 10);
      assert NatText(n)[0] == NatText(n / 10)[0];
    }
  }

  /** The digits of `n` form a canonical index: digits only and no leading
      zero unless the text is "0". */
  lemma NatTextIndexKey(n: nat)
    ensures var r := NatText(n); r != [] && (forall i | 0 <= i < |r| :: '0' <= r[i] <= '9') && (r[0] != '0' || r == "0")
  {
    NatTextLead(n);
  }
}

=== FILE: toast.dfy ===
/** XToast: a notification with an optional icon, a text label, optional
    actions and a close button, placed in one of four corners and styled
    by a variant. It opens and closes through `setOpen`, reports through
    `_on_open` and `_on_close`, and closes itself once it has been open
    for `_auto_close_ms` milliseconds of counted frames. */
module Toast {
  import opened Text
  import opened Values
  import opened Classes
  import opened Nodes
  import opened Openable

  /** The node ids, each standing for the widget's own id followed by this
      suffix. */
  const ContainerId: string := "_container"
  const TextId: string := "_text"

  lemma IdsDistinct()
    ensures ContainerId != TextId && TextId != "" && ContainerId != ""
  {
    assert |ContainerId| == 10 && |TextId| == 5;
  }

  datatype Variant = Default | Success | Error | Warn | Info

  function VariantName(x: Variant): string {
    match x
    case Default => "default"
    case Success => "success"
    case Error => "error"
    case Warn => "warn"
    case Info => "info"
  }

  /** `normalizeVariant`: the four named variants are kept; anything else,
      "default" included, is the default variant. */
  function NormalizeVariant(v: Value): (r: Variant)
    ensures forall x: Variant :: v == Str(VariantName(x)) ==> r == x
    ensures r != Default ==> v == Str(VariantName(r))
  {
    if v == Str("success") then Success
    else if v == Str("error") then Error
    else if v == Str("warn") then Warn
    else if v == Str("info") then Info
    else Default
  }

  datatype Position = TopRight | TopLeft | BottomRight | BottomLeft

  function PositionName(p: Position): string {
    match p
    case TopRight => "top-right"
    case TopLeft => "top-left"
    case BottomRight => "bottom-right"
    case BottomLeft => "bottom-left"
  }

  /** `normalizePosition`: the three named corners other than the bottom
      right are kept; anything else is the bottom right. */
  function NormalizePosition(v: Value): (r: Position)
    ensures forall p: Position :: v == Str(PositionName(p)) ==> r == p
    ensures r != BottomRight ==> v == Str(PositionName(r))
  {
    if v == Str("top-right") then TopRight
    else if v == Str("top-left") then TopLeft
    else if v == Str("bottom-left") then BottomLeft
    else BottomRight
  }

  /** A stored variant or position read back through its normaliser is
      unchanged. */
  lemma NormalizeRoundTrip(x: Variant, p: Position)
    ensures NormalizeVariant(Str(VariantName(x))) == x
    ensures NormalizePosition(Str(PositionName(p))) == p
  {
  }

  /** `Array.isArray(v) ? v : undefined`. */
  function ListOf(v: Value): (r: Option<seq<Value>>)
    ensures r.Some? <==> v.Arr?
    ensures r.Some? ==> r.value == v.items
  {
    if v.Arr? then Some(v.items) else None
  }

  /** `typeof v === "number" ? v : undefined`: any number is kept, the
      non-finite ones and those not above 0 included. */
  function AutoCloseOf(v: Value): (r: Option<Num>)
    ensures r.Some? <==> v.Number?
    ensures r.Some? ==> Number(r.value) == v
  {
    if v.Number? then Some(v.n) else None
  }

  /** The stored settings. */
  datatype ToastState = ToastState(open: bool, text: string, variant: Variant, icon: Value,
                                   actions: Option<seq<Value>>, closable: bool, autoClose: Option<Num>,
                                   position: Position)

  /** `applyProps`, with its defaults: closed, no text, the default
      variant, closable, no auto-close, at the bottom right. */
  function StateOf(data: Value): (r: ToastState)
    ensures r.open == BoolOr(Field(data, "_open"), false) && r.text == TruthyText(Field(data, "_text"))
    ensures r.variant == NormalizeVariant(Field(data, "_variant")) && r.icon == Field(data, "_icon")
    ensures r.actions == ListOf(Field(data, "_actions")) && r.closable == BoolOr(Field(data, "_closable"), true)
    ensures r.autoClose == AutoCloseOf(Field(data, "_auto_close_ms"))
    ensures r.position == NormalizePosition(Field(data, "_position"))
  {
    ToastState(BoolOr(Field(data, "_open"), false), TruthyText(Field(data, "_text")),
               NormalizeVariant(Field(data, "_variant")), Field(data, "_icon"), ListOf(Field(data, "_actions")),
               BoolOr(Field(data, "_closable"), true), AutoCloseOf(Field(data, "_auto_close_ms")),
               NormalizePosition(Field(data, "_position")))
  }

  /** An empty configuration gives every default. */
  lemma DefaultState(r: nat)
    ensures StateOf(Obj(r, map[])) == ToastState(false, "", Default, Undef, None, true, None, BottomRight)
  {
  }

  /** What the container shows: the icon when truthy, the text, the
      actions and whether there is a close button. */
  datatype Shape = Shape(icon: Option<Value>, text: string, actions: seq<Value>, closable: bool)

  /** What `buildSkeleton` builds from the settings. */
  function Skeleton(st: ToastState): (r: Shape)
    ensures r.icon.Some? <==> Truthy(st.icon)
    ensures r.icon.Some? ==> r.icon.value == st.icon
    ensures r.text == st.text && r.closable == st.closable
    ensures r.actions != [] <==> st.actions.Some? && |st.actions.value| > 0
    ensures r.actions != [] ==> r.actions == st.actions.value
  {
    Shape(if Truthy(st.icon) then Some(st.icon) else None, st.text,
          if st.actions.Some? then st.actions.value else [], st.closable)
  }

  function IconView(icon: Value): Node {
    Make("view", "", "xtoast__icon", "", [User(icon)])
  }

  function TextNode(t: string): Node {
    Make("label", TextId, "xtoast__text", t, [])
  }

  function ActionsView(actions: seq<Value>): Node {
    Make("view", "", "xtoast__actions", "", Users(actions))
  }

  const CloseButton: Node := Make("button", "", "xtoast__close", "×", [])

  /** The icon view when there is an icon. */
  function IconPart(sh: Shape): seq<Node> {
    if sh.icon.Some? then [IconView(sh.icon.value)] else []
  }

  /** The actions view when there are actions. */
  function ActionsPart(sh: Shape): seq<Node> {
    if sh.actions == [] then [] else [ActionsView(sh.actions)]
  }

  /** The close button when closable. */
  function ClosePart(sh: Shape): seq<Node> {
    if sh.closable then [CloseButton] else []
  }

  /** The container's children, in the order they are pushed. */
  function Row(sh: Shape): seq<Node> {
    IconPart(sh) + [TextNode(sh.text)] + ActionsPart(sh) + ClosePart(sh)
  }

  /** The container `buildSkeleton` appends. */
  function Render(sh: Shape): Node {
    Make("view", ContainerId, "xtoast__container", "", Row(sh))
  }

  /** The container holds, in this order, the icon exactly when it is set,
      the text label always, the actions exactly when there is at least
      one, and the close button exactly when closable. */
  lemma RowLayout(st: ToastState)
    ensures var r := Row(Skeleton(st));
      var k := if Truthy(st.icon) then 1 else 0;
      var a := if st.actions.Some? && |st.actions.value| > 0 then 1 else 0;
      && |r| == k + 1 + a + (if st.closable then 1 else 0)
      && (Truthy(st.icon) ==> r[0] == IconView(st.icon))
      && r[k] == TextNode(st.text)
      && (a == 1 ==> r[k + 1] == ActionsView(st.actions.value))
      && (r[|r| - 1] == CloseButton <==> st.closable)
  {
    var sh := Skeleton(st);
    var r := Row(sh);
    var k := if Truthy(st.icon) then 1 else 0;
    assert r == IconPart(sh) + [TextNode(sh.text)] + ActionsPart(sh) + ClosePart(sh);
    assert |IconPart(sh)| == k;
    assert r[k] == TextNode(st.text);
    if !st.closable {
      assert r[|r| - 1] == TextNode(st.text) || r[|r| - 1] == ActionsView(sh.actions);
    }
  }

  /** The text label is in the container whatever the settings, and no
      other node carries its id. */
  lemma RowIds(sh: Shape)
    ensures NodeHasId(Render(sh), TextId)
    ensures !HasId(IconPart(sh) + ActionsPart(sh) + ClosePart(sh), TextId)
  {
    IdsDistinct();
    HasIdAppend(IconPart(sh) + [TextNode(sh.text)], ActionsPart(sh) + ClosePart(sh), TextId);
    assert Row(sh) == (IconPart(sh) + [TextNode(sh.text)]) + (ActionsPart(sh) + ClosePart(sh));
    HasIdAppend(IconPart(sh), [TextNode(sh.text)], TextId);
    HasIdOne(TextNode(sh.text), TextId);
    OthersNoId(sh);
  }

  lemma OthersNoId(sh: Shape)
    ensures !HasId(IconPart(sh), TextId) && !HasId(ActionsPart(sh), TextId) && !HasId(ClosePart(sh), TextId)
    ensures !HasId(IconPart(sh) + ActionsPart(sh) + ClosePart(sh), TextId)
  {
    IdsDistinct();
    if sh.icon.Some? {
      HasIdOne(IconView(sh.icon.value), TextId);
      UsersNoId([sh.icon.value], TextId);
      assert Users([sh.icon.value]) == [User(sh.icon.value)];
    }
    if sh.actions != [] {
      HasIdOne(ActionsView(sh.actions), TextId);
      UsersNoId(sh.actions, TextId);
    }
    if sh.closable {
      HasIdOne(CloseButton, TextId);
    }
    HasIdAppend(IconPart(sh), ActionsPart(sh), TextId);
    HasIdAppend(IconPart(sh) + ActionsPart(sh), ClosePart(sh), TextId);
  }

  /** Writing a text into the label in place gives the very container a
      rebuild with that text would give. */
  lemma RetextRender(sh: Shape, t: string)
    ensures SetNodeText(Render(sh), TextId, t) == Render(sh.(text := t))
  {
    IdsDistinct();
    OthersNoId(sh);
    var sh' := sh.(text := t);
    SetTextAppend(IconPart(sh) + [TextNode(sh.text)], ActionsPart(sh) + ClosePart(sh), TextId, t);
    assert Row(sh) == (IconPart(sh) + [TextNode(sh.text)]) + (ActionsPart(sh) + ClosePart(sh));
    assert Row(sh') == (IconPart(sh') + [TextNode(t)]) + (ActionsPart(sh') + ClosePart(sh'));
    SetTextAppend(IconPart(sh), [TextNode(sh.text)], TextId, t);
    SetTextOne(TextNode(sh.text), TextId, t);
    SetTextAbsent(IconPart(sh), TextId, t);
    HasIdAppend(ActionsPart(sh), ClosePart(sh), TextId);
    SetTextAbsent(ActionsPart(sh) + ClosePart(sh), TextId, t);
  }

  /** The variant modifiers `applyLayout` replaces. */
  const VariantMods: set<string> := {"xtoast--default", "xtoast--success", "xtoast--error", "xtoast--warn", "xtoast--info"}

  /** The position modifiers `applyLayout` replaces. */
  const PositionMods: set<string> := {"xtoast--top-right", "xtoast--top-left", "xtoast--bottom-right", "xtoast--bottom-left"}

  function VariantToken(x: Variant): (r: string)
    ensures r in VariantMods
  {
    match x
    case Default => "xtoast--default"
    case Success => "xtoast--success"
    case Error => "xtoast--error"
    case Warn => "xtoast--warn"
    case Info => "xtoast--info"
  }

  function PositionToken(p: Position): (r: string)
    ensures r in PositionMods
  {
    match p
    case TopRight => "xtoast--top-right"
    case TopLeft => "xtoast--top-left"
    case BottomRight => "xtoast--bottom-right"
    case BottomLeft => "xtoast--bottom-left"
  }

  /** The variant modifier is `xtoast--` followed by the stored name. */
  lemma VariantTokenNamed(x: Variant)
    ensures VariantToken(x) == "xtoast--" + VariantName(x)
  {
    match x
    case Default => assert "xtoast--" + "default" == "xtoast--default";
    case Success => assert "xtoast--" + "success" == "xtoast--success";
    case Error => assert "xtoast--" + "error" == "xtoast--error";
    case Warn => assert "xtoast--" + "warn" == "xtoast--warn";
    case Info => assert "xtoast--" + "info" == "xtoast--info";
  }

  /** The position modifier is `xtoast--` followed by the stored name. */
  lemma PositionTokenNamed(p: Position)
    ensures PositionToken(p) == "xtoast--" + PositionName(p)
  {
    match p
    case TopRight => assert "xtoast--" + "top-right" == "xtoast--top-right";
    case TopLeft => assert "xtoast--" + "top-left" == "xtoast--top-left";
    case BottomRight => assert "xtoast--" + "bottom-right" == "xtoast--bottom-right";
    case BottomLeft => assert "xtoast--" + "bottom-left" == "xtoast--bottom-left";
  }

  /** `applyLayout`: "xtoast" added, the open modifier replaced by itself
      when open and by nothing when closed, then the variant and the
      position families each replaced by the current choice. */
  function ToastClasses(cs: set<string>, st: ToastState): set<string> {
    ReplaceClass(ReplaceClass(ReplaceClass(cs + {"xtoast"}, {"xtoast--open"}, if st.open then {"xtoast--open"} else {}),
                              VariantMods, {VariantToken(st.variant)}),
                 PositionMods, {PositionToken(st.position)})
  }

  /** The classes show the settings: "xtoast", the open modifier exactly
      when open, exactly one variant modifier and exactly one position
      modifier, the current ones. */
  predicate LayoutShown(cs: set<string>, st: ToastState) {
    && "xtoast" in cs
    && ("xtoast--open" in cs <==> st.open)
    && cs * VariantMods == {VariantToken(st.variant)}
    && cs * PositionMods == {PositionToken(st.position)}
  }

  /** `applyLayout` shows the settings and keeps the caller's other
      classes. */
  lemma ToastClassesShape(cs: set<string>, st: ToastState)
    ensures LayoutShown(ToastClasses(cs, st), st)
    ensures forall x | x !in VariantMods && x !in PositionMods && x != "xtoast--open" && x != "xtoast" ::
              x in ToastClasses(cs, st) <==> x in cs
  {
    var a := ReplaceClass(cs + {"xtoast"}, {"xtoast--open"}, if st.open then {"xtoast--open"} else {});
    var b := ReplaceClass(a, VariantMods, {VariantToken(st.variant)});
    ReplaceFamily(a, VariantMods, {VariantToken(st.variant)});
    ReplaceFamily(b, PositionMods, {PositionToken(st.position)});
    assert "xtoast--open" !in VariantMods && "xtoast--open" !in PositionMods;
    assert "xtoast" !in VariantMods && "xtoast" !in PositionMods;
    assert b * PositionMods == a * PositionMods;
  }

  /** A layout pass discards the modifiers of any earlier one. */
  lemma ToastClassesOverride(cs: set<string>, a: ToastState, b: ToastState)
    ensures ToastClasses(ToastClasses(cs, a), b) == ToastClasses(cs, b)
  {
    assert "xtoast--open" !in VariantMods && "xtoast--open" !in PositionMods;
  }

  /** The auto-close timer: the time counted so far and the last frame's
      timestamp, both in whole milliseconds. */
  datatype Timer = Timer(elapsed: int, lastTick: Option<int>)

  /** `resetTimer()`. */
  const Reset: Timer := Timer(0, None)

  /** `!this.__auto_close_ms || this.__auto_close_ms <= 0` fails: a number
      above 0, infinity included. */
  predicate Active(ms: Option<Num>) {
    ms.Some? && (ms.value == PosInf || (ms.value.Fin? && ms.value.v > 0))
  }

  /** `this.__elapsed >= this.__auto_close_ms`. */
  predicate Due(elapsed: int, ms: Num) {
    ms.Fin? && elapsed >= ms.v
  }

  /** `if (!this.__last_tick)` fails: a timestamp other than 0 is
      recorded. */
  predicate Ticked(lastTick: Option<int>) {
    lastTick.Some? && lastTick.value != 0
  }

  /** The outcome of a frame that counts: the timer, and whether the toast
      closes. */
  datatype Tick = Tick(timer: Timer, closes: bool)

  /** One frame at `now` while the toast is open with an active limit: the
      first only records the timestamp; a later one adds the time since the
      last, records `now`, and closes the toast once the total reaches
      the limit, forgetting the timestamp. */
  function Step(ms: Num, tm: Timer, now: int): (r: Tick)
    ensures !Ticked(tm.lastTick) ==> r == Tick(tm.(lastTick := Some(now)), false)
    ensures Ticked(tm.lastTick) ==> r.timer.elapsed == tm.elapsed + (now - tm.lastTick.value)
    ensures Ticked(tm.lastTick) ==> (r.closes <==> Due(r.timer.elapsed, ms))
    ensures r.timer.lastTick == (if r.closes then None else Some(now))
  {
    if !Ticked(tm.lastTick) then Tick(tm.(lastTick := Some(now)), false)
    else
      var e := tm.elapsed + (now - tm.lastTick.value);
      if Due(e, ms) then Tick(Timer(e, None), true) else Tick(Timer(e, Some(now)), false)
  }

  /** Frames at the timestamps `nows`, in order, while the toast stays
      open: they stop at the one that closes it. */
  function Run(ms: Num, tm: Timer, nows: seq<int>): Tick
    decreases |nows|
  {
    if nows == [] then Tick(tm, false)
    else
      var s := Step(ms, tm, nows[0]);
      if s.closes then s else Run(ms, s.timer, nows[1..])
  }

  /** From a recorded timestamp `t0` and `e` counted, frames that stay
      short of the limit count exactly the time from `t0` to the last of
      them. */
  lemma {:induction false} RunCounts(ms: Num, e: int, t0: int, nows: seq<int>)
    requires t0 != 0 && forall i | 0 <= i < |nows| :: nows[i] != 0
    requires forall i | 0 <= i < |nows| :: !Due(e + (nows[i] - t0), ms)
    ensures var last := if nows == [] then t0 else nows[|nows| - 1];
      Run(ms, Timer(e, Some(t0)), nows) == Tick(Timer(e + (last - t0), Some(last)), false)
    decreases |nows|
  {
    if nows != [] {
      var s := Step(ms, Timer(e, Some(t0)), nows[0]);
      assert !Due(e + (nows[0] - t0), ms);
      assert s == Tick(Timer(e + (nows[0] - t0), Some(nows[0])), false);
      var rest := nows[1..];
      forall i | 0 <= i < |rest|
        ensures rest[i] != 0 && !Due(e + (nows[0] - t0) + (rest[i] - nows[0]), ms)
      {
        assert rest[i] == nows[i + 1];
        assert e + (nows[0] - t0) + (rest[i] - nows[0]) == e + (nows[i + 1] - t0);
      }
      RunCounts(ms, e + (nows[0] - t0), nows[0], rest);
      if rest != [] {
        assert rest[|rest| - 1] == nows[|nows| - 1];
      }
    }
  }

  /** From a recorded timestamp `t0` and `e` counted, the frames close the
      toast at the first one whose total reaches the limit, with that
      total counted and the timestamp forgotten. */
  lemma {:induction false} RunCloses(ms: Num, e: int, t0: int, nows: seq<int>, k: nat)
    requires k < |nows| && t0 != 0 && forall i | 0 <= i < |nows| :: nows[i] != 0
    requires forall i | 0 <= i < k :: !Due(e + (nows[i] - t0), ms)
    requires Due(e + (nows[k] - t0), ms)
    ensures Run(ms, Timer(e, Some(t0)), nows) == Tick(Timer(e + (nows[k] - t0), None), true)
    decreases k
  {
    var s := Step(ms, Timer(e, Some(t0)), nows[0]);
    if k == 0 {
      assert s == Tick(Timer(e + (nows[0] - t0), None), true);
    } else {
      assert !Due(e + (nows[0] - t0), ms);
      assert s == Tick(Timer(e + (nows[0] - t0), Some(nows[0])), false);
      var rest := nows[1..];
      forall i | 0 <= i < |rest|
        ensures rest[i] != 0 && rest[i] == nows[i + 1]
        ensures e + (nows[0] - t0) + (rest[i] - nows[0]) == e + (nows[i + 1] - t0)
      {
      }
      RunCloses(ms, e + (nows[0] - t0), nows[0], rest, k - 1);
    }
  }

  /** After `resetTimer()`, the first frame records its timestamp and the
      toast closes at the first later frame at least the limit past it,
      having counted the time between the two; frames that all stay short
      leave it open with the time from the first to the last counted. */
  lemma AutoClose(ms: Num, nows: seq<int>)
    requires |nows| > 0 && forall i | 0 <= i < |nows| :: nows[i] != 0
    ensures (forall i | 0 < i < |nows| :: !Due(nows[i] - nows[0], ms)) ==>
              Run(ms, Reset, nows) == Tick(Timer(nows[|nows| - 1] - nows[0], Some(nows[|nows| - 1])), false)
    ensures forall k | 0 < k < |nows| && Due(nows[k] - nows[0], ms) && (forall i | 0 < i < k :: !Due(nows[i] - nows[0], ms)) ::
              Run(ms, Reset, nows) == Tick(Timer(nows[k] - nows[0], None), true)
  {
    var rest := nows[1..];
    assert Step(ms, Reset, nows[0]) == Tick(Timer(0, Some(nows[0])), false);
    assert Run(ms, Reset, nows) == Run(ms, Timer(0, Some(nows[0])), rest);
    if forall i | 0 < i < |nows| :: !Due(nows[i] - nows[0], ms) {
      forall i | 0 <= i < |rest| ensures rest[i] != 0 && !Due(0 + (rest[i] - nows[0]), ms) {
        assert rest[i] == nows[i + 1];
      }
      RunCounts(ms, 0, nows[0], rest);
      if rest != [] {
        assert rest[|rest| - 1] == nows[|nows| - 1];
      }
    }
    forall k | 0 < k < |nows| && Due(nows[k] - nows[0], ms) && (forall i | 0 < i < k :: !Due(nows[i] - nows[0], ms))
      ensures Run(ms, Reset, nows) == Tick(Timer(nows[k] - nows[0], None), true)
    {
      forall i | 0 <= i < |rest| ensures rest[i] != 0 && rest[i] == nows[i + 1] {
      }
      RunCloses(ms, 0, nows[0], rest, k - 1);
    }
  }

  /** An infinite limit never closes the toast. */
  lemma NeverDue(e: int, tm: Timer, now: int)
    ensures !Due(e, PosInf) && !Step(PosInf, tm, now).closes
  {
  }

  class XToast {
    var classes: set<string>
    var st: ToastState
    /** What the container appended by the last `buildSkeleton` shows, as
        patched in place since; the nodes are `Root()`. */
    var built: Shape
    /** How many times the container has been rebuilt since construction. */
    var rebuilds: nat
    var timer: Timer
    /** Whether `_on_open` and `_on_close` are set. */
    const hasOnOpen: bool
    const hasOnClose: bool

    /** The container and the nodes under it. */
    function Root(): Node
      reads this`built
    {
      Render(built)
    }

    /** The container shows the settings and the classes show the
        layout. */
    predicate Valid()
      reads this`built, this`st, this`classes
    {
      built == Skeleton(st) && LayoutShown(classes, st)
    }

    /** `isOpen()`. */
    function IsOpen(): bool
      reads this`st
    {
      st.open
    }

    /** `applyLayout()`. */
    method ApplyLayout()
      modifies this`classes
      ensures classes == ToastClasses(old(classes), st) && LayoutShown(classes, st)
    {
      ToastClassesShape(classes, st);
      classes := ToastClasses(classes, st);
    }

    /** `rebuild()`: the old container is removed, a new skeleton appended,
        and the layout applied. */
    method Rebuild()
      modifies this`built, this`rebuilds, this`classes
      ensures Valid() && rebuilds == old(rebuilds) + 1 && classes == ToastClasses(old(classes), st)
    {
      built := Skeleton(st);
      rebuilds := rebuilds + 1;
      ApplyLayout();
    }

    /** Construction: the settings are read, the skeleton built and the
        layout applied; the timer starts reset. */
    constructor(data: Value)
      ensures st == StateOf(data) && timer == Reset
      ensures classes == ToastClasses(ClassList(if Truthy(Field(data, "class")) then ToStr(Field(data, "class")) else "xtoast"), st)
      ensures hasOnOpen == Truthy(Field(data, "_on_open")) && hasOnClose == Truthy(Field(data, "_on_close"))
      ensures Valid() && rebuilds == 0
    {
      var s := StateOf(data);
      var cs := ClassList(if Truthy(Field(data, "class")) then ToStr(Field(data, "class")) else "xtoast");
      ToastClassesShape(cs, s);
      st := s;
      classes := ToastClasses(cs, s);
      built := Skeleton(s);
      rebuilds := 0;
      timer := Reset;
      hasOnOpen := Truthy(Field(data, "_on_open"));
      hasOnClose := Truthy(Field(data, "_on_close"));
    }

    /** `setOpen(v, silent)`: the flag is stored, the timer reset when
        open, the layout applied; `fired` holds the callbacks called
        afterwards: `_on_open` only on a change to open, `_on_close` only
        on a change to closed, each only when set and neither when
        silent. */
    method SetOpen(v: Value, silent: bool) returns (fired: seq<Event>)
      requires Valid()
      modifies this`st, this`timer, this`classes
      ensures st == old(st).(open := BoolOr(v, false)) && Valid()
      ensures timer == (if st.open then Reset else old(timer))
      ensures classes == ToastClasses(old(classes), st)
      ensures fired == OpenEvents(old(st.open), st.open, silent, hasOnOpen, hasOnClose)
    {
      var was := st.open;
      st := st.(open := BoolOr(v, false));
      if st.open {
        timer := Reset;
      }
      ApplyLayout();
      fired := OpenEvents(was, st.open, silent, hasOnOpen, hasOnClose);
    }

    /** `open()`. */
    method Open() returns (fired: seq<Event>)
      requires Valid()
      modifies this`st, this`timer, this`classes
      ensures st == old(st).(open := true) && Valid() && timer == Reset
      ensures fired == (if !old(st.open) && hasOnOpen then [Opened] else [])
    {
      fired := SetOpen(Bool(true), false);
    }

    /** `close()`, also the close button's click handler. */
    method Close() returns (fired: seq<Event>)
      requires Valid()
      modifies this`st, this`timer, this`classes
      ensures st == old(st).(open := false) && Valid() && timer == old(timer)
      ensures fired == (if old(st.open) && hasOnClose then [Closed] else [])
    {
      fired := SetOpen(Bool(false), false);
    }

    /** `onFrame(frame)` at the time `now`: nothing unless the toast is open
        with an auto-close limit above 0; otherwise one `Step` of the
        timer, and when it closes the toast, `close()` and the timestamp
        forgotten. */
    method OnFrame(now: int) returns (fired: seq<Event>)
      requires Valid()
      modifies this`st, this`timer, this`classes
      ensures Valid()
      ensures !(old(st.open) && Active(old(st.autoClose))) ==>
                st == old(st) && timer == old(timer) && classes == old(classes) && fired == []
      ensures old(st.open) && Active(old(st.autoClose)) ==>
                var s := Step(old(st.autoClose).value, old(timer), now);
                && timer == s.timer
                && st == (if s.closes then old(st).(open := false) else old(st))
                && fired == (if s.closes && hasOnClose then [Closed] else [])
    {
      if !st.open || !Active(st.autoClose) {
        return [];
      }
      var ms := st.autoClose.value;
      if !Ticked(timer.lastTick) {
        timer := timer.(lastTick := Some(now));
        return [];
      }
      var e := timer.elapsed + (now - timer.lastTick.value);
      timer := Timer(e, Some(now));
      fired := [];
      if Due(e, ms) {
        fired := Close();
        timer := timer.(lastTick := None);
      }
    }

    /** The `_open` setter: the flag, the timer reset when open, the
        layout; no callback. */
    method SetOpenProp(v: Value)
      requires Valid()
      modifies this`st, this`timer, this`classes
      ensures st == old(st).(open := BoolOr(v, false)) && Valid()
      ensures timer == (if st.open then Reset else old(timer))
      ensures classes == ToastClasses(old(classes), st)
    {
      st := st.(open := BoolOr(v, false));
      if st.open {
        timer := Reset;
      }
      ApplyLayout();
    }

    /** The `_text` setter: the text is stored and written into the label,
        which every container holds (`RowIds`); nothing is rebuilt. */
    method SetText(v: Value)
      requires Valid()
      modifies this`st, this`built
      ensures st == old(st).(text := TruthyText(v)) && Valid()
      ensures Root() == SetNodeText(old(Root()), TextId, st.text)
    {
      st := st.(text := TruthyText(v));
      RetextRender(built, st.text);
      built := built.(text := st.text);
    }

    /** The `_variant` setter. */
    method SetVariant(v: Value)
      requires Valid()
      modifies this`st, this`classes
      ensures st == old(st).(variant := NormalizeVariant(v)) && Valid()
      ensures classes == ToastClasses(old(classes), st)
    {
      st := st.(variant := NormalizeVariant(v));
      ApplyLayout();
    }

    /** The `_position` setter. */
    method SetPosition(v: Value)
      requires Valid()
      modifies this`st, this`classes
      ensures st == old(st).(position := NormalizePosition(v)) && Valid()
      ensures classes == ToastClasses(old(classes), st)
    {
      st := st.(position := NormalizePosition(v));
      ApplyLayout();
    }

    /** The `_icon` setter: store and rebuild. */
    method SetIcon(v: Value)
      modifies this`st, this`built, this`rebuilds, this`classes
      ensures st == old(st).(icon := v) && Valid() && rebuilds == old(rebuilds) + 1
      ensures classes == ToastClasses(old(classes), st)
    {
      st := st.(icon := v);
      Rebuild();
    }

    /** The `_actions` setter: a non-array gives none; rebuild. */
    method SetActions(v: Value)
      modifies this`st, this`built, this`rebuilds, this`classes
      ensures st == old(st).(actions := ListOf(v)) && Valid() && rebuilds == old(rebuilds) + 1
      ensures classes == ToastClasses(old(classes), st)
    {
      st := st.(actions := ListOf(v));
      Rebuild();
    }

    /** The `_closable` setter: rebuild. */
    method SetClosable(v: Value)
      modifies this`st, this`built, this`rebuilds, this`classes
      ensures st == old(st).(closable := BoolOr(v, true)) && Valid() && rebuilds == old(rebuilds) + 1
      ensures classes == ToastClasses(old(classes), st)
    {
      st := st.(closable := BoolOr(v, true));
      Rebuild();
    }

    /** The `_auto_close_ms` setter: any number is kept, and the timer is
        reset when open. */
    method SetAutoClose(v: Value)
      modifies this`st, this`timer
      ensures st == old(st).(autoClose := AutoCloseOf(v)) && (old(Valid()) ==> Valid())
      ensures timer == (if st.open then Reset else old(timer))
    {
      st := st.(autoClose := AutoCloseOf(v));
      if st.open {
        timer := Reset;
      }
    }
  }
}

=== FILE: toolbar.dfy ===
/** XToolbar: a horizontal flex row with an optional sticky position and an
    elevated look. `applyLayout` rewrites the host's `class` and `style`. */
module Toolbar {
  import opened Text
  import opened Values
  import opened Styles
  import opened Classes
  import opened Names

  datatype Align = Start | Center | End | Stretch
  datatype Justify = JStart | JCenter | JEnd | SpaceBetween

  /** The style properties the widget owns. */
  const Managed: set<string> :=
    {"--xtoolbar-gap", "align-items", "justify-content", "flex-wrap", "position", "top", "z-index"}

  /** The class tokens the widget owns. */
  const OwnTokens: set<string> := {"xtoolbar", "xtoolbar--elevated"}

  /** The four accepted spellings are kept; anything else is "center". */
  function NormalizeAlign(v: Value): (r: Align)
    ensures v == Str("start") <==> r == Start
    ensures v == Str("end") <==> r == End
    ensures v == Str("stretch") <==> r == Stretch
    ensures r == Center <==> !(v in {Str("start"), Str("end"), Str("stretch")})
  {
    if v == Str("start") then Start
    else if v == Str("end") then End
    else if v == Str("stretch") then Stretch
    else Center
  }

  /** The four accepted spellings are kept; anything else is "start". */
  function NormalizeJustify(v: Value): (r: Justify)
    ensures v == Str("center") <==> r == JCenter
    ensures v == Str("end") <==> r == JEnd
    ensures v == Str("space-between") <==> r == SpaceBetween
    ensures r == JStart <==> !(v in {Str("center"), Str("end"), Str("space-between")})
  {
    if v == Str("center") then JCenter
    else if v == Str("end") then JEnd
    else if v == Str("space-between") then SpaceBetween
    else JStart
  }

  /** A finite non-negative number is kept; anything else is 8. */
  function NormalizeGap(v: Value): (r: int)
    ensures r >= 0
    ensures IsFinite(v) && v.n.v >= 0 ==> r == v.n.v
    ensures !(IsFinite(v) && v.n.v >= 0) ==> r == 8
  {
    NonNegOr(v, 8)
  }

  /** `_top`: a finite number is kept; anything else is 0. */
  function NormalizeTop(v: Value): (r: int)
    ensures IsFinite(v) ==> r == v.n.v
    ensures !IsFinite(v) ==> r == 0
  {
    FiniteOr(v, 0)
  }

  function MapAlign(a: Align): string {
    match a
    case Start => "flex-start"
    case End => "flex-end"
    case Center => "center"
    case Stretch => "stretch"
  }

  function MapJustify(j: Justify): string {
    match j
    case JStart => "flex-start"
    case JEnd => "flex-end"
    case JCenter => "center"
    case SpaceBetween => "space-between"
  }

  /** Distinct settings give distinct CSS. */
  lemma MapInjective(a: Align, b: Align, j: Justify, k: Justify)
    ensures MapAlign(a) == MapAlign(b) <==> a == b
    ensures MapJustify(j) == MapJustify(k) <==> j == k
  {
  }

  function Elevation(elevated: bool): seq<string> {
    if elevated then ["xtoolbar--elevated"] else []
  }

  /** `buildClassName(elevated)`. */
  function ToolbarClass(existing: string, elevated: bool): string {
    ClassName(["xtoolbar"], existing, OwnTokens, Elevation(elevated))
  }

  lemma LeadTokens(elevated: bool)
    ensures Tokens(["xtoolbar"]) && NoDup(["xtoolbar"]) && Tokens(Elevation(elevated))
    ensures forall x | x in Elevation(elevated) :: x in OwnTokens
  {
    PlainToken("xtoolbar");
    if elevated {
      PlainToken("xtoolbar--elevated");
    }
  }

  /** The class starts with "xtoolbar", holds each token once, and holds
      exactly "xtoolbar", the caller's other classes, and the elevated modifier
      when elevated; the modifier is present exactly when elevated. */
  lemma ToolbarClassShape(existing: string, elevated: bool)
    ensures |Words(ToolbarClass(existing, elevated))| >= 1
    ensures Words(ToolbarClass(existing, elevated))[0] == "xtoolbar"
    ensures NoDup(Words(ToolbarClass(existing, elevated)))
    ensures forall x :: x in Words(ToolbarClass(existing, elevated)) <==>
      x == "xtoolbar" || (x in Words(existing) && x !in OwnTokens) || (elevated && x == "xtoolbar--elevated")
    ensures "xtoolbar--elevated" in Words(ToolbarClass(existing, elevated)) <==> elevated
  {
    LeadTokens(elevated);
    ClassTokensShape(["xtoolbar"], existing, OwnTokens, Elevation(elevated));
    assert ClassTokens(["xtoolbar"], existing, OwnTokens, Elevation(elevated))[..1] == ["xtoolbar"];
  }

  /** A pass with new settings replaces the class of any earlier pass: only
      the current elevation shows. */
  lemma ToolbarClassOverride(existing: string, e1: bool, e2: bool)
    ensures ToolbarClass(ToolbarClass(existing, e1), e2) == ToolbarClass(existing, e2)
  {
    LeadTokens(e1);
    LeadTokens(e2);
    ClassNameOverride(["xtoolbar"], Elevation(e1), ["xtoolbar"], Elevation(e2), existing, OwnTokens);
  }

  /** The pairs `applyLayout` appends, in its order. */
  function OwnPairs(gap: int, align: Align, justify: Justify, wrap: bool, sticky: bool, top: int): seq<(string, string)> {
    [("--xtoolbar-gap", Px(gap))]
    + [("align-items", MapAlign(align))]
    + [("justify-content", MapJustify(justify))]
    + (if wrap then [("flex-wrap", "wrap")] else [])
    + (if sticky then [("position", "sticky"), ("top", Px(top)), ("z-index", "10")] else [])
  }

  /** The gap, align-items and justify-content always come first, in that
      order; flex-wrap follows exactly when wrapping; the sticky block of
      position, top and z-index closes the list exactly when sticky. */
  lemma OwnPairsContent(gap: int, align: Align, justify: Justify, wrap: bool, sticky: bool, top: int)
    ensures var ps := OwnPairs(gap, align, justify, wrap, sticky, top);
      && ps[..3] == [("--xtoolbar-gap", Px(gap)), ("align-items", MapAlign(align)), ("justify-content", MapJustify(justify))]
      && |ps| == 3 + (if wrap then 1 else 0) + (if sticky then 3 else 0)
      && (wrap ==> ps[3] == ("flex-wrap", "wrap"))
      && (sticky ==> ps[|ps| - 3..] == [("position", "sticky"), ("top", Px(top)), ("z-index", "10")])
  {
  }

  lemma GapProp() ensures PropName("--xtoolbar-gap") { PlainProp("--xtoolbar-gap"); }
  lemma AlignProp() ensures PropName("align-items") { PlainProp("align-items"); }
  lemma JustifyProp() ensures PropName("justify-content") { PlainProp("justify-content"); }
  lemma WrapProp() ensures PropName("flex-wrap") { PlainProp("flex-wrap"); }
  lemma PositionProp() ensures PropName("position") { PlainProp("position"); }
  lemma TopProp() ensures PropName("top") { PlainProp("top"); }
  lemma ZProp() ensures PropName("z-index") { PlainProp("z-index"); }
  lemma AlignValue(a: Align) ensures PropValue(MapAlign(a)) {}
  lemma JustifyValue(j: Justify) ensures PropValue(MapJustify(j)) {}
  lemma FixedValues() ensures PropValue("wrap") && PropValue("sticky") && PropValue("10") {}

  lemma StickyOwned(top: int)
    ensures Owned([("position", "sticky"), ("top", Px(top)), ("z-index", "10")], Managed)
  {
    PositionProp();
    TopProp();
    ZProp();
    FixedValues();
    PxValue(top);
  }

  /** Every emitted pair is a normal declaration of a managed property. */
  lemma OwnPairsOwned(gap: int, align: Align, justify: Justify, wrap: bool, sticky: bool, top: int)
    ensures Owned(OwnPairs(gap, align, justify, wrap, sticky, top), Managed)
  {
    var g := [("--xtoolbar-gap", Px(gap))];
    var a := [("align-items", MapAlign(align))];
    var j := [("justify-content", MapJustify(justify))];
    var w := if wrap then [("flex-wrap", "wrap")] else [];
    var s := if sticky then [("position", "sticky"), ("top", Px(top)), ("z-index", "10")] else [];
    assert Owned(g, Managed) by {
      GapProp();
      PxValue(gap);
      OwnedOne("--xtoolbar-gap", Px(gap), Managed);
    }
    assert Owned(a, Managed) by {
      AlignProp();
      AlignValue(align);
      OwnedOne("align-items", MapAlign(align), Managed);
    }
    assert Owned(j, Managed) by {
      JustifyProp();
      JustifyValue(justify);
      OwnedOne("justify-content", MapJustify(justify), Managed);
    }
    assert Owned(w, Managed) by {
      if wrap {
        WrapProp();
        FixedValues();
        OwnedOne("flex-wrap", "wrap", Managed);
      }
    }
    assert Owned(s, Managed) by {
      if sticky {
        StickyOwned(top);
      }
    }
    OwnedAppend(g, a, Managed);
    OwnedAppend(g + a, j, Managed);
    OwnedAppend(g + a + j, w, Managed);
    OwnedAppend(g + a + j + w, s, Managed);
  }

  /** The style half of `applyLayout`: the stripped caller style, then the
      widget's declarations pushed in order. */
  method LayoutStyleOf(style: string, gap: int, align: Align, justify: Justify, wrap: bool, sticky: bool, top: int)
    returns (r: string)
    ensures r == Layout(style, OwnPairs(gap, align, justify, wrap, sticky, top), Managed)
  {
    var base := StripManagedStyles(style, Managed);
    var ps := [("--xtoolbar-gap", Px(gap))];
    ps := ps + [("align-items", MapAlign(align))];
    ps := ps + [("justify-content", MapJustify(justify))];
    ps := ps + if wrap then [("flex-wrap", "wrap")] else [];
    ps := ps + if sticky then [("position", "sticky"), ("top", Px(top)), ("z-index", "10")] else [];
    r := LayoutStyle(base, Decls(ps));
  }

  class XToolbar {
    var cls: string
    var style: string
    var gap: int
    var align: Align
    var justify: Justify
    var wrap: bool
    var sticky: bool
    var top: int
    var elevated: bool

    function LayoutOf(base: string): string
      reads this
    {
      Layout(base, OwnPairs(gap, align, justify, wrap, sticky, top), Managed)
    }

    /** `applyLayout`: rewrites class and style from the fields, nothing else. */
    method ApplyLayout()
      modifies this
      ensures cls == ToolbarClass(old(cls), elevated)
      ensures style == Layout(old(style), OwnPairs(gap, align, justify, wrap, sticky, top), Managed)
      ensures gap == old(gap) && align == old(align) && justify == old(justify)
      ensures wrap == old(wrap) && sticky == old(sticky) && top == old(top) && elevated == old(elevated)
    {
      cls := ToolbarClass(cls, elevated);
      style := LayoutStyleOf(style, gap, align, justify, wrap, sticky, top);
    }

    /** Construction: the normalised inputs, then one layout pass. `class`
        falls back to "xtoolbar" when the caller gives none. */
    constructor(data: Value)
      ensures gap == NormalizeGap(Field(data, "_gap"))
      ensures align == NormalizeAlign(Field(data, "_align"))
      ensures justify == NormalizeJustify(Field(data, "_justify"))
      ensures wrap == IsTrue(Field(data, "_wrap")) && sticky == IsTrue(Field(data, "_sticky"))
      ensures top == NormalizeTop(Field(data, "_top")) && elevated == IsTrue(Field(data, "_elevated"))
      ensures cls == ToolbarClass(if Truthy(Field(data, "class")) then ToStr(Field(data, "class")) else "xtoolbar", elevated)
      ensures style == LayoutOf(TruthyText(Field(data, "style")))
    {
      cls := if Truthy(Field(data, "class")) then ToStr(Field(data, "class")) else "xtoolbar";
      style := TruthyText(Field(data, "style"));
      gap := NormalizeGap(Field(data, "_gap"));
      align := NormalizeAlign(Field(data, "_align"));
      justify := NormalizeJustify(Field(data, "_justify"));
      wrap := IsTrue(Field(data, "_wrap"));
      sticky := IsTrue(Field(data, "_sticky"));
      top := NormalizeTop(Field(data, "_top"));
      elevated := IsTrue(Field(data, "_elevated"));
      new;
      ApplyLayout();
    }

    method SetGap(v: Value)
      modifies this
      ensures gap == NormalizeGap(v)
      ensures align == old(align) && justify == old(justify) && wrap == old(wrap)
      ensures sticky == old(sticky) && top == old(top) && elevated == old(elevated)
      ensures cls == ToolbarClass(old(cls), elevated) && style == LayoutOf(old(style))
    {
      gap := NormalizeGap(v);
      ApplyLayout();
    }

    method SetAlign(v: Value)
      modifies this
      ensures align == NormalizeAlign(v)
      ensures gap == old(gap) && justify == old(justify) && wrap == old(wrap)
      ensures sticky == old(sticky) && top == old(top) && elevated == old(elevated)
      ensures cls == ToolbarClass(old(cls), elevated) && style == LayoutOf(old(style))
    {
      align := NormalizeAlign(v);
      ApplyLayout();
    }

    method SetJustify(v: Value)
      modifies this
      ensures justify == NormalizeJustify(v)
      ensures gap == old(gap) && align == old(align) && wrap == old(wrap)
      ensures sticky == old(sticky) && top == old(top) && elevated == old(elevated)
      ensures cls == ToolbarClass(old(cls), elevated) && style == LayoutOf(old(style))
    {
      justify := NormalizeJustify(v);
      ApplyLayout();
    }

    method SetWrap(v: Value)
      modifies this
      ensures wrap == IsTrue(v)
      ensures gap == old(gap) && align == old(align) && justify == old(justify)
      ensures sticky == old(sticky) && top == old(top) && elevated == old(elevated)
      ensures cls == ToolbarClass(old(cls), elevated) && style == LayoutOf(old(style))
    {
      wrap := IsTrue(v);
      ApplyLayout();
    }

    method SetSticky(v: Value)
      modifies this
      ensures sticky == IsTrue(v)
      ensures gap == old(gap) && align == old(align) && justify == old(justify)
      ensures wrap == old(wrap) && top == old(top) && elevated == old(elevated)
      ensures cls == ToolbarClass(old(cls), elevated) && style == LayoutOf(old(style))
    {
      sticky := IsTrue(v);
      ApplyLayout();
    }

    method SetTop(v: Value)
      modifies this
      ensures top == NormalizeTop(v)
      ensures gap == old(gap) && align == old(align) && justify == old(justify)
      ensures wrap == old(wrap) && sticky == old(sticky) && elevated == old(elevated)
      ensures cls == ToolbarClass(old(cls), elevated) && style == LayoutOf(old(style))
    {
      top := NormalizeTop(v);
      ApplyLayout();
    }

    method SetElevated(v: Value)
      modifies this
      ensures elevated == IsTrue(v)
      ensures gap == old(gap) && align == old(align) && justify == old(justify)
      ensures wrap == old(wrap) && sticky == old(sticky) && top == old(top)
      ensures cls == ToolbarClass(old(cls), elevated) && style == LayoutOf(old(style))
    {
      elevated := IsTrue(v);
      ApplyLayout();
    }
  }

  /** A layout pass discards every declaration an earlier pass emitted, so the
      style depends only on the caller's declarations and the current fields:
      no caller or stale position, top or z-index survives, and a second pass
      with unchanged fields changes nothing. */
  lemma LayoutOverrides(style: string, gap1: int, align1: Align, justify1: Justify, wrap1: bool, sticky1: bool, top1: int,
                        ps2: seq<(string, string)>)
    ensures Layout(Layout(style, OwnPairs(gap1, align1, justify1, wrap1, sticky1, top1), Managed), ps2, Managed)
         == Layout(style, ps2, Managed)
  {
    OwnPairsOwned(gap1, align1, justify1, wrap1, sticky1, top1);
    LayoutOverride(style, OwnPairs(gap1, align1, justify1, wrap1, sticky1, top1), ps2, Managed);
  }

  /** The declarations of the laid-out style: the caller's surviving ones,
      none of them a managed property, then the widget's own in order. */
  lemma LayoutDeclarations(style: string, gap: int, align: Align, justify: Justify, wrap: bool, sticky: bool, top: int)
    ensures var ps := OwnPairs(gap, align, justify, wrap, sticky, top);
      Pieces(Layout(style, ps, Managed)) == Kept(style, Managed) + Decls(ps)
    ensures forall i | 0 <= i < |Kept(style, Managed)| :: PropOf(Kept(style, Managed)[i]) !in Managed
  {
    OwnPairsOwned(gap, align, justify, wrap, sticky, top);
    LayoutPieces(style, OwnPairs(gap, align, justify, wrap, sticky, top), Managed);
  }
}

=== FILE: values.dfy ===
/** The loosely typed values a widget receives from its configuration object:
    JavaScript's `undefined`, `null`, booleans, strings, numbers (whole numbers
    plus the three non-finite cases), arrays, plain objects and functions.
    Arrays, objects and functions carry a reference number so that identity
    (`===`) can be told apart from structural equality. */
module Values {
  import opened Text

  datatype Num = Fin(v: int) | NaN | PosInf | NegInf

  datatype Value =
    | Undef
    | Null
    | Bool(b: bool)
    | Str(s: string)
    | Number(n: Num)
    | Arr(ref: nat, items: seq<Value>)
    | Obj(ref: nat, fields: map<string, Value>)
    | Fun(ref: nat)

  /** JavaScript truthiness (`if (v)`, `v || fallback`). */
  predicate Truthy(v: Value) {
    match v
    case Undef => false
    case Null => false
    case Bool(b) => b
    case Str(s) => s != ""
    case Number(n) => n != NaN && n != Fin(0)
    case _ => true
  }

  /** `v == null`: undefined or null. */
  predicate Nullish(v: Value) {
    v == Undef || v == Null
  }

  /** `Number.isFinite(v)`: a number other than NaN and the infinities. */
  predicate IsFinite(v: Value) {
    v.Number? && v.n.Fin?
  }

  /** `String(v)` for the values that are not arrays. An array is rendered by
      `ArrayText`; an object gives the fixed text of `Object.prototype.toString`. */
  function ToStr(v: Value): (r: string)
    ensures v.Str? ==> r == v.s
    ensures v.Number? && v.n.Fin? ==> r == IntText(v.n.v)
  {
    match v
    case Undef => "undefined"
    case Null => "null"
    case Bool(b) => if b then "true" else "false"
    case Str(s) => s
    case Number(n) =>
      (match n
       case Fin(k) => IntText(k)
       case NaN => "NaN"
       case PosInf => "Infinity"
       case NegInf => "-Infinity")
    case Arr(_, items) => ArrayText(items)
    case Obj(_, _) => "[object Object]"
    case Fun(_) => "function"
  }

  /** `String(array)`: the elements' texts joined by ",", with null and
      undefined elements rendered as "". */
  function ArrayText(items: seq<Value>): (r: string)
    decreases items, 0
  {
    if items == [] then ""
    else
      var head := if Nullish(items[0]) then "" else ToStr(items[0]);
      if |items| == 1 then head else head + "," + ArrayText(items[1..])
  }

  /** `String(v ?? "")`: null and undefined become the empty string. */
  function TextOrEmpty(v: Value): (r: string)
    ensures Nullish(v) ==> r == ""
    ensures !Nullish(v) ==> r == ToStr(v)
  {
    if Nullish(v) then "" else ToStr(v)
  }

  /** The widgets' one-argument `normalizeBoolean`: only `true` and the
      string "true" count as true. */
  function IsTrue(v: Value): (r: bool)
    ensures r <==> v == Bool(true) || v == Str("true")
  {
    match v
    case Bool(b) => b
    case Str(s) => s == "true"
    case _ => false
  }

  /** The two-argument `normalizeBoolean(value, fallback)`: `true`/"true" and
      `false`/"false" decide, anything else yields the fallback. */
  function BoolOr(v: Value, fallback: bool): (r: bool)
    ensures v == Bool(true) || v == Str("true") ==> r
    ensures v == Bool(false) || v == Str("false") ==> !r
    ensures !(v.Bool? || v == Str("true") || v == Str("false")) ==> r == fallback
  {
    match v
    case Bool(b) => b
    case Str(s) => if s == "true" then true else if s == "false" then false else fallback
    case _ => fallback
  }

  /** A stored boolean read back through either normaliser is unchanged. */
  lemma BoolRoundTrip(b: bool, fallback: bool)
    ensures IsTrue(Bool(b)) == b
    ensures BoolOr(Bool(b), fallback) == b
    ensures IsTrue(Str(if b then "true" else "false")) == b
    ensures BoolOr(Str(if b then "true" else "false"), fallback) == b
  {
  }

  /** With fallback false the two normalisers agree on every input. */
  lemma IsTrueIsBoolOrFalse(v: Value)
    ensures IsTrue(v) == BoolOr(v, false)
  {
  }

  /** `Number.isFinite(v) && v >= 0 ? v : fallback`. */
  function NonNegOr(v: Value, fallback: int): (r: int)
    ensures IsFinite(v) && v.n.v >= 0 ==> r == v.n.v
    ensures !(IsFinite(v) && v.n.v >= 0) ==> r == fallback
  {
    if IsFinite(v) && v.n.v >= 0 then v.n.v else fallback
  }

  /** `Number.isFinite(v) && v > 0 ? v : fallback`. */
  function PositiveOr(v: Value, fallback: int): (r: int)
    ensures IsFinite(v) && v.n.v > 0 ==> r == v.n.v
    ensures !(IsFinite(v) && v.n.v > 0) ==> r == fallback
  {
    if IsFinite(v) && v.n.v > 0 then v.n.v else fallback
  }

  /** `Number.isFinite(v) ? v : fallback`. */
  function FiniteOr(v: Value, fallback: int): (r: int)
    ensures IsFinite(v) ==> r == v.n.v
    ensures !IsFinite(v) ==> r == fallback
  {
    if IsFinite(v) then v.n.v else fallback
  }

  /** `typeof v === "string" ? v : fallback`. */
  function StrOr(v: Value, fallback: string): (r: string)
    ensures v.Str? ==> r == v.s
    ensures !v.Str? ==> r == fallback
  {
    if v.Str? then v.s else fallback
  }

  /** `Array.isArray(v) ? v : []`. */
  function ItemsOr(v: Value): (r: seq<Value>)
    ensures v.Arr? ==> r == v.items
    ensures !v.Arr? ==> r == []
  {
    if v.Arr? then v.items else []
  }

  /** `obj[key]`, undefined when the object has no such key or is not an
      object. On null and undefined JavaScript throws a TypeError instead;
      that throw is not modelled, and the read gives undefined. */
  function Field(v: Value, key: string): (r: Value)
    ensures v.Obj? && key in v.fields ==> r == v.fields[key]
    ensures !(v.Obj? && key in v.fields) ==> r == Undef
  {
    if v.Obj? && key in v.fields then v.fields[key] else Undef
  }

  /** A canonical array index: decimal digits without a leading zero. */
  predicate IsIndexKey(key: string) {
    key != [] && (forall i | 0 <= i < |key| :: '0' <= key[i] <= '9') && (key[0] != '0' || key == "0")
  }

  /** `v[key]` for a property read on a row: an object's own key, an array's
      element or a string's character at a canonical index, and the
      `length` of an array or string. */
  function Index(v: Value, key: string): (r: Value)
    ensures v.Obj? ==> r == Field(v, key)
    ensures v.Arr? && key == "length" ==> r == Number(Fin(|v.items|))
    ensures v.Str? && key == "length" ==> r == Number(Fin(|v.s|))
    ensures v.Arr? && IsIndexKey(key) && 0 <= DigitsValue(key) < |v.items| ==> r == v.items[DigitsValue(key)]
    ensures v.Str? && IsIndexKey(key) && 0 <= DigitsValue(key) < |v.s| ==> r == Str([v.s[DigitsValue(key)]])
    ensures !v.Obj? && !v.Arr? && !v.Str? ==> r == Undef
  {
    match v
    case Obj(_, _) => Field(v, key)
    case Arr(_, items) =>
      if key == "length" then Number(Fin(|items|))
      else if IsIndexKey(key) && 0 <= DigitsValue(key) < |items| then items[DigitsValue(key)]
      else Undef
    case Str(t) =>
      if key == "length" then Number(Fin(|t|))
      else if IsIndexKey(key) && 0 <= DigitsValue(key) < |t| then Str([t[DigitsValue(key)]])
      else Undef
    case _ => Undef
  }

  /** Reading an array or string at the decimal text of a position inside
      it gives the element or character there. */
  lemma IndexAt(v: Value, k: nat)
    requires v.Arr? || v.Str?
    ensures v.Arr? && k < |v.items| ==> Index(v, NatText(k)) == v.items[k]
    ensures v.Str? && k < |v.s| ==> Index(v, NatText(k)) == Str([v.s[k]])
  {
    NatTextIndexKey(k);
    NatTextValue(k);
  }

  /** A value read as text the way most widgets read theirs:
      `v ? String(v) : ""`. */
  function TruthyText(v: Value): (r: string)
    ensures !Truthy(v) ==> r == ""
    ensures v.Str? ==> r == v.s
  {
    if Truthy(v) then ToStr(v) else ""
  }
}
